=== FILE: README.md ===
# Nioh 3 mod manager: the installation engine, modelled in Dafny

This project models the part of the Nioh 3 mod manager that decides what an
archive holds and puts it into the game. A mod archive lists its members.
They are yumia payload containers (`.fdata`), the JSON sidecars that name the
payloads (`.yumiamod.json`), and loose asset files. An optional manifest
(`nioh3modmanifest.json`) declares features with selectable options.

The manager installs an archive through one of two backends:

- **yumia**: the containers are copied into `package/`, and an external tool
  patches `package/root.rdb` / `package/root.rdx`;
- **loose**: every payload becomes a loose file in a folder below `mods/`,
  where a loader DLL picks it up.

The manager keeps its install records in a state file and in a legacy manifest
in the older format. It refuses installs whose payloads clash with installed
mods, and it can migrate every yumia install to loose files. The older
single-backend manager, `mod_manager.py`, is modelled next to it.

Modules follow the program's structure:

| module | what it models |
|---|---|
| `Wrappers`, `Bytes`, `Hex`, `Text`, `Sorting`, `OrderedMap` | Python's `Optional`/exceptions, little-endian packing, `%08X` and `hex()`, string methods, sorting, and dict insertion order |
| `Sidecar`, `Container`, `Sandbox` | the `.yumiamod.json` file table, the `.fdata` container walk and entry reader, and the container writer used to build test mods |
| `Manifest`, `Selection`, `Conversion` | manifest validation, feature option discovery and default choices, and conversion of selected members to loose files |
| `Scan`, `Records`, `Features`, `Resolution` | archive analysis, install records and the legacy export, option and feature selection helpers, and reconstruction of feature choices from records |
| `Game`, `Conflicts`, `LooseCheck`, `Environment` | the game folder as a map from relative path to bytes, the yumia tool run, sidecar-hash conflicts, the loose-file conflict check, and the backend decision |
| `Engine`, `Migration`, `InstallState` | the install and uninstall transactions, migration of yumia installs to loose files, and loading and saving the two record files |
| `LegacyManager` | `mod_manager.py`'s install, uninstall and status check |

The game folder is a `map<string, Bytes>` keyed by paths relative to the game
root. Directories exist only implicitly, through the paths below them.

These effects are parameters of the model:

- the yumia tool: a function from the disk to a run outcome;
- archive extraction failures;
- the failure point of a loose-file write;
- the directory walk;
- the JSON, zlib and base64 readers;
- the archive lookup in the downloads folder.

`Game.Confined` says that the yumia tool changes nothing but the two core
database files. Several rollback properties hold under that assumption.

## Model

| member | source | states |
|---|---|---|
| Sidecar.FilenameTable | loose_file_converter.py:210-227 | every sidecar entry with a name hash, a type hash and a filename is in the table; each key maps to the filename of the last complete entry with that key |
| Sidecar.NameHashes | conflict_detection.py:64-67 | every collected hash comes from some entry's `name_hash`; with all hashes present every one is collected; an entry missing its hash as the first entry stops collection with nothing gathered |
| Container.Extension | loose_file_converter.py:292 | the extension is the table's extension for a known type hash and Python's `hex()` of the hash otherwise, and never contains a dot |
| Container.FallbackIsLooseAsset | loose_file_converter.py:292-293 | the fallback filename `0x%08X.<ext>` of a 32-bit name hash always matches the loose-asset pattern and ends in `.<ext>` |
| Container.StartPos | loose_file_converter.py:229-233 | the walk starts at 0x10 exactly when the data starts with the `PDRK` header, and at 0 otherwise |
| Container.ScanMagic | loose_file_converter.py:242-246 | the magic search stops at the first `IDRK0000` at or after the position, or at the end of the data when there is none |
| Container.ScanMagicFirst | loose_file_converter.py:243-244 | no magic occurs between the search start and the position the search returns |
| Container.WalkFramesValid | loose_file_converter.py:229-259 | every frame the container walk yields has a complete header at a magic position, and the frame carries that header's name and type hashes |
| Container.WalkNeverOutOfFuel | loose_file_converter.py:229-259 | when every entry's stated size is sane the walk of a container ends |
| Container.WalkChain | loose_file_converter.py:237-258 | a chain of frames, each starting where the previous entry's 16-aligned size ends, is exactly what the walk yields |
| Container.ReadEntry | loose_file_converter.py:262-294 | reading an entry fails without magic at the offset; on success the header is complete, the name is the fallback name from the header's hashes, and a compressed entry yields at least its uncompressed size |
| Container.ReadRawEntry | loose_file_converter.py:262-275 | an uncompressed entry reads back as exactly the bytes at its payload offset, named by its hashes |
| Sandbox.MakeEntry | sandbox_lab.py:102-120 | an entry's length is its 16-aligned size |
| Sandbox.EntryShape | sandbox_lab.py:102-120 | an entry starts with the entry magic, and the padding after its content is zero |
| Sandbox.EntryHeaderDecodes | sandbox_lab.py:102-120 | the reader's header fields of a written entry are the size, the payload length twice, the type, the name hash, the type hash and zero flags that were written |
| Sandbox.EntryPayloadAt | sandbox_lab.py:116-120 | the payload sits in the entry right after the header and the extra data |
| Sandbox.MakeFdata | sandbox_lab.py:122-125 | building a container fails exactly when its length does not fit the 32-bit size field; otherwise it is the `PDRK` header, offset 0x10 and the total length, followed by the entries unchanged |
| Sandbox.RoundTrip | sandbox_lab.py:102-125 | walking a container built from entries yields one frame per entry, in order, with the entry's hashes, and reading each frame gives back the entry's payload and its fallback name |
| Sandbox.MakeYumiaDoc | sandbox_lab.py:127-142 | the sidecar written for one payload has one entry, whose table maps the payload's hashes to the given filename and whose name hashes are that hash alone |
| Sandbox.MakeYumiaPair | sandbox_lab.py:144-159 | the container is named after the stem hash and ends in `.fdata`, and the sidecar's name is the container's with `.yumiamod.json` |
| Sandbox.PairRoundTrip | sandbox_lab.py:144-159 | the pair's container holds exactly one frame at 0x10 whose payload reads back unchanged, and its sidecar maps that frame's hashes to the loose filename |
| Manifest.CheckVersion | manifest_schema.py:91-112 | a version without exactly two integer parts is invalid; otherwise it is accepted exactly when the major part is at most the supported one, with a newer-minor warning exactly for the supported major and a larger minor |
| Manifest.VersionGate | manifest_schema.py:54 | with the supported version 1.1, any `major.minor` is accepted exactly for major at most 1, and it warns exactly for 1.x with x greater than 1 |
| Manifest.VersionNeedsOneDot | manifest_schema.py:95-98 | a version string without exactly one dot is rejected with the invalid-version error |
| Manifest.PyIntOfIntStr | manifest_schema.py:99-102 | Python's `int()` reads back every integer's decimal form |
| Manifest.NormalizeDir | manifest_schema.py:72-76 | a normalised directory has no backslash and no leading or trailing slash |
| Manifest.NormalizeDirShape | manifest_schema.py:72-76 | a normalised directory is the backslash-replaced input with only its outer slashes removed |
| Manifest.NormalizeDirIdempotent | manifest_schema.py:72-76 | normalising a normalised directory changes nothing |
| Manifest.NormalizeCommon | manifest_schema.py:114-118 | a missing common directory stays missing, and a present one is normalised |
| Manifest.CheckDuplicates | manifest_schema.py:120-130 | the feature list passes exactly when names are distinct and directories are distinct |
| Manifest.FirstDuplicate | manifest_schema.py:122-129 | the reported duplicate is the first value that repeats an earlier one |
| Manifest.Validate | manifest_schema.py:59-138 | a raw manifest is accepted exactly when its version passes and its features' names and normalised directories are distinct; the result is valid and copies every field, normalising directories and treating a missing `optional` as false |
| Manifest.ValidateStable | manifest_schema.py:59-138 | validating a valid manifest written back out gives the same manifest |
| Manifest.Defaults | manifest_schema.py:78-88 | omitted metadata stays absent, and features without `optional` are required |
| Manifest.NoFeaturesByDefault | manifest_schema.py:86 | a manifest without `features` has none |
| Selection.MembersUnder | loose_file_converter.py:144-145 | the members under a prefix are exactly the listed file members that start with it |
| Selection.OptionInSpec | loose_file_converter.py:142-149 | a member belongs to option x of a feature directory exactly when it is a file below `<directory>/x/` and x has no slash |
| Selection.FeatureOptions | loose_file_converter.py:139-151 | a feature's options are exactly the option folders some member lies in, each once, sorted case-insensitively |
| Selection.DiscoverOptions | loose_file_converter.py:139-151 | the options map has exactly one entry per feature name |
| Selection.DiscoverOptionsDistinct | loose_file_converter.py:139-151 | with distinct feature names, each feature maps to its own options |
| Selection.DefaultFor | loose_file_converter.py:159-176 | a requested option is used exactly when it is available and is an error otherwise; an unrequested feature takes its first option, or nothing, which is an error for a required feature |
| Selection.DefaultSelections | loose_file_converter.py:154-177 | the defaults exist exactly when every feature's default does, and cover exactly the feature names |
| Selection.BuildSelectedMembers | loose_file_converter.py:180-207 | without a manifest every file member is selected; with one, the selected members are the common files and the chosen options' files, and the call fails when nothing is selected |
| Selection.SanitizeModDirName | loose_file_converter.py:297-304 | a folder name is never empty, contains no character Windows forbids, starts with no space and ends with no dot |
| Selection.SanitizeKeepsCleanName | loose_file_converter.py:297-299 | a name that is already clean is kept unchanged |
| Selection.SanitizeBlankName | loose_file_converter.py:297-299 | a name that cleans to nothing becomes `ConvertedMod` |
| Selection.SanitizeKeepsSpaceBeforeDot | loose_file_converter.py:297-299 | stripping happens before the trailing dots are removed, so `w .` becomes `w ` with its space |
| Selection.SplitArgs | loose_file_converter.py:433-440 | the arguments parse exactly when each contains `=`, each splitting at its first `=` |
| Selection.ParseFeatureArgs | loose_file_converter.py:433-440 | parsing succeeds exactly when every argument has `=`; every argument's name is a key, and the final argument's value is its name's value |
| Selection.ParseFeatureArgsLastWins | loose_file_converter.py:433-440 | every argument whose name does not come again later gives that name its value, so the last argument for a name wins |
| Selection.ParseFeatureArgsKeys | loose_file_converter.py:433-440 | every key of the parsed dictionary is the name of some argument |
| Selection.ParseFeatureArgsRoundTrip | loose_file_converter.py:433-440 | `name=value` arguments with distinct names parse back to exactly those names and values |
| Conversion.NormalizeNames | loose_file_converter.py:103-104 | each member name has its backslashes turned into slashes and keeps its position |
| Conversion.DecodeSidecar | loose_file_converter.py:210-230 | the sidecar table is read exactly when the member exists and parses once decoded as `utf-8-sig`, and it is the filename table of what that parse gives |
| Conversion.Frames | loose_file_converter.py:344 | the container's frames are available exactly when the walk ends |
| Conversion.Collect | loose_file_converter.py:344-360 | the reads of a container succeed exactly when each frame's read does, and keep their order |
| Conversion.ContainerReads | loose_file_converter.py:335-360 | every file read from a container records that container as its source |
| Conversion.Contribution | loose_file_converter.py:331-379 | a member contributes files only when it is installable, and each carries the member as its source |
| Conversion.AddFileSpec | loose_file_converter.py:347-353 | adding a file succeeds exactly when no earlier file has its name in any case; a refusal is the collision error |
| Conversion.LoopSpec | loose_file_converter.py:327-379 | the conversion loop succeeds exactly when the files all members contribute have no case-insensitive name clash, and it yields exactly those files in order |
| Conversion.ConvertSelected | loose_file_converter.py:315-390 | a successful conversion yields at least one file with no name clash, and keeps the archive path, the manifest, the selections and the resolved mod name |
| Conversion.ConvertSelectedSpec | loose_file_converter.py:315-390 | the conversion succeeds exactly when the members' combined contribution exists, has no clash and is not empty, and it then yields exactly that contribution |
| Conversion.ConvertSelectedErrors | loose_file_converter.py:348-382 | a failed conversion reports either the name-collision error or the no-payload error |
| Conversion.ConvertSelectedSources | loose_file_converter.py:331-390 | every converted file comes from one of the selected members |
| Conversion.ConvertPairWithSidecar | loose_file_converter.py:335-361 | converting a container with its sidecar yields exactly one file, named by the sidecar and holding the payload |
| Conversion.ConvertPairWithoutSidecar | loose_file_converter.py:335-361 | converting the container alone yields one file under its fallback name, holding the payload |
| Conversion.ReadManifest | manifest_schema.py:132-138 | a manifest read from an archive is valid |
| Conversion.ConvertArchiveToLoose | loose_file_converter.py:393-421 | a converted archive has a supported extension, and yields at least one file with no clash |
| Conversion.ConvertArchiveSpec | loose_file_converter.py:401-421 | with a manifest the conversion uses the default selections and the manifest's mod name; without one it converts every file member under the archive's stem |
| Conversion.ConvertArchiveWithoutManifest | loose_file_converter.py:401-421 | an archive without a manifest converts all its normalised file members |
| Scan.PackageIndex | backend_manager.py:378-385 | the index found is the first `package` folder in the member's path, and no earlier part is one |
| Scan.PrefixOfSpec | backend_manager.py:378-385 | a member defines an option prefix exactly when some non-final folder of its path is `package` |
| Scan.Table | backend_manager.py:377-385 | the prefix table lists each prefix once, covers every member's prefix, and holds only prefixes some member defines |
| Scan.PackageFiles | backend_manager.py:387-393 | the files of a prefix are exactly the file members below it, relative to it |
| Scan.PackageOptionsSpec | backend_manager.py:377-401 | an option is offered exactly for a prefix in the table with at least one file, and lists that prefix's files |
| Scan.LayoutCommon | backend_manager.py:429-440 | in a multi-select loose layout the common files are exactly the loose files at the archive root |
| Scan.LayoutGroupFiles | backend_manager.py:436-448 | each loose option holds exactly the loose files of its top folder |
| Scan.LayoutSingleFiles | backend_manager.py:449-464 | a single loose option holds exactly the loose files |
| Scan.Analyze | backend_manager.py:345-465 | the analysis keeps the archive's filename and its normalised member names |
| Scan.AnalyzeManifest | backend_manager.py:351-368 | an archive has a manifest exactly when it lists one that reads and validates; it then offers the manifest's features with their options and no package options, and takes the manifest's mod name |
| Scan.AnalyzeFallback | backend_manager.py:369-465 | without a manifest, package folders decide first, then yumia files anywhere, then loose asset files; only the last gives a direct-loose archive, and an archive with none of them offers nothing |
| Scan.OptionFilesListed | backend_manager.py:377-465 | every option file of the analysis is a listed file member |
| Scan.CommonFilesListed | backend_manager.py:429-440 | every common file is a listed loose file at the root |
| Scan.ScanArchives | backend_manager.py:315-343 | the scan yields exactly the analyses of supported files that offer something |
| Scan.ScanSorted | backend_manager.py:321-327 | the scan's archives are in ascending order of their file names under the folder's sort order |
| Scan.AnalyzeLegacy | mod_manager.py:194-259 | the older analysis names the archive by its stem, has no manifest and is a single-choice yumia archive |
| Scan.AnalyzeLegacyAgrees | mod_manager.py:194-259 | the older analysis offers the same package options as the manager's fallback |
| Scan.ScanLegacy | mod_manager.py:168-192 | the older scan yields exactly the analyses with options |
| Scan.ScanLegacySorted | mod_manager.py:168-192 | the older scan's archives are in ascending order of their file names under the folder's sort order |
| Records.StripAddPackage | backend_manager.py:96-104 | removing `package/` from a path it was added to gives the path back |
| Records.InstalledFiles | backend_manager.py:96-104 | a loose record's files are its paths; a yumia record's files are its paths without `package/` |
| Records.YumiaKeys | backend_manager.py:803-804 | the yumia keys are exactly the keys of yumia records, without duplicates |
| Records.LegacyExport | backend_manager.py:221-246 | the legacy export holds exactly the yumia records, each in the older format |
| Records.Prune | backend_manager.py:564-582 | the kept records are exactly those whose files are all present, unchanged; the drop flag is set exactly when some record was dropped |
| Records.PruneIdempotent | backend_manager.py:564-582 | pruning twice drops nothing the second time |
| Features.SelectedOptionMembers | backend_manager.py:584-593 | a direct-loose archive selects the common files and the option's files; any other selects the option's package files under its prefix |
| Features.SelectedDirectLooseMembers | backend_manager.py:595-608 | the selection starts with the common files, then holds every option file not among them, once each, and nothing else |
| Features.SelectedDirectLooseOrder | backend_manager.py:595-608 | the added option files come in option order, each at the place of its first occurrence |
| Features.AppendNewInOrder | backend_manager.py:595-608 | the strings appended after the existing ones come in the order of their first occurrence in the added list |
| Features.FormatLooseConversionError | backend_manager.py:610-620 | a collision gets advice in front of it, a missing payload gets its own message, and any other error passes unchanged |
| Features.BuildDirectLooseSummary | backend_manager.py:622-635 | the summary joins the option names with `; `, prefixed by `Common + ` when there are common files, or is `(common files only)` / `(default)` without options |
| Features.ValidateSelections | backend_manager.py:666-686 | selections pass exactly when every feature's choice is known and available, and only optional features are skipped |
| Features.DefaultsValid | loose_file_converter.py:154-177 | the default selections always pass validation |
| Features.SummaryRoundTrip | backend_manager.py:688-710 | parsing a feature summary gives back exactly the features that were chosen and their options |
| Features.CommonOnlyParsesEmpty | backend_manager.py:702-710 | the common-only summary parses to no choices |
| Resolution.DestToMemberSound | backend_manager.py:637-664 | every destination maps to a selected source prefix plus the destination, from a listed member |
| Resolution.DestToMemberComplete | backend_manager.py:637-664 | every listed file below a selected prefix gets a destination |
| Resolution.DestToMemberSelected | backend_manager.py:637-664 | every mapped source member belongs to a selected feature or to the common files |
| Resolution.PutAllLastListing | backend_manager.py:645-663 | a destination listed under several prefixes maps to the member under the last of them, since each later assignment overwrites the earlier one |
| Resolution.DestToMemberLastWins | backend_manager.py:645-663 | a later selected directory overrides an earlier one: the common files come first, then each feature in manifest order, and the last that lists a destination supplies its member |
| Resolution.FindFeature | backend_manager.py:712-730 | a feature is found exactly when its name is declared |
| Resolution.OptionDestFiles | backend_manager.py:712-730 | an unknown feature has no destination files; a known one's are its option's files |
| Resolution.InferSelections | backend_manager.py:732-757 | inferred selections always pass validation |
| Resolution.InferAmbiguous | backend_manager.py:732-757 | inference fails when a feature matches more than one option |
| Resolution.InferChoices | backend_manager.py:732-757 | inference picks for each feature the one option whose files were all installed |
| Resolution.ResolveForSummary | backend_manager.py:759-773 | resolved selections always pass validation |
| Resolution.ResolveSummaryRoundTrip | backend_manager.py:759-773 | the summary of valid selections resolves back to those selections |
| Resolution.ResolveRecordSelections | backend_manager.py:775-788 | a record's own selections are used when they validate; otherwise they are resolved from its summary and files |
| Resolution.ResolveLegacyOption | backend_manager.py:790-801 | the option returned is the first option, in archive order, named after the record's legacy option name, or after its summary when that name is missing or empty; when no option has that name, the archive's only option if it has exactly one, and none otherwise |
| Resolution.ResolveLegacyRoundTrip | backend_manager.py:790-801 | a record naming an option resolves to that option |
| Game.Unlink | backend_manager.py:1382-1391 | removing paths deletes exactly those paths and keeps every other file |
| Game.WriteAll | backend_manager.py:1051-1061 | after copying, every written path exists and holds its last write, and every other file is unchanged |
| Game.RestoreBackups | backend_manager.py:910-918 | each core database file with a backup takes the backup's contents, and nothing else changes |
| Game.RunYumia | backend_manager.py:933-957 | without the tool the run fails and leaves the disk alone; with it the result is the tool's |
| Game.WriteLooseFiles | backend_manager.py:994-1015 | a write succeeds exactly when no file fails; after a failure the disk is the original one with the files written before it removed and whatever the raising write left at its own path |
| Game.WriteFailureClean | backend_manager.py:994-1015 | after a failed loose write none of the files written before the failure remain; the path whose write raised keeps whatever that write left there, since the rollback does not list it; nothing else changes |
| Game.WriteSuccessPlaced | backend_manager.py:994-1015 | after a successful write each file with a unique name sits at `<dir>/<name>` with its data |
| Conflicts.FromArchive | conflict_detection.py:55-70 | an incoming hash is exactly a name hash of a selected sidecar member, read from the archive's bytes |
| Conflicts.FromDisk | conflict_detection.py:73-93 | an installed hash is exactly a name hash of one of the record's sidecars on disk, read as UTF-8 text |
| Conflicts.FindConflicts | conflict_detection.py:96-121 | no incoming hashes means no conflicts; each reported mod is installed with its non-empty overlap, every overlapping mod is reported, in installation order |
| Conflicts.ConflictsReported | conflict_detection.py:113-119 | each installed mod that shares a hash is reported exactly once |
| Conflicts.SharedAssetConflicts | conflict_detection.py:96-121 | one sidecar hash shared with an installed mod's sidecar is enough for a conflict |
| Conflicts.NoSidecarNoConflict | conflict_detection.py:61-63 | members without sidecars never conflict |
| Conflicts.BomSidecarsInvisibleOnDisk | conflict_detection.py:86 | sidecars written with a UTF-8 byte-order mark contribute no installed hashes, because the text reader rejects the mark |
| Conflicts.YumiaConflicts | backend_manager.py:803-811 | the manager's conflicts only ever name yumia records, with their overlap |
| Conflicts.YumiaConflictsExact | backend_manager.py:803-811 | an installed mod is reported exactly when it is a yumia install that shares a hash |
| LooseCheck.Planned | backend_manager.py:834 | the planned-name map covers exactly the lower-cased planned names, each mapped to a planned name with that lower case |
| LooseCheck.CheckLooseConflicts | backend_manager.py:826-880 | the check passes exactly when another loose mod neither owns the folder nor has a file of a planned name, no untracked file near the top of `mods/` that the walk lists has a planned name, and the folder holds no untracked file; a refusal starts with the loose-loader heading |
| LooseCheck.UntrackedNameBlocks | backend_manager.py:813-860 | when the walk lists every file at most two levels below `mods/`, an untracked one named like a planned file in any case blocks the install |
| LooseCheck.WalkOrderIrrelevant | backend_manager.py:813-860 | two walks that list the same files, in any order, give the same verdict |
| LooseCheck.SameNameBlocks | backend_manager.py:845-851 | a planned file named like another loose mod's file, in any case, is refused |
| LooseCheck.EmptyLooseRootPasses | backend_manager.py:813-880 | with no loose mods and nothing below `mods/`, the check passes |
| Environment.Status | backend_manager.py:494-539 | the environment is loose-ready exactly when the loader, plugin and its ini exist; yumia is available exactly when the tool exists; migration is possible exactly with yumia mods, a ready loader and both backups |
| Environment.ResolveMatchesStatus | backend_manager.py:541-551 | a backend is chosen exactly when the environment can install; yumia needs the tool and loose needs the loader; active yumia mods never get loose, active loose mods never get yumia, and an empty ready setup gets loose |
| Environment.LooseActionMessage | backend_manager.py:885-908 | the advice asks for the loader when it is missing, for migration when yumia mods are active, and to switch backends otherwise |
| Engine.ChooseBackend | backend_manager.py:1335-1341 | an explicit backend is used as given; otherwise a backend is chosen exactly when the environment can install |
| Engine.Copies | backend_manager.py:1049-1061 | there is nothing to copy exactly when no option file was extracted, and each extracted file is copied to `package/` under its relative name |
| Engine.YumiaCommit | backend_manager.py:1063-1089 | the commit succeeds exactly when files were copied and the tool ran; on success the record is added with the copied paths; on failure no record is added, every copied file is removed and, with a confined tool, nothing else changes |
| Engine.InstallYumiaLegacy | backend_manager.py:1017-1089 | a direct-loose archive or a yumia conflict refuses with nothing changed; success adds the record named after the option with the copied paths |
| Engine.LegacyCopies | backend_manager.py:1049-1061 | nothing is copied exactly when none of the option's files is in the archive, and every copy is an option file placed in `package/` |
| Engine.InstallLooseLegacy | backend_manager.py:1091-1122 | a conversion error refuses with nothing changed; success adds a loose record named after the option |
| Engine.InstallDirectLooseMod | backend_manager.py:1124-1184 | an installed archive, a non-direct-loose archive, a backend other than loose, or an empty selection is refused with nothing changed; success adds a loose record with the direct-loose summary |
| Engine.InstallYumiaManifest | backend_manager.py:1186-1283 | invalid selections, or a selection needing the loose loader, refuse with nothing changed; success adds a yumia record with the selections and their summary |
| Engine.CopyAndCommit | backend_manager.py:1212-1283 | a yumia conflict refuses with nothing changed; success records exactly the paths copied |
| Engine.InstallLooseManifest | backend_manager.py:1285-1333 | invalid selections or an empty member selection refuse with nothing changed; success adds a loose manifest record with the selections and their summary |
| Engine.LooseRecordFromFiles | backend_manager.py:967-992 | a loose record's folder is `mods/` plus the sanitised mod name, and its paths are exactly the files' places in that folder |
| Engine.LooseCommit | backend_manager.py:1110-1122 | the loose commit succeeds exactly when the conflict check passes and no write fails; a refusal changes nothing, and success writes every file and adds the record |
| Engine.LooseCommitRollsBack | backend_manager.py:994-1015 | a failed loose write adds no record, leaves none of the files written before the failure, keeps whatever the raising write left at its own path, and changes nothing else |
| Engine.LooseCommitRefusesUntracked | backend_manager.py:853-860 | with a walk that lists what it should, an untracked file near the top of `mods/` named like a planned file refuses the install and changes nothing |
| Engine.InstallLegacyMod | backend_manager.py:1343-1360 | an installed archive, or no usable backend, refuses with nothing changed; success records the backend that was chosen |
| Engine.InstallManifestMod | backend_manager.py:1362-1380 | an installed archive, or no usable backend, refuses with nothing changed; success records the chosen backend, and the selections were valid |
| Engine.UninstallMod | backend_manager.py:1382-1455 | uninstall succeeds exactly when the key is installed, and then removes exactly that record; a loose uninstall deletes the record's files; a yumia uninstall deletes them and restores the backups |
| Engine.RestoredAfterUnlink | backend_manager.py:1404-1420 | the record's non-core files are gone, the core files come from intact backups, and nothing else changes |
| Engine.YumiaConflictBlocksInstall | backend_manager.py:1024-1037 | a shared sidecar hash with an installed yumia mod refuses the yumia install with a conflict message and changes nothing |
| Engine.LooseNameClashBlocksInstall | backend_manager.py:1091-1112 | a converted file named like another loose mod's file refuses the loose install and changes nothing |
| Engine.NoFilesNoInstall | backend_manager.py:1049-1064 | an option none of whose files is in the archive installs nothing |
| Engine.YumiaFailureRollsBack | backend_manager.py:1066-1074 | a failed tool run adds no record and removes exactly the copied files |
| Engine.YumiaRecordAfterRun | backend_manager.py:1063-1089 | a successful yumia install copied at least one file and ran the tool, and records exactly the copied paths |
| Engine.InstallUninstallRoundTrip | backend_manager.py:1335-1455 | uninstalling what was just installed succeeds and gives back the previous records |
| Engine.UninstallKeepsOthers | backend_manager.py:1397 | uninstall removes its key, keeps every other record as it was, and keeps the order |
| Engine.UninstallAbsentFails | backend_manager.py:1447-1450 | uninstalling an unknown key fails with `No installed mod found for …` and changes nothing |
| Engine.UninstallYumiaReapplies | backend_manager.py:1403-1445 | a yumia uninstall always succeeds and restores the backups; the tool reruns exactly when yumia mods remain, and the message reports a failed rerun exactly when the rerun failed |
| Migration.Migrated | backend_manager.py:1603-1613 | a migrated record becomes a loose record of the same archive and kind, with the planned folder and paths |
| Migration.PlanOne | backend_manager.py:1470-1529 | a missing archive fails with not-found; a planned item converts at least one file with no clash into a folder below `mods/`; a manifest item keeps valid selections and their summary; a legacy item names an offered option |
| Migration.NameClash | backend_manager.py:1534-1538 | no clash is reported exactly when the planned names are distinct and not yet taken |
| Migration.CheckedPlan | backend_manager.py:1466-1561 | a plan has one item per yumia record, in order; folders and lower-cased names are distinct; every item passes the loose conflict check |
| Migration.BuildPlan | backend_manager.py:1457-1561 | without yumia mods the plan fails with its message; otherwise a plan exists exactly when migration is possible and the checked plan exists |
| Migration.Staged | backend_manager.py:1569-1579 | the snapshot holds exactly the existing core files and old paths, with their contents |
| Migration.Rollback | backend_manager.py:1621-1628 | the rollback leaves none of the written files |
| Migration.RollbackRestores | backend_manager.py:1619-1633 | after rollback none of the written files remain and everything else is as before, apart from core files that did not exist and paths the rollback does not know were touched |
| Migration.AtFailure | backend_manager.py:1583-1613 | a failure at any point touched only the files written so far, the path whose write raised (which holds what that write left), the core files and the old paths |
| Migration.MigrateAll | backend_manager.py:1563-1636 | migration fails with the plan's message when there is no plan; it succeeds exactly with a plan and no failure, and then replaces every planned record and moves the files; a failure keeps the records and rolls back the disk |
| Migration.MigrationFailureRollsBack | backend_manager.py:1583-1636 | a failed migration keeps the records, removes the files it wrote, leaves whatever a raising write left at its own path (unless staging read that path back), and restores everything else |
| Migration.MigrationMovesFiles | backend_manager.py:1584-1601 | a migration writes every new file, removes every old one, restores the core files from the backups, and changes nothing else |
| Migration.MigrationLeavesNoYumia | backend_manager.py:1603-1618 | after migration no yumia record remains; every yumia record became a loose record of the same kind, with the keys in order |
| InstallState.SaveState | backend_manager.py:267-278 | saving writes the state file and leaves the legacy manifest alone |
| InstallState.SaveLegacy | backend_manager.py:221-246 | the legacy manifest is removed exactly when no yumia record exists |
| InstallState.LoadLegacy | backend_manager.py:211-219 | a missing legacy manifest gives no records |
| InstallState.BackfillRecord | backend_manager.py:280-313 | a backfilled record is a yumia record of the same archive with `package/` paths; it is a manifest install exactly when the archive is found with a manifest, and then its selections validate |
| InstallState.Backfill | backend_manager.py:280-313 | backfilling keeps the keys in order and backfills each record |
| InstallState.LoadInstallState | backend_manager.py:248-265 | an unreadable state file, or one with another version, gives no records; without a state file the records are backfilled from the legacy manifest and written at once |
| InstallState.CheckInstalledStatus | backend_manager.py:564-582 | every record kept by the status check has all its files on disk |
| InstallState.PruneMissing | backend_manager.py:566-576 | the kept records are the loaded ones whose every installed path is on disk, unchanged; the flag that makes the check save the state is set exactly when some record has a missing file, and when it is clear the records are left as they were |
| InstallState.StateRoundTrip | backend_manager.py:248-278 | loading a saved state gives back the same records in the same order |
| InstallState.LegacyRoundTrip | backend_manager.py:211-246 | loading the saved legacy manifest gives back the legacy export |
| InstallState.BackfillExportRoundTrip | backend_manager.py:221-313 | exporting backfilled records gives back the legacy manifest they came from |
| InstallState.CheckTwiceStable | backend_manager.py:564-582 | a second status check changes nothing |
| LegacyManager.AsRecord | mod_manager.py:57-64 | an older record seen as an install record has the same installed files |
| LegacyManager.LegacyConflicts | mod_manager.py:359-370 | every installed mod sharing a hash with the option's sidecars is reported, and only installed mods with a non-empty overlap are |
| LegacyManager.OptionCopies | mod_manager.py:375-399 | nothing is copied exactly when no option file is present; each copy lands in `package/` |
| LegacyManager.InstallAsWritten | mod_manager.py:352-360 | as written, installing an archive not yet installed raises, because the option is passed where a member list is expected; an installed one is refused |
| LegacyManager.AsWrittenNeverInstalls | mod_manager.py:360 | the as-written install never succeeds, and the intended install does succeed on a concrete archive |
| LegacyManager.Commit | mod_manager.py:401-425 | the install succeeds exactly when files were copied and the tool ran; success records the copied files; failure keeps the records and removes the copied files |
| LegacyManager.Install | mod_manager.py:347-425 | an installed archive, a conflict, or an extraction error refuses with nothing changed; otherwise the copies are committed |
| LegacyManager.Uninstall | mod_manager.py:429-490 | uninstall succeeds exactly when the archive is installed and then removes its record; it deletes the record's files and, when both backups exist, restores the core files; a confined tool changes nothing else |
| LegacyManager.InstallUninstallRoundTrip | mod_manager.py:347-490 | uninstalling what was just installed succeeds, gives back the previous records and removes the copied files |
| LegacyManager.SharedAssetBlocksInstall | mod_manager.py:359-370 | a shared sidecar hash refuses the install and changes nothing |
| LegacyManager.CheckInstalledStatus | mod_manager.py:261-282 | every kept record has all its files on disk and comes unchanged from the loaded manifest; a rewritten manifest is the encoding of the kept records |
| LegacyManager.CheckTwiceStable | mod_manager.py:261-282 | a second status check changes nothing |

## Left out

- File I/O, logging, the GUI, the command-line entry points, `validate_paths`, and the build and release scripts are not modelled.
- The yumia tool is a subprocess. It is a function parameter from disk to outcome. Its timeout, the `auto_yes` prompt and its exact output text are not modelled.
- JSON, zlib and base64 are oracles. `Codecs` holds the three sidecar readers (raw bytes, UTF-8 text, and `utf-8-sig` text), the manifest reader and the inflater. `StateCodecs` holds the state and legacy-manifest readers and writers. The JSON rule that `2.0 == 2` for the state version is left to the oracle.
- Archive listing and extraction (zip, 7z, rar) are left out. An archive is its member list and contents. Extraction failure is an oracle.
- The order of the directory walk is an oracle, `walk`. The transactions take whatever it lists; the lemmas about untracked files assume `LooseCheck.WalkLists`, which says it lists exactly the files at most two levels below `mods/`. The sample hashes shown in conflict messages are an oracle too.
- Windows paths compare case-insensitively. The model compares paths exactly, except where the code lower-cases.
- Text.Lower: lower-cases ASCII letters only. Python's `str.lower()` also folds non-ASCII letters, so two names that differ only in the case of such a letter (`É.fdata` and `é.fdata`) clash in the source but not in the model: in `Conversion`'s filename collision check, in `LooseCheck`'s name keys, and in `Selection.FeatureOptions`' sort key. Mod file names are hash-derived or ASCII asset names, so the restriction matters only for hand-named files.
- Text.Strip: strips ASCII whitespace only. Python's `str.strip()` also removes Unicode whitespace such as U+00A0 and U+3000, which the model keeps. It affects feature arguments, option names and mod folder names written with such characters.
- Exception texts from the standard library are not reproduced, except the `TypeError` of the mod_manager.py:360 finding (`LegacyManager.NOT_ITERABLE`).
- A write that fails inside a copy loop leaves earlier files behind. Only the loose writer's failure point is modelled.
- Empty-directory cleanup is a no-op, because directories exist only through the files below them. `exists()` being true for a directory is not modelled.
- `write_conversion_result` writes files and is left out.
- The validation of the sidecar's base64 extra data is dropped. It only raises on malformed input.
- Container.WalkFrom: the walk takes fuel, because the source loop can spin forever on a zero entry size. `WalkNeverOutOfFuel` shows that enough fuel is always given for sane sizes.
- Sandbox.MakeEntry: requires `Packable`, which says the entry's fields fit their `struct.pack` widths. The `struct.error` the source raises for larger values is not modelled.
- Sandbox.MakeYumiaPair: requires the two hashes and the container's size to fit 32 bits. The `struct.error` of its entry and the size error of `make_fdata` for larger values are not modelled as results.
- Sandbox.PairRoundTrip: states the round trip under the same bounds as `MakeYumiaPair`.
- LooseCheck.CheckLooseConflicts: takes the walk's listing as given. That it lists exactly the files at most two levels below `mods/` (`WalkLists`) is assumed by the lemmas about untracked files, not required by the transactions.
- Migration.MigrationLeavesNoYumia: requires every record to be stored under its own archive name. The source keeps that invariant, but the model does not derive it.
- LegacyManager.InstallUninstallRoundTrip: a pre-existing file that the install overwrote is removed by the uninstall, so that path is excluded from "nothing else changes".
- Conflicts.FromDisk: the disk read uses `parseSidecarText`, and the archive read uses `parseSidecar` on bytes. They can disagree on a byte-order mark, as `BomSidecarsInvisibleOnDisk` shows.
- Game.RunYumia: the mock run that the `NIOH3MM_MOCK_YUMIA` environment variable selects (backend_manager.py:921-931) is a test hook and is not modelled.
- LegacyManager: the message that a missing yumia tool gives, with its relative path, is reduced to the run failing.

## Findings

| source | as written | input that shows it | evidently intended | confidence | as-written member | corrected member |
|---|---|---|---|---|---|---|
| mod_manager.py:360 | `find_conflicts(archive, option, …)` passes the `ModOption` where the list of archive members is expected, and iterating it raises `TypeError` | any install of an archive that is not yet installed | pass the option's members, `internal_path + pf` for each package file, as computed at line 375 | high; not executed | LegacyManager.InstallAsWritten (LegacyManager.AsWrittenNeverInstalls) | LegacyManager.Install (LegacyManager.InstallUninstallRoundTrip) |

=== FILE: bytes.dfy ===
/** Byte strings, little-endian integers and Python slicing.

    `struct.pack("<Q")`/`"<I"`/`"<H"` become `LE`, `struct.unpack_from`
    becomes `UnpackAt`, and `data[i:j]` becomes `PySlice`, including the
    clamping and the counting from the end that Python applies to
    out-of-range and negative indices. */
module Bytes {
  import opened Wrappers

  newtype byte = x: int | 0 <= x < 256

  type Bytes = seq<byte>

  function Pow256(n: nat): (r: nat)
    ensures r >= 1
  {
    if n == 0 then 1 else 256 * Pow256(n - 1)
  }

  const U16_LIMIT: nat := 0x1_0000
  const U32_LIMIT: nat := 0x1_0000_0000
  const U64_LIMIT: nat := 0x1_0000_0000_0000_0000

  lemma LimitsArePowers()
    ensures Pow256(2) == U16_LIMIT
    ensures Pow256(4) == U32_LIMIT
    ensures Pow256(8) == U64_LIMIT
  {
    assert Pow256(1) == 256;
    assert Pow256(2) == 65536;
    assert Pow256(3) == 16777216;
    assert Pow256(4) == 4294967296;
    assert Pow256(5) == 1099511627776;
    assert Pow256(6) == 281474976710656;
    assert Pow256(7) == 72057594037927936;
  }

  /** The `width`-byte little-endian encoding of `n`. */
  function LE(n: nat, width: nat): (r: Bytes)
    requires n < Pow256(width)
    ensures |r| == width
  {
    if width == 0 then [] else [(n % 256) as byte] + LE(n / 256, width - 1)
  }

  /** The unsigned integer a little-endian byte string encodes. */
  function DecodeLE(bs: Bytes): (n: nat)
    ensures n < Pow256(|bs|)
  {
    if bs == [] then 0 else bs[0] as nat + 256 * DecodeLE(bs[1..])
  }

  lemma {:induction false} DecodeEncode(n: nat, width: nat)
    requires n < Pow256(width)
    ensures DecodeLE(LE(n, width)) == n
  {
    if width > 0 {
      DecodeEncode(n / 256, width - 1);
      assert LE(n, width)[1..] == LE(n / 256, width - 1);
    }
  }

  lemma {:induction false} DecodeAppend(a: Bytes, b: Bytes)
    ensures DecodeLE(a + b) == DecodeLE(a) + Pow256(|a|) * DecodeLE(b)
  {
    if a != [] {
      DecodeAppend(a[1..], b);
      assert (a + b)[1..] == a[1..] + b;
      Distribute(a[0] as nat, DecodeLE(a[1..]), Pow256(|a[1..]|), DecodeLE(b));
    } else {
      assert a + b == b;
    }
  }

  lemma Distribute(d: nat, x: nat, p: nat, y: nat)
    ensures d + 256 * (x + p * y) == (d + 256 * x) + (256 * p) * y
  {
  }

  /** The `n`-byte little-endian unsigned integer at `p`, read in place. */
  function LEAt(w: Bytes, p: nat, n: nat): (r: nat)
    requires p + n <= |w|
    ensures r < Pow256(n)
    decreases n
  {
    if n == 0 then 0 else w[p] as nat + 256 * LEAt(w, p + 1, n - 1)
  }

  /** `struct.unpack_from("<I", w, p)` */
  function U32At(w: Bytes, p: nat): (r: nat)
    requires p + 4 <= |w|
    ensures r < U32_LIMIT
  {
    LimitsArePowers();
    LEAt(w, p, 4)
  }

  /** `struct.unpack_from("<Q", w, p)` */
  function U64At(w: Bytes, p: nat): (r: nat)
    requires p + 8 <= |w|
    ensures r < U64_LIMIT
  {
    LimitsArePowers();
    LEAt(w, p, 8)
  }

  /** Reading in place is decoding the slice. */
  lemma {:induction false} LEAtDecodes(w: Bytes, p: nat, n: nat)
    requires p + n <= |w|
    ensures LEAt(w, p, n) == DecodeLE(w[p..p + n])
    decreases n
  {
    if n > 0 {
      LEAtDecodes(w, p + 1, n - 1);
      assert w[p..p + n][1..] == w[p + 1..p + n];
    }
  }

  /** Reading at an offset inside `pre + x + post` reads `x`. */
  lemma {:induction false} LEAtShift(pre: Bytes, x: Bytes, post: Bytes, p: nat, n: nat)
    requires p + n <= |x|
    ensures LEAt(pre + x + post, |pre| + p, n) == LEAt(x, p, n)
    decreases n
  {
    if n > 0 {
      LEAtShift(pre, x, post, p + 1, n - 1);
      assert (pre + x + post)[|pre| + p] == x[p];
    }
  }

  lemma U32AtDecodes(w: Bytes, p: nat)
    requires p + 4 <= |w|
    ensures U32At(w, p) == DecodeLE(w[p..p + 4])
  {
    LEAtDecodes(w, p, 4);
  }

  lemma U64AtDecodes(w: Bytes, p: nat)
    requires p + 8 <= |w|
    ensures U64At(w, p) == DecodeLE(w[p..p + 8])
  {
    LEAtDecodes(w, p, 8);
  }

  lemma U32AtShift(pre: Bytes, x: Bytes, post: Bytes, p: nat)
    requires p + 4 <= |x|
    ensures U32At(pre + x + post, |pre| + p) == U32At(x, p)
  {
    LEAtShift(pre, x, post, p, 4);
  }

  lemma U64AtShift(pre: Bytes, x: Bytes, post: Bytes, p: nat)
    requires p + 8 <= |x|
    ensures U64At(pre + x + post, |pre| + p) == U64At(x, p)
  {
    LEAtShift(pre, x, post, p, 8);
  }

  /** `pat` occurs in `data` at `q`, stated byte by byte. */
  predicate Matches(data: Bytes, q: nat, pat: Bytes) {
    q + |pat| <= |data| && forall k | 0 <= k < |pat| :: data[q + k] == pat[k]
  }

  lemma MatchesSlice(data: Bytes, q: nat, pat: Bytes)
    requires q + |pat| <= |data|
    ensures Matches(data, q, pat) <==> data[q..q + |pat|] == pat
  {
    if data[q..q + |pat|] == pat {
      forall k | 0 <= k < |pat| ensures data[q + k] == pat[k] {
        assert data[q..q + |pat|][k] == pat[k];
      }
    }
  }

  /** A match of `a + b` is a match of `a` followed by a match of `b`. */
  lemma MatchesAppend(data: Bytes, q: nat, a: Bytes, b: Bytes)
    requires Matches(data, q, a + b)
    ensures Matches(data, q, a) && Matches(data, q + |a|, b)
  {
    forall k | 0 <= k < |a| ensures data[q + k] == a[k] {
      assert (a + b)[k] == a[k];
    }
    forall k | 0 <= k < |b| ensures data[q + |a| + k] == b[k] {
      assert (a + b)[|a| + k] == b[k];
      assert data[q + (|a| + k)] == (a + b)[|a| + k];
    }
  }

  /** A match inside a match is a match in the outer data. */
  lemma MatchesInside(data: Bytes, q: nat, e: Bytes, i: nat, pat: Bytes)
    requires Matches(data, q, e) && Matches(e, i, pat)
    ensures Matches(data, q + i, pat)
  {
    forall k | 0 <= k < |pat| ensures data[q + i + k] == pat[k] {
      assert e[i + k] == pat[k];
      assert data[q + (i + k)] == e[i + k];
    }
  }

  /** Python's normalisation of one slice bound against a length. */
  function Clamp(i: int, len: nat): (r: nat)
    ensures r <= len
    ensures 0 <= i <= len ==> r == i
  {
    if i < 0 then (if i + len < 0 then 0 else i + len)
    else if i > len then len
    else i
  }

  /** `s[i:j]` */
  function PySlice(s: Bytes, i: int, j: int): (r: Bytes)
    ensures 0 <= i <= j <= |s| ==> r == s[i..j]
  {
    var a := Clamp(i, |s|);
    var b := Clamp(j, |s|);
    if a < b then s[a..b] else []
  }

  /** `out[i:j] = chunk` on a `bytearray`. */
  function PySliceAssign(out: Bytes, i: int, j: int, chunk: Bytes): (r: Bytes)
    ensures 0 <= i <= j <= |out| ==> r == out[..i] + chunk + out[j..]
  {
    var a := Clamp(i, |out|);
    var b := Clamp(j, |out|);
    var b' := if b < a then a else b;
    out[..a] + chunk + out[b'..]
  }

  /** One unsigned little-endian field of `width` bytes read by
      `struct.unpack_from` at `pos`; `None` where Python raises
      `struct.error`.  A negative `pos` counts from the end. */
  function UnpackAt(data: Bytes, pos: int, width: nat): (r: Option<nat>)
    ensures 0 <= pos && pos + width <= |data| ==> r == Some(LEAt(data, pos, width))
    ensures 0 <= pos && pos + width > |data| ==> r == None
  {
    var p := if pos < 0 then pos + |data| else pos;
    if p < 0 || p + width > |data| then None
    else Some(LEAt(data, p, width))
  }

  function Zeros(n: nat): (r: Bytes)
    ensures |r| == n
    ensures forall i :: 0 <= i < n ==> r[i] == 0
  {
    seq(n, _ => 0)
  }
}

=== FILE: conflicts.dfy ===
/** Conflict detection: two mods conflict when sidecars of both name the
    same game asset (`name_hash`). The candidate's sidecars are read from
    its archive, an installed mod's from the game's `package/` directory. */
module Conflicts {
  import opened Wrappers
  import opened Bytes
  import opened Text
  import opened Sidecar
  import opened OrderedMap
  import opened Selection
  import opened Conversion
  import opened Records
  import opened Game

  const SIDECAR_SUFFIX: string := ".yumiamod.json"

  /** The hashes one sidecar contributes: none when it does not parse,
      else those read before the first entry without one. */
  function HashesOf(data: Bytes, parse: Bytes -> Option<SidecarDoc>): set<int> {
    match parse(data)
    case None => {}
    case Some(doc) => NameHashes(doc.files)
  }

  /** The union of the hashes of the sidecars among `paths` that exist
      under `root`. */
  function HashesFrom(root: string, paths: seq<string>, files: map<string, Bytes>,
                      parse: Bytes -> Option<SidecarDoc>): (r: set<int>)
    ensures forall h :: h in r <==> exists p | p in paths ::
      HasSuffix(p, SIDECAR_SUFFIX) && root + p in files && h in HashesOf(files[root + p], parse)
  {
    if paths == [] then {}
    else
      var p := paths[0];
      var here := if HasSuffix(p, SIDECAR_SUFFIX) && root + p in files then HashesOf(files[root + p], parse) else {};
      var rest := HashesFrom(root, paths[1..], files, parse);
      assert forall q | q in paths :: q == p || q in paths[1..];
      assert forall q | q in paths[1..] :: q in paths;
      here + rest
  }

  /** `_name_hashes_from_archive`: the hashes of the candidate's selected
      sidecars, decoded from the raw bytes; a member that is missing or
      does not parse contributes none. */
  function FromArchive(a: Archive, members: seq<string>, codecs: Codecs): (r: set<int>)
    ensures forall h :: h in r <==> exists m | m in members ::
      HasSuffix(m, SIDECAR_SUFFIX) && m in a.contents && h in HashesOf(a.contents[m], codecs.parseSidecar)
  {
    assert forall m: string :: "" + m == m;
    HashesFrom("", members, a.contents, codecs.parseSidecar)
  }

  /** `_name_hashes_from_disk`: the hashes of an installed mod's sidecars
      still under `package/`, decoded from UTF-8 text; a missing one
      contributes none. */
  function FromDisk(disk: Disk, files: seq<string>, codecs: Codecs): (r: set<int>)
    ensures forall h :: h in r <==> exists p | p in files ::
      HasSuffix(p, SIDECAR_SUFFIX) && PACKAGE_DIR + p in disk && h in HashesOf(disk[PACKAGE_DIR + p], codecs.parseSidecarText)
  {
    HashesFrom(PACKAGE_DIR, files, disk, codecs.parseSidecarText)
  }

  /** A conflict: the installed mod's key and the shared hashes. */
  type Conflict = (string, set<int>)

  /** The hashes an installed mod shares with the candidate. */
  function Overlap(incoming: set<int>, rec: InstalledModRecord, disk: Disk, codecs: Codecs): set<int> {
    incoming * FromDisk(disk, InstalledFiles(rec), codecs)
  }

  /** `s` is `t` with some elements left out. */
  predicate Subsequence<T(==)>(s: seq<T>, t: seq<T>)
    decreases |t|
  {
    s == [] || (t != [] && if s[0] == t[0] then Subsequence(s[1..], t[1..]) else Subsequence(s, t[1..]))
  }

  /** The keys with a non-empty overlap, with it, in the order of `keys`. */
  function Overlaps(keys: seq<string>, overlap: string -> set<int>): (r: seq<Conflict>)
    ensures forall i | 0 <= i < |r| :: r[i].0 in keys && r[i].1 != {} && r[i].1 == overlap(r[i].0)
    ensures forall k | k in keys && overlap(k) != {} :: k in Firsts(r)
    ensures Subsequence(Firsts(r), keys)
  {
    if keys == [] then []
    else
      var k := keys[0];
      var rest := Overlaps(keys[1..], overlap);
      assert forall q | q in keys :: q == k || q in keys[1..];
      assert forall q | q in keys[1..] :: q in keys;
      if overlap(k) != {} then
        var r := [(k, overlap(k))] + rest;
        FirstsCons((k, overlap(k)), rest);
        r
      else
        SubsequenceSkip(Firsts(rest), keys);
        rest
  }

  lemma SubsequenceSkip<T>(s: seq<T>, t: seq<T>)
    requires t != [] && Subsequence(s, t[1..])
    ensures Subsequence(s, t)
    decreases |t|, 0
  {
    if s != [] && s[0] == t[0] {
      SubsequenceTail(s, t[1..]);
    }
  }

  lemma {:induction false} SubsequenceTail<T>(s: seq<T>, t: seq<T>)
    requires s != [] && Subsequence(s, t)
    ensures Subsequence(s[1..], t)
    decreases |t|, 1
  {
    if s[0] != t[0] {
      SubsequenceTail(s, t[1..]);
      SubsequenceSkip(s[1..], t);
    } else if s[1..] != [] {
      SubsequenceSkip(s[1..], t);
    }
  }

  /** A subsequence of a list without repeats has none. */
  lemma {:induction false} SubsequenceDistinct<T>(s: seq<T>, t: seq<T>)
    requires Subsequence(s, t) && Distinct(t)
    ensures Distinct(s) && forall x | x in s :: x in t
    decreases |t|
  {
    if s != [] {
      assert Distinct(t[1..]) by {
        forall i, j | 0 <= i < j < |t[1..]| ensures t[1..][i] != t[1..][j] {
          assert t[i + 1] != t[j + 1];
        }
      }
      if s[0] == t[0] {
        SubsequenceDistinct(s[1..], t[1..]);
        assert t[0] !in t[1..] by {
          forall j | 0 <= j < |t[1..]| ensures t[1..][j] != t[0] {
            assert t[j + 1] != t[0];
          }
        }
        assert s[0] !in s[1..];
        assert forall x | x in s :: x == s[0] || x in s[1..];
        forall i, j | 0 <= i < j < |s| ensures s[i] != s[j] {
          if i == 0 {
            assert s[j] == s[1..][j - 1];
          } else {
            assert s[i] == s[1..][i - 1] && s[j] == s[1..][j - 1];
          }
        }
      } else {
        SubsequenceDistinct(s, t[1..]);
      }
    }
  }

  /** `find_conflicts`: nothing when the candidate's sidecars name no
      hash, else every installed mod sharing some, in installation order. */
  function FindConflicts(a: Archive, members: seq<string>, installed: Installed, disk: Disk, codecs: Codecs): (r: seq<Conflict>)
    requires Valid(installed)
    ensures FromArchive(a, members, codecs) == {} ==> r == []
    ensures forall i | 0 <= i < |r| ::
      (r[i].0 in installed.items && r[i].1 != {}
       && r[i].1 == Overlap(FromArchive(a, members, codecs), installed.items[r[i].0], disk, codecs))
    ensures forall k | k in installed.items && Overlap(FromArchive(a, members, codecs), installed.items[k], disk, codecs) != {} ::
      k in Firsts(r)
    ensures Subsequence(Firsts(r), installed.keys)
  {
    var incoming := FromArchive(a, members, codecs);
    if incoming == {} then [] else Overlaps(installed.keys, OverlapWith(incoming, installed, disk, codecs))
  }

  /** The overlap of each installed key with the candidate's hashes. */
  function OverlapWith(incoming: set<int>, installed: Installed, disk: Disk, codecs: Codecs): (f: string -> set<int>)
    ensures forall k | k in installed.items :: f(k) == Overlap(incoming, installed.items[k], disk, codecs)
  {
    k => if k in installed.items then Overlap(incoming, installed.items[k], disk, codecs) else {}
  }

  /** Every installed mod that shares a hash with the candidate is reported
      exactly once. */
  lemma ConflictsReported(a: Archive, members: seq<string>, installed: Installed, disk: Disk, codecs: Codecs, k: string)
    requires Valid(installed) && k in installed.items
    requires Overlap(FromArchive(a, members, codecs), installed.items[k], disk, codecs) != {}
    ensures var r := FindConflicts(a, members, installed, disk, codecs);
      exists i | 0 <= i < |r| :: r[i].0 == k && forall j | 0 <= j < |r| && j != i :: r[j].0 != k
  {
    var r := FindConflicts(a, members, installed, disk, codecs);
    ReportedOnce(r, installed.keys, k);
  }

  lemma ReportedOnce(r: seq<Conflict>, keys: seq<string>, k: string)
    requires Subsequence(Firsts(r), keys) && NoDup(keys) && k in Firsts(r)
    ensures exists i | 0 <= i < |r| :: r[i].0 == k && forall j | 0 <= j < |r| && j != i :: r[j].0 != k
  {
    assert Distinct(keys);
    SubsequenceDistinct(Firsts(r), keys);
    var i :| 0 <= i < |r| && Firsts(r)[i] == k;
    assert forall j | 0 <= j < |r| && j != i :: Firsts(r)[j] != Firsts(r)[i];
  }

  /** A sidecar of the candidate and one of an installed mod naming the
      same asset make a conflict. */
  lemma SharedAssetConflicts(a: Archive, members: seq<string>, installed: Installed, disk: Disk, codecs: Codecs,
                             k: string, m: string, p: string, h: int)
    requires Valid(installed) && k in installed.items
    requires m in members && HasSuffix(m, SIDECAR_SUFFIX) && m in a.contents
    requires h in HashesOf(a.contents[m], codecs.parseSidecar)
    requires p in InstalledFiles(installed.items[k]) && HasSuffix(p, SIDECAR_SUFFIX)
    requires PACKAGE_DIR + p in disk && h in HashesOf(disk[PACKAGE_DIR + p], codecs.parseSidecarText)
    ensures FindConflicts(a, members, installed, disk, codecs) != []
  {
    assert h in FromArchive(a, members, codecs);
    assert h in Overlap(FromArchive(a, members, codecs), installed.items[k], disk, codecs);
    ConflictsReported(a, members, installed, disk, codecs, k);
  }

  /** Only sidecars count: a candidate whose selected members include none
      conflicts with nothing. */
  lemma NoSidecarNoConflict(a: Archive, members: seq<string>, installed: Installed, disk: Disk, codecs: Codecs)
    requires Valid(installed)
    requires forall m | m in members :: !HasSuffix(m, SIDECAR_SUFFIX)
    ensures FindConflicts(a, members, installed, disk, codecs) == []
  {
  }

  /** `_find_yumia_conflicts`: the manager checks a candidate only against
      the mods installed through yumia. */
  function YumiaConflicts(a: Archive, members: seq<string>, installed: Installed, disk: Disk, codecs: Codecs): (r: seq<Conflict>)
    requires Valid(installed)
    ensures forall i | 0 <= i < |r| ::
      (r[i].0 in installed.items && installed.items[r[i].0].backend == Yumia && r[i].1 != {}
       && r[i].1 == Overlap(FromArchive(a, members, codecs), installed.items[r[i].0], disk, codecs))
  {
    FindConflicts(a, members, Filter(installed, IsYumia), disk, codecs)
  }

  predicate IsYumia(rec: InstalledModRecord) {
    rec.backend == Yumia
  }

  /** A loose-file mod never blocks a yumia install, and every yumia mod
      sharing a hash with the candidate does. */
  lemma YumiaConflictsExact(a: Archive, members: seq<string>, installed: Installed, disk: Disk, codecs: Codecs, k: string)
    requires Valid(installed) && k in installed.items
    ensures var r := YumiaConflicts(a, members, installed, disk, codecs);
      (exists i | 0 <= i < |r| :: r[i].0 == k) <==>
        installed.items[k].backend == Yumia
        && Overlap(FromArchive(a, members, codecs), installed.items[k], disk, codecs) != {}
  {
    var y := Filter(installed, IsYumia);
    var r := YumiaConflicts(a, members, installed, disk, codecs);
    assert r == FindConflicts(a, members, y, disk, codecs);
    var overlap := Overlap(FromArchive(a, members, codecs), installed.items[k], disk, codecs);
    if installed.items[k].backend == Yumia && overlap != {} {
      assert k in y.items && y.items[k] == installed.items[k];
      ConflictsReported(a, members, y, disk, codecs, k);
    }
  }

  /** A byte-order mark at the start of a file. */
  predicate StartsWithBom(data: Bytes) {
    |data| >= 3 && data[0] == 0xEF && data[1] == 0xBB && data[2] == 0xBF
  }

  /** `json.loads` refuses a text that starts with U+FEFF. */
  ghost predicate TextRejectsBom(codecs: Codecs) {
    forall data | StartsWithBom(data) :: codecs.parseSidecarText(data).None?
  }

  /** The two reads differ: an installed mod whose sidecars all start with
      a byte-order mark contributes no hashes, so it conflicts with nothing,
      even though the same sidecar in a candidate archive counts when the
      byte decoder accepts it. */
  lemma BomSidecarsInvisibleOnDisk(a: Archive, members: seq<string>, rec: InstalledModRecord, disk: Disk, codecs: Codecs)
    requires TextRejectsBom(codecs)
    requires forall p | p in InstalledFiles(rec) && PACKAGE_DIR + p in disk :: StartsWithBom(disk[PACKAGE_DIR + p])
    ensures Overlap(FromArchive(a, members, codecs), rec, disk, codecs) == {}
  {
    forall p | p in InstalledFiles(rec) && PACKAGE_DIR + p in disk
      ensures HashesOf(disk[PACKAGE_DIR + p], codecs.parseSidecarText) == {}
    {
      assert StartsWithBom(disk[PACKAGE_DIR + p]);
    }
    assert FromDisk(disk, InstalledFiles(rec), codecs) == {};
  }
}

=== FILE: container.dfy ===
/** The PDRK/IDRK container read by the loose converter
    (loose_file_converter.py).

    A container is an optional 16-byte `PDRK0000` header followed by frames.
    A frame starts on a 16-byte boundary with the magic `IDRK0000`, then a
    little-endian u64 triple (entry size, compressed size, uncompressed size)
    and four u32 values (type, name hash, type-id hash, flags); then
    `entry size - compressed size - 0x30` metadata bytes and the payload. */
module Container {
  import opened Wrappers
  import opened Bytes
  import opened Hex
  import opened Text

  const PDRK: Bytes := [0x50, 0x44, 0x52, 0x4B, 0x30, 0x30, 0x30, 0x30]
  const IDRK: Bytes := [0x49, 0x44, 0x52, 0x4B, 0x30, 0x30, 0x30, 0x30]

  /** Bytes of the fixed frame header: magic, size triple, identity block. */
  const HEADER_SIZE: nat := 0x30

  /** Flag bit that selects a u32 chunk length over the u16 + u64 form. */
  const WIDE_CHUNK_FLAG: nat := 0x100000

  /** Raised when `struct.unpack_from` runs past the end of the buffer. */
  const TRUNCATED: string := "struct.error: unpack requires a buffer of more bytes"

  /** Stands for a loop of the source that never ends on this input. */
  const NON_TERMINATING: string := "no progress: the source loops forever here"

  /** The number of rows of `TKID_EXTENSIONS`. */
  const TKID_ROWS: nat := 48

  /** Row `i` of `TKID_EXTENSIONS`: a known type-id hash and the file
      extension it stands for, in the order the source lists them. */
  function TkidRow(i: nat): (row: (nat, string))
    requires i < TKID_ROWS
    ensures row.1 != [] && '.' !in row.1
  {
    match i
    case 0 => (0x0BD05B27, "mit")
    case 1 => (0x0D34474D, "srst")
    case 2 => (0x17614AF5, "g1mx")
    case 3 => (0x1FDCAA40, "kidstask")
    case 4 => (0x20A6A0BB, "kidsobjdb")
    case 5 => (0x27BC54B7, "rigbin")
    case 6 => (0x4D0102AC, "g1em")
    case 7 => (0x4F16D0EF, "kts")
    case 8 => (0x5153729B, "mtl")
    case 9 => (0x54738C76, "g1co")
    case 10 => (0x5599AA51, "kscl")
    case 11 => (0x563BDEF1, "g1m")
    case 12 => (0x56D8DEDA, "sid")
    case 13 => (0x5C3E543C, "swg")
    case 14 => (0x6FA91671, "g1a")
    case 15 => (0x757347E0, "bpo")
    case 16 => (0x786DCD84, "g1n")
    case 17 => (0x79C724C2, "g1p")
    case 18 => (0x7BCD279F, "g1s")
    case 19 => (0x82945A44, "lsqtree")
    case 20 => (0x8E39AA37, "ktid")
    case 21 => (0x9CB3A4B6, "oidex")
    case 22 => (0xA027E46B, "mov")
    case 23 => (0xA8D88566, "g1cox")
    case 24 => (0xAD57EBBA, "g1t_new")
    case 25 => (0xAFBEC60C, "g1t")
    case 26 => (0xB097D41F, "g1e")
    case 27 => (0xB0A14534, "sgcbin")
    case 28 => (0xB1630F51, "kidsrender")
    case 29 => (0xB340861A, "mtl")
    case 30 => (0xBBD39F2D, "srsa")
    case 31 => (0xBBF9B49D, "grp")
    case 32 => (0xBE144B78, "ktid")
    case 33 => (0xBF6B52C7, "name")
    case 34 => (0xD7F47FB1, "efpl")
    case 35 => (0xDBCB74A9, "oid")
    case 36 => (0xE6A3C3BB, "oidex")
    case 37 => (0xED410290, "kts")
    case 38 => (0xF13845EF, "sclshape")
    case 39 => (0xF20DE437, "texinfo")
    case 40 => (0x1A6300FD, "g1es")
    case 41 => (0x1AB40AE8, "oid")
    case 42 => (0x2BCC0C02, "g1frani")
    case 43 => (0x32AC9403, "g1fpose")
    case 44 => (0x56EFE45C, "grp")
    case 45 => (0x5B2970FC, "ktf2")
    case 46 => (0x6DBD6EA6, "mit")
    case 47 => (0x133D2C3B, "sid")
  }

  /** The extension of the first row from `i` on whose hash is `tkid`. */
  function LookupFrom(i: nat, tkid: nat): (r: Option<string>)
    requires i <= TKID_ROWS
    ensures r.Some? ==> r.value != [] && '.' !in r.value
    decreases TKID_ROWS - i
  {
    if i == TKID_ROWS then None
    else if TkidRow(i).0 == tkid then Some(TkidRow(i).1)
    else LookupFrom(i + 1, tkid)
  }

  /** `TKID_EXTENSIONS.get(tkid)` */
  function KnownExtension(tkid: nat): (r: Option<string>)
    ensures r.Some? ==> r.value != [] && '.' !in r.value
  {
    LookupFrom(0, tkid)
  }

  /** The extension for a type id: the table entry, else `hex(tkid)`. */
  function Extension(tkid: nat): (r: string)
    ensures r != [] && '.' !in r
    ensures KnownExtension(tkid).Some? ==> r == KnownExtension(tkid).value
    ensures KnownExtension(tkid).None? ==> r == PyHex(tkid)
  {
    KnownExtension(tkid).GetOr(PyHex(tkid))
  }

  /** `f"0x{name_hash:08X}.{ext}"` */
  function FallbackName(nameHash: nat, tkid: nat): string {
    "0x" + Hex08X(nameHash) + "." + Extension(tkid)
  }

  // ---------------------------------------------------------------------
  // Loose asset names: `^(?:0x)?[0-9A-Fa-f]{8}\.[^.]+$`

  /** Eight hex digits, a dot, and a non-empty extension without dots. */
  predicate IsHashDotExt(s: string) {
    && |s| >= 10
    && AllHex(s[..8])
    && s[8] == '.'
    && '.' !in s[9..]
  }

  /** The loose-asset pattern, with its optional `0x` prefix tried first. */
  predicate IsLooseAssetName(name: string) {
    (HasPrefix(name, "0x") && IsHashDotExt(name[2..])) || IsHashDotExt(name)
  }

  /** `is_loose_asset_member`: the pattern applied to the member's last path
      component. */
  predicate IsLooseAssetMember(member: string) {
    IsLooseAssetName(Basename(member))
  }

  /** Every name the reader synthesises for a 32-bit hash is itself a loose
      asset name, so converted files are recognised as loose on the way back. */
  lemma FallbackIsLooseAsset(nameHash: nat, tkid: nat)
    requires nameHash < U32_LIMIT
    ensures IsLooseAssetName(FallbackName(nameHash, tkid))
    ensures HasSuffix(FallbackName(nameHash, tkid), "." + Extension(tkid))
  {
    Hex08XShape(nameHash);
    HashDotExt(Hex08X(nameHash), Extension(tkid));
  }

  lemma HashDotExt(h: string, e: string)
    requires |h| == 8 && forall i | 0 <= i < 8 :: IsUpperHexDigit(h[i])
    requires e != [] && '.' !in e
    ensures IsLooseAssetName("0x" + h + "." + e)
    ensures HasSuffix("0x" + h + "." + e, "." + e)
  {
    var s := h + "." + e;
    assert s[..8] == h;
    assert s[9..] == e;
    var n := "0x" + h + "." + e;
    assert n == "0x" + s;
    assert n[2..] == s;
    assert n[|n| - |"." + e|..] == "." + e;
  }

  // ---------------------------------------------------------------------
  // Frame headers

  datatype Header = Header(
    entrySize: nat, cmpSize: nat, uncSize: nat,
    entryType: nat, nameHash: nat, tkidHash: nat, flags: nat)

  /** The frame magic `IDRK0000` sits at `q`. */
  predicate MagicAt(data: Bytes, q: nat) {
    && q + 8 <= |data|
    && data[q] == 0x49 && data[q + 1] == 0x44 && data[q + 2] == 0x52 && data[q + 3] == 0x4B
    && data[q + 4] == 0x30 && data[q + 5] == 0x30 && data[q + 6] == 0x30 && data[q + 7] == 0x30
  }

  lemma MagicAtSlice(data: Bytes, q: nat)
    requires q + 8 <= |data|
    ensures MagicAt(data, q) <==> data[q..q + 8] == IDRK
  {
    if MagicAt(data, q) {
      assert forall k | 0 <= k < 8 :: data[q..q + 8][k] == IDRK[k];
    }
  }

  /** The size triple and identity block of the frame header at `offset`. */
  function HeaderAt(data: Bytes, offset: nat): (h: Header)
    requires offset + HEADER_SIZE <= |data|
    ensures h.nameHash < U32_LIMIT && h.tkidHash < U32_LIMIT && h.flags < U32_LIMIT
  {
    Header(EntrySizeAt(data, offset), CmpSizeAt(data, offset), UncSizeAt(data, offset),
           U32At(data, offset + 32), NameHashAt(data, offset), TkidHashAt(data, offset),
           FlagsAt(data, offset))
  }

  // The header fields one at a time, as the reader uses them.

  function EntrySizeAt(data: Bytes, offset: nat): nat
    requires offset + HEADER_SIZE <= |data|
  {
    U64At(data, offset + 8)
  }

  function CmpSizeAt(data: Bytes, offset: nat): nat
    requires offset + HEADER_SIZE <= |data|
  {
    U64At(data, offset + 16)
  }

  function UncSizeAt(data: Bytes, offset: nat): nat
    requires offset + HEADER_SIZE <= |data|
  {
    U64At(data, offset + 24)
  }

  function NameHashAt(data: Bytes, offset: nat): nat
    requires offset + HEADER_SIZE <= |data|
  {
    U32At(data, offset + 36)
  }

  function TkidHashAt(data: Bytes, offset: nat): nat
    requires offset + HEADER_SIZE <= |data|
  {
    U32At(data, offset + 40)
  }

  function FlagsAt(data: Bytes, offset: nat): nat
    requires offset + HEADER_SIZE <= |data|
  {
    U32At(data, offset + 44)
  }

  /** `n` rounded up to a multiple of 16. */
  function RoundUp16(n: nat): (r: nat)
    ensures r % 16 == 0 && n <= r < n + 16
    decreases 15 - (n + 15) % 16
  {
    if n % 16 == 0 then n else RoundUp16(n + 1)
  }

  lemma RoundUpShift(base: nat, n: nat)
    requires base % 16 == 0
    ensures RoundUp16(base + n) == base + RoundUp16(n)
  {
    AlignedSum(base, RoundUp16(n));
    SameBoundary(RoundUp16(base + n), base + RoundUp16(n));
  }

  /** Two 16-byte boundaries less than 16 apart are the same. */
  lemma SameBoundary(a: nat, b: nat)
    requires a % 16 == 0 && b % 16 == 0 && a < b + 16 && b < a + 16
    ensures a == b
  {
    assert a == 16 * (a / 16) && b == 16 * (b / 16);
  }

  lemma AlignedSum(a: nat, b: nat)
    requires a % 16 == 0 && b % 16 == 0
    ensures (a + b) % 16 == 0
  {
    assert a == 16 * (a / 16) && b == 16 * (b / 16);
    assert a + b == 16 * (a / 16 + b / 16);
  }

  // ---------------------------------------------------------------------
  // Walking the frames (`_iter_fdata_entries`)

  /** One frame found by the walk: where it starts and its `(name_hash,
      tkid_hash)` key. */
  datatype Frame = Frame(offset: nat, nameHash: nat, tkidHash: nat)

  /** `Walked` is the list the source returns; `Truncated` is the
      `struct.error` it raises at a frame too short for its header;
      `OutOfFuel` stands for the source looping forever. */
  datatype WalkResult = Walked(frames: seq<Frame>) | Truncated(offset: nat) | OutOfFuel

  /** Where the walk starts: after the `PDRK0000` header when there is one. */
  function StartPos(data: Bytes): (pos: nat)
    ensures pos == 0x10 <==> HasPrefix(data, PDRK)
    ensures pos == 0 <==> !HasPrefix(data, PDRK)
  {
    if |data| >= 8 && data[..8] == PDRK then 0x10 else 0
  }

  /** The resynchronising scan: the first magic at or after `pos`, or `|data|`. */
  function ScanMagic(data: Bytes, pos: nat): (q: nat)
    requires pos <= |data|
    ensures pos <= q <= |data|
    ensures q < |data| ==> MagicAt(data, q)
    decreases |data| - pos
  {
    if pos == |data| || MagicAt(data, pos) then pos else ScanMagic(data, pos + 1)
  }

  /** The scan skips no magic: it stops at the first one. */
  lemma {:induction false} ScanMagicFirst(data: Bytes, pos: nat, j: nat)
    requires pos <= |data| && pos <= j < ScanMagic(data, pos)
    ensures !MagicAt(data, j)
    decreases |data| - pos
  {
    if j > pos {
      ScanMagicFirst(data, pos + 1, j);
    }
  }

  /** Where the frame read in the iteration starting at `pos` begins: `pos`
      itself when the magic is there, else the first magic from `pos - 0x18`
      on (which is `|data|` when none is left). */
  function FrameStart(data: Bytes, pos: nat): (q: nat)
    requires pos < |data|
    ensures q <= |data|
    ensures q < |data| ==> MagicAt(data, q)
    ensures MagicAt(data, pos) ==> q == pos
    ensures q + 0x18 >= pos
  {
    if MagicAt(data, pos) then pos
    else ScanMagic(data, if pos >= 0x18 then pos - 0x18 else 0)
  }

  /** The walk from `pos` with at most `fuel` iterations of the source's loop. */
  function WalkFrom(data: Bytes, pos: nat, fuel: nat): WalkResult
    decreases fuel
  {
    if pos >= |data| then Walked([])
    else if fuel == 0 then OutOfFuel
    else
      var offset := FrameStart(data, pos);
      if offset >= |data| then Walked([])
      else if offset + HEADER_SIZE > |data| then Truncated(offset)
      else
        match WalkFrom(data, NextPos(data, offset), fuel - 1)
        case Walked(rest) => Walked([Frame(offset, NameHashAt(data, offset), TkidHashAt(data, offset))] + rest)
        case other => other
  }

  /** The fuel the converter gives the walk: one iteration per byte is more
      than any frame layout with sane sizes needs (see `WalkTerminates`). */
  function WalkFuel(data: Bytes): nat {
    |data| + 1
  }

  /** `_iter_fdata_entries(data)` */
  function Walk(data: Bytes): WalkResult {
    WalkFrom(data, StartPos(data), WalkFuel(data))
  }

  /** A frame at the magic with a whole header, carrying that header's hashes. */
  predicate FrameValid(data: Bytes, f: Frame) {
    && f.offset + HEADER_SIZE <= |data| && MagicAt(data, f.offset)
    && f.nameHash == NameHashAt(data, f.offset)
    && f.tkidHash == TkidHashAt(data, f.offset)
  }

  /** Every frame the walk reports starts with the magic and has a whole
      header, whose hashes it carries. */
  lemma {:induction false} WalkFramesValid(data: Bytes, pos: nat, fuel: nat)
    requires WalkFrom(data, pos, fuel).Walked?
    ensures var fs := WalkFrom(data, pos, fuel).frames;
      forall i | 0 <= i < |fs| :: FrameValid(data, fs[i])
    decreases fuel
  {
    if pos < |data| && fuel > 0 && FrameStart(data, pos) + HEADER_SIZE <= |data| {
      var next := NextPos(data, FrameStart(data, pos));
      WalkFirst(data, pos, fuel);
      WalkFramesValid(data, next, fuel - 1);
      ConsValid(data, WalkFrom(data, pos, fuel).frames, WalkFrom(data, next, fuel - 1).frames);
    } else {
      WalkNoFrame(data, pos, fuel);
    }
  }

  /** A valid frame in front of valid frames. */
  lemma ConsValid(data: Bytes, fs: seq<Frame>, rest: seq<Frame>)
    requires fs != [] && fs[1..] == rest && FrameValid(data, fs[0])
    requires forall i | 0 <= i < |rest| :: FrameValid(data, rest[i])
    ensures forall i | 0 <= i < |fs| :: FrameValid(data, fs[i])
  {
    forall i | 0 < i < |fs| ensures FrameValid(data, fs[i]) {
      assert fs[i] == rest[i - 1];
    }
  }

  /** A successful iteration that finds a whole frame header reports that
      frame first and the rest of the walk after it. */
  lemma WalkFirst(data: Bytes, pos: nat, fuel: nat)
    requires pos < |data| && fuel > 0
    requires FrameStart(data, pos) + HEADER_SIZE <= |data|
    requires WalkFrom(data, pos, fuel).Walked?
    ensures var next := NextPos(data, FrameStart(data, pos));
      && WalkFrom(data, next, fuel - 1).Walked?
      && WalkFrom(data, pos, fuel).frames != []
      && WalkFrom(data, pos, fuel).frames[1..] == WalkFrom(data, next, fuel - 1).frames
      && FrameValid(data, WalkFrom(data, pos, fuel).frames[0])
  {
  }

  /** A successful walk that finds no whole frame header reports nothing. */
  lemma WalkNoFrame(data: Bytes, pos: nat, fuel: nat)
    requires WalkFrom(data, pos, fuel).Walked?
    requires !(pos < |data| && fuel > 0 && FrameStart(data, pos) + HEADER_SIZE <= |data|)
    ensures WalkFrom(data, pos, fuel).frames == []
  {
  }

  /** Every frame header the walk could land on declares at least its own
      fixed header as its size. */
  ghost predicate SaneSizes(data: Bytes) {
    forall q: nat :: SaneAt(data, q)
  }

  predicate SaneAt(data: Bytes, q: nat) {
    q + HEADER_SIZE <= |data| && MagicAt(data, q) ==> EntrySizeAt(data, q) >= HEADER_SIZE
  }

  /** With sane sizes every iteration moves `pos` forward by at least 0x18
      bytes, so the source's loop ends and the fuel is never exhausted.
      (With an entry size below 0x30 the source can revisit a frame
      forever.) */
  lemma {:induction false} WalkTerminates(data: Bytes, pos: nat, fuel: nat)
    requires SaneSizes(data)
    requires fuel > |data| - pos
    ensures WalkFrom(data, pos, fuel) != OutOfFuel
    decreases fuel, 1
  {
    if pos < |data| {
      if FrameStart(data, pos) + HEADER_SIZE <= |data| {
        TerminatesOn(data, pos, fuel);
      } else {
        WalkStops(data, pos, fuel);
      }
    }
  }

  /** The inductive step of `WalkTerminates`, at a whole frame header. */
  lemma {:induction false} TerminatesOn(data: Bytes, pos: nat, fuel: nat)
    requires SaneSizes(data)
    requires fuel > |data| - pos
    requires pos < |data| && FrameStart(data, pos) + HEADER_SIZE <= |data|
    ensures WalkFrom(data, pos, fuel) != OutOfFuel
    decreases fuel, 0
  {
    var next := NextPos(data, FrameStart(data, pos));
    SaneStep(data, pos);
    assert fuel - 1 > |data| - next;
    WalkTerminates(data, next, fuel - 1);
    WalkOn(data, pos, fuel);
  }

  /** Under sane sizes the next iteration starts at least 0x18 bytes later. */
  lemma SaneStep(data: Bytes, pos: nat)
    requires SaneSizes(data)
    requires pos < |data| && FrameStart(data, pos) + HEADER_SIZE <= |data|
    ensures NextPos(data, FrameStart(data, pos)) >= pos + 0x18
  {
    assert SaneAt(data, FrameStart(data, pos));
  }

  /** Where the walk goes after the frame at `offset`. */
  function NextPos(data: Bytes, offset: nat): (next: nat)
    requires offset + HEADER_SIZE <= |data|
    ensures next % 16 == 0 && next >= offset + EntrySizeAt(data, offset)
  {
    RoundUp16(offset + EntrySizeAt(data, offset))
  }

  /** An iteration that starts on a frame reports it and carries on after it. */
  lemma WalkStep(data: Bytes, pos: nat, fuel: nat, next: nat, nameHash: nat, tkidHash: nat, rest: seq<Frame>)
    requires fuel > 0 && pos + HEADER_SIZE <= |data| && MagicAt(data, pos)
    requires NextPos(data, pos) == next
    requires NameHashAt(data, pos) == nameHash && TkidHashAt(data, pos) == tkidHash
    ensures WalkFrom(data, next, fuel - 1) == Walked(rest) ==>
      WalkFrom(data, pos, fuel) == Walked([Frame(pos, nameHash, tkidHash)] + rest)
  {
  }

  /** `frames` lie back to back from `pos`: each at the magic, with its
      header's hashes, the next one where the walk goes after it, and the
      last one ending the data. */
  predicate Chain(data: Bytes, pos: nat, frames: seq<Frame>)
    decreases |frames|
  {
    if frames == [] then pos == |data|
    else
      && frames[0].offset == pos && pos + HEADER_SIZE <= |data| && MagicAt(data, pos)
      && NameHashAt(data, pos) == frames[0].nameHash
      && TkidHashAt(data, pos) == frames[0].tkidHash
      && Chain(data, NextPos(data, pos), frames[1..])
  }

  /** The walk along a chain reports exactly its frames. */
  lemma {:induction false} WalkChain(data: Bytes, pos: nat, frames: seq<Frame>, fuel: nat)
    requires Chain(data, pos, frames) && fuel >= |frames|
    ensures WalkFrom(data, pos, fuel) == Walked(frames)
    decreases |frames|
  {
    if frames != [] {
      WalkChain(data, NextPos(data, pos), frames[1..], fuel - 1);
      WalkStep(data, pos, fuel, NextPos(data, pos), frames[0].nameHash, frames[0].tkidHash, frames[1..]);
      assert frames == [Frame(pos, frames[0].nameHash, frames[0].tkidHash)] + frames[1..];
    }
  }

  /** An iteration that finds no whole frame header ends the walk. */
  lemma WalkStops(data: Bytes, pos: nat, fuel: nat)
    requires pos < |data| && fuel > 0
    requires FrameStart(data, pos) + HEADER_SIZE > |data|
    ensures WalkFrom(data, pos, fuel) != OutOfFuel
  {
  }

  /** An iteration that finds a whole frame header runs out of fuel only
      when the rest of the walk does. */
  lemma WalkOn(data: Bytes, pos: nat, fuel: nat)
    requires pos < |data| && fuel > 0
    requires FrameStart(data, pos) + HEADER_SIZE <= |data|
    requires WalkFrom(data, NextPos(data, FrameStart(data, pos)), fuel - 1) != OutOfFuel
    ensures WalkFrom(data, pos, fuel) != OutOfFuel
  {
  }

  lemma WalkNeverOutOfFuel(data: Bytes)
    requires SaneSizes(data)
    ensures Walk(data) != OutOfFuel
  {
    WalkTerminates(data, StartPos(data), WalkFuel(data));
  }

  // ---------------------------------------------------------------------
  // Reading one entry (`_read_fdata_entry`)

  /** The chunk loop of a compressed entry: each chunk has a u32 length (wide
      flag) or a u16 length plus an unused u64, and `inflate` stands for
      `zlib.decompress` (`None` where it raises).  Each inflated chunk is
      written at the running offset of `out`. */
  function Chunks(data: Bytes, pos: int, wide: bool, out: Bytes, done: nat, total: nat,
                  inflate: Bytes -> Option<Bytes>, fuel: nat): (r: Result<Bytes>)
    requires done <= |out| && total <= |out|
    ensures r.Ok? ==> |r.value| >= total
    decreases fuel
  {
    if done >= total then Ok(out)
    else if fuel == 0 then Err(NON_TERMINATING)
    else
      var header := if wide then 4 else 10;
      var zsize := if wide then UnpackAt(data, pos, 4)
                   else if UnpackAt(data, pos, 10).None? then None
                   else UnpackAt(data, pos, 2);
      if zsize.None? then Err(TRUNCATED)
      else
        var start := pos + header;
        var chunk := inflate(PySlice(data, start, start + zsize.value));
        if chunk.None? then Err("zlib.error: invalid compressed chunk")
        else
          var out' := PySliceAssign(out, done, done + |chunk.value|, chunk.value);
          Chunks(data, start + zsize.value, wide, out', done + |chunk.value|, total, inflate, fuel - 1)
  }

  /** `(payload, fallback filename)` of the frame at `offset`. */
  function ReadEntry(data: Bytes, offset: nat, inflate: Bytes -> Option<Bytes>): (r: Result<(Bytes, string)>)
    ensures !MagicAt(data, offset) ==> r.Err?
    ensures r.Ok? ==> offset + HEADER_SIZE <= |data|
    ensures r.Ok? ==> r.value.1 == FallbackName(NameHashAt(data, offset), TkidHashAt(data, offset))
    ensures r.Ok? && CmpSizeAt(data, offset) != UncSizeAt(data, offset) ==>
      |r.value.0| >= UncSizeAt(data, offset)
  {
    if !MagicAt(data, offset) then Err("Invalid IDRK entry offset")
    else if offset + HEADER_SIZE > |data| then Err(TRUNCATED)
    else
      var size := UncSizeAt(data, offset);
      var pos := PayloadStart(data, offset);
      var payload :=
        if CmpSizeAt(data, offset) == size then Ok(PySlice(data, pos, pos + size))
        else Chunks(data, pos, (FlagsAt(data, offset) / WIDE_CHUNK_FLAG) % 2 == 1, Zeros(size), 0, size,
                    inflate, |data| + 1);
      if payload.Err? then Err(payload.error)
      else
        var nameHash, tkidHash := NameHashAt(data, offset), TkidHashAt(data, offset);
        Ok((payload.value, FallbackName(nameHash, tkidHash)))
  }

  /** Where the payload starts: after the header and the metadata block.  The
      metadata size is not checked, so this can lie before the frame or even
      be negative (Python then counts from the end of the data). */
  function PayloadStart(data: Bytes, offset: nat): (pos: int)
    requires offset + HEADER_SIZE <= |data|
    ensures pos - offset == EntrySizeAt(data, offset) - CmpSizeAt(data, offset)
  {
    offset + HEADER_SIZE + (EntrySizeAt(data, offset) - CmpSizeAt(data, offset) - HEADER_SIZE)
  }

  /** A raw entry whose payload lies inside the data yields exactly those
      bytes, under the fallback name of its hashes. */
  lemma ReadRawEntry(data: Bytes, offset: nat, inflate: Bytes -> Option<Bytes>,
                     start: nat, size: nat, nameHash: nat, tkidHash: nat)
    requires MagicAt(data, offset) && offset + HEADER_SIZE <= |data|
    requires CmpSizeAt(data, offset) == size && UncSizeAt(data, offset) == size
    requires NameHashAt(data, offset) == nameHash && TkidHashAt(data, offset) == tkidHash
    requires PayloadStart(data, offset) == start && start + size <= |data|
    ensures ReadEntry(data, offset, inflate) == Ok((data[start..start + size], FallbackName(nameHash, tkidHash)))
  {
    var payload := PySlice(data, PayloadStart(data, offset), PayloadStart(data, offset) + UncSizeAt(data, offset));
    assert payload == data[start..start + size];
  }
}

=== FILE: conversion.dfy ===
/** Converting selected archive members into a flat list of loose files:
    containers are unpacked frame by frame (names from the selected sidecar,
    else synthesised), loose asset members pass through under their base
    name, and any two output names equal up to ASCII case abort the whole
    conversion. */
module Conversion {
  import opened Wrappers
  import opened Bytes
  import opened Text
  import opened Container
  import opened Sidecar
  import opened Sandbox
  import opened Manifest
  import opened Selection

  /** An archive as the converter sees it: its path, the member names as the
      archive library lists them, and the bytes of every member it can read. */
  datatype Archive = Archive(path: string, names: seq<string>, contents: map<string, Bytes>)

  /** `LooseFile` */
  datatype LooseFile = LooseFile(filename: string, sourceMember: string, data: Bytes)

  /** `ConversionResult` */
  datatype ConversionResult = ConversionResult(
    archivePath: string, manifest: Option<ModManifest>, modName: string,
    selectedFeatures: Selections, files: seq<LooseFile>)

  /** The code the converter calls into and the model does not interpret:
      `zlib.decompress` and JSON decoding of a sidecar or of the manifest
      (`None` where they raise). A sidecar is decoded in three ways:
      `parseSidecar` is `json.loads` of the raw bytes (which detects the
      encoding and skips a UTF-8 byte-order mark), `parseSidecarText` is
      `json.loads` of the file read as UTF-8 text (which rejects one), and
      `parseSidecarSig` is `json.loads` of the bytes decoded as `utf-8-sig`
      (which skips one but accepts no other encoding). */
  datatype Codecs = Codecs(inflate: Bytes -> Option<Bytes>, parseSidecar: Bytes -> Option<SidecarDoc>,
                           parseSidecarText: Bytes -> Option<SidecarDoc>,
                           parseSidecarSig: Bytes -> Option<SidecarDoc>,
                           parseManifest: Bytes -> Option<RawManifest>)

  const COLLISION: string := "Loose filename collision in "
  const NO_PAYLOADS: string := "No installable loose payloads found in "

  /** `archive.suffix.lower() in SUPPORTED_EXTENSIONS` */
  predicate Supported(path: string) {
    Lower(Suffix(Basename(path))) in {".zip", ".7z", ".rar"}
  }

  /** `_read_archive_member`: a member the library cannot find raises. */
  function ReadMember(a: Archive, member: string): (r: Result<Bytes>)
    ensures r.Ok? <==> member in a.contents
  {
    if member in a.contents then Ok(a.contents[member]) else Err("KeyError: " + member)
  }

  /** `_normalize_names`: backslashes become `/` in every listed name. */
  function NormalizeNames(names: seq<string>): (r: seq<string>)
    ensures |r| == |names|
    ensures forall i | 0 <= i < |names| :: r[i] == ReplaceChar(names[i], '\\', '/') && '\\' !in r[i]
  {
    seq(|names|, i requires 0 <= i < |names| => ReplaceChar(names[i], '\\', '/'))
  }

  /** `_decode_mod_json` over the parsed document. */
  function DecodeSidecar(a: Archive, member: string, codecs: Codecs): (r: Result<map<Key, string>>)
    ensures r.Ok? <==> member in a.contents && codecs.parseSidecarSig(a.contents[member]).Some?
    ensures r.Ok? ==> r.value == FilenameTable(codecs.parseSidecarSig(a.contents[member]).value.files)
  {
    var bytes :- ReadMember(a, member);
    match codecs.parseSidecarSig(bytes)
    case None => Err("JSONDecodeError: " + member)
    case Some(doc) => Ok(FilenameTable(doc.files))
  }

  /** The frames `_iter_fdata_entries` lists; a walk that runs past the data
      raises like `struct.unpack_from` does. */
  function Frames(data: Bytes): (r: Result<seq<Frame>>)
    ensures r.Ok? <==> Walk(data).Walked?
    ensures r.Ok? ==> r.value == Walk(data).frames
  {
    match Walk(data)
    case Walked(frames) => Ok(frames)
    case Truncated(_) => Err(TRUNCATED)
    case OutOfFuel => Err(NON_TERMINATING)
  }

  /** The sidecar's name for a frame, else the reader's fallback name. */
  function FrameName(overrides: map<Key, string>, f: Frame, fallback: string): string {
    var key := (f.nameHash as int, f.tkidHash as int);
    if key in overrides then overrides[key] else fallback
  }

  // ---------------------------------------------------------------------
  // What each member yields, before any collision check

  /** One frame's file: its payload under the sidecar's name for it, else
      under the fallback name. */
  function FrameRead(data: Bytes, member: string, f: Frame, overrides: map<Key, string>,
                     inflate: Bytes -> Option<Bytes>): (r: Result<LooseFile>)
    ensures r.Ok? ==> r.value.sourceMember == member
  {
    var (payload, fallback) :- ReadEntry(data, f.offset, inflate);
    Ok(LooseFile(FrameName(overrides, f, fallback), member, payload))
  }

  /** The outcomes of all frames, in frame order. */
  function FrameReads(data: Bytes, member: string, frames: seq<Frame>, overrides: map<Key, string>,
                      inflate: Bytes -> Option<Bytes>): (r: seq<Result<LooseFile>>)
    ensures |r| == |frames| && forall i | 0 <= i < |frames| :: r[i] == FrameRead(data, member, frames[i], overrides, inflate)
  {
    seq(|frames|, i requires 0 <= i < |frames| => FrameRead(data, member, frames[i], overrides, inflate))
  }

  /** The files of a run of outcomes, or the first failure among them. */
  function Collect(outcomes: seq<Result<LooseFile>>): (r: Result<seq<LooseFile>>)
    ensures r.Ok? <==> forall i | 0 <= i < |outcomes| :: outcomes[i].Ok?
    ensures r.Ok? ==> |r.value| == |outcomes| && forall i | 0 <= i < |outcomes| :: r.value[i] == outcomes[i].value
  {
    if outcomes == [] then Ok([])
    else
      var f :- outcomes[0];
      var rest :- Collect(outcomes[1..]);
      assert forall i | 1 <= i < |outcomes| :: outcomes[i] == outcomes[1..][i - 1];
      Ok([f] + rest)
  }

  /** The member is a container. */
  predicate IsContainer(member: string) {
    !HasSuffix(member, SIDECAR_SUFFIX) && HasSuffix(member, FDATA_SUFFIX)
  }

  /** The member passes through as a loose file. */
  predicate IsLoosePassThrough(member: string) {
    !HasSuffix(member, SIDECAR_SUFFIX) && !HasSuffix(member, FDATA_SUFFIX) && IsLooseAssetMember(member)
  }

  /** The member counts as installable (`installable_found`). */
  predicate Installable(member: string) {
    IsContainer(member) || IsLoosePassThrough(member)
  }

  /** The filename overrides a container gets: those of its sidecar when the
      sidecar is itself selected, else none. */
  function Overrides(a: Archive, selected: seq<string>, member: string, codecs: Codecs): Result<map<Key, string>>
    requires HasSuffix(member, FDATA_SUFFIX)
  {
    var json := SidecarFor(member);
    if json in selected then DecodeSidecar(a, json, codecs) else Ok(map[])
  }

  /** A container's frame outcomes: the container is read, then its selected
      sidecar, then the frame list. */
  function ContainerReads(a: Archive, selected: seq<string>, member: string, codecs: Codecs): (r: Result<seq<Result<LooseFile>>>)
    requires HasSuffix(member, FDATA_SUFFIX)
    ensures r.Ok? ==> forall i | 0 <= i < |r.value| :: r.value[i].Ok? ==> r.value[i].value.sourceMember == member
  {
    var data :- ReadMember(a, member);
    var overrides :- Overrides(a, selected, member, codecs);
    var frames :- Frames(data);
    Ok(FrameReads(data, member, frames, overrides, codecs.inflate))
  }

  /** What one selected member contributes, in order. */
  function Contribution(a: Archive, selected: seq<string>, member: string, codecs: Codecs): (r: Result<seq<LooseFile>>)
    ensures r.Ok? && r.value != [] ==> Installable(member)
    ensures r.Ok? ==> forall i | 0 <= i < |r.value| :: r.value[i].sourceMember == member
  {
    if HasSuffix(member, SIDECAR_SUFFIX) then Ok([])
    else if HasSuffix(member, FDATA_SUFFIX) then
      var outcomes :- ContainerReads(a, selected, member, codecs);
      Collect(outcomes)
    else if IsLooseAssetMember(member) then
      var data :- ReadMember(a, member);
      Ok([LooseFile(Basename(member), member, data)])
    else Ok([])
  }

  /** Everything the members contribute, concatenated in selection order;
      the first unreadable member raises. */
  function Produced(a: Archive, selected: seq<string>, members: seq<string>, codecs: Codecs): (r: Result<seq<LooseFile>>)
    ensures r.Ok? ==> forall i | 0 <= i < |r.value| :: r.value[i].sourceMember in members
  {
    if members == [] then Ok([])
    else
      var here :- Contribution(a, selected, members[0], codecs);
      var rest :- Produced(a, selected, members[1..], codecs);
      Ok(here + rest)
  }

  /** The output names, ASCII lower-cased. */
  function LoweredNames(files: seq<LooseFile>): (r: seq<string>)
    ensures |r| == |files| && forall i | 0 <= i < |files| :: r[i] == Lower(files[i].filename)
  {
    seq(|files|, i requires 0 <= i < |files| => Lower(files[i].filename))
  }

  /** No two output names are equal ignoring ASCII case. */
  predicate NoClash(files: seq<LooseFile>) {
    Distinct(LoweredNames(files))
  }

  // ---------------------------------------------------------------------
  // The conversion loop, as the source runs it

  /** The loop state: files so far, the member behind each lower-cased name,
      and whether an installable member was seen. */
  datatype Acc = Acc(files: seq<LooseFile>, seen: map<string, string>, found: bool)

  /** `seen` indexes exactly the lower-cased names, which are distinct. */
  ghost predicate Inv(acc: Acc) {
    && NoClash(acc.files)
    && forall k :: k in acc.seen <==> k in LoweredNames(acc.files)
  }

  /** The collision error: it names the archive, the clashing name and both
      members that produce it. */
  function CollisionError(archiveName: string, filename: string, member: string, earlier: string): (r: string)
    ensures HasPrefix(r, COLLISION)
  {
    var r := COLLISION + archiveName + ": " + filename + " from " + member + " duplicates " + earlier;
    assert r == COLLISION + (archiveName + ": " + filename + " from " + member + " duplicates " + earlier);
    r
  }

  /** Appends one file unless its lower-cased name is taken. */
  function AddFile(acc: Acc, archiveName: string, f: LooseFile): Result<Acc> {
    var lowered := Lower(f.filename);
    if lowered in acc.seen then
      Err(CollisionError(archiveName, f.filename, f.sourceMember, acc.seen[lowered]))
    else Ok(Acc(acc.files + [f], acc.seen[lowered := f.sourceMember], acc.found))
  }

  /** The frame loop: take a frame's read, check its name, move on. */
  function AddAll(acc: Acc, archiveName: string, outcomes: seq<Result<LooseFile>>): Result<Acc>
    decreases |outcomes|
  {
    if outcomes == [] then Ok(acc)
    else
      var f :- outcomes[0];
      var acc' :- AddFile(acc, archiveName, f);
      AddAll(acc', archiveName, outcomes[1..])
  }

  /** One iteration of the member loop.  A loose member's name is checked
      before its bytes are read. */
  function Step(acc: Acc, a: Archive, selected: seq<string>, member: string, codecs: Codecs): Result<Acc> {
    var archiveName := Basename(a.path);
    if HasSuffix(member, SIDECAR_SUFFIX) then Ok(acc)
    else if HasSuffix(member, FDATA_SUFFIX) then
      var outcomes :- ContainerReads(a, selected, member, codecs);
      AddAll(acc.(found := true), archiveName, outcomes)
    else if IsLooseAssetMember(member) then
      var filename := Basename(member);
      var lowered := Lower(filename);
      if lowered in acc.seen then
        Err(CollisionError(archiveName, filename, member, acc.seen[lowered]))
      else
        var data :- ReadMember(a, member);
        Ok(Acc(acc.files + [LooseFile(filename, member, data)], acc.seen[lowered := member], true))
    else Ok(acc)
  }

  /** The member loop. */
  function Loop(acc: Acc, a: Archive, selected: seq<string>, members: seq<string>, codecs: Codecs): Result<Acc>
    decreases |members|
  {
    if members == [] then Ok(acc)
    else
      var acc' :- Step(acc, a, selected, members[0], codecs);
      Loop(acc', a, selected, members[1..], codecs)
  }

  /** `convert_selected_members_to_loose` */
  function ConvertSelected(a: Archive, selected: seq<string>, modName: Option<string>, manifest: Option<ModManifest>,
                           sel: Selections, codecs: Codecs): (r: Result<ConversionResult>)
    ensures r.Ok? ==> r.value.files != [] && NoClash(r.value.files)
    ensures r.Ok? ==> r.value.archivePath == a.path && r.value.manifest == manifest && r.value.selectedFeatures == sel
    ensures r.Ok? ==> r.value.modName == (if modName.Some? && modName.value != [] then modName.value else Stem(Basename(a.path)))
  {
    if !Supported(a.path) then Err("Unsupported archive format: " + Suffix(Basename(a.path)))
    else
      var acc :- Loop(Acc([], map[], false), a, selected, selected, codecs);
      if !acc.found || acc.files == [] then Err(NO_PAYLOADS + Basename(a.path))
      else
        LoopSpec(Acc([], map[], false), a, selected, selected, codecs);
        var name := if modName.Some? && modName.value != [] then modName.value else Stem(Basename(a.path));
        Ok(ConversionResult(a.path, manifest, name, sel, acc.files))
  }

  // ---------------------------------------------------------------------
  // The loop against the reference

  lemma LoweredAppend(files: seq<LooseFile>, more: seq<LooseFile>)
    ensures LoweredNames(files + more) == LoweredNames(files) + LoweredNames(more)
  {
  }

  lemma NoClashAppend(files: seq<LooseFile>, more: seq<LooseFile>)
    ensures LoweredNames(files + more) == LoweredNames(files) + LoweredNames(more)
    ensures NoClash(files + more) ==> NoClash(files)
  {
    LoweredAppend(files, more);
    var l := LoweredNames(files + more);
    var l0 := LoweredNames(files);
    if NoClash(files + more) {
      forall i, j | 0 <= i < j < |files| ensures l0[i] != l0[j] {
        assert l0[i] == l[i] && l0[j] == l[j];
      }
    }
  }

  /** Adding one file keeps the names distinct exactly when its name is new. */
  lemma NoClashSnoc(files: seq<LooseFile>, f: LooseFile)
    ensures LoweredNames(files + [f]) == LoweredNames(files) + [Lower(f.filename)]
    ensures NoClash(files + [f]) <==> NoClash(files) && Lower(f.filename) !in LoweredNames(files)
  {
    var l := LoweredNames(files + [f]);
    assert l == LoweredNames(files) + [Lower(f.filename)];
    if NoClash(files) && Lower(f.filename) !in LoweredNames(files) {
      forall i, j | 0 <= i < j < |l| ensures l[i] != l[j] {
        if j == |files| {
          assert l[i] == LoweredNames(files)[i];
        }
      }
    }
    if NoClash(files + [f]) {
      NoClashAppend(files, [f]);
      forall i | 0 <= i < |files| ensures LoweredNames(files)[i] != Lower(f.filename) {
        assert l[i] == LoweredNames(files)[i];
        assert l[|files|] == Lower(f.filename);
      }
    }
  }

  lemma AddFileSpec(acc: Acc, archiveName: string, f: LooseFile)
    requires Inv(acc)
    ensures AddFile(acc, archiveName, f).Ok? <==> NoClash(acc.files + [f])
    ensures AddFile(acc, archiveName, f).Ok? ==>
      var acc' := AddFile(acc, archiveName, f).value;
      acc'.files == acc.files + [f] && acc'.found == acc.found && Inv(acc')
    ensures AddFile(acc, archiveName, f).Err? ==> HasPrefix(AddFile(acc, archiveName, f).error, COLLISION)
  {
    NoClashSnoc(acc.files, f);
  }

  /** The frame loop adds exactly the outcomes' files, and fails exactly
      when an outcome is a failure or a name repeats. */
  lemma {:induction false} AddAllSpec(acc: Acc, archiveName: string, outcomes: seq<Result<LooseFile>>)
    requires Inv(acc)
    ensures var r := AddAll(acc, archiveName, outcomes);
      var p := Collect(outcomes);
      && (r.Ok? <==> p.Ok? && NoClash(acc.files + p.value))
      && (r.Ok? ==> r.value.files == acc.files + p.value && r.value.found == acc.found && Inv(r.value))
    decreases |outcomes|
  {
    if outcomes != [] && outcomes[0].Ok? {
      var f := outcomes[0].value;
      AddFileSpec(acc, archiveName, f);
      if AddFile(acc, archiveName, f).Ok? {
        AddAllSpec(AddFile(acc, archiveName, f).value, archiveName, outcomes[1..]);
        AssocSnoc(acc.files, f, Collect(outcomes[1..]));
      } else {
        ClashPersists(acc.files, f, Collect(outcomes[1..]));
      }
    }
  }

  /** When every outcome is a file, the only failure is a collision. */
  lemma {:induction false} AddAllCollision(acc: Acc, archiveName: string, outcomes: seq<Result<LooseFile>>)
    requires Inv(acc)
    requires Collect(outcomes).Ok?
    ensures AddAll(acc, archiveName, outcomes).Err? ==> HasPrefix(AddAll(acc, archiveName, outcomes).error, COLLISION)
    decreases |outcomes|
  {
    if outcomes != [] {
      var f := outcomes[0].value;
      AddFileSpec(acc, archiveName, f);
      if AddFile(acc, archiveName, f).Ok? {
        AddAllCollision(AddFile(acc, archiveName, f).value, archiveName, outcomes[1..]);
      }
    }
  }

  lemma AssocSnoc(files: seq<LooseFile>, f: LooseFile, p: Result<seq<LooseFile>>)
    ensures p.Ok? ==> files + [f] + p.value == files + ([f] + p.value)
  {
  }

  /** A repeated name stays repeated whatever follows. */
  lemma ClashPersists(files: seq<LooseFile>, f: LooseFile, p: Result<seq<LooseFile>>)
    ensures p.Ok? && NoClash(files + ([f] + p.value)) ==> NoClash(files + [f])
  {
    if p.Ok? {
      assert files + ([f] + p.value) == files + [f] + p.value;
      NoClashAppend(files + [f], p.value);
    }
  }

  /** One member step adds exactly the member's contribution. */
  lemma StepSpec(acc: Acc, a: Archive, selected: seq<string>, member: string, codecs: Codecs)
    requires Inv(acc)
    ensures var r := Step(acc, a, selected, member, codecs);
      var p := Contribution(a, selected, member, codecs);
      && (r.Ok? <==> p.Ok? && NoClash(acc.files + p.value))
      && (r.Ok? ==> r.value.files == acc.files + p.value && r.value.found == (acc.found || Installable(member)) && Inv(r.value))
  {
    if HasSuffix(member, SIDECAR_SUFFIX) {
      assert acc.files + [] == acc.files;
    } else if HasSuffix(member, FDATA_SUFFIX) {
      StepContainer(acc, a, selected, member, codecs);
    } else if IsLooseAssetMember(member) {
      StepLoose(acc, a, selected, member, codecs);
    } else {
      assert acc.files + [] == acc.files;
    }
  }

  lemma StepContainer(acc: Acc, a: Archive, selected: seq<string>, member: string, codecs: Codecs)
    requires Inv(acc) && IsContainer(member)
    ensures var r := Step(acc, a, selected, member, codecs);
      var p := Contribution(a, selected, member, codecs);
      && (r.Ok? <==> p.Ok? && NoClash(acc.files + p.value))
      && (r.Ok? ==> r.value.files == acc.files + p.value && r.value.found && Inv(r.value))
      && (r.Err? && p.Ok? ==> HasPrefix(r.error, COLLISION))
  {
    var outcomes := ContainerReads(a, selected, member, codecs);
    if outcomes.Ok? {
      AddAllSpec(acc.(found := true), Basename(a.path), outcomes.value);
      if Collect(outcomes.value).Ok? {
        AddAllCollision(acc.(found := true), Basename(a.path), outcomes.value);
      }
    }
  }

  lemma StepLoose(acc: Acc, a: Archive, selected: seq<string>, member: string, codecs: Codecs)
    requires Inv(acc) && IsLoosePassThrough(member)
    ensures var r := Step(acc, a, selected, member, codecs);
      var p := Contribution(a, selected, member, codecs);
      && (r.Ok? <==> p.Ok? && NoClash(acc.files + p.value))
      && (r.Ok? ==> r.value.files == acc.files + p.value && r.value.found && Inv(r.value))
      && (r.Err? && p.Ok? ==> HasPrefix(r.error, COLLISION))
  {
    var lowered := Lower(Basename(member));
    if lowered in acc.seen {
      StepLooseTaken(acc, a, selected, member, codecs);
    } else {
      StepLooseFresh(acc, a, selected, member, codecs);
    }
  }

  /** A loose member whose name is taken is a collision, read or not. */
  lemma StepLooseTaken(acc: Acc, a: Archive, selected: seq<string>, member: string, codecs: Codecs)
    requires Inv(acc) && IsLoosePassThrough(member) && Lower(Basename(member)) in acc.seen
    ensures var r := Step(acc, a, selected, member, codecs);
      var p := Contribution(a, selected, member, codecs);
      && r.Err? && HasPrefix(r.error, COLLISION)
      && (p.Ok? ==> !NoClash(acc.files + p.value))
  {
    var p := Contribution(a, selected, member, codecs);
    if p.Ok? {
      NoClashSnoc(acc.files, p.value[0]);
    }
  }

  /** A loose member with a new name is appended once it is read. */
  lemma StepLooseFresh(acc: Acc, a: Archive, selected: seq<string>, member: string, codecs: Codecs)
    requires Inv(acc) && IsLoosePassThrough(member) && Lower(Basename(member)) !in acc.seen
    ensures var r := Step(acc, a, selected, member, codecs);
      var p := Contribution(a, selected, member, codecs);
      && (r.Ok? <==> p.Ok?)
      && (p.Ok? ==> NoClash(acc.files + p.value))
      && (r.Ok? ==> r.value.files == acc.files + p.value && r.value.found && Inv(r.value))
  {
    var data := ReadMember(a, member);
    if data.Ok? {
      var f := LooseFile(Basename(member), member, data.value);
      InvSnoc(acc, f, true);
      assert Step(acc, a, selected, member, codecs) == Ok(Acc(acc.files + [f], acc.seen[Lower(f.filename) := member], true));
      assert Contribution(a, selected, member, codecs) == Ok([f]);
    } else {
      assert Step(acc, a, selected, member, codecs).Err?;
      assert Contribution(a, selected, member, codecs).Err?;
    }
  }

  /** A file with a new lower-cased name extends the loop state. */
  lemma InvSnoc(acc: Acc, f: LooseFile, found: bool)
    requires Inv(acc) && Lower(f.filename) !in acc.seen
    ensures NoClash(acc.files + [f])
    ensures Inv(Acc(acc.files + [f], acc.seen[Lower(f.filename) := f.sourceMember], found))
  {
    NoClashSnoc(acc.files, f);
  }

  /** When the member's contribution can be read, a failed step is a
      collision. */
  lemma StepCollision(acc: Acc, a: Archive, selected: seq<string>, member: string, codecs: Codecs)
    requires Inv(acc)
    requires Contribution(a, selected, member, codecs).Ok?
    ensures Step(acc, a, selected, member, codecs).Err? ==> HasPrefix(Step(acc, a, selected, member, codecs).error, COLLISION)
  {
    if IsContainer(member) {
      StepContainer(acc, a, selected, member, codecs);
    } else if IsLoosePassThrough(member) {
      StepLoose(acc, a, selected, member, codecs);
    }
  }

  /** The member loop adds exactly what the members contribute, in order. */
  lemma {:induction false} LoopSpec(acc: Acc, a: Archive, selected: seq<string>, members: seq<string>, codecs: Codecs)
    requires Inv(acc)
    ensures var r := Loop(acc, a, selected, members, codecs);
      var p := Produced(a, selected, members, codecs);
      && (r.Ok? <==> p.Ok? && NoClash(acc.files + p.value))
      && (r.Ok? ==> r.value.files == acc.files + p.value && Inv(r.value))
    decreases |members|
  {
    if members != [] {
      StepSpec(acc, a, selected, members[0], codecs);
      var s := Step(acc, a, selected, members[0], codecs);
      var here := Contribution(a, selected, members[0], codecs);
      var rest := Produced(a, selected, members[1..], codecs);
      if s.Ok? {
        LoopSpec(s.value, a, selected, members[1..], codecs);
        Assoc(acc.files, here, rest);
      } else if here.Ok? {
        ClashPersistsAll(acc.files, here.value, rest);
      }
    }
  }

  /** The loop has seen an installable member once it has produced a file. */
  lemma {:induction false} LoopFound(acc: Acc, a: Archive, selected: seq<string>, members: seq<string>, codecs: Codecs)
    requires Inv(acc)
    ensures var r := Loop(acc, a, selected, members, codecs);
      r.Ok? && (acc.found || r.value.files != acc.files) ==> r.value.found
    decreases |members|
  {
    if members != [] {
      StepSpec(acc, a, selected, members[0], codecs);
      var s := Step(acc, a, selected, members[0], codecs);
      if s.Ok? {
        LoopSpec(s.value, a, selected, members[1..], codecs);
        LoopFound(s.value, a, selected, members[1..], codecs);
      }
    }
  }

  /** When every member can be read, a failed loop is a collision. */
  lemma {:induction false} LoopCollision(acc: Acc, a: Archive, selected: seq<string>, members: seq<string>, codecs: Codecs)
    requires Inv(acc)
    requires Produced(a, selected, members, codecs).Ok?
    ensures Loop(acc, a, selected, members, codecs).Err? ==> HasPrefix(Loop(acc, a, selected, members, codecs).error, COLLISION)
    decreases |members|
  {
    if members != [] {
      StepSpec(acc, a, selected, members[0], codecs);
      StepCollision(acc, a, selected, members[0], codecs);
      var s := Step(acc, a, selected, members[0], codecs);
      if s.Ok? {
        LoopCollision(s.value, a, selected, members[1..], codecs);
      }
    }
  }

  lemma Assoc(files: seq<LooseFile>, here: Result<seq<LooseFile>>, rest: Result<seq<LooseFile>>)
    ensures here.Ok? && rest.Ok? ==> files + here.value + rest.value == files + (here.value + rest.value)
  {
  }

  /** A repeated name stays repeated whatever follows. */
  lemma ClashPersistsAll(files: seq<LooseFile>, here: seq<LooseFile>, rest: Result<seq<LooseFile>>)
    ensures rest.Ok? && NoClash(files + (here + rest.value)) ==> NoClash(files + here)
  {
    if rest.Ok? {
      assert files + (here + rest.value) == files + here + rest.value;
      NoClashAppend(files + here, rest.value);
    }
  }

  /** How conversion ends, in terms of the member loop. */
  lemma ConvertSelectedLoop(a: Archive, selected: seq<string>, modName: Option<string>,
                            manifest: Option<ModManifest>, sel: Selections, codecs: Codecs)
    ensures var r := ConvertSelected(a, selected, modName, manifest, sel, codecs);
      var l := Loop(Acc([], map[], false), a, selected, selected, codecs);
      && (r.Ok? <==> Supported(a.path) && l.Ok? && l.value.found && l.value.files != [])
      && (r.Ok? ==> r.value.files == l.value.files)
      && (Supported(a.path) && l.Err? ==> r == Err(l.error))
      && (Supported(a.path) && l.Ok? && l.value.files == [] ==> r == Err(NO_PAYLOADS + Basename(a.path)))
  {
  }

  /** Conversion succeeds exactly when the archive format is supported, every
      selected member can be read, the output is not empty and no two output
      names are equal ignoring case; the output is then everything the
      members yield, in selection order. */
  lemma ConvertSelectedSpec(a: Archive, selected: seq<string>, modName: Option<string>,
                            manifest: Option<ModManifest>, sel: Selections, codecs: Codecs)
    ensures var r := ConvertSelected(a, selected, modName, manifest, sel, codecs);
      var p := Produced(a, selected, selected, codecs);
      && (r.Ok? <==> Supported(a.path) && p.Ok? && p.value != [] && NoClash(p.value))
      && (r.Ok? ==> r.value.files == p.value)
  {
    var acc0 := Acc([], map[], false);
    var l := Loop(acc0, a, selected, selected, codecs);
    var p := Produced(a, selected, selected, codecs);
    ConvertSelectedLoop(a, selected, modName, manifest, sel, codecs);
    LoopSpec(acc0, a, selected, selected, codecs);
    LoopFound(acc0, a, selected, selected, codecs);
    if p.Ok? {
      assert acc0.files + p.value == p.value;
    }
  }

  /** When every member can be read, a failure names its cause: a collision, or
      no payload at all. */
  lemma ConvertSelectedErrors(a: Archive, selected: seq<string>, modName: Option<string>,
                              manifest: Option<ModManifest>, sel: Selections, codecs: Codecs)
    requires Supported(a.path)
    requires Produced(a, selected, selected, codecs).Ok?
    ensures var r := ConvertSelected(a, selected, modName, manifest, sel, codecs);
      var p := Produced(a, selected, selected, codecs).value;
      && (!NoClash(p) ==> r.Err? && HasPrefix(r.error, COLLISION))
      && (p == [] ==> r == Err(NO_PAYLOADS + Basename(a.path)))
  {
    var acc0 := Acc([], map[], false);
    var p := Produced(a, selected, selected, codecs).value;
    ConvertSelectedLoop(a, selected, modName, manifest, sel, codecs);
    LoopSpec(acc0, a, selected, selected, codecs);
    LoopCollision(acc0, a, selected, selected, codecs);
    assert acc0.files + p == p;
  }

  // ---------------------------------------------------------------------
  // A container with its sidecar, as the sandbox packs them

  /** The archive holding one packed pair, the sidecar stored as the given
      bytes. */
  function PairArchive(path: string, p: YumiaPair, sidecarBytes: Bytes): Archive {
    Archive(path, [p.fdataName, p.sidecarName], map[p.fdataName := p.fdata, p.sidecarName := sidecarBytes])
  }

  /** The container and the sidecar of a pair are different members, and
      only the sidecar carries the sidecar suffix. */
  lemma PairNames(p: YumiaPair)
    requires HasSuffix(p.fdataName, FDATA_SUFFIX) && p.sidecarName == SidecarFor(p.fdataName)
    ensures HasSuffix(p.sidecarName, SIDECAR_SUFFIX) && !HasSuffix(p.fdataName, SIDECAR_SUFFIX)
    ensures p.fdataName != p.sidecarName
  {
    var n := p.fdataName;
    assert n[|n| - 1] == FDATA_SUFFIX[5] == 'a';
    assert p.sidecarName[|p.sidecarName| - 1] == 'n';
  }

  /** A container holding one frame contributes that frame's payload. */
  lemma OneFrameContribution(a: Archive, selected: seq<string>, member: string, codecs: Codecs,
                             overrides: map<Key, string>, f: Frame, payload: Bytes, fallback: string)
    requires IsContainer(member) && member in a.contents
    requires Overrides(a, selected, member, codecs) == Ok(overrides)
    requires Walk(a.contents[member]) == Walked([f])
    requires ReadEntry(a.contents[member], f.offset, codecs.inflate) == Ok((payload, fallback))
    ensures Contribution(a, selected, member, codecs) == Ok([LooseFile(FrameName(overrides, f, fallback), member, payload)])
  {
    var data := a.contents[member];
    var file := LooseFile(FrameName(overrides, f, fallback), member, payload);
    assert ReadMember(a, member) == Ok(data);
    assert Frames(data) == Ok([f]);
    assert FrameRead(data, member, f, overrides, codecs.inflate) == Ok(file);
    assert FrameReads(data, member, [f], overrides, codecs.inflate) == [Ok(file)];
    assert ContainerReads(a, selected, member, codecs) == Ok([Ok(file)]);
    CollectOne(file);
  }

  lemma CollectOne(file: LooseFile)
    ensures Collect([Ok(file)]) == Ok([file])
  {
    var outcomes: seq<Result<LooseFile>> := [Ok(file)];
    assert outcomes[1..] == [];
    assert Collect(outcomes[1..]) == Ok([]);
    assert [file] + [] == [file];
  }

  /** Two members contribute their files one after the other. */
  lemma ProducedOfTwo(a: Archive, selected: seq<string>, x: string, y: string, codecs: Codecs)
    requires Contribution(a, selected, x, codecs).Ok? && Contribution(a, selected, y, codecs).Ok?
    ensures Produced(a, selected, [x, y], codecs) ==
      Ok(Contribution(a, selected, x, codecs).value + Contribution(a, selected, y, codecs).value)
  {
    assert [x, y][1..] == [y];
    ProducedOfOne(a, selected, y, codecs);
  }

  /** One member contributes its files alone. */
  lemma ProducedOfOne(a: Archive, selected: seq<string>, x: string, codecs: Codecs)
    requires Contribution(a, selected, x, codecs).Ok?
    ensures Produced(a, selected, [x], codecs) == Ok(Contribution(a, selected, x, codecs).value)
  {
    assert [x][1..] == [];
    assert Contribution(a, selected, x, codecs).value + [] == Contribution(a, selected, x, codecs).value;
  }

  /** The contents of a pair's archive. */
  lemma PairContents(path: string, p: YumiaPair, sidecarBytes: Bytes)
    requires HasSuffix(p.fdataName, FDATA_SUFFIX) && p.sidecarName == SidecarFor(p.fdataName)
    ensures var a := PairArchive(path, p, sidecarBytes);
      && p.fdataName in a.contents && a.contents[p.fdataName] == p.fdata
      && p.sidecarName in a.contents && a.contents[p.sidecarName] == sidecarBytes
      && IsContainer(p.fdataName) && HasSuffix(p.sidecarName, SIDECAR_SUFFIX)
  {
    PairNames(p);
  }

  /** What a one-frame pair yields when both halves are selected. */
  lemma PairProducedWithSidecar(path: string, p: YumiaPair, sidecarBytes: Bytes, codecs: Codecs,
                                f: Frame, looseFilename: string, payload: Bytes, fallback: string)
    requires HasSuffix(p.fdataName, FDATA_SUFFIX) && p.sidecarName == SidecarFor(p.fdataName)
    requires Walk(p.fdata) == Walked([f])
    requires ReadEntry(p.fdata, f.offset, codecs.inflate) == Ok((payload, fallback))
    requires codecs.parseSidecarSig(sidecarBytes) == Some(p.sidecar)
    requires FilenameTable(p.sidecar.files) == map[(f.nameHash as int, f.tkidHash as int) := looseFilename]
    ensures var selected := [p.fdataName, p.sidecarName];
      Produced(PairArchive(path, p, sidecarBytes), selected, selected, codecs) == Ok([LooseFile(looseFilename, p.fdataName, payload)])
  {
    var a := PairArchive(path, p, sidecarBytes);
    var selected := [p.fdataName, p.sidecarName];
    PairContents(path, p, sidecarBytes);
    var table := map[(f.nameHash as int, f.tkidHash as int) := looseFilename];
    assert Overrides(a, selected, p.fdataName, codecs) == Ok(table);
    OneFrameContribution(a, selected, p.fdataName, codecs, table, f, payload, fallback);
    var file := LooseFile(looseFilename, p.fdataName, payload);
    assert FrameName(table, f, fallback) == looseFilename;
    assert Contribution(a, selected, p.sidecarName, codecs) == Ok([]);
    ProducedOfTwo(a, selected, p.fdataName, p.sidecarName, codecs);
    assert [file] + [] == [file];
  }

  /** What a one-frame pair yields when only the container is selected. */
  lemma PairProducedWithoutSidecar(path: string, p: YumiaPair, sidecarBytes: Bytes, codecs: Codecs,
                                   f: Frame, payload: Bytes, fallback: string)
    requires HasSuffix(p.fdataName, FDATA_SUFFIX) && p.sidecarName == SidecarFor(p.fdataName)
    requires Walk(p.fdata) == Walked([f])
    requires ReadEntry(p.fdata, f.offset, codecs.inflate) == Ok((payload, fallback))
    ensures Produced(PairArchive(path, p, sidecarBytes), [p.fdataName], [p.fdataName], codecs)
      == Ok([LooseFile(fallback, p.fdataName, payload)])
  {
    var a := PairArchive(path, p, sidecarBytes);
    var selected := [p.fdataName];
    PairContents(path, p, sidecarBytes);
    PairNames(p);
    assert Overrides(a, selected, p.fdataName, codecs) == Ok(map[]);
    OneFrameContribution(a, selected, p.fdataName, codecs, map[], f, payload, fallback);
    ProducedOfOne(a, selected, p.fdataName, codecs);
  }

  /** Selecting both halves of a packed pair yields the payload once, under
      the name the sidecar gives it. */
  lemma ConvertPairWithSidecar(path: string, stemHash: nat, looseFilename: string, nameHash: nat, tkidHash: nat,
                               payload: Bytes, sidecarBytes: Bytes, modName: Option<string>,
                               manifest: Option<ModManifest>, sel: Selections, codecs: Codecs)
    requires Supported(path)
    requires nameHash < U32_LIMIT && tkidHash < U32_LIMIT
    requires HEADER_SIZE + |payload| + 0x10 + 0x10 < U32_LIMIT
    requires codecs.parseSidecarSig(sidecarBytes) == Some(MakeYumiaPair(stemHash, looseFilename, nameHash, tkidHash, payload).sidecar)
    ensures var p := MakeYumiaPair(stemHash, looseFilename, nameHash, tkidHash, payload);
      var r := ConvertSelected(PairArchive(path, p, sidecarBytes), [p.fdataName, p.sidecarName], modName, manifest, sel, codecs);
      r.Ok? && r.value.files == [LooseFile(looseFilename, p.fdataName, payload)]
  {
    var p := MakeYumiaPair(stemHash, looseFilename, nameHash, tkidHash, payload);
    PairRoundTrip(stemHash, looseFilename, nameHash, tkidHash, payload, codecs.inflate);
    PairProducedWithSidecar(path, p, sidecarBytes, codecs, Frame(0x10, nameHash, tkidHash), looseFilename, payload,
                            FallbackName(nameHash, tkidHash));
    ConvertSelectedSpec(PairArchive(path, p, sidecarBytes), [p.fdataName, p.sidecarName], modName, manifest, sel, codecs);
    assert NoClash([LooseFile(looseFilename, p.fdataName, payload)]);
  }

  /** Selecting the container alone ignores the sidecar: the payload comes
      out under the synthesised name, which is itself a loose asset name. */
  lemma ConvertPairWithoutSidecar(path: string, stemHash: nat, looseFilename: string, nameHash: nat, tkidHash: nat,
                                  payload: Bytes, sidecarBytes: Bytes, modName: Option<string>,
                                  manifest: Option<ModManifest>, sel: Selections, codecs: Codecs)
    requires Supported(path)
    requires nameHash < U32_LIMIT && tkidHash < U32_LIMIT
    requires HEADER_SIZE + |payload| + 0x10 + 0x10 < U32_LIMIT
    ensures var p := MakeYumiaPair(stemHash, looseFilename, nameHash, tkidHash, payload);
      var r := ConvertSelected(PairArchive(path, p, sidecarBytes), [p.fdataName], modName, manifest, sel, codecs);
      && r.Ok? && r.value.files == [LooseFile(FallbackName(nameHash, tkidHash), p.fdataName, payload)]
      && IsLooseAssetName(r.value.files[0].filename)
  {
    var p := MakeYumiaPair(stemHash, looseFilename, nameHash, tkidHash, payload);
    PairRoundTrip(stemHash, looseFilename, nameHash, tkidHash, payload, codecs.inflate);
    FallbackIsLooseAsset(nameHash, tkidHash);
    PairProducedWithoutSidecar(path, p, sidecarBytes, codecs, Frame(0x10, nameHash, tkidHash), payload,
                               FallbackName(nameHash, tkidHash));
    ConvertSelectedSpec(PairArchive(path, p, sidecarBytes), [p.fdataName], modName, manifest, sel, codecs);
    assert NoClash([LooseFile(FallbackName(nameHash, tkidHash), p.fdataName, payload)]);
  }

  // ---------------------------------------------------------------------
  // The whole archive

  /** `parse_manifest` on the archive's manifest member. */
  function ReadManifest(a: Archive, codecs: Codecs): (r: Result<ModManifest>)
    ensures r.Ok? ==> ValidManifest(r.value)
  {
    var bytes :- ReadMember(a, MANIFEST_FILENAME);
    match codecs.parseManifest(bytes)
    case None => Err("JSONDecodeError: " + MANIFEST_FILENAME)
    case Some(raw) => Validate(raw)
  }

  /** The manifest, if the archive lists one, with the feature choices made
      from it. */
  function Plan(a: Archive, names: seq<string>, requested: map<string, string>, codecs: Codecs)
    : (r: Result<(Option<ModManifest>, Selections)>)
    ensures MANIFEST_FILENAME !in names ==> r == Ok((None, map[]))
    ensures r.Ok? && r.value.0.Some? ==>
      && ValidManifest(r.value.0.value)
      && forall k :: k in r.value.1 <==> k in Names(r.value.0.value.features)
  {
    if MANIFEST_FILENAME in names then
      var m :- ReadManifest(a, codecs);
      var sel :- DefaultSelections(m.features, DiscoverOptions(names, m.features), requested);
      Ok((Some(m), sel))
    else Ok((None, map[]))
  }

  /** `convert_archive_to_loose` */
  function ConvertArchiveToLoose(a: Archive, requested: map<string, string>, codecs: Codecs): (r: Result<ConversionResult>)
    ensures r.Ok? ==> Supported(a.path) && r.value.files != [] && NoClash(r.value.files)
  {
    if !Supported(a.path) then Err("Unsupported archive format: " + Suffix(Basename(a.path)))
    else
      var names := NormalizeNames(a.names);
      var plan :- Plan(a, names, requested, codecs);
      var (manifest, sel) := plan;
      var selected :- BuildSelectedMembers(Basename(a.path), names, manifest, sel);
      ConvertSelected(a, selected, Some(ModNameFor(a, manifest)), manifest, sel, codecs)
  }

  /** The name `convert_archive_to_loose` passes on: the manifest's, when it
      gives a non-empty one, else the archive's stem. */
  function ModNameFor(a: Archive, manifest: Option<ModManifest>): (r: string)
    ensures r == Stem(Basename(a.path)) || (manifest.Some? && manifest.value.modName == Some(r) && r != [])
  {
    if manifest.Some? && manifest.value.modName.Some? && manifest.value.modName.value != []
    then manifest.value.modName.value else Stem(Basename(a.path))
  }

  /** A whole-archive conversion only emits listed members' files; with a
      manifest, only files of selected members, and every feature has an
      entry in the recorded choices; the mod name follows the manifest. */
  lemma ConvertArchiveSpec(a: Archive, requested: map<string, string>, codecs: Codecs)
    ensures var r := ConvertArchiveToLoose(a, requested, codecs);
      && (r.Ok? ==> forall i | 0 <= i < |r.value.files| :: r.value.files[i].sourceMember in NormalizeNames(a.names))
      && (r.Ok? ==> r.value.modName == ModNameFor(a, r.value.manifest))
      && (r.Ok? && r.value.manifest.Some? ==>
           && ValidManifest(r.value.manifest.value)
           && (forall k :: k in r.value.selectedFeatures <==> k in Names(r.value.manifest.value.features))
           && forall i | 0 <= i < |r.value.files| ::
                SelectedFile(r.value.manifest.value, r.value.selectedFeatures, r.value.files[i].sourceMember))
  {
    var r := ConvertArchiveToLoose(a, requested, codecs);
    if r.Ok? {
      var manifest, sel, selected := ArchivePlanOf(a, requested, codecs);
      ConvertSelectedSources(a, selected, Some(ModNameFor(a, manifest)), manifest, sel, codecs);
      assert r.value.modName == ModNameFor(a, r.value.manifest);
    }
  }

  /** A whole-archive conversion that succeeds is the conversion of the
      members its plan selects, under the name it chooses. */
  lemma ArchivePlanOf(a: Archive, requested: map<string, string>, codecs: Codecs)
      returns (manifest: Option<ModManifest>, sel: Selections, selected: seq<string>)
    requires ConvertArchiveToLoose(a, requested, codecs).Ok?
    ensures ConvertArchiveToLoose(a, requested, codecs) == ConvertSelected(a, selected, Some(ModNameFor(a, manifest)), manifest, sel, codecs)
    ensures forall x | x in selected :: x in NormalizeNames(a.names)
    ensures manifest.Some? ==>
      && ValidManifest(manifest.value)
      && (forall k :: k in sel <==> k in Names(manifest.value.features))
      && forall x | x in selected :: SelectedFile(manifest.value, sel, x)
  {
    var names := NormalizeNames(a.names);
    var pr := Plan(a, names, requested, codecs);
    assert pr.Ok?;
    manifest, sel := pr.value.0, pr.value.1;
    var br := BuildSelectedMembers(Basename(a.path), names, manifest, sel);
    assert br.Ok?;
    selected := br.value;
  }

  /** Every converted file comes from a selected member. */
  lemma ConvertSelectedSources(a: Archive, selected: seq<string>, modName: Option<string>,
                               manifest: Option<ModManifest>, sel: Selections, codecs: Codecs)
    ensures var r := ConvertSelected(a, selected, modName, manifest, sel, codecs);
      r.Ok? ==>
        && r.value.manifest == manifest && r.value.selectedFeatures == sel
        && forall i | 0 <= i < |r.value.files| :: r.value.files[i].sourceMember in selected
  {
    ConvertSelectedSpec(a, selected, modName, manifest, sel, codecs);
    var r := ConvertSelected(a, selected, modName, manifest, sel, codecs);
    if r.Ok? {
      assert r.value.files == Produced(a, selected, selected, codecs).value;
    }
  }

  /** An archive without a manifest converts all of its non-directory
      members. */
  lemma ConvertArchiveWithoutManifest(a: Archive, requested: map<string, string>, codecs: Codecs)
    requires Supported(a.path)
    requires MANIFEST_FILENAME !in NormalizeNames(a.names)
    ensures var files := Files(NormalizeNames(a.names));
      var r := ConvertArchiveToLoose(a, requested, codecs);
      var p := Produced(a, files, files, codecs);
      && (r.Ok? <==> p.Ok? && p.value != [] && NoClash(p.value))
      && (r.Ok? ==> r.value.files == p.value && r.value.manifest.None? && r.value.selectedFeatures == map[])
  {
    var names := NormalizeNames(a.names);
    var files := Files(names);
    var name := Some(Stem(Basename(a.path)));
    assert Plan(a, names, requested, codecs) == Ok((None, map[]));
    assert BuildSelectedMembers(Basename(a.path), names, None, map[]) == Ok(files);
    assert ConvertArchiveToLoose(a, requested, codecs) == ConvertSelected(a, files, name, None, map[], codecs);
    ConvertSelectedSpec(a, files, name, None, map[], codecs);
  }
}

=== FILE: engine.dfy ===
/** The backend manager's transactions: installing a legacy option, a set
    of direct loose-file options or a manifest feature selection through
    yumia or the loose-file workflow, and uninstalling. Each returns the new
    state with `(ok, message)`; a refusal or a failure leaves the records as
    they were and takes back what it copied. */
module Engine {
  import opened Wrappers
  import opened Bytes
  import opened Text
  import opened OrderedMap
  import opened Manifest
  import opened Selection
  import opened Conversion
  import opened Container
  import opened Scan
  import opened Records
  import opened Features
  import opened Resolution
  import opened Game
  import opened Conflicts
  import opened Environment
  import opened LooseCheck

  /** The state a transaction reads and changes: the install records and
      the game directory. */
  datatype Manager = Manager(installed: Installed, disk: Disk)

  /** A transaction's `(ok, message)` and the state it leaves. */
  datatype Outcome = Outcome(after: Manager, ok: bool, message: string)

  /** What the transactions ask of the world and the model does not
      interpret: the decoders, one run of the yumia tool, whether extracting
      from the archive raises (and with what text), which loose-file write
      raises (and what it leaves at its own path), the order in which the
      walk of `mods/` lists files, the sample hashes a conflict message
      shows (the first five of a set in Python's iteration order, formatted
      and sorted), the directories the status reports, and finding an
      archive in the downloads folder. */
  datatype Effects = Effects(
    codecs: Codecs,
    yumia: Disk -> YumiaRun,
    extractError: Option<string>,
    writeFailure: Option<WriteFailure>,
    walk: Disk -> seq<string>,
    samples: set<int> -> string,
    dirs: Dirs,
    lookup: string -> Option<(ModArchive, Archive)>)

  function Refuse(m: Manager, message: string): (o: Outcome)
    ensures !o.ok && o.after == m
  {
    Outcome(m, false, message)
  }

  /** The shape every install has: it succeeds exactly when it adds a record
      under the archive's name, which goes last, and leaves the other
      records alone; when it does not succeed the records are unchanged. */
  ghost predicate InstallShape(m: Manager, key: string, o: Outcome) {
    && Valid(o.after.installed)
    && (o.ok <==> key !in m.installed.items && key in o.after.installed.items)
    && (o.ok ==> o.after.installed.keys == m.installed.keys + [key]
                 && o.after.installed.items == m.installed.items[key := o.after.installed.items[key]])
    && (!o.ok ==> o.after.installed == m.installed)
  }

  function AlreadyInstalled(key: string): string {
    "A mod from " + key + " is already installed. Uninstall it first."
  }

  /** The refusal of a loose-file install through yumia, with the advice
      the current environment calls for. */
  function LooseRefusal(m: Manager, fx: Effects, selectionSpecific: bool): string {
    LooseActionMessage(Status(fx.dirs, m.disk, m.installed), selectionSpecific)
  }

  const NO_BACKEND: string := "No supported install backend is currently available."

  /** `backend or self.resolve_install_backend()` */
  function ChooseBackend(m: Manager, backend: Option<Backend>, fx: Effects): (r: Option<Backend>)
    ensures backend.Some? ==> r == backend
    ensures backend.None? ==> (r.Some? <==> Status(fx.dirs, m.disk, m.installed).canInstall)
  {
    ResolveMatchesStatus(fx.dirs, m.disk, m.installed);
    if backend.Some? then backend else ResolveInstallBackend(Status(fx.dirs, m.disk, m.installed))
  }

  // ---------------------------------------------------------------------
  // Conflict messages

  const CONFLICT_HEAD: string := "Cannot install: conflicts with installed mod(s):\n\n"
  const CONFLICT_TAIL: string := "\n\nUninstall the conflicting mod(s) before proceeding."

  /** One line per conflicting mod: its stem, how many assets it shares and
      up to five of them. */
  function ConflictLine(c: Conflict, samples: set<int> -> string): string {
    var n := |c.1|;
    var more := if n > 5 then " (+" + DecStr(n - 5) + " more)" else "";
    "  • " + Stem(Basename(c.0)) + "  (" + DecStr(n) + " asset(s): " + samples(c.1) + more + ")"
  }

  function ConflictMessage(conflicts: seq<Conflict>, samples: set<int> -> string): (r: string)
    ensures HasPrefix(r, CONFLICT_HEAD) && HasSuffix(r, CONFLICT_TAIL)
  {
    var lines := seq(|conflicts|, i requires 0 <= i < |conflicts| => ConflictLine(conflicts[i], samples));
    var body := Join(lines, "\n");
    Framed(CONFLICT_HEAD, body, CONFLICT_TAIL);
    CONFLICT_HEAD + body + CONFLICT_TAIL
  }

  // ---------------------------------------------------------------------
  // Installing through yumia

  /** The copies into `package/` of the pairs whose member was extracted;
      the others are skipped with a warning. */
  function Copies(pairs: seq<(string, string)>, extracted: map<string, Bytes>): (r: seq<(string, Bytes)>)
    ensures r == [] <==> forall i | 0 <= i < |pairs| :: pairs[i].1 !in extracted
    ensures forall i | 0 <= i < |pairs| && pairs[i].1 in extracted ::
      (PACKAGE_DIR + pairs[i].0, extracted[pairs[i].1]) in r
    ensures forall c | c in r :: exists i | 0 <= i < |pairs| ::
      pairs[i].1 in extracted && c == (PACKAGE_DIR + pairs[i].0, extracted[pairs[i].1])
  {
    if pairs == [] then []
    else
      var rest := Copies(pairs[1..], extracted);
      assert forall i | 1 <= i < |pairs| :: pairs[i] == pairs[1..][i - 1];
      if pairs[0].1 in extracted then [(PACKAGE_DIR + pairs[0].0, extracted[pairs[0].1])] + rest
      else rest
  }

  /** Every copy goes below `package/`. */
  lemma CopiesUnderPackage(pairs: seq<(string, string)>, extracted: map<string, Bytes>)
    ensures forall i | 0 <= i < |Copies(pairs, extracted)| :: HasPrefix(Copies(pairs, extracted)[i].0, PACKAGE_DIR)
  {
    var r := Copies(pairs, extracted);
    forall i | 0 <= i < |r| ensures HasPrefix(r[i].0, PACKAGE_DIR) {
      assert r[i] in r;
      var j :| 0 <= j < |pairs| && pairs[j].1 in extracted && r[i] == (PACKAGE_DIR + pairs[j].0, extracted[pairs[j].1]);
      Begins(PACKAGE_DIR, pairs[j].0);
    }
  }


  /** The legacy option's package files with the members they come from. */
  function OptionPairs(option: ModOption): (r: seq<(string, string)>)
    ensures |r| == |option.packageFiles|
    ensures forall i | 0 <= i < |r| :: r[i] == (option.packageFiles[i], option.internalPath + option.packageFiles[i])
  {
    seq(|option.packageFiles|, i requires 0 <= i < |option.packageFiles| =>
      (option.packageFiles[i], option.internalPath + option.packageFiles[i]))
  }

  /** The end of every yumia install: with nothing copied it fails; else
      the tool runs over the copied files, a failed run removes them again,
      and only a successful run adds the record. */
  function YumiaCommit(m: Manager, key: string, copies: seq<(string, Bytes)>, rec: InstalledModRecord,
                       yumia: Disk -> YumiaRun): (o: Outcome)
    requires Valid(m.installed) && key !in m.installed.items
    ensures o.ok <==> copies != [] && RunYumia(WriteAll(m.disk, copies), yumia).ok
    ensures o.ok ==> o.after.installed == Put(m.installed, key, rec.(installedPaths := Paths(copies)))
    ensures o.ok ==> o.message == "Installed " + DecStr(|copies|) + " file(s)"
    ensures !o.ok ==> o.after.installed == m.installed
    ensures !o.ok ==> forall i | 0 <= i < |copies| :: copies[i].0 !in o.after.disk
    ensures !o.ok && Confined(yumia) ==> SameOutside(o.after.disk, m.disk, p => IsCore(p) || p in Paths(copies))
  {
    if copies == [] then Refuse(m, "No files were installed.")
    else
      var copied := WriteAll(m.disk, copies);
      var run := RunYumia(copied, yumia);
      var paths := Paths(copies);
      assert forall i | 0 <= i < |copies| :: copies[i].0 in paths;
      if !run.ok then
        assert Confined(yumia) ==> SameOutside(Unlink(run.disk, paths), m.disk, p => IsCore(p) || p in paths) by {
          if Confined(yumia) {
            CopyRunUnlink(m.disk, copies, yumia);
          }
        }
        Outcome(Manager(m.installed, Unlink(run.disk, paths)), false, "yumia failed: " + run.output)
      else
        Outcome(Manager(Put(m.installed, key, rec.(installedPaths := paths)), run.disk), true,
                "Installed " + DecStr(|copies|) + " file(s)")
  }

  /** A yumia record before its paths are known. */
  function YumiaRecord(key: string, kind: InstallKind, summary: string, legacyName: Option<string>,
                       fsel: Option<Selections>): InstalledModRecord {
    InstalledModRecord(key, Yumia, kind, summary, legacyName, fsel, [], None)
  }

  /** `_install_yumia_legacy` */
  function InstallYumiaLegacy(m: Manager, am: ModArchive, a: Archive, option: ModOption, fx: Effects): (o: Outcome)
    requires Valid(m.installed) && am.filename !in m.installed.items
    ensures InstallShape(m, am.filename, o)
    ensures am.kind == DirectLoose ==> !o.ok && o.after == m
    ensures YumiaConflicts(a, SelectedOptionMembers(am, option), m.installed, m.disk, fx.codecs) != [] ==> !o.ok && o.after == m
    ensures o.ok ==> (o.after.installed.items[am.filename].backend == Yumia
                      && o.after.installed.items[am.filename].legacyOptionName == Some(option.name)
                      && o.after.installed.items[am.filename].installedPaths == Paths(LegacyCopies(a, am, option)))
  {
    if am.kind == DirectLoose then Refuse(m, LooseRefusal(m, fx, false))
    else
      var members := SelectedOptionMembers(am, option);
      var conflicts := YumiaConflicts(a, members, m.installed, m.disk, fx.codecs);
      if conflicts != [] then Refuse(m, ConflictMessage(conflicts, fx.samples))
      else if fx.extractError.Some? then Refuse(m, "Extraction failed: " + fx.extractError.value)
      else
        var copies := LegacyCopies(a, am, option);
        YumiaCommit(m, am.filename, copies, YumiaRecord(am.filename, LegacyInstall, option.name, Some(option.name), None), fx.yumia)
  }

  /** The copies a legacy option makes: each of its package files the
      archive holds below the option's directory goes to `package/`. */
  function LegacyCopies(a: Archive, am: ModArchive, option: ModOption): (r: seq<(string, Bytes)>)
    requires am.kind != DirectLoose
    ensures r == [] <==> forall pf | pf in option.packageFiles :: option.internalPath + pf !in a.contents
    ensures forall c | c in r :: exists pf | pf in option.packageFiles ::
      option.internalPath + pf in a.contents && c == (PACKAGE_DIR + pf, a.contents[option.internalPath + pf])
  {
    var members := SelectedOptionMembers(am, option);
    var pairs := OptionPairs(option);
    var extracted := Extracted(a, members);
    assert forall i | 0 <= i < |pairs| :: pairs[i].1 in members;
    var r := Copies(pairs, extracted);
    assert forall pf | pf in option.packageFiles :: exists i | 0 <= i < |pairs| :: pairs[i].0 == pf by {
      forall pf | pf in option.packageFiles ensures exists i | 0 <= i < |pairs| :: pairs[i].0 == pf {
        var i :| 0 <= i < |option.packageFiles| && option.packageFiles[i] == pf;
        assert pairs[i].0 == pf;
      }
    }
    forall c | c in r ensures exists pf | pf in option.packageFiles ::
      option.internalPath + pf in a.contents && c == (PACKAGE_DIR + pf, a.contents[option.internalPath + pf])
    {
      var i :| 0 <= i < |pairs| && pairs[i].1 in extracted && c == (PACKAGE_DIR + pairs[i].0, extracted[pairs[i].1]);
      assert option.packageFiles[i] in option.packageFiles;
    }
    r
  }

  /** A yumia-compatible member: a container or a sidecar. */
  predicate IsYumiaMember(member: string) {
    HasSuffix(member, ".fdata") || HasSuffix(member, SIDECAR_SUFFIX)
  }

  /** A member the loose-file loader would need. */
  predicate IsLooseOnly(member: string) {
    IsLooseAssetMember(member) && !IsYumiaMember(member)
  }

  /** `_install_yumia_manifest` */
  function InstallYumiaManifest(m: Manager, am: ModArchive, a: Archive, sel: Selections, fx: Effects): (o: Outcome)
    requires Valid(m.installed) && am.filename !in m.installed.items && am.manifest.Some?
    ensures InstallShape(m, am.filename, o)
    ensures ValidateSelections(am.manifest.value.features, am.manifestOptions, sel).Err? ==> !o.ok && o.after == m
    ensures NeedsLooseLoader(DestToMember(am.names, am.manifest.value, sel)) ==> !o.ok && o.after == m
    ensures o.ok ==> (ValidateSelections(am.manifest.value.features, am.manifestOptions, sel).Ok?
                      && o.after.installed.items[am.filename].backend == Yumia
                      && o.after.installed.items[am.filename].featureSelections == Some(sel)
                      && o.after.installed.items[am.filename].summary == BuildFeatureSummary(am.manifest.value.features, sel))
  {
    var manifest := am.manifest.value;
    var check := ValidateSelections(manifest.features, am.manifestOptions, sel);
    if check.Err? then Refuse(m, check.error)
    else
      var d2m := DestToMember(am.names, manifest, sel);
      if d2m.keys == [] then Refuse(m, "No files found for the selected options.")
      else if NeedsLooseLoader(d2m) then Refuse(m, LooseRefusal(m, fx, true))
      else
        var yumiaMap := Filter(d2m, IsYumiaMember);
        if yumiaMap.keys == [] then Refuse(m, "No yumia-compatible files found for the selected options.")
        else
          var rec := YumiaRecord(am.filename, ManifestInstall, BuildFeatureSummary(manifest.features, sel), None, Some(sel));
          CopyAndCommit(m, a, Entries(yumiaMap), rec, fx)
  }

  /** Some selected member is a loose asset that yumia cannot take. */
  predicate NeedsLooseLoader(d2m: OMap<string>) {
    exists k | k in d2m.items :: IsLooseOnly(d2m.items[k])
  }

  /** The members of (destination, member) pairs. */
  function Members(pairs: seq<(string, string)>): (r: seq<string>)
    ensures |r| == |pairs| && forall i | 0 <= i < |pairs| :: r[i] == pairs[i].1
  {
    seq(|pairs|, i requires 0 <= i < |pairs| => pairs[i].1)
  }

  /** The yumia part of a manifest install once its files are known: the
      conflict check, the extraction, the copies and the commit. */
  function CopyAndCommit(m: Manager, a: Archive, pairs: seq<(string, string)>, rec: InstalledModRecord, fx: Effects): (o: Outcome)
    requires Valid(m.installed) && rec.archiveFilename !in m.installed.items
    ensures InstallShape(m, rec.archiveFilename, o)
    ensures YumiaConflicts(a, Members(pairs), m.installed, m.disk, fx.codecs) != [] ==> !o.ok && o.after == m
    ensures o.ok ==> (o.after.installed.items[rec.archiveFilename] ==
                      rec.(installedPaths := Paths(Copies(pairs, Extracted(a, Members(pairs))))))
  {
    var members := Members(pairs);
    var conflicts := YumiaConflicts(a, members, m.installed, m.disk, fx.codecs);
    if conflicts != [] then Refuse(m, ConflictMessage(conflicts, fx.samples))
    else if fx.extractError.Some? then Refuse(m, "Extraction failed: " + fx.extractError.value)
    else YumiaCommit(m, rec.archiveFilename, Copies(pairs, Extracted(a, members)), rec, fx.yumia)
  }

  // ---------------------------------------------------------------------
  // Installing loose files

  /** `_loose_record_from_files`: the folder `mods/<sanitised name>` and
      one path in it per converted file, in order. */
  function LooseRecordFromFiles(key: string, kind: InstallKind, summary: string, legacyName: Option<string>,
                                fsel: Option<Selections>, modName: string, files: seq<LooseFile>): (r: InstalledModRecord)
    ensures r.archiveFilename == key && r.backend == Loose && r.installKind == kind
    ensures r.summary == summary && r.legacyOptionName == legacyName && r.featureSelections == fsel
    ensures r.looseModDir.Some? && HasPrefix(r.looseModDir.value, LOOSE_MODS)
    ensures r.looseModDir.value[|LOOSE_MODS|..] == SanitizeModDirName(modName)
    ensures r.installedPaths == Paths(LooseWrites(r.looseModDir.value, files))
  {
    var dir := LOOSE_MODS + SanitizeModDirName(modName);
    assert dir[..|LOOSE_MODS|] == LOOSE_MODS;
    InstalledModRecord(key, Loose, kind, summary, legacyName, fsel, Paths(LooseWrites(dir, files)), Some(dir))
  }

  function Filenames(files: seq<LooseFile>): (r: seq<string>)
    ensures |r| == |files| && forall i | 0 <= i < |files| :: r[i] == files[i].filename
  {
    seq(|files|, i requires 0 <= i < |files| => files[i].filename)
  }

  /** The loose-file write fails part way. */
  predicate WriteFails(fx: Effects, files: seq<LooseFile>) {
    fx.writeFailure.Some? && fx.writeFailure.value.at < |files|
  }

  /** The end of every loose-file install: the folder check, the writes,
      then the record. A refused check changes nothing; a failed write
      leaves none of the files it wrote and nothing else changed. */
  function LooseCommit(m: Manager, rec: InstalledModRecord, files: seq<LooseFile>, fx: Effects): (o: Outcome)
    requires Valid(m.installed) && rec.archiveFilename !in m.installed.items && rec.looseModDir.Some?
    ensures var check := CheckLooseConflicts(m.installed, m.disk, fx.walk(m.disk), rec.looseModDir.value, Filenames(files), {});
      && (o.ok <==> check.Ok? && !WriteFails(fx, files))
      && (check.Err? ==> o.after == m && o.message == check.error)
      && (check.Ok? && WriteFails(fx, files) ==>
            o.after.disk == WriteLooseFiles(m.disk, rec.looseModDir.value, files, fx.writeFailure).1)
    ensures o.ok ==> o.after.installed == Put(m.installed, rec.archiveFilename, rec)
    ensures o.ok ==> o.after.disk == WriteAll(m.disk, LooseWrites(rec.looseModDir.value, files))
    ensures !o.ok ==> o.after.installed == m.installed
  {
    var dir := rec.looseModDir.value;
    var check := CheckLooseConflicts(m.installed, m.disk, fx.walk(m.disk), dir, Filenames(files), {});
    if check.Err? then Refuse(m, check.error)
    else
      var w := WriteLooseFiles(m.disk, dir, files, fx.writeFailure);
      if !w.0 then Outcome(Manager(m.installed, w.1), false, w.2)
      else Outcome(Manager(Put(m.installed, rec.archiveFilename, rec), w.1), true, w.2)
  }

  /** A loose-file install whose write fails leaves none of the files it
      wrote before the failure, whatever the raising write left at its own
      path, and every other file as it was. */
  lemma LooseCommitRollsBack(m: Manager, rec: InstalledModRecord, files: seq<LooseFile>, fx: Effects)
    requires Valid(m.installed) && rec.archiveFilename !in m.installed.items && rec.looseModDir.Some?
    requires CheckLooseConflicts(m.installed, m.disk, fx.walk(m.disk), rec.looseModDir.value, Filenames(files), {}).Ok?
    requires WriteFails(fx, files)
    ensures var o := LooseCommit(m, rec, files, fx);
      var dir := rec.looseModDir.value;
      var n := fx.writeFailure.value.at;
      var leftover := fx.writeFailure.value.leftover;
      && !o.ok && o.after.installed == m.installed
      && (forall i | 0 <= i < n :: dir + "/" + files[i].filename !in o.after.disk)
      && (leftover.Some? && (forall i | 0 <= i < n :: files[i].filename != files[n].filename) ==>
            dir + "/" + files[n].filename in o.after.disk && o.after.disk[dir + "/" + files[n].filename] == leftover.value)
      && SameOutside(o.after.disk, m.disk,
                     p => (exists i | 0 <= i < n :: p == dir + "/" + files[i].filename)
                          || (leftover.Some? && p == dir + "/" + files[n].filename))
  {
    WriteFailureClean(m.disk, rec.looseModDir.value, files, fx.writeFailure);
  }

  /** With a walk that lists what it should, a loose-file install is
      refused, and changes nothing, when an untracked file near the top of
      `mods/` is named like one of its files in any case. */
  lemma LooseCommitRefusesUntracked(m: Manager, rec: InstalledModRecord, files: seq<LooseFile>, fx: Effects,
                                    p: string, i: nat)
    requires Valid(m.installed) && rec.archiveFilename !in m.installed.items && rec.looseModDir.Some?
    requires WalkLists(m.disk, fx.walk(m.disk))
    requires p in m.disk && NearLooseRoot(p) && Lower(p) !in Tracked(m.installed, {})
    requires i < |files| && Lower(files[i].filename) == NameKey(p)
    ensures var o := LooseCommit(m, rec, files, fx); !o.ok && o.after == m
  {
    assert Filenames(files)[i] == files[i].filename;
    UntrackedNameBlocks(m.installed, m.disk, fx.walk(m.disk), rec.looseModDir.value, Filenames(files), {}, p, files[i].filename);
  }

  /** `_install_loose_legacy` */
  function InstallLooseLegacy(m: Manager, am: ModArchive, a: Archive, option: ModOption, fx: Effects): (o: Outcome)
    requires Valid(m.installed) && am.filename !in m.installed.items
    ensures InstallShape(m, am.filename, o)
    ensures ConvertSelected(a, SelectedOptionMembers(am, option), Some(am.name), None, map[], fx.codecs).Err? ==> !o.ok && o.after == m
    ensures o.ok ==> var rec := o.after.installed.items[am.filename];
      && rec.backend == Loose && rec.installKind == LegacyInstall
      && rec.summary == option.name && rec.legacyOptionName == Some(option.name)
  {
    match ConvertSelected(a, SelectedOptionMembers(am, option), Some(am.name), None, map[], fx.codecs)
    case Err(e) => Refuse(m, FormatLooseConversionError(e))
    case Ok(result) =>
      var rec := LooseRecordFromFiles(am.filename, LegacyInstall, option.name, Some(option.name), None, result.modName, result.files);
      LooseCommit(m, rec, result.files, fx)
  }

  const NOT_DIRECT: string := "This archive is not a direct LooseFileLoader mod."
  const SELECT_ONE: string := "Select at least one loose-file option to install."

  /** `install_direct_loose_mod` */
  function InstallDirectLooseMod(m: Manager, am: ModArchive, a: Archive, options: seq<ModOption>,
                                 backend: Option<Backend>, fx: Effects): (o: Outcome)
    requires Valid(m.installed)
    ensures InstallShape(m, am.filename, o)
    ensures am.filename in m.installed.items ==> !o.ok && o.after == m && o.message == AlreadyInstalled(am.filename)
    ensures am.kind != DirectLoose ==> !o.ok && o.after == m
    ensures ChooseBackend(m, backend, fx) != Some(Loose) ==> !o.ok && o.after == m
    ensures SelectedDirectLooseMembers(am, options) == [] ==> !o.ok && o.after == m
    ensures o.ok ==> var rec := o.after.installed.items[am.filename];
      && rec.backend == Loose && rec.installKind == LegacyInstall && rec.legacyOptionName == None
      && rec.summary == BuildDirectLooseSummary(am, options)
  {
    if am.filename in m.installed.items then Refuse(m, AlreadyInstalled(am.filename))
    else if am.kind != DirectLoose then Refuse(m, NOT_DIRECT)
    else match ChooseBackend(m, backend, fx)
      case None => Refuse(m, NO_BACKEND)
      case Some(Yumia) => Refuse(m, LooseRefusal(m, fx, false))
      case Some(Loose) =>
        var selected := SelectedDirectLooseMembers(am, options);
        if selected == [] then Refuse(m, SELECT_ONE)
        else match ConvertSelected(a, selected, Some(am.name), None, map[], fx.codecs)
          case Err(e) => Refuse(m, FormatLooseConversionError(e))
          case Ok(result) =>
            var rec := LooseRecordFromFiles(am.filename, LegacyInstall, BuildDirectLooseSummary(am, options), None, None,
                                            result.modName, result.files);
            LooseCommit(m, rec, result.files, fx)
  }

  /** `_install_loose_manifest` */
  function InstallLooseManifest(m: Manager, am: ModArchive, a: Archive, sel: Selections, fx: Effects): (o: Outcome)
    requires Valid(m.installed) && am.filename !in m.installed.items && am.manifest.Some?
    ensures InstallShape(m, am.filename, o)
    ensures ValidateSelections(am.manifest.value.features, am.manifestOptions, sel).Err? ==> !o.ok && o.after == m
    ensures BuildSelectedMembers(am.filename, am.names, am.manifest, sel).Err? ==> !o.ok && o.after == m
    ensures o.ok ==> var rec := o.after.installed.items[am.filename];
      && rec.backend == Loose && rec.installKind == ManifestInstall && rec.featureSelections == Some(sel)
      && rec.summary == BuildFeatureSummary(am.manifest.value.features, sel)
  {
    var manifest := am.manifest.value;
    var check := ValidateSelections(manifest.features, am.manifestOptions, sel);
    if check.Err? then Refuse(m, check.error)
    else match BuildSelectedMembers(am.filename, am.names, am.manifest, sel)
      case Err(e) => Refuse(m, FormatLooseConversionError(e))
      case Ok(selected) =>
        match ConvertSelected(a, selected, Some(am.name), am.manifest, sel, fx.codecs)
        case Err(e) => Refuse(m, FormatLooseConversionError(e))
        case Ok(result) =>
          var rec := LooseRecordFromFiles(am.filename, ManifestInstall, BuildFeatureSummary(manifest.features, sel), None,
                                          Some(sel), result.modName, result.files);
          LooseCommit(m, rec, result.files, fx)
  }

  // ---------------------------------------------------------------------
  // The public install entry points

  /** `install_legacy_mod` (and `install_mod`) */
  function InstallLegacyMod(m: Manager, am: ModArchive, a: Archive, option: ModOption, backend: Option<Backend>,
                            fx: Effects): (o: Outcome)
    requires Valid(m.installed)
    ensures InstallShape(m, am.filename, o)
    ensures am.filename in m.installed.items ==> !o.ok && o.after == m && o.message == AlreadyInstalled(am.filename)
    ensures ChooseBackend(m, backend, fx).None? ==> !o.ok && o.after == m
    ensures o.ok ==> Some(o.after.installed.items[am.filename].backend) == ChooseBackend(m, backend, fx)
  {
    if am.filename in m.installed.items then Refuse(m, AlreadyInstalled(am.filename))
    else match ChooseBackend(m, backend, fx)
      case None => Refuse(m, NO_BACKEND)
      case Some(Yumia) => InstallYumiaLegacy(m, am, a, option, fx)
      case Some(Loose) => InstallLooseLegacy(m, am, a, option, fx)
  }

  /** `install_manifest_mod`: only called on archives with a manifest. */
  function InstallManifestMod(m: Manager, am: ModArchive, a: Archive, sel: Selections, backend: Option<Backend>,
                              fx: Effects): (o: Outcome)
    requires Valid(m.installed) && am.manifest.Some?
    ensures InstallShape(m, am.filename, o)
    ensures am.filename in m.installed.items ==> !o.ok && o.after == m && o.message == AlreadyInstalled(am.filename)
    ensures ChooseBackend(m, backend, fx).None? ==> !o.ok && o.after == m
    ensures o.ok ==> (Some(o.after.installed.items[am.filename].backend) == ChooseBackend(m, backend, fx)
                      && ValidateSelections(am.manifest.value.features, am.manifestOptions, sel).Ok?)
  {
    if am.filename in m.installed.items then Refuse(m, AlreadyInstalled(am.filename))
    else match ChooseBackend(m, backend, fx)
      case None => Refuse(m, NO_BACKEND)
      case Some(Yumia) => InstallYumiaManifest(m, am, a, sel, fx)
      case Some(Loose) => InstallLooseManifest(m, am, a, sel, fx)
  }

  // ---------------------------------------------------------------------
  // Uninstalling

  const REAPPLY_FAILED: string := "but yumia re-application failed. Other legacy mods may not work correctly."

  /** `uninstall_mod`, `_uninstall_loose` and `_uninstall_yumia`: the
      record's files are removed; for a yumia record the index files are
      restored from their backups when both exist, the record is dropped,
      and the tool re-applies the remaining yumia mods, if any. A failed
      re-run still counts as an uninstall. */
  function UninstallMod(m: Manager, key: string, fx: Effects): (o: Outcome)
    requires Valid(m.installed)
    ensures Valid(o.after.installed)
    ensures o.ok <==> key in m.installed.items
    ensures !o.ok ==> o.after == m
    ensures o.ok ==> o.after.installed == Remove(m.installed, key)
    ensures o.ok && m.installed.items[key].backend == Loose ==>
      o.after.disk == Unlink(m.disk, m.installed.items[key].installedPaths)
    ensures o.ok && m.installed.items[key].backend == Yumia && !HasBackend(Remove(m.installed, key), Yumia) ==>
      o.after.disk == RestoredAfterUnlink(m.disk, m.installed.items[key].installedPaths)
  {
    if key !in m.installed.items then Refuse(m, "No installed mod found for " + key)
    else
      var rec := m.installed.items[key];
      var unlinked := Unlink(m.disk, rec.installedPaths);
      var removed := RemovedCount(m.disk, rec.installedPaths);
      var rest := Remove(m.installed, key);
      if rec.backend == Loose then
        Outcome(Manager(rest, unlinked), true, "Removed " + DecStr(removed) + " file(s)")
      else
        var restored := RestoredAfterUnlink(m.disk, rec.installedPaths);
        if !HasBackend(rest, Yumia) then
          Outcome(Manager(rest, restored), true, "Removed " + DecStr(removed) + " file(s)")
        else
          var run := RunYumia(restored, fx.yumia);
          if run.ok then Outcome(Manager(rest, run.disk), true, "Removed " + DecStr(removed) + " file(s)")
          else Outcome(Manager(rest, run.disk), true, "Mod removed (" + DecStr(removed) + " files), " + REAPPLY_FAILED)
  }

  /** The yumia record's files removed, then the index files restored when
      both backups exist. */
  function RestoredAfterUnlink(disk: Disk, paths: seq<string>): (r: Disk)
    ensures forall p | p in paths && !IsCore(p) :: p !in r
    ensures BackupsExist(disk) && (forall p | p in paths :: p != RDB_BACKUP && p != RDX_BACKUP) ==>
      RDB in r && RDX in r && r[RDB] == disk[RDB_BACKUP] && r[RDX] == disk[RDX_BACKUP]
    ensures SameOutside(r, disk, p => IsCore(p) || p in paths)
  {
    var unlinked := Unlink(disk, paths);
    if BackupsExist(unlinked) then RestoreBackups(unlinked) else unlinked
  }

  // ---------------------------------------------------------------------
  // Properties of the transactions

  /** A yumia install of a legacy option is refused, with nothing changed,
      when some yumia-managed mod shares an asset with it. */
  lemma {:induction false} YumiaConflictBlocksInstall(m: Manager, am: ModArchive, a: Archive, option: ModOption,
                                                      backend: Option<Backend>, fx: Effects, k: string)
    requires Valid(m.installed) && am.filename !in m.installed.items && am.kind != DirectLoose
    requires ChooseBackend(m, backend, fx) == Some(Yumia)
    requires k in m.installed.items && m.installed.items[k].backend == Yumia
    requires Overlap(FromArchive(a, SelectedOptionMembers(am, option), fx.codecs), m.installed.items[k], m.disk, fx.codecs) != {}
    ensures var o := InstallLegacyMod(m, am, a, option, backend, fx);
      !o.ok && o.after == m && HasPrefix(o.message, CONFLICT_HEAD)
  {
    YumiaConflictsExact(a, SelectedOptionMembers(am, option), m.installed, m.disk, fx.codecs, k);
  }

  /** A loose-file install is refused, with nothing changed, when one of
      its converted files is named like a file of an installed loose-file
      mod, in any case. */
  lemma {:induction false} LooseNameClashBlocksInstall(m: Manager, am: ModArchive, a: Archive, option: ModOption,
                                                       backend: Option<Backend>, fx: Effects, k: string, p: string, i: nat)
    requires Valid(m.installed) && am.filename !in m.installed.items
    requires ChooseBackend(m, backend, fx) == Some(Loose)
    requires var c := ConvertSelected(a, SelectedOptionMembers(am, option), Some(am.name), None, map[], fx.codecs);
      c.Ok? && i < |c.value.files| && Lower(c.value.files[i].filename) == NameKey(p)
    requires k in m.installed.items && m.installed.items[k].backend == Loose && p in m.installed.items[k].installedPaths
    ensures var o := InstallLegacyMod(m, am, a, option, backend, fx);
      !o.ok && o.after == m && HasPrefix(o.message, LOOSE_BLOCKED)
  {
    var result := ConvertSelected(a, SelectedOptionMembers(am, option), Some(am.name), None, map[], fx.codecs).value;
    var rec := LooseRecordFromFiles(am.filename, LegacyInstall, option.name, Some(option.name), None, result.modName, result.files);
    assert InstallLegacyMod(m, am, a, option, backend, fx) == InstallLooseLegacy(m, am, a, option, fx);
    assert InstallLooseLegacy(m, am, a, option, fx) == LooseCommit(m, rec, result.files, fx);
    assert Filenames(result.files)[i] in Filenames(result.files);
    SameNameBlocks(m.installed, m.disk, fx.walk(m.disk), rec.looseModDir.value, Filenames(result.files), {}, k, p,
                   result.files[i].filename);
  }

  /** When the archive holds none of the option's package files below its
      directory, the yumia install fails with nothing changed. */
  lemma NoFilesNoInstall(m: Manager, am: ModArchive, a: Archive, option: ModOption, backend: Option<Backend>, fx: Effects)
    requires Valid(m.installed) && am.filename !in m.installed.items && am.kind != DirectLoose
    requires ChooseBackend(m, backend, fx) == Some(Yumia)
    requires forall pf | pf in option.packageFiles :: option.internalPath + pf !in a.contents
    ensures var o := InstallLegacyMod(m, am, a, option, backend, fx);
      !o.ok && o.after == m
  {
    assert LegacyCopies(a, am, option) == [];
  }

  /** A failed yumia run takes back every file the install copied and adds
      no record; with a tool that only rewrites the index files, nothing
      else differs from before. */
  lemma YumiaFailureRollsBack(m: Manager, am: ModArchive, a: Archive, option: ModOption, backend: Option<Backend>, fx: Effects)
    requires Valid(m.installed) && am.filename !in m.installed.items && am.kind != DirectLoose
    requires ChooseBackend(m, backend, fx) == Some(Yumia)
    requires YumiaConflicts(a, SelectedOptionMembers(am, option), m.installed, m.disk, fx.codecs) == [] && fx.extractError.None?
    requires !RunYumia(WriteAll(m.disk, LegacyCopies(a, am, option)), fx.yumia).ok
    ensures var o := InstallLegacyMod(m, am, a, option, backend, fx);
      var copied := Paths(LegacyCopies(a, am, option));
      && !o.ok && o.after.installed == m.installed
      && (forall p | p in copied :: p !in o.after.disk)
      && (Confined(fx.yumia) ==> SameOutside(o.after.disk, m.disk, p => IsCore(p) || p in copied))
  {
    var copies := LegacyCopies(a, am, option);
    var rec := YumiaRecord(am.filename, LegacyInstall, option.name, Some(option.name), None);
    assert InstallLegacyMod(m, am, a, option, backend, fx) == InstallYumiaLegacy(m, am, a, option, fx);
    assert InstallYumiaLegacy(m, am, a, option, fx) == YumiaCommit(m, am.filename, copies, rec, fx.yumia);
  }

  /** A successful yumia install ran the tool over the copied files and
      recorded exactly those paths. */
  lemma YumiaRecordAfterRun(m: Manager, am: ModArchive, a: Archive, option: ModOption, backend: Option<Backend>, fx: Effects)
    requires Valid(m.installed)
    requires ChooseBackend(m, backend, fx) == Some(Yumia)
    requires InstallLegacyMod(m, am, a, option, backend, fx).ok
    ensures am.kind != DirectLoose
    ensures var copies := LegacyCopies(a, am, option);
      && copies != [] && RunYumia(WriteAll(m.disk, copies), fx.yumia).ok
      && InstallLegacyMod(m, am, a, option, backend, fx).after.installed.items[am.filename].installedPaths == Paths(copies)
  {
  }

  /** Uninstalling right after an install gives back the records as they
      were, in the same order. */
  lemma InstallUninstallRoundTrip(m: Manager, am: ModArchive, a: Archive, option: ModOption, backend: Option<Backend>,
                                  fx: Effects, fx2: Effects)
    requires Valid(m.installed)
    requires InstallLegacyMod(m, am, a, option, backend, fx).ok
    ensures var o := InstallLegacyMod(m, am, a, option, backend, fx);
      var u := UninstallMod(o.after, am.filename, fx2);
      u.ok && u.after.installed == m.installed
  {
    var o := InstallLegacyMod(m, am, a, option, backend, fx);
    RemovePut(m.installed, am.filename, o.after.installed.items[am.filename]);
    assert o.after.installed == Put(m.installed, am.filename, o.after.installed.items[am.filename]);
  }

  /** Uninstalling drops exactly the named record, keeps the others with
      their contents and in their order. */
  lemma UninstallKeepsOthers(m: Manager, key: string, fx: Effects, other: string)
    requires Valid(m.installed) && key in m.installed.items && other != key
    ensures var u := UninstallMod(m, key, fx);
      && key !in u.after.installed.items
      && (other in u.after.installed.items <==> other in m.installed.items)
      && (other in m.installed.items ==> u.after.installed.items[other] == m.installed.items[other])
      && Subsequence(u.after.installed.keys, m.installed.keys)
  {
    RemoveKeepsOrder(m.installed.keys, key);
  }

  /** `RemoveFromSeq` keeps the other keys in their order. */
  lemma {:induction false} RemoveKeepsOrder(s: seq<string>, k: string)
    ensures Subsequence(RemoveFromSeq(s, k), s)
  {
    if s != [] {
      RemoveKeepsOrder(s[1..], k);
      var t := RemoveFromSeq(s[1..], k);
      if s[0] == k {
        SubsequenceSkip(t, s);
      } else {
        assert RemoveFromSeq(s, k) == [s[0]] + t;
        assert ([s[0]] + t)[1..] == t;
      }
    }
  }

  /** Uninstalling a key with no record fails and changes nothing. */
  lemma UninstallAbsentFails(m: Manager, key: string, fx: Effects)
    requires Valid(m.installed) && key !in m.installed.items
    ensures var u := UninstallMod(m, key, fx);
      !u.ok && u.after == m && u.message == "No installed mod found for " + key
  {
  }

  /** Uninstalling a yumia mod re-runs the tool only when other yumia mods
      remain, over the disk with the mod's files gone and the index files
      restored, after the record is dropped; a failed re-run still reports
      success, with a warning. */
  lemma UninstallYumiaReapplies(m: Manager, key: string, fx: Effects)
    requires Valid(m.installed) && key in m.installed.items && m.installed.items[key].backend == Yumia
    ensures var u := UninstallMod(m, key, fx);
      var rest := Remove(m.installed, key);
      var restored := RestoredAfterUnlink(m.disk, m.installed.items[key].installedPaths);
      && u.ok && u.after.installed == rest
      && (!HasBackend(rest, Yumia) ==> u.after.disk == restored && !HasSuffix(u.message, REAPPLY_FAILED))
      && (HasBackend(rest, Yumia) ==> u.after.disk == RunYumia(restored, fx.yumia).disk
                                      && (HasSuffix(u.message, REAPPLY_FAILED) <==> !RunYumia(restored, fx.yumia).ok))
  {
    var removed := RemovedCount(m.disk, m.installed.items[key].installedPaths);
    var ok := "Removed " + DecStr(removed) + " file(s)";
    LastDiffers(ok, REAPPLY_FAILED);
    var bad := "Mod removed (" + DecStr(removed) + " files), " + REAPPLY_FAILED;
    assert bad[|bad| - |REAPPLY_FAILED|..] == REAPPLY_FAILED;
  }

  /** Strings that end differently do not share a suffix. */
  lemma LastDiffers(s: string, t: string)
    requires s != [] && t != [] && s[|s| - 1] != t[|t| - 1]
    ensures !HasSuffix(s, t)
  {
    if |t| <= |s| {
      assert s[|s| - |t|..][|t| - 1] == s[|s| - 1];
    }
  }
}

=== FILE: environment.dfy ===
/** Which backend the manager may install with: yumia needs its tool in the
    package directory, the loose-file workflow needs the DLL loader and the
    LooseFileLoader plugin with its settings; and once mods are installed
    through one backend, new installs keep to it. */
module Environment {
  import opened Wrappers
  import opened Text
  import opened OrderedMap
  import opened Records
  import opened Game

  /** The directories the status reports but never acts on: the package
      directory, the game root and the downloads folder. */
  datatype Dirs = Dirs(packageDir: bool, gameRoot: bool, modsDir: bool)

  /** `active_backend` */
  datatype Active = NoBackend | ActiveYumia | ActiveLoose

  /** `EnvironmentStatus` */
  datatype EnvironmentStatus = EnvironmentStatus(
    packageDirExists: bool, gameRootExists: bool, modsDirExists: bool,
    yumiaAvailable: bool, dllLoaderAvailable: bool,
    loosePluginDllAvailable: bool, loosePluginIniAvailable: bool, looseReady: bool,
    activeBackend: Active, hasActiveYumiaMods: bool, hasActiveLooseMods: bool,
    canInstall: bool, canMigrate: bool)

  /** Some installed mod went in through `b`. */
  predicate HasBackend(installed: Installed, b: Backend) {
    exists k | k in installed.items :: installed.items[k].backend == b
  }

  /** `get_environment_status` */
  function Status(dirs: Dirs, disk: Disk, installed: Installed): (s: EnvironmentStatus)
    ensures s.looseReady <==> DLL_LOADER in disk && PLUGIN_DLL in disk && PLUGIN_INI in disk
    ensures s.yumiaAvailable <==> YUMIA_EXE in disk
    ensures s.hasActiveYumiaMods <==> HasBackend(installed, Yumia)
    ensures s.hasActiveLooseMods <==> HasBackend(installed, Loose)
    ensures s.activeBackend == NoBackend <==> installed.items == map[]
    ensures s.canMigrate <==> HasBackend(installed, Yumia) && s.looseReady && BackupsExist(disk)
  {
    var yumia := YUMIA_EXE in disk;
    var dll := DLL_LOADER in disk;
    var pluginDll := PLUGIN_DLL in disk;
    var pluginIni := PLUGIN_INI in disk;
    var looseReady := dll && pluginDll && pluginIni;
    var hasYumia := HasBackend(installed, Yumia);
    var hasLoose := HasBackend(installed, Loose);
    var active := if hasYumia then ActiveYumia else if hasLoose then ActiveLoose else NoBackend;
    var canInstall := if hasYumia then yumia else if hasLoose then looseReady else looseReady || yumia;
    assert installed.items != map[] ==> hasYumia || hasLoose by {
      if installed.items != map[] {
        var k :| k in installed.items;
        assert installed.items[k].backend == Yumia || installed.items[k].backend == Loose;
      }
    }
    EnvironmentStatus(dirs.packageDir, dirs.gameRoot, dirs.modsDir, yumia, dll, pluginDll, pluginIni,
                      looseReady, active, hasYumia, hasLoose, canInstall, hasYumia && looseReady && BackupsExist(disk))
  }

  /** `resolve_install_backend`: the backend already in use, if it is
      available; with nothing installed, the loose-file workflow first. */
  function ResolveInstallBackend(s: EnvironmentStatus): Option<Backend> {
    if s.hasActiveYumiaMods then (if s.yumiaAvailable then Some(Yumia) else None)
    else if s.hasActiveLooseMods then (if s.looseReady then Some(Loose) else None)
    else if s.looseReady then Some(Loose)
    else if s.yumiaAvailable then Some(Yumia)
    else None
  }

  /** A backend is offered exactly when the status says an install is
      possible; it is one whose prerequisites are on disk; and it never
      mixes backends: with yumia mods installed it is yumia, with only
      loose mods installed it is the loose-file workflow. */
  lemma ResolveMatchesStatus(dirs: Dirs, disk: Disk, installed: Installed)
    ensures var s := Status(dirs, disk, installed);
      var b := ResolveInstallBackend(s);
      && (b.Some? <==> s.canInstall)
      && (b == Some(Yumia) ==> YUMIA_EXE in disk)
      && (b == Some(Loose) ==> DLL_LOADER in disk && PLUGIN_DLL in disk && PLUGIN_INI in disk)
      && (HasBackend(installed, Yumia) ==> b != Some(Loose))
      && (!HasBackend(installed, Yumia) && HasBackend(installed, Loose) ==> b != Some(Yumia))
      && (installed.items == map[] && DLL_LOADER in disk && PLUGIN_DLL in disk && PLUGIN_INI in disk ==> b == Some(Loose))
  {
    var s := Status(dirs, disk, installed);
    if installed.items == map[] {
      assert !HasBackend(installed, Yumia) && !HasBackend(installed, Loose);
    }
  }

  const LOADER_ADVICE: string :=
    "Install the DLL loader and LooseFileLoader using the buttons in Setup / Backend Status, then try again."
  const MIGRATE_ADVICE: string :=
    "LooseFileLoader is already installed, but new installs are still routed through yumia because you have active Yumia-managed mods. Use the Migrate Yumia Installs button in Setup / Backend Status, or uninstall the remaining Yumia-managed mods first."
  const SWITCH_ADVICE: string :=
    "LooseFileLoader is already installed. Switch to the loose-file workflow and try again."

  /** `_loose_backend_action_message`: why a loose-file mod cannot go in
      through yumia, and what to do about it. */
  function LooseActionMessage(s: EnvironmentStatus, selectionSpecific: bool): (r: string)
    ensures !s.looseReady ==> HasSuffix(r, LOADER_ADVICE)
    ensures s.looseReady && s.hasActiveYumiaMods ==> HasSuffix(r, MIGRATE_ADVICE)
    ensures s.looseReady && !s.hasActiveYumiaMods ==> HasSuffix(r, SWITCH_ADVICE)
  {
    var subject := if selectionSpecific then "This selected mod option uses LooseFileLoader files"
                   else "This mod is packaged for LooseFileLoader";
    var head := subject + " and cannot be installed with yumia.\n\n";
    var advice := if !s.looseReady then LOADER_ADVICE else if s.hasActiveYumiaMods then MIGRATE_ADVICE else SWITCH_ADVICE;
    Ends(head, advice);
    head + advice
  }
}

=== FILE: features.dfy ===
/** The backend manager's helpers between an archive's options and an
    install: the members an option selects, the messages and summaries it
    records, checking feature choices and recovering them from a record. */
module Features {
  import opened Wrappers
  import opened Text
  import opened OrderedMap
  import opened Manifest
  import opened Selection
  import opened Conversion
  import opened Scan
  import opened Records

  // ---------------------------------------------------------------------
  // Selected members

  /** `members` followed by the strings of `more` not seen before, each
      once, in order. */
  function AppendNew(members: seq<string>, more: seq<string>): (r: seq<string>)
    ensures |members| <= |r| && r[..|members|] == members
    ensures forall x :: x in r <==> x in members || x in more
    ensures forall i, j | |members| <= i < j < |r| :: r[i] != r[j]
    ensures forall i | |members| <= i < |r| :: r[i] !in members
    decreases |more|
  {
    if more == [] then members
    else
      var next := if more[0] in members then members else members + [more[0]];
      var r := AppendNew(next, more[1..]);
      assert next[..|members|] == members;
      assert r[..|members|] == r[..|next|][..|members|];
      assert forall x | x in more :: x == more[0] || x in more[1..];
      assert forall i | |members| <= i < |next| :: r[i] == more[0] && more[0] !in members;
      r
  }

  /** The strings `AppendNew` adds come in the order of their first
      occurrence in `more`. */
  lemma {:induction false} AppendNewInOrder(members: seq<string>, more: seq<string>)
    ensures var r := AppendNew(members, more);
      forall i, j | |members| <= i < j < |r| :: IndexOf(more, r[i]) < IndexOf(more, r[j])
    decreases |more|
  {
    if more != [] {
      var next := if more[0] in members then members else members + [more[0]];
      var r := AppendNew(members, more);
      assert r == AppendNew(next, more[1..]);
      AppendNewInOrder(next, more[1..]);
      forall i | |next| <= i < |r| ensures IndexOf(more, r[i]) == 1 + IndexOf(more[1..], r[i]) {
        assert r[i] !in next;
        assert r[i] != more[0];
      }
      if more[0] !in members {
        assert r[|members|] == more[0];
        forall j | |members| < j < |r| ensures IndexOf(more, r[|members|]) < IndexOf(more, r[j]) {
          assert r[j] != r[|members|];
        }
      }
    }
  }

  /** `_selected_option_members`: for a direct loose archive its common
      files and the option's files, without repeats; otherwise the option's
      files below its directory. */
  function SelectedOptionMembers(archive: ModArchive, option: ModOption): (r: seq<string>)
    ensures archive.kind == DirectLoose ==>
      Distinct(r) && forall x :: x in r <==> x in archive.commonFiles || x in option.packageFiles
    ensures archive.kind != DirectLoose ==>
      |r| == |option.packageFiles| && forall i | 0 <= i < |r| :: r[i] == option.internalPath + option.packageFiles[i]
  {
    if archive.kind == DirectLoose then AppendNew([], archive.commonFiles + option.packageFiles)
    else seq(|option.packageFiles|, i requires 0 <= i < |option.packageFiles| => option.internalPath + option.packageFiles[i])
  }

  /** The member lists an analysis points at are listed file members:
      every option's files below its directory, every common file, and a
      direct loose archive's options have no directory of their own. */
  predicate MembersListed(m: ModArchive, names: seq<string>) {
    && (forall o, y | o in m.options && y in o.packageFiles ::
          o.internalPath + y in names && !HasSuffix(o.internalPath + y, "/"))
    && (forall y | y in m.commonFiles :: y in names && !HasSuffix(y, "/"))
    && (m.kind == DirectLoose ==> forall o | o in m.options :: o.internalPath == "")
  }

  /** Every member an option selects is a listed file member. */
  lemma SelectedListed(m: ModArchive, names: seq<string>, o: ModOption, x: string)
    requires MembersListed(m, names) && o in m.options
    requires x in SelectedOptionMembers(m, o)
    ensures x in names && !HasSuffix(x, "/")
  {
    if m.kind == DirectLoose {
      if x !in m.commonFiles {
        assert o.internalPath + x == x;
      }
    } else {
      var i :| 0 <= i < |o.packageFiles| && x == o.internalPath + o.packageFiles[i];
    }
  }

  /** What the scan produces points at listed file members only. */
  lemma AnalyzeListed(a: Archive, codecs: Codecs)
    ensures MembersListed(Analyze(a, codecs), NormalizeNames(a.names))
  {
    var m := Analyze(a, codecs);
    var names := NormalizeNames(a.names);
    forall o, y | o in m.options && y in o.packageFiles
      ensures o.internalPath + y in names && !HasSuffix(o.internalPath + y, "/")
    {
      OptionFilesListed(a, codecs, o, y);
    }
    forall y | y in m.commonFiles ensures y in names && !HasSuffix(y, "/") {
      CommonFilesListed(a, codecs, y);
      if y != [] {
        assert y[|y| - 1] in y;
      }
    }
    if m.kind == DirectLoose {
      AnalyzeManifest(a, codecs);
      AnalyzeWithoutManifest(a, codecs);
      forall o | o in m.options ensures o.internalPath == "" {
        DirectLooseOptionPaths(Base(a), names, o);
      }
    }
  }

  /** The options of a direct loose archive have no directory of their own. */
  lemma DirectLooseOptionPaths(base: ModArchive, names: seq<string>, o: ModOption)
    requires base.kind != DirectLoose && Fallback(base, names).kind == DirectLoose
    requires o in Fallback(base, names).options
    ensures o.internalPath == ""
  {
    var loose := Where(names, IsLooseFile);
    FallbackDirectLoose(base, names);
    LayoutOptionsAtRoot(loose, o);
  }

  /** The files of several options, in order. */
  function AllFiles(options: seq<ModOption>): (r: seq<string>)
    ensures forall x :: x in r <==> exists o | o in options :: x in o.packageFiles
  {
    if options == [] then []
    else
      var rest := AllFiles(options[1..]);
      assert forall o | o in options[1..] :: o in options;
      assert forall o | o in options :: o == options[0] || o in options[1..];
      options[0].packageFiles + rest
  }

  /** `_selected_direct_loose_members`: the common files as they are, then
      every chosen option's files not seen before. */
  function SelectedDirectLooseMembers(archive: ModArchive, options: seq<ModOption>): (r: seq<string>)
    ensures |archive.commonFiles| <= |r| && r[..|archive.commonFiles|] == archive.commonFiles
    ensures forall x :: x in r <==> x in archive.commonFiles || exists o | o in options :: x in o.packageFiles
    ensures forall i, j | |archive.commonFiles| <= i < j < |r| :: r[i] != r[j]
  {
    AppendNew(archive.commonFiles, AllFiles(options))
  }

  /** The option files come after the common files in option order, each
      where it first occurs. */
  lemma SelectedDirectLooseOrder(archive: ModArchive, options: seq<ModOption>)
    ensures var r := SelectedDirectLooseMembers(archive, options);
      forall i, j | |archive.commonFiles| <= i < j < |r| :: IndexOf(AllFiles(options), r[i]) < IndexOf(AllFiles(options), r[j])
  {
    var all := AllFiles(options);
    var r := SelectedDirectLooseMembers(archive, options);
    assert r == AppendNew(archive.commonFiles, all);
    AppendNewInOrder(archive.commonFiles, all);
  }

  // ---------------------------------------------------------------------
  // Messages and summaries

  const COLLISION_ADVICE: string :=
    "Cannot install this loose-file mod because multiple selected files would produce the same final filename.\n\n"
  const NO_PAYLOADS_MESSAGE: string := "The selected archive does not contain any installable loose-file payloads."

  /** `_format_loose_conversion_error`: a collision keeps its message after
      an explanation, a conversion with nothing to emit gets a fixed
      message, anything else is passed on. */
  function FormatLooseConversionError(message: string): (r: string)
    ensures HasPrefix(message, COLLISION) ==> HasPrefix(r, COLLISION_ADVICE) && HasSuffix(r, message)
    ensures !HasPrefix(message, COLLISION) && HasPrefix(message, NO_PAYLOADS) ==> r == NO_PAYLOADS_MESSAGE
    ensures !HasPrefix(message, COLLISION) && !HasPrefix(message, NO_PAYLOADS) ==> r == message
  {
    if HasPrefix(message, COLLISION) then
      Begins(COLLISION_ADVICE, message);
      Ends(COLLISION_ADVICE, message);
      COLLISION_ADVICE + message
    else if HasPrefix(message, NO_PAYLOADS) then NO_PAYLOADS_MESSAGE
    else message
  }

  const COMMON_ONLY: string := "(common files only)"

  /** `_build_direct_loose_summary` */
  function BuildDirectLooseSummary(archive: ModArchive, options: seq<ModOption>): (r: string)
    ensures options != [] && archive.commonFiles == [] ==> r == Join(OptionNames(options), "; ")
    ensures options != [] && archive.commonFiles != [] ==> r == "Common + " + Join(OptionNames(options), "; ")
    ensures options == [] ==> r == (if archive.commonFiles != [] then COMMON_ONLY else DEFAULT_OPTION)
  {
    var names := OptionNames(options);
    if names != [] then
      var joined := Join(names, "; ");
      if archive.commonFiles != [] then "Common + " + joined else joined
    else if archive.commonFiles != [] then COMMON_ONLY
    else DEFAULT_OPTION
  }

  // ---------------------------------------------------------------------
  // Checking feature choices

  /** One feature's choice is acceptable: a required feature has one, and a
      choice is among the feature's discovered options. */
  predicate FeatureOk(f: Feature, options: map<string, seq<string>>, sel: Selections) {
    match Get(sel, f.name)
    case None => f.optional
    case Some(c) => c in Available(options, f.name)
  }

  /** Python's `repr` of a list of strings without quotes or backslashes. */
  function ListRepr(items: seq<string>): string {
    "[" + Join(seq(|items|, i requires 0 <= i < |items| => "'" + items[i] + "'"), ", ") + "]"
  }

  function FeatureError(f: Feature, options: map<string, seq<string>>, sel: Selections): string {
    match Get(sel, f.name)
    case None => "Required feature '" + f.name + "' has no option selected."
    case Some(c) =>
      "Invalid option '" + c + "' for feature '" + f.name + "'. Available options: " + ListRepr(Available(options, f.name))
  }

  /** `_validate_feature_selections`: the message of the first feature
      whose choice is not acceptable. */
  function ValidateSelections(features: seq<Feature>, options: map<string, seq<string>>, sel: Selections): (r: Result<()>)
    ensures r.Ok? <==> forall i | 0 <= i < |features| :: FeatureOk(features[i], options, sel)
    ensures r.Err? ==> exists i | 0 <= i < |features| ::
      && !FeatureOk(features[i], options, sel)
      && (forall j | 0 <= j < i :: FeatureOk(features[j], options, sel))
      && r.error == FeatureError(features[i], options, sel)
  {
    if features == [] then Ok(())
    else if !FeatureOk(features[0], options, sel) then Err(FeatureError(features[0], options, sel))
    else
      var r := ValidateSelections(features[1..], options, sel);
      assert forall i | 1 <= i < |features| :: features[i] == features[1..][i - 1];
      if r.Err? then
        var i :| 0 <= i < |features[1..]| && !FeatureOk(features[1..][i], options, sel)
          && (forall j | 0 <= j < i :: FeatureOk(features[1..][j], options, sel))
          && r.error == FeatureError(features[1..][i], options, sel);
        assert forall j | 0 <= j < i + 1 :: FeatureOk(features[j], options, sel);
        r
      else r
  }

  /** The default choices the converter makes pass the check. */
  lemma DefaultsValid(features: seq<Feature>, options: map<string, seq<string>>, requested: map<string, string>)
    requires Distinct(Names(features))
    requires DefaultSelections(features, options, requested).Ok?
    ensures ValidateSelections(features, options, DefaultSelections(features, options, requested).value).Ok?
  {
    var sel := DefaultSelections(features, options, requested).value;
    DefaultSelectionsDistinct(features, options, requested);
    forall i | 0 <= i < |features| ensures FeatureOk(features[i], options, sel) {
      assert features[i].name in Names(features);
    }
  }

  // ---------------------------------------------------------------------
  // Feature summaries

  /** The chosen features as (name, option) pairs, in manifest order. */
  function ChosenPairs(features: seq<Feature>, sel: Selections): (r: seq<(string, string)>)
    ensures forall p | p in r :: p.0 in Names(features) && Get(sel, p.0) == Some(p.1)
    ensures forall f | f in features && Get(sel, f.name).Some? :: (f.name, Get(sel, f.name).value) in r
  {
    if features == [] then []
    else
      var f := features[0];
      var rest := ChosenPairs(features[1..], sel);
      assert forall g | g in features :: g == f || g in features[1..];
      assert forall n | n in Names(features[1..]) :: n in Names(features) by {
        forall n | n in Names(features[1..]) ensures n in Names(features) {
          var i :| 0 <= i < |features[1..]| && Names(features[1..])[i] == n;
          assert Names(features)[i + 1] == n;
        }
      }
      assert f.name == Names(features)[0];
      (match Get(sel, f.name) case Some(c) => [(f.name, c)] case None => []) + rest
  }

  function SummaryPart(p: (string, string)): string {
    p.0 + ":" + (" " + p.1)
  }

  function SummaryParts(pairs: seq<(string, string)>): (r: seq<string>)
    ensures |r| == |pairs| && forall i | 0 <= i < |pairs| :: r[i] == SummaryPart(pairs[i])
  {
    seq(|pairs|, i requires 0 <= i < |pairs| => SummaryPart(pairs[i]))
  }

  /** `_build_feature_summary`: `name: option` for every chosen feature,
      joined by `; `. */
  function BuildFeatureSummary(features: seq<Feature>, sel: Selections): string {
    var parts := SummaryParts(ChosenPairs(features, sel));
    if parts == [] then COMMON_ONLY else Join(parts, "; ")
  }

  /** One `;`-separated chunk of a summary as a (feature, option) pair. */
  function SummaryEntry(chunk: string): Option<(string, string)> {
    EntryOf(Strip(chunk))
  }

  /** A stripped chunk: the text before its first `:` and after it, each
      stripped, or nothing for an empty chunk or one without `:`. */
  function EntryOf(part: string): Option<(string, string)> {
    if part == [] || ':' !in part then None
    else
      var (feature, option) := SplitOnce(part, ':');
      Some((Strip(feature), Strip(option)))
  }

  /** The values `f` gives, skipping the `None`s, in order. */
  function Somes<T, U>(s: seq<T>, f: T -> Option<U>): (r: seq<U>)
    ensures |r| <= |s|
  {
    if s == [] then []
    else (match f(s[0]) case Some(u) => [u] case None => []) + Somes(s[1..], f)
  }

  /** `_parse_feature_summary`: a later chunk naming the same feature wins. */
  function ParseFeatureSummary(summary: string): map<string, string> {
    PairsToMap(Somes(Split(summary, ';'), SummaryEntry))
  }

  /** When `f` gives a value everywhere, `Somes` is exactly those values. */
  lemma {:induction false} SomesAll<T, U>(s: seq<T>, f: T -> Option<U>, us: seq<U>)
    requires |s| == |us| && forall i | 0 <= i < |s| :: f(s[i]) == Some(us[i])
    ensures Somes(s, f) == us
    decreases |s|
  {
    if s != [] {
      SomesAll(s[1..], f, us[1..]);
      assert us == [us[0]] + us[1..];
    }
  }

  /** No surrounding whitespace. */
  predicate Trimmed(s: string) {
    s == [] || (!IsSpace(s[0]) && !IsSpace(s[|s| - 1]))
  }

  /** A name and an option that survive a summary: no `;` in either, no
      `:` in the name, no surrounding whitespace. */
  predicate Summarisable(p: (string, string)) {
    ';' !in p.0 && ':' !in p.0 && ';' !in p.1 && Trimmed(p.0) && Trimmed(p.1)
  }

  lemma LTrimCountIs(s: string, drop: char -> bool, k: nat)
    requires k <= |s| && (forall i | 0 <= i < k :: drop(s[i])) && (k == |s| || !drop(s[k]))
    ensures LTrimCount(s, drop) == k
  {
  }

  lemma RTrimCountIs(s: string, drop: char -> bool, k: nat)
    requires k <= |s| && (forall i | |s| - k <= i < |s| :: drop(s[i])) && (k == |s| || !drop(s[|s| - 1 - k]))
    ensures RTrimCount(s, drop) == k
  {
  }

  /** Whitespace around a trimmed, non-empty core is stripped away. */
  lemma StripAround(lead: string, core: string, trail: string)
    requires forall i | 0 <= i < |lead| :: IsSpace(lead[i])
    requires forall i | 0 <= i < |trail| :: IsSpace(trail[i])
    requires core != [] && Trimmed(core)
    ensures Strip(lead + core + trail) == core
  {
    var s := lead + core + trail;
    LTrimCountIs(s, IsSpace, |lead|);
    var l := LTrim(s, IsSpace);
    assert l == core + trail;
    RTrimCountIs(l, IsSpace, |trail|);
    assert l[..|l| - |trail|] == core;
  }

  lemma StripTrimmed(s: string)
    requires Trimmed(s)
    ensures Strip(s) == s
  {
    TrimUntouched(s, IsSpace);
  }

  /** A stripped chunk reads as the stripped halves around its first `:`. */
  lemma EntryOfHalves(n: string, rest: string)
    requires ':' !in n && Trimmed(n)
    ensures EntryOf(n + ":" + rest) == Some((n, Strip(rest)))
  {
    SplitOnceOf(n, rest, ':');
    assert n + [':'] + rest == n + ":" + rest;
    StripTrimmed(n);
  }

  /** A summary part with nothing chosen after the colon. */
  lemma EntryOfBarePart(n: string, lead: string)
    requires ':' !in n && Trimmed(n) && (lead == "" || lead == " ")
    ensures SummaryEntry(lead + SummaryPart((n, ""))) == Some((n, ""))
  {
    BarePartStrips(n, lead);
    BareEntry(n);
  }

  lemma BarePartStrips(n: string, lead: string)
    requires Trimmed(n) && (lead == "" || lead == " ")
    ensures Strip(lead + SummaryPart((n, ""))) == n + ":"
  {
    var core := n + ":";
    assert lead + SummaryPart((n, "")) == lead + core + " ";
    assert Trimmed(core) by {
      assert core[|core| - 1] == ':';
      if n != [] {
        assert core[0] == n[0];
      }
    }
    StripAround(lead, core, " ");
  }

  lemma BareEntry(n: string)
    requires ':' !in n && Trimmed(n)
    ensures EntryOf(n + ":") == Some((n, ""))
  {
    assert n + ":" + "" == n + ":";
    EntryOfHalves(n, "");
    StripTrimmed("");
  }

  /** A summary part with an option after the colon. */
  lemma EntryOfFullPart(n: string, v: string, lead: string)
    requires ':' !in n && Trimmed(n) && v != [] && Trimmed(v) && (lead == "" || lead == " ")
    ensures SummaryEntry(lead + SummaryPart((n, v))) == Some((n, v))
  {
    var core := n + ":" + (" " + v);
    assert lead + SummaryPart((n, v)) == lead + core + "";
    assert core[|core| - 1] == v[|v| - 1];
    StripAround(lead, core, "");
    EntryOfHalves(n, " " + v);
    StripSpaced(v);
  }

  lemma StripSpaced(v: string)
    requires v != [] && Trimmed(v)
    ensures Strip(" " + v) == v
  {
    assert " " + v + "" == " " + v;
    StripAround(" ", v, "");
  }

  /** The chunk a summary part becomes, after an optional leading space,
      reads back as the part's pair. */
  lemma EntryOfPart(p: (string, string), lead: string)
    requires Summarisable(p) && (lead == "" || lead == " ")
    ensures SummaryEntry(lead + SummaryPart(p)) == Some(p)
  {
    if p.1 == [] {
      EntryOfBarePart(p.0, lead);
    } else {
      EntryOfFullPart(p.0, p.1, lead);
    }
  }

  /** Prefixing the first part shifts the whole join. */
  lemma JoinPrefixFirst(x: string, parts: seq<string>, sep: string)
    requires parts != []
    ensures Join([x + parts[0]] + parts[1..], sep) == x + Join(parts, sep)
  {
    if |parts| > 1 {
      assert ([x + parts[0]] + parts[1..])[1..] == parts[1..];
    }
  }

  /** The chunks a `; `-joined text splits into at `;`: every part after the
      first keeps the space. */
  function Chunks(parts: seq<string>): (r: seq<string>)
    requires parts != []
    ensures |r| == |parts| && r[0] == parts[0]
    ensures forall i | 1 <= i < |parts| :: r[i] == " " + parts[i]
  {
    seq(|parts|, i requires 0 <= i < |parts| => if i == 0 then parts[0] else " " + parts[i])
  }

  /** Joining by `; ` is joining the chunks by `;`. */
  lemma {:induction false} JoinSpaced(parts: seq<string>)
    requires parts != []
    ensures Join(parts, "; ") == Join(Chunks(parts), ";")
    decreases |parts|
  {
    if |parts| > 1 {
      var rest := parts[1..];
      JoinSpaced(rest);
      var c := Chunks(parts);
      assert c[1..] == [" " + rest[0]] + Chunks(rest)[1..];
      JoinPrefixFirst(" ", Chunks(rest), ";");
      assert Join(c, ";") == parts[0] + ";" + Join(c[1..], ";");
    }
  }

  /** A chunk holds no `;` of its own. */
  lemma PartNoSemicolon(p: (string, string), lead: string)
    requires Summarisable(p) && (lead == "" || lead == " ")
    ensures ';' !in lead + SummaryPart(p)
  {
    assert lead + SummaryPart(p) == lead + p.0 + ":" + " " + p.1;
    assert ';' !in lead && ';' !in ":" && ';' !in " ";
  }

  /** A summary of summarisable pairs splits back into its chunks, and they
      read back as the pairs. */
  lemma SummaryEntries(pairs: seq<(string, string)>)
    requires pairs != [] && forall p | p in pairs :: Summarisable(p)
    ensures Somes(Split(Join(SummaryParts(pairs), "; "), ';'), SummaryEntry) == pairs
  {
    var parts := SummaryParts(pairs);
    var chunks := Chunks(parts);
    JoinSpaced(parts);
    forall i | 0 <= i < |chunks| ensures ';' !in chunks[i] && SummaryEntry(chunks[i]) == Some(pairs[i]) {
      assert pairs[i] in pairs;
      var lead := if i == 0 then "" else " ";
      assert chunks[i] == lead + SummaryPart(pairs[i]);
      EntryOfPart(pairs[i], lead);
      PartNoSemicolon(pairs[i], lead);
    }
    SplitJoin(chunks, ';');
    SomesAll(chunks, SummaryEntry, pairs);
  }

  /** A key of `dict(pairs)` holds the value of one of its pairs. */
  lemma {:induction false} PairsToMapValue<V>(pairs: seq<(string, V)>, k: string)
    requires k in PairsToMap(pairs)
    ensures (k, PairsToMap(pairs)[k]) in pairs
    decreases |pairs|
  {
    var init := pairs[..|pairs| - 1];
    var last := pairs[|pairs| - 1];
    if k != last.0 {
      assert Firsts(pairs) == Firsts(init) + [last.0];
      PairsToMapValue(init, k);
    }
  }

  /** The summary of the chosen features parses back to exactly the chosen
      features with their options, provided names and options are
      summarisable. */
  lemma SummaryRoundTrip(features: seq<Feature>, sel: Selections)
    requires forall f | f in features && Get(sel, f.name).Some? :: Summarisable((f.name, Get(sel, f.name).value))
    ensures var parsed := ParseFeatureSummary(BuildFeatureSummary(features, sel));
      && (forall k :: k in parsed <==> k in Names(features) && Get(sel, k).Some?)
      && (forall k | k in parsed :: Get(sel, k) == Some(parsed[k]))
  {
    var pairs := ChosenPairs(features, sel);
    var parsed := ParseFeatureSummary(BuildFeatureSummary(features, sel));
    if pairs == [] {
      CommonOnlyParsesEmpty();
      forall k | k in Names(features) && Get(sel, k).Some? ensures false {
        NamedFeature(features, k);
      }
    } else {
      forall p | p in pairs ensures Summarisable(p) {
        NamedFeature(features, p.0);
      }
      SummaryEntries(pairs);
      assert parsed == PairsToMap(pairs);
      ParsedChosen(features, sel, pairs, parsed);
    }
  }

  /** A name of the manifest belongs to one of its features. */
  lemma NamedFeature(features: seq<Feature>, k: string)
    requires k in Names(features)
    ensures exists f | f in features :: f.name == k
  {
    var i :| 0 <= i < |features| && Names(features)[i] == k;
    assert features[i] in features;
  }

  lemma ParsedChosen(features: seq<Feature>, sel: Selections, pairs: seq<(string, string)>, parsed: map<string, string>)
    requires pairs == ChosenPairs(features, sel) && parsed == PairsToMap(pairs)
    ensures forall k :: k in parsed <==> k in Names(features) && Get(sel, k).Some?
    ensures forall k | k in parsed :: Get(sel, k) == Some(parsed[k])
  {
    forall k ensures k in parsed <==> k in Names(features) && Get(sel, k).Some? {
      if k in Names(features) && Get(sel, k).Some? {
        NamedFeature(features, k);
        assert (k, Get(sel, k).value) in pairs;
        var j :| 0 <= j < |pairs| && pairs[j] == (k, Get(sel, k).value);
        assert Firsts(pairs)[j] == k;
      }
      if k in parsed {
        var j :| 0 <= j < |pairs| && Firsts(pairs)[j] == k;
        assert pairs[j] in pairs;
      }
    }
    forall k | k in parsed ensures Get(sel, k) == Some(parsed[k]) {
      PairsToMapValue(pairs, k);
    }
  }

  lemma CommonOnlyChars()
    ensures ':' !in COMMON_ONLY && ';' !in COMMON_ONLY && Trimmed(COMMON_ONLY)
  {
  }

  /** The summary of a selection with nothing chosen parses to nothing. */
  lemma CommonOnlyParsesEmpty()
    ensures ParseFeatureSummary(COMMON_ONLY) == map[]
  {
    var s := COMMON_ONLY;
    CommonOnlyChars();
    SplitHead(s, ';');
    StripTrimmed(s);
    assert EntryOf(s) == None;
    assert Somes([s], SummaryEntry) == [];
  }
}

=== FILE: game.dfy ===
/** The game directory as the managers touch it: files by path relative to
    the game root, the RDB index files and their backups, the yumia tool
    that patches the index, archive extraction and loose-file writes.
    Directories are implicit: a directory exists while a file below it
    does, so removing empty directories changes nothing here. */
module Game {
  import opened Wrappers
  import opened Bytes
  import opened Text
  import opened Conversion
  import opened Records
  import opened Manifest

  /** The game files, by path relative to the game root. */
  type Disk = map<string, Bytes>

  const YUMIA_EXE: string := "package/yumia_mod_insert_into_rdb.exe"
  const DLL_LOADER: string := "DINPUT8.dll"
  const PLUGIN_DLL: string := "plugins/LooseFileLoader.dll"
  const PLUGIN_INI: string := "plugins/LooseFileLoader.ini"
  const LOOSE_MODS: string := "mods/"

  /** `CORE_RDB_FILES` and `CORE_RDB_BACKUPS`, below the package directory. */
  const RDB: string := "package/root.rdb"
  const RDX: string := "package/root.rdx"
  const RDB_BACKUP: string := "package/root.rdb.original"
  const RDX_BACKUP: string := "package/root.rdx.original"

  predicate IsCore(p: string) {
    p == RDB || p == RDX
  }

  /** The two disks hold the same files outside the paths `except` allows. */
  ghost predicate SameOutside(a: Disk, b: Disk, except: string -> bool) {
    forall p | !except(p) :: (p in a <==> p in b) && (p in a ==> a[p] == b[p])
  }

  // ---------------------------------------------------------------------
  // Removing and writing files

  /** `unlink` of every listed path that exists. */
  function Unlink(disk: Disk, paths: seq<string>): (r: Disk)
    ensures forall p :: p in r <==> p in disk && p !in paths
    ensures forall p | p in r :: r[p] == disk[p]
  {
    map p | p in disk && p !in paths :: disk[p]
  }

  /** The number of listed paths that existed: a path listed twice is
      missing the second time. */
  function RemovedCount(disk: Disk, paths: seq<string>): nat {
    |set p | p in paths && p in disk|
  }

  /** Writes in order; a later write to a path replaces an earlier one. */
  function WriteAll(disk: Disk, writes: seq<(string, Bytes)>): (r: Disk)
    ensures forall p :: p in r <==> p in disk || exists i | 0 <= i < |writes| :: writes[i].0 == p
    ensures forall p | p in disk && forall i | 0 <= i < |writes| :: writes[i].0 != p :: r[p] == disk[p]
    ensures forall i | 0 <= i < |writes| && (forall j | i < j < |writes| :: writes[j].0 != writes[i].0) ::
      r[writes[i].0] == writes[i].1
    decreases |writes|
  {
    if writes == [] then disk
    else
      var r := WriteAll(disk[writes[0].0 := writes[0].1], writes[1..]);
      assert forall i | 1 <= i < |writes| :: writes[i] == writes[1..][i - 1];
      r
  }

  // ---------------------------------------------------------------------
  // RDB backups and the yumia tool

  /** `_backups_exist` */
  predicate BackupsExist(disk: Disk) {
    RDB_BACKUP in disk && RDX_BACKUP in disk
  }

  function RestoreOne(disk: Disk, core: string, backup: string): Disk {
    if backup in disk then disk[core := disk[backup]] else disk
  }

  /** `_restore_rdb_backups`: each core file that has a backup gets its
      contents; one without keeps what it had. */
  function RestoreBackups(disk: Disk): (r: Disk)
    ensures SameOutside(r, disk, IsCore)
    ensures RDB_BACKUP in disk ==> RDB in r && r[RDB] == disk[RDB_BACKUP]
    ensures RDX_BACKUP in disk ==> RDX in r && r[RDX] == disk[RDX_BACKUP]
    ensures RDB_BACKUP !in disk ==> (RDB in r <==> RDB in disk) && (RDB in r ==> r[RDB] == disk[RDB])
    ensures RDX_BACKUP !in disk ==> (RDX in r <==> RDX in disk) && (RDX in r ==> r[RDX] == disk[RDX])
  {
    RestoreOne(RestoreOne(disk, RDB, RDB_BACKUP), RDX, RDX_BACKUP)
  }

  /** What one run of the tool reports and leaves behind. */
  datatype YumiaRun = YumiaRun(ok: bool, disk: Disk, output: string)

  /** The tool only rewrites the index files. */
  ghost predicate Confined(yumia: Disk -> YumiaRun) {
    forall d :: SameOutside(yumia(d).disk, d, IsCore)
  }

  /** `run_yumia`: nothing runs when the tool is missing. */
  function RunYumia(disk: Disk, yumia: Disk -> YumiaRun): (r: YumiaRun)
    ensures YUMIA_EXE !in disk ==> !r.ok && r.disk == disk
    ensures YUMIA_EXE in disk ==> r == yumia(disk)
  {
    if YUMIA_EXE !in disk then YumiaRun(false, disk, "yumia exe not found at " + YUMIA_EXE)
    else yumia(disk)
  }

  /** Copying files, running a confined tool and removing the copies
      again changes nothing but the index files and the copied paths. */
  lemma CopyRunUnlink(disk: Disk, copies: seq<(string, Bytes)>, yumia: Disk -> YumiaRun)
    requires Confined(yumia)
    ensures SameOutside(Unlink(RunYumia(WriteAll(disk, copies), yumia).disk, Paths(copies)), disk,
                        p => IsCore(p) || p in Paths(copies))
  {
    var copied := WriteAll(disk, copies);
    var run := RunYumia(copied, yumia);
    var r := Unlink(run.disk, Paths(copies));
    assert SameOutside(run.disk, copied, IsCore);
    forall p | !(IsCore(p) || p in Paths(copies))
      ensures (p in r <==> p in disk) && (p in r ==> r[p] == disk[p])
    {
      assert forall i | 0 <= i < |copies| :: copies[i].0 != p by {
        assert forall i | 0 <= i < |copies| :: Paths(copies)[i] == copies[i].0;
      }
    }
  }

  // ---------------------------------------------------------------------
  // Extraction and loose-file writes

  /** `_extract_from_archive` into an empty temporary directory: the
      listed members the archive holds. */
  function Extracted(a: Archive, members: seq<string>): (r: map<string, Bytes>)
    ensures forall m :: m in r <==> m in members && m in a.contents
    ensures forall m | m in r :: r[m] == a.contents[m]
  {
    map m | m in members && m in a.contents :: a.contents[m]
  }

  /** The loose files as writes below `dir`. */
  function LooseWrites(dir: string, files: seq<LooseFile>): (r: seq<(string, Bytes)>)
    ensures |r| == |files|
    ensures forall i | 0 <= i < |files| :: r[i] == (dir + "/" + files[i].filename, files[i].data)
  {
    seq(|files|, i requires 0 <= i < |files| => (dir + "/" + files[i].filename, files[i].data))
  }

  function Paths(writes: seq<(string, Bytes)>): (r: seq<string>)
    ensures |r| == |writes| && forall i | 0 <= i < |writes| :: r[i] == writes[i].0
  {
    seq(|writes|, i requires 0 <= i < |writes| => writes[i].0)
  }

  /** A `write_bytes` that raises: the index of the write that raises, and
      what it leaves at its own path, either nothing changed (`None`) or a
      file created or truncated to hold whatever part of the data reached it. */
  datatype WriteFailure = WriteFailure(at: nat, leftover: Option<Bytes>)

  /** The disk once a raising write has left `leftover` at `path`. */
  function Clobber(disk: Disk, path: string, leftover: Option<Bytes>): (r: Disk)
    ensures leftover.None? ==> r == disk
    ensures leftover.Some? ==> path in r && r[path] == leftover.value
    ensures forall p | p != path :: (p in r <==> p in disk) && (p in r ==> r[p] == disk[p])
  {
    if leftover.Some? then disk[path := leftover.value] else disk
  }

  /** `_write_loose_files`: the files are written in order; when writing
      the one at `failure.at` raises, the ones already written are removed
      again and the install fails. The path that raised is not among them,
      so whatever the raising write left there stays. */
  function WriteLooseFiles(disk: Disk, dir: string, files: seq<LooseFile>, failure: Option<WriteFailure>): (r: (bool, Disk, string))
    ensures r.0 <==> !(failure.Some? && failure.value.at < |files|)
    ensures r.0 ==> r.1 == WriteAll(disk, LooseWrites(dir, files))
    ensures !r.0 ==> r.1 == Unlink(Clobber(disk, dir + "/" + files[failure.value.at].filename, failure.value.leftover),
                                   Paths(LooseWrites(dir, files)[..failure.value.at]))
  {
    var writes := LooseWrites(dir, files);
    if failure.Some? && failure.value.at < |files| then
      var done := writes[..failure.value.at];
      var partial := Clobber(WriteAll(disk, done), writes[failure.value.at].0, failure.value.leftover);
      WrittenThenRemoved(disk, done, writes[failure.value.at].0, failure.value.leftover);
      (false, Unlink(partial, Paths(done)), "Loose install failed: write error")
    else
      (true, WriteAll(disk, writes), "Installed " + DecStr(|files|) + " file(s)")
  }

  /** A failed write leaves none of the files written before the failure;
      the path that raised keeps what the raising write left there unless
      an earlier file shares it; nothing else changes. */
  lemma WriteFailureClean(disk: Disk, dir: string, files: seq<LooseFile>, failure: Option<WriteFailure>)
    requires failure.Some? && failure.value.at < |files|
    ensures var r := WriteLooseFiles(disk, dir, files, failure);
      var n := failure.value.at;
      && !r.0
      && (forall i | 0 <= i < n :: dir + "/" + files[i].filename !in r.1)
      && (failure.value.leftover.Some? && (forall i | 0 <= i < n :: files[i].filename != files[n].filename) ==>
            dir + "/" + files[n].filename in r.1 && r.1[dir + "/" + files[n].filename] == failure.value.leftover.value)
      && SameOutside(r.1, disk, p => (exists i | 0 <= i < n :: p == dir + "/" + files[i].filename)
                                    || (failure.value.leftover.Some? && p == dir + "/" + files[n].filename))
  {
    var n := failure.value.at;
    LoosePathsBefore(dir, files, n);
    forall i | 0 <= i < n && files[i].filename != files[n].filename
      ensures dir + "/" + files[i].filename != dir + "/" + files[n].filename
    {
      OneDirOneName(dir, files[i].filename, files[n].filename);
    }
  }

  /** Writing, leaving something at one more path, then removing what was
      written is the same as leaving that something alone. */
  lemma WrittenThenRemoved(disk: Disk, done: seq<(string, Bytes)>, fail: string, leftover: Option<Bytes>)
    ensures Unlink(Clobber(WriteAll(disk, done), fail, leftover), Paths(done)) == Unlink(Clobber(disk, fail, leftover), Paths(done))
  {
  }

  /** The paths of the first `n` loose files are the first `n` names below
      `dir`. */
  lemma LoosePathsBefore(dir: string, files: seq<LooseFile>, n: nat)
    requires n <= |files|
    ensures forall p :: p in Paths(LooseWrites(dir, files)[..n]) <==> exists i | 0 <= i < n :: p == dir + "/" + files[i].filename
  {
    var ps := Paths(LooseWrites(dir, files)[..n]);
    forall i | 0 <= i < n ensures dir + "/" + files[i].filename in ps {
      assert ps[i] == dir + "/" + files[i].filename;
    }
  }

  /** Below one directory, different names are different paths. */
  lemma OneDirOneName(dir: string, a: string, b: string)
    ensures dir + "/" + a == dir + "/" + b ==> a == b
  {
    assert (dir + "/" + a)[|dir| + 1..] == a;
    assert (dir + "/" + b)[|dir| + 1..] == b;
  }

  /** A successful write leaves each file with its data when no two share
      a path, and touches nothing else. */
  lemma WriteSuccessPlaced(disk: Disk, dir: string, files: seq<LooseFile>, failure: Option<WriteFailure>, i: nat)
    requires !(failure.Some? && failure.value.at < |files|)
    requires i < |files| && forall j | 0 <= j < |files| && j != i :: files[j].filename != files[i].filename
    ensures var r := WriteLooseFiles(disk, dir, files, failure);
      r.0 && dir + "/" + files[i].filename in r.1 && r.1[dir + "/" + files[i].filename] == files[i].data
  {
    var w := LooseWrites(dir, files);
    forall j | i < j < |w| ensures w[j].0 != w[i].0 {
      assert files[j].filename != files[i].filename;
      assert (dir + "/" + files[j].filename)[|dir| + 1..] == files[j].filename;
      assert (dir + "/" + files[i].filename)[|dir| + 1..] == files[i].filename;
    }
  }
}

=== FILE: hex.dfy ===
/** Hexadecimal text: the `f"{n:08X}"` format used for asset file names and
    Python's `hex(n)` used for unknown type hashes. */
module Hex {
  import opened Bytes

  predicate IsHexDigit(c: char) {
    ('0' <= c <= '9') || ('a' <= c <= 'f') || ('A' <= c <= 'F')
  }

  predicate IsUpperHexDigit(c: char) {
    ('0' <= c <= '9') || ('A' <= c <= 'F')
  }

  function DigitChar(d: nat, upper: bool): (c: char)
    requires d < 16
    ensures IsHexDigit(c)
    ensures upper ==> IsUpperHexDigit(c)
    ensures !upper ==> c != '.'
  {
    if d < 10 then ('0' as int + d) as char
    else if upper then ('A' as int + d - 10) as char
    else ('a' as int + d - 10) as char
  }

  function DigitValue(c: char): (d: nat)
    requires IsHexDigit(c)
    ensures d < 16
  {
    if '0' <= c <= '9' then c as int - '0' as int
    else if 'a' <= c <= 'f' then c as int - 'a' as int + 10
    else c as int - 'A' as int + 10
  }

  lemma DigitRoundTrip(d: nat, upper: bool)
    requires d < 16
    ensures DigitValue(DigitChar(d, upper)) == d
  {
  }

  predicate AllHex(s: string) {
    forall i :: 0 <= i < |s| ==> IsHexDigit(s[i])
  }

  /** The number a string of hex digits denotes. */
  function ParseHex(s: string): nat
    requires AllHex(s)
  {
    if s == [] then 0 else ParseHex(s[..|s| - 1]) * 16 + DigitValue(s[|s| - 1])
  }

  /** The shortest hex spelling of `n` (one digit for zero). */
  function Digits(n: nat, upper: bool): (r: string)
    ensures |r| >= 1
    ensures AllHex(r)
    ensures upper ==> forall i :: 0 <= i < |r| ==> IsUpperHexDigit(r[i])
    ensures '.' !in r
  {
    if n < 16 then [DigitChar(n, upper)] else Digits(n / 16, upper) + [DigitChar(n % 16, upper)]
  }

  lemma {:induction false} DigitsValue(n: nat, upper: bool)
    ensures ParseHex(Digits(n, upper)) == n
  {
    DigitRoundTrip(n % 16, upper);
    if n >= 16 {
      DigitsValue(n / 16, upper);
      var r := Digits(n, upper);
      assert r[..|r| - 1] == Digits(n / 16, upper);
    }
  }

  lemma {:induction false} DigitsLength(n: nat, upper: bool, k: nat)
    requires k >= 1 && n < Pow16(k)
    ensures |Digits(n, upper)| <= k
  {
    if n >= 16 {
      DigitsLength(n / 16, upper, k - 1);
    }
  }

  function Pow16(k: nat): nat {
    if k == 0 then 1 else 16 * Pow16(k - 1)
  }

  /** Left-pads `s` with `c` to at least `width` characters (`str.rjust`). */
  function PadLeft(s: string, width: nat, c: char): (r: string)
    ensures |s| >= width ==> r == s
    ensures |s| < width ==> |r| == width && r[width - |s|..] == s
    ensures forall i :: 0 <= i < |r| - |s| ==> r[i] == c
  {
    if |s| >= width then s else seq(width - |s|, _ => c) + s
  }

  lemma {:induction false} LeadingZeros(z: nat, s: string)
    requires AllHex(s)
    ensures AllHex(seq(z, _ => '0') + s)
    ensures ParseHex(seq(z, _ => '0') + s) == ParseHex(s)
    decreases |s|
  {
    var t := seq(z, _ => '0') + s;
    if s == [] {
      ZerosValue(z);
      assert t == seq(z, _ => '0');
    } else {
      LeadingZeros(z, s[..|s| - 1]);
      assert t[..|t| - 1] == seq(z, _ => '0') + s[..|s| - 1];
    }
  }

  lemma {:induction false} ZerosValue(z: nat)
    ensures ParseHex(seq(z, _ => '0')) == 0
  {
    if z > 0 {
      ZerosValue(z - 1);
      assert seq(z, _ => '0')[..z - 1] == seq(z - 1, _ => '0');
    }
  }

  /** `f"{n:08X}"` */
  function Hex08X(n: nat): string {
    PadLeft(Digits(n, true), 8, '0')
  }

  /** `hex(n)` for a non-negative `n`. */
  function PyHex(n: nat): (r: string)
    ensures '.' !in r
  {
    "0x" + Digits(n, false)
  }

  /** A 32-bit value prints as exactly eight upper-case hex digits that
      read back as the value. */
  lemma Hex08XShape(n: nat)
    requires n < U32_LIMIT
    ensures |Hex08X(n)| == 8
    ensures forall i :: 0 <= i < 8 ==> IsUpperHexDigit(Hex08X(n)[i])
    ensures ParseHex(Hex08X(n)) == n
  {
    assert Pow16(8) == U32_LIMIT;
    DigitsLength(n, true, 8);
    DigitsValue(n, true);
    var d := Digits(n, true);
    if |d| < 8 {
      LeadingZeros(8 - |d|, d);
      assert Hex08X(n) == seq(8 - |d|, _ => '0') + d;
    }
  }
}

=== FILE: legacy_manager.dfy ===
/** The older, yumia-only manager: one record per archive in a manifest
    whose files are named relative to the package directory, installs that
    copy an option's package files and run the tool, and uninstalls that
    remove them, restore `system.rdb` and `root.rdb` from their backups
    and re-run the tool for the mods that remain. */
module LegacyManager {
  import opened Wrappers
  import opened Bytes
  import opened Text
  import opened OrderedMap
  import opened Manifest
  import opened Conversion
  import opened Scan
  import opened Records
  import opened Game
  import Selection
  import opened Conflicts
  import opened InstallState
  import opened Engine

  /** `CORE_RDB_FILES` and `CORE_RDB_BACKUPS` of this manager, below the
      package directory. */
  const SYSTEM_RDB: string := "package/system.rdb"
  const SYSTEM_RDB_BACKUP: string := "package/system.rdb.original"

  predicate IsLegacyCore(p: string) {
    p == SYSTEM_RDB || p == RDB
  }

  /** The records, keyed by archive file name, and the game files. */
  datatype LegacyState = LegacyState(installed: OMap<LegacyRecord>, disk: Disk)

  /** A call's `(ok, message)` and the state it leaves. */
  datatype LegacyOutcome = LegacyOutcome(after: LegacyState, ok: bool, message: string)

  function Decline(m: LegacyState, message: string): (o: LegacyOutcome)
    ensures !o.ok && o.after == m && o.message == message
  {
    LegacyOutcome(m, false, message)
  }

  /** The game paths of files named relative to the package directory. */
  function PackagePaths(files: seq<string>): (r: seq<string>)
    ensures |r| == |files|
    ensures forall i | 0 <= i < |r| :: r[i] == PACKAGE_DIR + files[i]
  {
    seq(|files|, i requires 0 <= i < |files| => PACKAGE_DIR + files[i])
  }

  // ---------------------------------------------------------------------
  // The records as the conflict check sees them

  /** A record of this manager read as a yumia record of the current one. */
  function AsRecord(l: LegacyRecord): (r: InstalledModRecord)
    ensures r.archiveFilename == l.archiveFilename && r.backend == Yumia
    ensures InstalledFiles(r) == l.installedFiles
  {
    var r := InstalledModRecord(l.archiveFilename, Yumia, LegacyInstall, l.optionName, Some(l.optionName), None,
                                PackagePaths(l.installedFiles), None);
    forall i | 0 <= i < |l.installedFiles| ensures InstalledFiles(r)[i] == l.installedFiles[i] {
      assert (PACKAGE_DIR + l.installedFiles[i])[..|PACKAGE_DIR|] == PACKAGE_DIR;
      assert (PACKAGE_DIR + l.installedFiles[i])[|PACKAGE_DIR|..] == l.installedFiles[i];
    }
    r
  }

  /** Every record read through `AsRecord`, in the same order. */
  function View(installed: OMap<LegacyRecord>): (r: Installed)
    requires Valid(installed)
    ensures Valid(r) && r.keys == installed.keys
    ensures forall k | k in r.items :: r.items[k] == AsRecord(installed.items[k])
  {
    OMap(installed.keys, map k | k in installed.items :: AsRecord(installed.items[k]))
  }

  /** The archive members an option reads: its package files below its
      directory in the archive. */
  function OptionMembers(option: ModOption): (r: seq<string>)
    ensures |r| == |option.packageFiles|
    ensures forall i | 0 <= i < |r| :: r[i] == option.internalPath + option.packageFiles[i]
  {
    var pairs := OptionPairs(option);
    seq(|pairs|, i requires 0 <= i < |pairs| => pairs[i].1)
  }

  /** The installed mods sharing a game asset with the option's sidecars. */
  function LegacyConflicts(a: Archive, option: ModOption, m: LegacyState, codecs: Codecs): (r: seq<Conflict>)
    requires Valid(m.installed)
    ensures forall k | k in m.installed.items ::
      (FromArchive(a, OptionMembers(option), codecs) * FromDisk(m.disk, m.installed.items[k].installedFiles, codecs) != {}
       ==> k in Selection.Firsts(r))
    ensures forall i | 0 <= i < |r| :: r[i].0 in m.installed.items && r[i].1 != {}
  {
    var view := View(m.installed);
    var r := FindConflicts(a, OptionMembers(option), view, m.disk, codecs);
    assert forall k | k in m.installed.items :: InstalledFiles(view.items[k]) == m.installed.items[k].installedFiles;
    r
  }

  // ---------------------------------------------------------------------
  // Installing

  /** The copies an option makes: each package file the archive holds
      below the option's directory goes to the same name below `package/`. */
  function OptionCopies(a: Archive, option: ModOption): (r: seq<(string, Bytes)>)
    ensures r == [] <==> forall pf | pf in option.packageFiles :: option.internalPath + pf !in a.contents
    ensures forall i | 0 <= i < |r| :: HasPrefix(r[i].0, PACKAGE_DIR)
    ensures forall pf | pf in option.packageFiles && option.internalPath + pf in a.contents ::
      (PACKAGE_DIR + pf, a.contents[option.internalPath + pf]) in r
  {
    var pairs := OptionPairs(option);
    var extracted := Extracted(a, OptionMembers(option));
    var r := Copies(pairs, extracted);
    CopiesUnderPackage(pairs, extracted);
    forall pf | pf in option.packageFiles
      ensures option.internalPath + pf in a.contents <==> exists i | 0 <= i < |pairs| :: pairs[i].0 == pf && pairs[i].1 in extracted
    {
      var j :| 0 <= j < |option.packageFiles| && option.packageFiles[j] == pf;
      assert pairs[j].0 == pf && OptionMembers(option)[j] == pairs[j].1;
    }
    assert forall i | 0 <= i < |pairs| :: pairs[i].0 in option.packageFiles by {
      forall i | 0 <= i < |pairs| ensures pairs[i].0 in option.packageFiles {
        assert option.packageFiles[i] in option.packageFiles;
      }
    }
    r
  }

  /** The recorded names of the copies: their paths below `package/`. */
  function Copied(copies: seq<(string, Bytes)>): (r: seq<string>)
    requires forall i | 0 <= i < |copies| :: HasPrefix(copies[i].0, PACKAGE_DIR)
    ensures PackagePaths(r) == Paths(copies)
  {
    var r := seq(|copies|, i requires 0 <= i < |copies| => StripPackage(copies[i].0));
    assert forall i | 0 <= i < |r| :: PACKAGE_DIR + r[i] == copies[i].0;
    r
  }

  /** The message `NOT_ITERABLE` is what Python raises when the conflict
      check walks an option as if it were the list of members. */
  const NOT_ITERABLE: string := "'ModOption' object is not iterable"

  /** `install_mod` as written: the option itself goes to the conflict
      check in place of the list of archive members, and iterating it
      raises. So every call that is not refused as already installed
      raises, before anything is copied. */
  function InstallAsWritten(m: LegacyState, filename: string, a: Archive, option: ModOption, fx: Effects): (r: Result<LegacyOutcome>)
    ensures r.Err? <==> filename !in m.installed.items
    ensures r.Err? ==> r.error == NOT_ITERABLE
    ensures r.Ok? ==> !r.value.ok && r.value.after == m && r.value.message == AlreadyInstalled(filename)
  {
    if filename in m.installed.items then Ok(Decline(m, AlreadyInstalled(filename)))
    else Err(NOT_ITERABLE)
  }

  /** The end of an install: with nothing copied it fails; else the tool
      runs over the copied files, a failed run removes them again, and only
      a successful run adds the record. */
  function Commit(m: LegacyState, filename: string, optionName: string, copies: seq<(string, Bytes)>,
                  yumia: Disk -> YumiaRun): (o: LegacyOutcome)
    requires Valid(m.installed) && filename !in m.installed.items
    requires forall i | 0 <= i < |copies| :: HasPrefix(copies[i].0, PACKAGE_DIR)
    ensures Valid(o.after.installed)
    ensures o.ok <==> copies != [] && RunYumia(WriteAll(m.disk, copies), yumia).ok
    ensures o.ok ==> o.after.installed == Put(m.installed, filename, LegacyRecord(filename, optionName, Copied(copies)))
    ensures o.ok ==> o.after.disk == RunYumia(WriteAll(m.disk, copies), yumia).disk
    ensures o.ok ==> o.message == "Installed " + DecStr(|copies|) + " file(s)"
    ensures !o.ok ==> o.after.installed == m.installed
    ensures !o.ok ==> forall p | p in Paths(copies) :: p !in o.after.disk
    ensures !o.ok && Confined(yumia) ==> SameOutside(o.after.disk, m.disk, p => IsCore(p) || p in Paths(copies))
  {
    if copies == [] then Decline(m, "No files were installed")
    else
      var paths := Paths(copies);
      var run := RunYumia(WriteAll(m.disk, copies), yumia);
      if !run.ok then
        assert Confined(yumia) ==> SameOutside(Unlink(run.disk, paths), m.disk, p => IsCore(p) || p in paths) by {
          if Confined(yumia) {
            CopyRunUnlink(m.disk, copies, yumia);
          }
        }
        LegacyOutcome(LegacyState(m.installed, Unlink(run.disk, paths)), false, "yumia failed: " + run.output)
      else
        LegacyOutcome(LegacyState(Put(m.installed, filename, LegacyRecord(filename, optionName, Copied(copies))), run.disk), true,
                      "Installed " + DecStr(|copies|) + " file(s)")
  }

  /** `install_mod` with the option's members passed to the conflict check:
      refused when the archive is already installed or shares a game asset
      with an installed mod, or when extraction raises; otherwise the
      option's files are copied below `package/` and the tool is run. */
  function Install(m: LegacyState, filename: string, a: Archive, option: ModOption, fx: Effects): (o: LegacyOutcome)
    requires Valid(m.installed)
    ensures Valid(o.after.installed)
    ensures filename in m.installed.items ==> !o.ok && o.after == m && o.message == AlreadyInstalled(filename)
    ensures LegacyConflicts(a, option, m, fx.codecs) != [] ==> !o.ok && o.after == m
    ensures fx.extractError.Some? ==> !o.ok && o.after == m
    ensures filename !in m.installed.items && LegacyConflicts(a, option, m, fx.codecs) == [] && fx.extractError.None? ==>
      o == Commit(m, filename, option.name, OptionCopies(a, option), fx.yumia)
  {
    if filename in m.installed.items then Decline(m, AlreadyInstalled(filename))
    else
      var conflicts := LegacyConflicts(a, option, m, fx.codecs);
      if conflicts != [] then Decline(m, ConflictMessage(conflicts, fx.samples))
      else if fx.extractError.Some? then Decline(m, "Extraction failed: " + fx.extractError.value)
      else Commit(m, filename, option.name, OptionCopies(a, option), fx.yumia)
  }

  // ---------------------------------------------------------------------
  // Uninstalling

  /** `_backups_exist` */
  predicate LegacyBackupsExist(disk: Disk) {
    SYSTEM_RDB_BACKUP in disk && RDB_BACKUP in disk
  }

  /** `_restore_rdb_backups`: each core file that has a backup gets its
      contents. */
  function LegacyRestore(disk: Disk): (r: Disk)
    ensures SameOutside(r, disk, IsLegacyCore)
    ensures SYSTEM_RDB_BACKUP in disk ==> SYSTEM_RDB in r && r[SYSTEM_RDB] == disk[SYSTEM_RDB_BACKUP]
    ensures RDB_BACKUP in disk ==> RDB in r && r[RDB] == disk[RDB_BACKUP]
  {
    RestoreOne(RestoreOne(disk, SYSTEM_RDB, SYSTEM_RDB_BACKUP), RDB, RDB_BACKUP)
  }

  const LEGACY_REAPPLY_FAILED: string := "but yumia re-application failed. Other mods may not work correctly."

  /** The files removed and, when both backups are still there, the core
      files restored. */
  function UnlinkAndRestore(disk: Disk, paths: seq<string>): (r: Disk)
    ensures forall p | p in paths && !IsLegacyCore(p) :: p !in r
    ensures LegacyBackupsExist(Unlink(disk, paths)) ==>
      SYSTEM_RDB_BACKUP in disk && RDB_BACKUP in disk && SYSTEM_RDB in r && RDB in r &&
      r[SYSTEM_RDB] == disk[SYSTEM_RDB_BACKUP] && r[RDB] == disk[RDB_BACKUP]
    ensures SameOutside(r, disk, p => IsLegacyCore(p) || p in paths)
  {
    var unlinked := Unlink(disk, paths);
    if LegacyBackupsExist(unlinked) then LegacyRestore(unlinked) else unlinked
  }

  /** `uninstall_mod`: the record's files are removed, the core files are
      restored when both backups exist, the record is dropped, and the tool
      re-applies the remaining mods, if any. A failed re-run still counts
      as an uninstall. */
  function Uninstall(m: LegacyState, key: string, fx: Effects): (o: LegacyOutcome)
    requires Valid(m.installed)
    ensures Valid(o.after.installed)
    ensures o.ok <==> key in m.installed.items
    ensures !o.ok ==> o.after == m && o.message == "No installed mod found for " + key
    ensures o.ok ==> o.after.installed == Remove(m.installed, key)
    ensures o.ok && Remove(m.installed, key).keys == [] ==>
      o.after.disk == UnlinkAndRestore(m.disk, PackagePaths(m.installed.items[key].installedFiles))
    ensures o.ok && Confined(fx.yumia) ==>
      SameOutside(o.after.disk, m.disk, p => IsCore(p) || IsLegacyCore(p) || p in PackagePaths(m.installed.items[key].installedFiles))
    ensures o.ok && Confined(fx.yumia) ==>
      forall p | p in PackagePaths(m.installed.items[key].installedFiles) && !IsCore(p) && !IsLegacyCore(p) :: p !in o.after.disk
  {
    if key !in m.installed.items then Decline(m, "No installed mod found for " + key)
    else
      var paths := PackagePaths(m.installed.items[key].installedFiles);
      var removed := RemovedCount(m.disk, paths);
      var restored := UnlinkAndRestore(m.disk, paths);
      var rest := Remove(m.installed, key);
      var done := "Removed " + DecStr(removed) + " file(s)";
      if rest.keys == [] then LegacyOutcome(LegacyState(rest, restored), true, done)
      else
        var run := RunYumia(restored, fx.yumia);
        LegacyOutcome(LegacyState(rest, run.disk), true,
                      if run.ok then done else "Mod removed (" + DecStr(removed) + " files), " + LEGACY_REAPPLY_FAILED)
  }

  // ---------------------------------------------------------------------
  // Checking the records

  /** `check_installed_status`: the manifest loaded (nothing when it is
      missing or unreadable), the records some of whose files are missing
      dropped, and the manifest rewritten only then. */
  function CheckInstalledStatus(file: Option<string>, c: StateCodecs, disk: Disk): (r: (OMap<LegacyRecord>, Option<string>))
    ensures Valid(r.0)
    ensures forall k | k in r.0.items :: forall f | f in r.0.items[k].installedFiles :: PACKAGE_DIR + f in disk
    ensures forall k | k in r.0.items :: k in LoadLegacy(file, c).items && r.0.items[k] == LoadLegacy(file, c).items[k]
    ensures r.1 != file ==> r.1 == Some(c.encodeLegacy(Entries(r.0)))
  {
    var loaded := LoadLegacy(file, c);
    var (kept, dropped) := Prune(loaded, (l: LegacyRecord) => PackagePaths(l.installedFiles), p => p in disk);
    assert forall k | k in kept.items :: forall f | f in kept.items[k].installedFiles :: PACKAGE_DIR + f in disk by {
      forall k, f | k in kept.items && f in kept.items[k].installedFiles ensures PACKAGE_DIR + f in disk {
        var files := kept.items[k].installedFiles;
        var i :| 0 <= i < |files| && files[i] == f;
        assert PackagePaths(files)[i] == PACKAGE_DIR + f;
      }
    }
    if dropped then (kept, Some(c.encodeLegacy(Entries(kept)))) else (kept, file)
  }

  // ---------------------------------------------------------------------
  // Properties

  /** Whatever the archive and the state, the manager as written never
      installs anything, while the corrected install does: an option with
      one container the archive holds, no mod installed and a tool that
      succeeds. */
  lemma AsWrittenNeverInstalls(m: LegacyState, filename: string, a: Archive, option: ModOption, fx: Effects)
    ensures InstallAsWritten(m, filename, a, option, fx).Ok? ==> !InstallAsWritten(m, filename, a, option, fx).value.ok
    ensures filename !in m.installed.items ==> InstallAsWritten(m, filename, a, option, fx).Err?
    ensures var m0 := LegacyState(Empty(), map[YUMIA_EXE := []]);
      var a0 := Archive("mod.zip", ["opt/a.fdata"], map["opt/a.fdata" := [1]]);
      var o0 := ModOption("opt", "opt/", ["a.fdata"]);
      var fx0 := fx.(extractError := None, yumia := d => YumiaRun(true, d, ""));
      Install(m0, "mod.zip", a0, o0, fx0).ok && InstallAsWritten(m0, "mod.zip", a0, o0, fx0).Err?
  {
    var m0 := LegacyState(Empty(), map[YUMIA_EXE := []]);
    var a0 := Archive("mod.zip", ["opt/a.fdata"], map["opt/a.fdata" := [1]]);
    var o0 := ModOption("opt", "opt/", ["a.fdata"]);
    var fx0 := fx.(extractError := None, yumia := d => YumiaRun(true, d, ""));
    assert "opt/" + "a.fdata" == "opt/a.fdata";
    assert OptionMembers(o0) == ["opt/a.fdata"];
    assert !HasSuffix("opt/a.fdata", SIDECAR_SUFFIX);
    assert FromArchive(a0, OptionMembers(o0), fx0.codecs) == {};
    assert "opt/" + "a.fdata" == "opt/a.fdata";
    assert OptionCopies(a0, o0) != [];
  }

  /** Installing and then uninstalling the same archive gives back the
      records as they were, and the game files as they were apart from the
      index files the tool and the restore rewrite and the files the
      install overwrote; none of the copied files is left behind. */
  lemma InstallUninstallRoundTrip(m: LegacyState, filename: string, a: Archive, option: ModOption, fx: Effects)
    requires Valid(m.installed) && Confined(fx.yumia)
    requires Install(m, filename, a, option, fx).ok
    ensures var o := Uninstall(Install(m, filename, a, option, fx).after, filename, fx);
      && o.ok
      && o.after.installed == m.installed
      && (forall p | p in Paths(OptionCopies(a, option)) && !IsCore(p) && !IsLegacyCore(p) :: p !in o.after.disk)
      && SameOutside(o.after.disk, m.disk,
                     p => IsCore(p) || IsLegacyCore(p) || (p in Paths(OptionCopies(a, option)) && p in m.disk))
  {
    var copies := OptionCopies(a, option);
    assert Install(m, filename, a, option, fx) == Commit(m, filename, option.name, copies, fx.yumia);
    CommitThenUninstall(m, filename, option.name, copies, fx);
  }

  /** The round trip, for any copies the install makes. */
  lemma CommitThenUninstall(m: LegacyState, filename: string, optionName: string, copies: seq<(string, Bytes)>, fx: Effects)
    requires Valid(m.installed) && filename !in m.installed.items && Confined(fx.yumia)
    requires forall i | 0 <= i < |copies| :: HasPrefix(copies[i].0, PACKAGE_DIR)
    requires Commit(m, filename, optionName, copies, fx.yumia).ok
    ensures var o := Uninstall(Commit(m, filename, optionName, copies, fx.yumia).after, filename, fx);
      && o.ok
      && o.after.installed == m.installed
      && (forall p | p in Paths(copies) && !IsCore(p) && !IsLegacyCore(p) :: p !in o.after.disk)
      && SameOutside(o.after.disk, m.disk, p => IsCore(p) || IsLegacyCore(p) || (p in Paths(copies) && p in m.disk))
  {
    var c := Commit(m, filename, optionName, copies, fx.yumia);
    var rec := LegacyRecord(filename, optionName, Copied(copies));
    RemovePut(m.installed, filename, rec);
    assert c.after.installed.items[filename] == rec;
    var o := Uninstall(c.after, filename, fx);
    var paths := Paths(copies);
    var written := WriteAll(m.disk, copies);
    assert SameOutside(c.after.disk, written, IsCore);
    forall p | !(IsCore(p) || IsLegacyCore(p) || (p in paths && p in m.disk))
      ensures (p in o.after.disk <==> p in m.disk) && (p in o.after.disk ==> o.after.disk[p] == m.disk[p])
    {
      if p !in paths {
        assert forall i | 0 <= i < |copies| :: copies[i].0 != p;
      }
    }
  }

  /** An installed mod whose sidecars on disk name a game asset the
      option's sidecars also name blocks the install, and nothing changes. */
  lemma SharedAssetBlocksInstall(m: LegacyState, filename: string, a: Archive, option: ModOption, fx: Effects, k: string, h: int)
    requires Valid(m.installed) && k in m.installed.items
    requires h in FromArchive(a, OptionMembers(option), fx.codecs)
    requires h in FromDisk(m.disk, m.installed.items[k].installedFiles, fx.codecs)
    ensures !Install(m, filename, a, option, fx).ok && Install(m, filename, a, option, fx).after == m
  {
    var incoming := FromArchive(a, OptionMembers(option), fx.codecs);
    assert h in incoming * FromDisk(m.disk, m.installed.items[k].installedFiles, fx.codecs);
    var r := LegacyConflicts(a, option, m, fx.codecs);
    assert k in Selection.Firsts(r);
    assert r != [];
  }

  /** Checking twice, the second check finds nothing missing, rewrites
      nothing and keeps the same records. */
  lemma CheckTwiceStable(file: Option<string>, c: StateCodecs, disk: Disk)
    requires Faithful(c)
    ensures var (once, after) := CheckInstalledStatus(file, c, disk);
      CheckInstalledStatus(after, c, disk) == (once, after)
  {
    var (once, after) := CheckInstalledStatus(file, c, disk);
    var paths := (l: LegacyRecord) => PackagePaths(l.installedFiles);
    var present := p => p in disk;
    PruneIdempotent(LoadLegacy(file, c), paths, present);
    assert once == Prune(LoadLegacy(file, c), paths, present).0;
    CheckedLoadsBack(file, c, disk);
    assert Prune(once, paths, present) == (once, false);
  }

  /** Loading what the check left behind gives the records it kept. */
  lemma CheckedLoadsBack(file: Option<string>, c: StateCodecs, disk: Disk)
    requires Faithful(c)
    ensures var (once, after) := CheckInstalledStatus(file, c, disk);
      LoadLegacy(after, c) == once
  {
    var (once, after) := CheckInstalledStatus(file, c, disk);
    if after != file {
      FromEntriesOfEntries(once);
      assert LoadLegacy(after, c) == FromEntries(Entries(once));
    }
  }
}

=== FILE: loose_check.dfy ===
/** `_check_loose_conflicts`: before loose files go into a folder below
    `mods/`, the manager refuses when another loose-file mod owns that
    folder, when a file of the same name (ignoring case) belongs to another
    loose-file mod or lies untracked near the top of `mods/`, or when the
    folder already holds files no mod accounts for. */
module LooseCheck {
  import opened Wrappers
  import opened Text
  import opened Sorting
  import opened OrderedMap
  import opened Records
  import opened Game

  /** `{name.lower(): name}`: each lower-cased name, with the last planned
      name that lowers to it. */
  function Planned(filenames: seq<string>): (r: map<string, string>)
    ensures forall b :: b in r <==> exists n | n in filenames :: Lower(n) == b
    ensures forall b | b in r :: r[b] in filenames && Lower(r[b]) == b
    decreases |filenames|
  {
    if filenames == [] then map[]
    else
      var last := filenames[|filenames| - 1];
      var init := filenames[..|filenames| - 1];
      assert forall n | n in filenames :: n == last || n in init;
      assert forall n | n in init :: n in filenames;
      Planned(init)[Lower(last) := last]
  }

  /** A record the check looks at: a loose-file record of another archive. */
  predicate Considered(k: string, rec: InstalledModRecord, ignore: set<string>) {
    k !in ignore && rec.backend == Loose
  }

  /** The record owns the target folder, compared without case. */
  predicate OwnsDir(rec: InstalledModRecord, dir: string) {
    rec.looseModDir.Some? && rec.looseModDir.value != [] && Lower(rec.looseModDir.value) == Lower(dir)
  }

  /** `Path(p).name.lower()` */
  function NameKey(p: string): string {
    Lower(Basename(p))
  }

  /** The record stands in the way of the planned files. */
  predicate RecordClashes(rec: InstalledModRecord, dir: string, planned: map<string, string>) {
    OwnsDir(rec, dir) || exists p | p in rec.installedPaths :: NameKey(p) in planned
  }

  /** One message per path of the record whose name is planned. */
  function PathIssues(key: string, paths: seq<string>, planned: map<string, string>): (r: seq<string>)
    ensures r == [] <==> forall p | p in paths :: NameKey(p) !in planned
  {
    if paths == [] then []
    else
      var rest := PathIssues(key, paths[1..], planned);
      assert forall q | q in paths :: q == paths[0] || q in paths[1..];
      assert forall q | q in paths[1..] :: q in paths;
      var b := NameKey(paths[0]);
      if b in planned then ["Loose file '" + planned[b] + "' conflicts with installed mod '" + key + "'."] + rest
      else rest
  }

  /** The messages about installed records, in installation order. */
  function RecordIssues(keys: seq<string>, items: map<string, InstalledModRecord>, ignore: set<string>,
                        dir: string, planned: map<string, string>): (r: seq<string>)
    requires forall k | k in keys :: k in items
    ensures r == [] <==> forall k | k in keys :: !(Considered(k, items[k], ignore) && RecordClashes(items[k], dir, planned))
  {
    if keys == [] then []
    else
      var k := keys[0];
      var rest := RecordIssues(keys[1..], items, ignore, dir, planned);
      assert forall q | q in keys :: q == k || q in keys[1..];
      assert forall q | q in keys[1..] :: q in keys;
      if !Considered(k, items[k], ignore) then rest
      else
        var owned := if OwnsDir(items[k], dir) then ["Target loose mod folder '" + dir + "' is already owned by '" + k + "'."] else [];
        owned + PathIssues(k, items[k].installedPaths, planned) + rest
  }

  /** The lower-cased paths of the records the check looks at. */
  function Tracked(installed: Installed, ignore: set<string>): set<string> {
    set k, p | k in installed.items && Considered(k, installed.items[k], ignore) && p in installed.items[k].installedPaths
      :: Lower(p)
  }

  /** `_iter_loose_disk_files` keeps files at most two levels below `mods/`. */
  predicate NearLooseRoot(p: string) {
    HasPrefix(p, LOOSE_MODS) && |Split(p[|LOOSE_MODS|..], '/')| <= 2
  }

  /** `_iter_loose_disk_files` lists the files at most two levels below
      `mods/` and nothing else; only their order is left open. */
  predicate WalkLists(disk: Disk, listing: seq<string>) {
    && (forall p | p in listing :: p in disk && NearLooseRoot(p))
    && (forall p | p in disk && NearLooseRoot(p) :: p in listing)
  }

  /** A file on disk, near the top of `mods/`, that no considered record
      accounts for and whose name is planned. */
  predicate ExistingClash(p: string, disk: Disk, tracked: set<string>, planned: map<string, string>) {
    p in disk && NearLooseRoot(p) && Lower(p) !in tracked && NameKey(p) in planned
  }

  /** The messages about untracked files, in the order the walk lists them. */
  function DiskIssues(listing: seq<string>, disk: Disk, tracked: set<string>, planned: map<string, string>): (r: seq<string>)
    ensures r == [] <==> forall p | p in listing :: !ExistingClash(p, disk, tracked, planned)
  {
    if listing == [] then []
    else
      var rest := DiskIssues(listing[1..], disk, tracked, planned);
      assert forall q | q in listing :: q == listing[0] || q in listing[1..];
      assert forall q | q in listing[1..] :: q in listing;
      var p := listing[0];
      if ExistingClash(p, disk, tracked, planned) then
        ["Loose file '" + planned[NameKey(p)] + "' conflicts with existing file '" + p + "'."] + rest
      else rest
  }

  /** The target folder holds a file no considered record accounts for. */
  predicate UntrackedInTarget(disk: Disk, dir: string, tracked: set<string>) {
    exists p | p in disk :: HasPrefix(p, dir + "/") && Lower(p) !in tracked
  }

  /** The conditions under which the check refuses. `listing` is what the
      walk of `mods/` finds, in the order it finds it. */
  predicate Blocked(installed: Installed, disk: Disk, listing: seq<string>, dir: string,
                    filenames: seq<string>, ignore: set<string>)
  {
    var planned := Planned(filenames);
    var tracked := Tracked(installed, ignore);
    || (exists k | k in installed.items :: Considered(k, installed.items[k], ignore) && RecordClashes(installed.items[k], dir, planned))
    || (exists p | p in listing :: ExistingClash(p, disk, tracked, planned))
    || UntrackedInTarget(disk, dir, tracked)
  }

  const LOOSE_BLOCKED: string := "Cannot install via LooseFileLoader:\n\n"

  /** `_check_loose_conflicts`: every problem found, each message once, in
      the order found. */
  function CheckLooseConflicts(installed: Installed, disk: Disk, listing: seq<string>, dir: string,
                               filenames: seq<string>, ignore: set<string>): (r: Result<()>)
    requires Valid(installed)
    ensures r.Ok? <==> !Blocked(installed, disk, listing, dir, filenames, ignore)
    ensures r.Err? ==> HasPrefix(r.error, LOOSE_BLOCKED)
  {
    var planned := Planned(filenames);
    var tracked := Tracked(installed, ignore);
    var untracked := if UntrackedInTarget(disk, dir, tracked) then
      ["Target loose mod folder '" + dir + "' already contains untracked files."] else [];
    var issues := RecordIssues(installed.keys, installed.items, ignore, dir, planned)
      + DiskIssues(listing, disk, tracked, planned) + untracked;
    if issues == [] then Ok(())
    else
      var message := LOOSE_BLOCKED + Join(Dedup(issues), "\n");
      assert message[..|LOOSE_BLOCKED|] == LOOSE_BLOCKED;
      Err(message)
  }

  /** A planned file named like a file of another loose-file mod, in any
      case, is refused; a mod being replaced does not count. */
  lemma SameNameBlocks(installed: Installed, disk: Disk, listing: seq<string>, dir: string,
                       filenames: seq<string>, ignore: set<string>, k: string, p: string, n: string)
    requires Valid(installed) && k in installed.items && k !in ignore && installed.items[k].backend == Loose
    requires p in installed.items[k].installedPaths && n in filenames && Lower(n) == NameKey(p)
    ensures CheckLooseConflicts(installed, disk, listing, dir, filenames, ignore).Err?
  {
    assert NameKey(p) in Planned(filenames);
    assert RecordClashes(installed.items[k], dir, Planned(filenames));
  }

  /** An untracked file near the top of `mods/` named like a planned file,
      in any case, is refused when the walk lists what it should. */
  lemma UntrackedNameBlocks(installed: Installed, disk: Disk, listing: seq<string>, dir: string,
                            filenames: seq<string>, ignore: set<string>, p: string, n: string)
    requires Valid(installed) && WalkLists(disk, listing)
    requires p in disk && NearLooseRoot(p) && Lower(p) !in Tracked(installed, ignore)
    requires n in filenames && Lower(n) == NameKey(p)
    ensures CheckLooseConflicts(installed, disk, listing, dir, filenames, ignore).Err?
  {
    assert p in listing;
    assert ExistingClash(p, disk, Tracked(installed, ignore), Planned(filenames));
  }

  /** The check does not depend on the order in which the walk lists the
      files. */
  lemma WalkOrderIrrelevant(installed: Installed, disk: Disk, listing: seq<string>, other: seq<string>, dir: string,
                            filenames: seq<string>, ignore: set<string>)
    requires Valid(installed) && WalkLists(disk, listing) && WalkLists(disk, other)
    ensures CheckLooseConflicts(installed, disk, listing, dir, filenames, ignore).Ok?
        <==> CheckLooseConflicts(installed, disk, other, dir, filenames, ignore).Ok?
  {
    var planned := Planned(filenames);
    var tracked := Tracked(installed, ignore);
    assert (exists p | p in listing :: ExistingClash(p, disk, tracked, planned))
       <==> (exists p | p in other :: ExistingClash(p, disk, tracked, planned));
  }

  /** With no loose-file mods installed and no file below `mods/`, nothing
      is refused. */
  lemma EmptyLooseRootPasses(installed: Installed, disk: Disk, listing: seq<string>, dir: string,
                             filenames: seq<string>, ignore: set<string>)
    requires Valid(installed)
    requires forall k | k in installed.items :: installed.items[k].backend != Loose
    requires forall p | p in disk :: !HasPrefix(p, LOOSE_MODS)
    requires HasPrefix(dir, LOOSE_MODS)
    ensures CheckLooseConflicts(installed, disk, listing, dir, filenames, ignore).Ok?
  {
    assert HasPrefix(dir + "/", LOOSE_MODS) by {
      assert (dir + "/")[..|LOOSE_MODS|] == dir[..|LOOSE_MODS|];
    }
    forall p | p in disk ensures !HasPrefix(p, dir + "/") {
      PrefixOfPrefix(p, dir + "/", LOOSE_MODS);
    }
  }

  lemma PrefixOfPrefix(s: string, p: string, q: string)
    ensures HasPrefix(s, p) && HasPrefix(p, q) ==> HasPrefix(s, q)
  {
    if HasPrefix(s, p) && HasPrefix(p, q) {
      assert s[..|q|] == s[..|p|][..|q|];
    }
  }
}

=== FILE: manifest.dfy ===
/** The `nioh3modmanifest.json` schema: the version gate on
    `mod_manager_version`, the normalisation of feature directories and of
    `common_files_dir`, the field defaults, and the rejection of duplicate
    feature names and directories.  The JSON text itself is not modelled:
    a `RawManifest` is the already-parsed document. `None` stands for an
    absent field, and for a `null` only in the fields typed `str | None`;
    a `null` in `optional` or `features` fails validation, which the
    parsing oracle reports as no document. */
module Manifest {
  import opened Wrappers
  import opened Text

  const MANIFEST_FILENAME: string := "nioh3modmanifest.json"

  /** `CURRENT_VERSION`: the newest `major.minor` this build understands. */
  const CURRENT_MAJOR: int := 1
  const CURRENT_MINOR: int := 1

  // ---------------------------------------------------------------------
  // Python's `int(str)` on base-10 text

  predicate IsDigit(c: char) {
    '0' <= c <= '9'
  }

  /** Digits in groups separated by single underscores, as `int()` accepts. */
  predicate DigitGroups(s: string) {
    && s != [] && IsDigit(s[0]) && IsDigit(s[|s| - 1])
    && (forall i | 0 <= i < |s| :: IsDigit(s[i]) || s[i] == '_')
    && (forall i | 0 <= i < |s| - 1 :: !(s[i] == '_' && s[i + 1] == '_'))
  }

  /** The number the digits of `s` spell, underscores ignored. */
  function DigitsValue(s: string): nat
    requires forall i | 0 <= i < |s| :: IsDigit(s[i]) || s[i] == '_'
  {
    if s == [] then 0
    else
      var init := s[..|s| - 1];
      assert forall i | 0 <= i < |init| :: init[i] == s[i];
      if s[|s| - 1] == '_' then DigitsValue(init)
      else
        assert IsDigit(s[|s| - 1]);
        10 * DigitsValue(init) + (s[|s| - 1] as int - '0' as int)
  }

  /** `int(s)`, with `None` where Python raises `ValueError`: surrounding
      whitespace is ignored and one leading sign is allowed. */
  function PyInt(s: string): (r: Option<int>)
    ensures r.Some? ==> Strip(s) != []
  {
    Signed(Strip(s))
  }

  /** An optional sign followed by digit groups. */
  function Signed(t: string): (r: Option<int>)
    ensures r.Some? ==> t != []
  {
    var signed := |t| > 0 && (t[0] == '-' || t[0] == '+');
    var body := if signed then t[1..] else t;
    if DigitGroups(body) then
      var n := DigitsValue(body);
      Some(if signed && t[0] == '-' then -(n as int) else n as int)
    else None
  }

  /** `str(n)` for a natural number. */
  function DecStr(n: nat): (r: string)
    ensures r != []
    ensures forall i | 0 <= i < |r| :: IsDigit(r[i])
  {
    var d := ['0' + (n % 10) as char];
    if n < 10 then d else DecStr(n / 10) + d
  }

  /** `str(i)` for any integer. */
  function IntStr(i: int): (r: string)
    ensures '.' !in r
  {
    if i < 0 then "-" + DecStr(-i) else DecStr(i)
  }

  lemma {:induction false} DecStrValue(n: nat)
    ensures DigitsValue(DecStr(n)) == n
  {
    var s := DecStr(n);
    if n >= 10 {
      DecStrValue(n / 10);
      assert s[..|s| - 1] == DecStr(n / 10);
    } else {
      assert s[..|s| - 1] == [];
    }
  }

  /** `int(str(i)) == i` */
  lemma PyIntOfIntStr(i: int)
    ensures PyInt(IntStr(i)) == Some(i)
  {
    if i < 0 {
      assert IntStr(i) == "-" + DecStr(-i);
      PyIntOfNegative(-i);
    } else {
      assert IntStr(i) == DecStr(i);
      PyIntOfDecStr(i);
    }
  }

  lemma PyIntOfDecStr(n: nat)
    ensures PyInt(DecStr(n)) == Some(n)
  {
    var s := DecStr(n);
    DecStrValue(n);
    TrimUntouched(s, IsSpace);
    assert DigitGroups(s);
  }

  lemma PyIntOfNegative(n: nat)
    ensures PyInt("-" + DecStr(n)) == Some(-(n as int))
  {
    var d := DecStr(n);
    var s := "-" + d;
    assert s[0] == '-' && s[|s| - 1] == d[|d| - 1] && IsDigit(d[|d| - 1]);
    TrimUntouched(s, IsSpace);
    assert PyInt(s) == Signed(s);
    NegativeDigits(d);
    DecStrValue(n);
  }

  lemma NegativeDigits(d: string)
    requires forall i | 0 <= i < |d| :: IsDigit(d[i])
    requires d != []
    ensures Signed("-" + d) == Some(-(DigitsValue(d) as int))
  {
    assert ("-" + d)[1..] == d;
    assert DigitGroups(d);
  }

  // ---------------------------------------------------------------------
  // The version gate

  const INVALID_VERSION: string := "Invalid mod_manager_version: expected 'major.minor' (e.g. '1.0')"
  const NEWER_VERSION: string := "mod_manager_version requires a newer mod manager"

  /** The `(major, minor)` pair of a version string: exactly two parts
      around a single dot, each an integer. */
  function VersionNumbers(v: string): (r: Option<(int, int)>)
    ensures r.Some? ==> |Split(v, '.')| == 2
  {
    var parts := Split(v, '.');
    if |parts| != 2 then None
    else match (PyInt(parts[0]), PyInt(parts[1]))
      case (Some(major), Some(minor)) => Some((major, minor))
      case _ => None
  }

  /** `_check_version`: `Err` where the manifest is rejected, otherwise
      `Ok(w)` where `w` says whether the newer-minor warning is logged. */
  function CheckVersion(v: string): (r: Result<bool>)
    ensures VersionNumbers(v).None? ==> r == Err(INVALID_VERSION)
    ensures VersionNumbers(v).Some? ==>
      var (major, minor) := VersionNumbers(v).value;
      && (r.Ok? <==> major <= CURRENT_MAJOR)
      && (r.Ok? ==> (r.value <==> major == CURRENT_MAJOR && minor > CURRENT_MINOR))
  {
    match VersionNumbers(v)
    case None => Err(INVALID_VERSION)
    case Some((major, minor)) =>
      if major > CURRENT_MAJOR then Err(NEWER_VERSION)
      else Ok(major == CURRENT_MAJOR && minor > CURRENT_MINOR)
  }

  /** A version written as `str(major) + "." + str(minor)` reads back as that
      pair, so the gate decides on the numbers alone. */
  lemma VersionOfNumbers(major: int, minor: int)
    ensures VersionNumbers(IntStr(major) + "." + IntStr(minor)) == Some((major, minor))
  {
    var a, b := IntStr(major), IntStr(minor);
    assert Join([a, b], ".") == a + "." + b by {
      assert [a, b][1..] == [b];
    }
    SplitJoin([a, b], '.');
    PyIntOfIntStr(major);
    PyIntOfIntStr(minor);
  }

  /** Every version of this build's major line is accepted; `1.2` and later
      minors only with the warning; any higher major is rejected. */
  lemma VersionGate(major: int, minor: int)
    ensures var r := CheckVersion(IntStr(major) + "." + IntStr(minor));
      && (r.Ok? <==> major <= 1)
      && (r.Ok? ==> (r.value <==> major == 1 && minor > 1))
  {
    VersionOfNumbers(major, minor);
  }

  /** A version without a dot, or with two or more, is rejected. */
  lemma VersionNeedsOneDot(v: string)
    requires |Split(v, '.')| != 2
    ensures CheckVersion(v) == Err(INVALID_VERSION)
  {
  }

  // ---------------------------------------------------------------------
  // Path normalisation

  function Slashes(n: nat): (r: string)
    ensures |r| == n && forall i | 0 <= i < n :: r[i] == '/'
  {
    seq(n, _ => '/')
  }

  /** `v.replace("\\", "/").strip("/")` */
  function NormalizeDir(v: string): (r: string)
    ensures '\\' !in r
    ensures r == [] || (r[0] != '/' && r[|r| - 1] != '/')
  {
    StripChar(ReplaceChar(v, '\\', '/'), '/')
  }

  /** The normalised directory is what is left of the slash-converted text
      once its leading and trailing slashes are cut off. */
  lemma NormalizeDirShape(v: string)
    ensures exists a: nat, b: nat :: ReplaceChar(v, '\\', '/') == Slashes(a) + NormalizeDir(v) + Slashes(b)
  {
    var a, b := StripSlashesShape(ReplaceChar(v, '\\', '/'));
  }

  lemma StripSlashesShape(s: string) returns (a: nat, b: nat)
    ensures s == Slashes(a) + StripChar(s, '/') + Slashes(b)
  {
    a := LTrimCount(s, Is('/'));
    b := RTrimCount(s[a..], Is('/'));
    LeadingSlashes(s);
    TrailingSlashes(s[a..]);
    Compose(s, a, b);
  }

  /** Cutting `a` characters off the front and then `b` off the back leaves
      the middle of `s`. */
  lemma Compose(s: string, a: nat, b: nat)
    requires a <= |s| && b <= |s| - a
    ensures s == s[..a] + s[a..][..|s| - a - b] + s[a..][|s| - a - b..]
  {
    var t := s[a..];
    assert t == t[..|t| - b] + t[|t| - b..];
    assert s == s[..a] + t;
  }

  lemma LeadingSlashes(s: string)
    ensures s[..LTrimCount(s, Is('/'))] == Slashes(LTrimCount(s, Is('/')))
  {
    var pre := s[..LTrimCount(s, Is('/'))];
    forall i | 0 <= i < |pre| ensures pre[i] == '/' {
      assert Is('/')(s[i]);
    }
    AllSlashes(pre);
  }

  lemma TrailingSlashes(t: string)
    ensures var b := RTrimCount(t, Is('/')); t[|t| - b..] == Slashes(b)
  {
    var b := RTrimCount(t, Is('/'));
    var post := t[|t| - b..];
    forall i | 0 <= i < b ensures post[i] == '/' {
      assert Is('/')(t[|t| - b + i]);
    }
    AllSlashes(post);
  }

  lemma AllSlashes(s: string)
    requires forall i | 0 <= i < |s| :: s[i] == '/'
    ensures s == Slashes(|s|)
  {
  }

  /** Normalising twice changes nothing. */
  lemma NormalizeDirIdempotent(v: string)
    ensures NormalizeDir(NormalizeDir(v)) == NormalizeDir(v)
  {
    var r := NormalizeDir(v);
    assert ReplaceChar(r, '\\', '/') == r;
    TrimUntouched(r, Is('/'));
  }

  /** `_normalize_common`: `None` stays `None`. */
  function NormalizeCommon(v: Option<string>): (r: Option<string>)
    ensures r.None? <==> v.None?
    ensures r.Some? ==> r.value == NormalizeDir(v.value) && NormalizeDir(r.value) == r.value
  {
    match v
    case None => None
    case Some(d) =>
      NormalizeDirIdempotent(d);
      Some(NormalizeDir(d))
  }

  // ---------------------------------------------------------------------
  // Documents

  datatype RawFeature = RawFeature(name: string, directory: string, optional: Option<bool>)

  datatype RawManifest = RawManifest(
    modManagerVersion: string,
    modName: Option<string>, author: Option<string>, version: Option<string>, url: Option<string>,
    commonFilesDir: Option<string>,
    features: Option<seq<RawFeature>>)

  datatype Feature = Feature(name: string, directory: string, optional: bool)

  datatype ModManifest = ModManifest(
    modManagerVersion: string,
    modName: Option<string>, author: Option<string>, version: Option<string>, url: Option<string>,
    commonFilesDir: Option<string>,
    features: seq<Feature>)

  /** One feature with its defaults applied and its directory normalised. */
  function MakeFeature(f: RawFeature): (r: Feature)
    ensures r.name == f.name && r.directory == NormalizeDir(f.directory)
    ensures r.optional <==> f.optional == Some(true)
  {
    Feature(f.name, NormalizeDir(f.directory), f.optional.GetOr(false))
  }

  function Names(fs: seq<Feature>): (r: seq<string>)
    ensures |r| == |fs| && forall i | 0 <= i < |fs| :: r[i] == fs[i].name
  {
    seq(|fs|, i requires 0 <= i < |fs| => fs[i].name)
  }

  function Directories(fs: seq<Feature>): (r: seq<string>)
    ensures |r| == |fs| && forall i | 0 <= i < |fs| :: r[i] == fs[i].directory
  {
    seq(|fs|, i requires 0 <= i < |fs| => fs[i].directory)
  }

  /** The features with their defaults applied, in document order. */
  function MakeFeatures(fs: seq<RawFeature>): (r: seq<Feature>)
    ensures |r| == |fs| && forall i | 0 <= i < |fs| :: r[i] == MakeFeature(fs[i])
    ensures Names(r) == RawNames(fs) && Directories(r) == NormalizedDirs(fs)
    ensures forall i | 0 <= i < |r| :: NormalizeDir(r[i].directory) == r[i].directory
  {
    var r := seq(|fs|, i requires 0 <= i < |fs| => MakeFeature(fs[i]));
    forall i | 0 <= i < |r| ensures NormalizeDir(r[i].directory) == r[i].directory {
      NormalizeDirIdempotent(fs[i].directory);
    }
    r
  }

  function RawNames(fs: seq<RawFeature>): (r: seq<string>)
    ensures |r| == |fs| && forall i | 0 <= i < |fs| :: r[i] == fs[i].name
  {
    seq(|fs|, i requires 0 <= i < |fs| => fs[i].name)
  }

  /** The feature directories as they read once normalised. */
  function NormalizedDirs(fs: seq<RawFeature>): (r: seq<string>)
    ensures |r| == |fs| && forall i | 0 <= i < |fs| :: r[i] == NormalizeDir(fs[i].directory)
  {
    seq(|fs|, i requires 0 <= i < |fs| => NormalizeDir(fs[i].directory))
  }

  /** The first value already seen earlier in the list, scanning left to
      right; `None` when all values differ. */
  function FirstDuplicate(values: seq<string>): (r: Option<string>)
    ensures r.None? <==> Distinct(values)
    ensures r.Some? ==> exists j | 0 <= j < |values| ::
      values[j] == r.value && r.value in values[..j] && Distinct(values[..j])
  {
    if values == [] then None
    else
      var init := values[..|values| - 1];
      var last := values[|values| - 1];
      assert forall i | 0 <= i < |init| :: init[i] == values[i];
      match FirstDuplicate(init)
      case Some(x) =>
        var j :| 0 <= j < |init| && init[j] == x && x in init[..j] && Distinct(init[..j]);
        assert init[..j] == values[..j];
        Some(x)
      case None =>
        if last in init then
          assert values[..|values| - 1] == init;
          Some(last)
        else
          assert Distinct(values) by {
            forall i, j | 0 <= i < j < |values| ensures values[i] != values[j] {
              if j == |values| - 1 {
                assert values[i] in init;
              }
            }
          }
          None
  }

  /** `_no_duplicate_features`: names are checked before directories. */
  function CheckDuplicates(fs: seq<Feature>): (r: Result<()>)
    ensures r.Ok? <==> Distinct(Names(fs)) && Distinct(Directories(fs))
  {
    match FirstDuplicate(Names(fs))
    case Some(x) => Err("Duplicate feature name: " + x)
    case None =>
      match FirstDuplicate(Directories(fs))
      case Some(x) => Err("Duplicate feature directory: " + x)
      case None => Ok(())
  }

  /** `ModManifest.model_validate` on an already-parsed document. */
  function Validate(raw: RawManifest): (r: Result<ModManifest>)
    ensures var fs := raw.features.GetOr([]);
      r.Ok? <==>
        && CheckVersion(raw.modManagerVersion).Ok?
        && Distinct(RawNames(fs))
        && Distinct(NormalizedDirs(fs))
    ensures r.Ok? ==> ValidManifest(r.value)
    ensures r.Ok? ==> Describes(r.value, raw)
  {
    var features := MakeFeatures(raw.features.GetOr([]));
    match CheckVersion(raw.modManagerVersion)
    case Err(e) => Err(e)
    case Ok(_) =>
      match CheckDuplicates(features)
      case Err(e) => Err(e)
      case Ok(_) =>
        Ok(ModManifest(raw.modManagerVersion, raw.modName, raw.author, raw.version, raw.url,
                       NormalizeCommon(raw.commonFilesDir), features))
  }

  /** What every accepted manifest satisfies. */
  predicate ValidManifest(m: ModManifest) {
    && CheckVersion(m.modManagerVersion).Ok?
    && Distinct(Names(m.features))
    && Distinct(Directories(m.features))
    && (forall i | 0 <= i < |m.features| :: NormalizeDir(m.features[i].directory) == m.features[i].directory)
    && (m.commonFilesDir.Some? ==> NormalizeDir(m.commonFilesDir.value) == m.commonFilesDir.value)
  }

  /** The accepted manifest carries the document's fields, with the
      defaults for absent ones and the normalised directories. */
  predicate Describes(m: ModManifest, raw: RawManifest) {
    var fs := raw.features.GetOr([]);
    && m.modManagerVersion == raw.modManagerVersion
    && m.modName == raw.modName && m.author == raw.author
    && m.version == raw.version && m.url == raw.url
    && m.commonFilesDir == NormalizeCommon(raw.commonFilesDir)
    && |m.features| == |fs|
    && (forall i | 0 <= i < |fs| ::
          && m.features[i].name == fs[i].name
          && m.features[i].directory == NormalizeDir(fs[i].directory)
          && (m.features[i].optional <==> fs[i].optional == Some(true)))
  }

  /** The document an accepted manifest reads back from: every field
      present, as the manifest holds it. */
  function ToRaw(m: ModManifest): (raw: RawManifest)
    ensures raw.features.Some? && |raw.features.value| == |m.features|
    ensures forall i | 0 <= i < |m.features| ::
      raw.features.value[i] == RawFeature(m.features[i].name, m.features[i].directory, Some(m.features[i].optional))
  {
    var fs := m.features;
    RawManifest(m.modManagerVersion, m.modName, m.author, m.version, m.url, m.commonFilesDir,
      Some(seq(|fs|, i requires 0 <= i < |fs| => RawFeature(fs[i].name, fs[i].directory, Some(fs[i].optional)))))
  }

  /** Validation is stable: an accepted manifest, written back out with all
      its fields, is accepted again unchanged. */
  lemma ValidateStable(m: ModManifest)
    requires ValidManifest(m)
    ensures Validate(ToRaw(m)) == Ok(m)
  {
    var raw := ToRaw(m);
    var fs := raw.features.value;
    assert MakeFeatures(fs) == m.features;
    assert RawNames(fs) == Names(m.features);
    assert NormalizedDirs(fs) == Directories(m.features);
  }

  /** A document with only the version and features gets `None` metadata,
      no common directory, and required features. */
  lemma Defaults(v: string, fs: seq<RawFeature>)
    requires forall i | 0 <= i < |fs| :: fs[i].optional.None?
    requires Validate(RawManifest(v, None, None, None, None, None, Some(fs))).Ok?
    ensures var m := Validate(RawManifest(v, None, None, None, None, None, Some(fs))).value;
      && m.modName.None? && m.author.None? && m.version.None? && m.url.None? && m.commonFilesDir.None?
      && |m.features| == |fs|
      && forall i | 0 <= i < |fs| :: !m.features[i].optional
  {
  }

  /** A document without `features` has none. */
  lemma NoFeaturesByDefault(raw: RawManifest)
    requires raw.features.None? && Validate(raw).Ok?
    ensures Validate(raw).value.features == []
  {
  }
}

=== FILE: migration.dfy ===
/** `_build_migration_plan` and `migrate_all_yumia_to_loose`: every yumia
    install is converted to loose files and checked before anything is
    touched; then the loose files are written, the yumia files removed and
    the vanilla index restored, and when any of that raises, everything is
    put back as it was. */
module Migration {
  import opened Wrappers
  import opened Bytes
  import opened Text
  import opened OrderedMap
  import opened Manifest
  import opened Selection
  import opened Conversion
  import opened Scan
  import opened Records
  import opened Features
  import opened Resolution
  import opened Game
  import opened Environment
  import opened LooseCheck
  import opened Engine

  /** `MigrationPlanItem`, without the archive it was read from. */
  datatype PlanItem = PlanItem(
    rec: InstalledModRecord, summary: string, legacyName: Option<string>,
    fsel: Option<Selections>, dir: string, paths: seq<string>, files: seq<LooseFile>)

  /** The loose-file record that replaces the item's yumia record. */
  function Migrated(item: PlanItem): (r: InstalledModRecord)
    ensures r.backend == Loose && r.archiveFilename == item.rec.archiveFilename && r.installKind == item.rec.installKind
    ensures r.installedPaths == item.paths && r.looseModDir == Some(item.dir)
  {
    InstalledModRecord(item.rec.archiveFilename, Loose, item.rec.installKind, item.summary, item.legacyName,
                       item.fsel, item.paths, Some(item.dir))
  }

  // ---------------------------------------------------------------------
  // Planning one record

  function NotFound(key: string): string { "Installed archive not found in downloads folder: " + key }
  function NoManifest(key: string): string { "Archive no longer exposes a manifest: " + key }
  function NoSelections(key: string): string { "Could not reconstruct manifest selections for " + key + "." }
  function NoOption(key: string): string { "Could not reconstruct the legacy option for " + key + "." }
  function NotConverted(key: string, e: string): string { "Could not convert " + key + ": " + e }

  /** The item for a converted record, with the folder and paths an
      install of the same files would record. */
  function MakeItem(rec: InstalledModRecord, summary: string, legacyName: Option<string>, fsel: Option<Selections>,
                    result: ConversionResult): (r: PlanItem)
    ensures r.rec == rec && r.summary == summary && r.legacyName == legacyName && r.fsel == fsel && r.files == result.files
    ensures HasPrefix(r.dir, LOOSE_MODS) && r.dir[|LOOSE_MODS|..] == SanitizeModDirName(result.modName)
    ensures r.paths == Paths(LooseWrites(r.dir, r.files))
  {
    var lr := LooseRecordFromFiles(rec.archiveFilename, rec.installKind, summary, legacyName, fsel, result.modName, result.files);
    PlanItem(rec, summary, legacyName, fsel, lr.looseModDir.value, lr.installedPaths, result.files)
  }

  /** One yumia record converted again from its archive: a manifest
      install with the choices it records (or can be read back from its
      summary or files), a legacy install with its option. */
  function PlanOne(rec: InstalledModRecord, fx: Effects): (r: Result<PlanItem>)
    ensures fx.lookup(rec.archiveFilename).None? ==> r == Err(NotFound(rec.archiveFilename))
    ensures r.Ok? ==> r.value.rec == rec && r.value.files != [] && NoClash(r.value.files)
    ensures r.Ok? ==> HasPrefix(r.value.dir, LOOSE_MODS) && r.value.paths == Paths(LooseWrites(r.value.dir, r.value.files))
    ensures r.Ok? && rec.installKind == ManifestInstall ==>
      var am := fx.lookup(rec.archiveFilename).value.0;
      && am.manifest.Some? && r.value.legacyName.None? && r.value.fsel.Some?
      && ValidateSelections(am.manifest.value.features, am.manifestOptions, r.value.fsel.value).Ok?
      && r.value.summary == BuildFeatureSummary(am.manifest.value.features, r.value.fsel.value)
    ensures r.Ok? && rec.installKind == LegacyInstall ==>
      var am := fx.lookup(rec.archiveFilename).value.0;
      && r.value.fsel.None? && r.value.legacyName == Some(r.value.summary)
      && exists o | o in am.options :: o.name == r.value.summary
  {
    var key := rec.archiveFilename;
    match fx.lookup(key)
    case None => Err(NotFound(key))
    case Some((am, a)) =>
      if rec.installKind == ManifestInstall then
        match am.manifest
        case None => Err(NoManifest(key))
        case Some(manifest) =>
          match ResolveRecordSelections(rec, am.names, manifest.features, am.manifestOptions)
          case None => Err(NoSelections(key))
          case Some(sel) =>
            match BuildSelectedMembers(am.filename, am.names, am.manifest, sel)
            case Err(e) => Err(NotConverted(key, e))
            case Ok(selected) =>
              match ConvertSelected(a, selected, Some(am.name), am.manifest, sel, fx.codecs)
              case Err(e) => Err(NotConverted(key, e))
              case Ok(result) => Ok(MakeItem(rec, BuildFeatureSummary(manifest.features, sel), None, Some(sel), result))
      else
        match ResolveLegacyOption(rec.legacyOptionName, rec.summary, am.options)
        case None => Err(NoOption(key))
        case Some(option) =>
          match ConvertSelected(a, SelectedOptionMembers(am, option), Some(am.name), None, map[], fx.codecs)
          case Err(e) => Err(NotConverted(key, e))
          case Ok(result) => Ok(MakeItem(rec, option.name, Some(option.name), None, result))
  }

  // ---------------------------------------------------------------------
  // Planning every record

  function ReusedDir(dir: string): string { "Migration would reuse loose mod folder '" + dir + "' more than once." }
  function ClashingFile(name: string): string { "Migration would create conflicting loose file '" + name + "'." }

  /** No name of `s` is in `taken` or earlier in `s`: what the plan's
      running sets of folders and file names check, one name at a time. */
  predicate Fresh(s: seq<string>, taken: set<string>)
    decreases |s|
  {
    s == [] || (s[0] !in taken && Fresh(s[1..], taken + {s[0]}))
  }

  /** A sequence is fresh when its names are distinct and none is taken. */
  lemma {:induction false} FreshDistinct(s: seq<string>, taken: set<string>)
    ensures Fresh(s, taken) <==> Distinct(s) && forall x | x in s :: x !in taken
    decreases |s|
  {
    if s != [] {
      FreshDistinct(s[1..], taken + {s[0]});
      assert s == [s[0]] + s[1..];
      assert forall x :: x in s <==> x == s[0] || x in s[1..];
      DistinctCons(s[0], s[1..]);
    }
  }

  lemma {:induction false} FreshAppend(a: seq<string>, b: seq<string>, taken: set<string>)
    requires Fresh(a, taken) && Fresh(b, taken + set x | x in a)
    ensures Fresh(a + b, taken)
    decreases |a|
  {
    if a == [] {
      assert a + b == b;
      assert taken + (set x | x in a) == taken;
    } else {
      assert (a + b)[0] == a[0] && (a + b)[1..] == a[1..] + b;
      assert (taken + {a[0]}) + (set x | x in a[1..]) == taken + (set x | x in a);
      FreshAppend(a[1..], b, taken + {a[0]});
    }
  }

  lemma DistinctCons(x: string, t: seq<string>)
    ensures Distinct([x] + t) <==> Distinct(t) && x !in t
  {
    var s := [x] + t;
    if Distinct(s) {
      forall i, j | 0 <= i < j < |t| ensures t[i] != t[j] {
        assert s[i + 1] == t[i] && s[j + 1] == t[j];
      }
      forall j | 0 <= j < |t| ensures t[j] != x {
        assert s[0] == x && s[j + 1] == t[j];
      }
    }
    if Distinct(t) && x !in t {
      forall i, j | 0 <= i < j < |s| ensures s[i] != s[j] {
        if i == 0 {
          assert s[j] == t[j - 1];
        } else {
          assert s[i] == t[i - 1] && s[j] == t[j - 1];
        }
      }
    }
  }

  /** The first file whose lower-cased name is already taken, by an earlier
      item or an earlier file of the same item. */
  function NameClash(files: seq<LooseFile>, taken: set<string>): (r: Option<string>)
    ensures r.None? <==> Fresh(LoweredNames(files), taken)
    ensures r.Some? ==> r.value in Filenames(files)
    decreases |files|
  {
    if files == [] then None
    else
      var low := Lower(files[0].filename);
      assert LoweredNames(files)[0] == low && LoweredNames(files)[1..] == LoweredNames(files[1..]);
      assert Filenames(files)[0] == files[0].filename;
      if low in taken then Some(files[0].filename)
      else
        var rest := NameClash(files[1..], taken + {low});
        assert Filenames(files)[1..] == Filenames(files[1..]);
        rest
  }

  /** The lower-cased folders of the items. */
  function FolderKeys(plan: seq<PlanItem>): (r: seq<string>)
    ensures |r| == |plan| && forall i | 0 <= i < |plan| :: r[i] == Lower(plan[i].dir)
  {
    if plan == [] then []
    else
      var r := [Lower(plan[0].dir)] + FolderKeys(plan[1..]);
      assert forall i | 1 <= i < |plan| :: plan[i] == plan[1..][i - 1];
      r
  }

  /** The lower-cased names of all the items' files, item after item. */
  function NameKeys(plan: seq<PlanItem>): seq<string> {
    if plan == [] then [] else LoweredNames(plan[0].files) + NameKeys(plan[1..])
  }

  /** The plan holds, for each yumia key in order, the item its record
      converts to. */
  ghost predicate Follows(plan: seq<PlanItem>, yk: seq<string>, items: map<string, InstalledModRecord>, fx: Effects)
    decreases |plan|
  {
    && |plan| == |yk|
    && (plan != [] ==>
          && yk[0] in items && plan[0].rec == items[yk[0]] && PlanOne(plan[0].rec, fx) == Ok(plan[0])
          && Follows(plan[1..], yk[1..], items, fx))
  }

  lemma {:induction false} FollowsIndex(plan: seq<PlanItem>, yk: seq<string>, items: map<string, InstalledModRecord>, fx: Effects)
    requires Follows(plan, yk, items, fx)
    ensures |plan| == |yk|
    ensures forall i | 0 <= i < |plan| :: yk[i] in items && plan[i].rec == items[yk[i]] && PlanOne(plan[i].rec, fx) == Ok(plan[i])
    decreases |plan|
  {
    if plan != [] {
      FollowsIndex(plan[1..], yk[1..], items, fx);
      forall i | 1 <= i < |plan| ensures yk[i] in items && plan[i].rec == items[yk[i]] && PlanOne(plan[i].rec, fx) == Ok(plan[i]) {
        assert plan[i] == plan[1..][i - 1] && yk[i] == yk[1..][i - 1];
      }
    }
  }

  /** The plan for the yumia records among `keys`, in order, given the
      folders and names earlier items claimed. */
  function PlanFrom(keys: seq<string>, items: map<string, InstalledModRecord>, fx: Effects,
                    dirs: set<string>, names: set<string>): (r: Result<seq<PlanItem>>)
    requires forall k | k in keys :: k in items
    ensures r.Ok? ==> Follows(r.value, YumiaKeys(keys, items), items, fx)
    ensures r.Ok? ==> Fresh(FolderKeys(r.value), dirs) && Fresh(NameKeys(r.value), names)
    decreases |keys|
  {
    if keys == [] then Ok([])
    else
      var rec := items[keys[0]];
      assert forall k | k in keys[1..] :: k in keys;
      if rec.backend != Yumia then PlanFrom(keys[1..], items, fx, dirs, names)
      else
        match PlanOne(rec, fx)
        case Err(e) => Err(e)
        case Ok(item) =>
          if Lower(item.dir) in dirs then Err(ReusedDir(item.dir))
          else
            match NameClash(item.files, names)
            case Some(f) => Err(ClashingFile(f))
            case None =>
              var lowered := LoweredNames(item.files);
              match PlanFrom(keys[1..], items, fx, dirs + {Lower(item.dir)}, names + set n | n in lowered)
              case Err(e) => Err(e)
              case Ok(rest) =>
                var plan := [item] + rest;
                assert plan[1..] == rest;
                assert FolderKeys(plan)[1..] == FolderKeys(rest);
                FreshAppend(lowered, NameKeys(rest), names);
                Ok(plan)
  }

  const NO_YUMIA: string := "No yumia-managed mods are installed."
  const LOOSE_MISSING: string := "LooseFileLoader prerequisites are missing."
  const NO_BACKUPS: string := "RDB backups are required before migration."

  /** The item passes the loose-file check against the current state. */
  predicate Passes(m: Manager, listing: seq<string>, item: PlanItem)
    requires Valid(m.installed)
  {
    CheckLooseConflicts(m.installed, m.disk, listing, item.dir, Filenames(item.files), {}).Ok?
  }

  /** The first refusal of the loose-file check over the items, in order. */
  function FirstBlocked(m: Manager, listing: seq<string>, plan: seq<PlanItem>): (r: Option<string>)
    requires Valid(m.installed)
    ensures r.None? <==> forall i | 0 <= i < |plan| :: Passes(m, listing, plan[i])
    ensures r.Some? ==> HasPrefix(r.value, LOOSE_BLOCKED)
  {
    if plan == [] then None
    else if !Passes(m, listing, plan[0]) then
      var c := CheckLooseConflicts(m.installed, m.disk, listing, plan[0].dir, Filenames(plan[0].files), {});
      assert c.Err? && HasPrefix(c.error, LOOSE_BLOCKED);
      Some(c.error)
    else
      var rest := FirstBlocked(m, listing, plan[1..]);
      assert rest.None? <==> forall i | 0 <= i < |plan| :: Passes(m, listing, plan[i]) by {
        assert forall i | 1 <= i < |plan| :: plan[i] == plan[1..][i - 1];
      }
      rest
  }

  /** The items of every yumia record, checked against each other and
      then against what is installed and on disk. */
  function CheckedPlan(m: Manager, fx: Effects): (r: Result<seq<PlanItem>>)
    requires Valid(m.installed)
    ensures r.Ok? ==> var yk := YumiaKeys(m.installed.keys, m.installed.items);
      && |r.value| == |yk|
      && forall i | 0 <= i < |yk| :: r.value[i].rec == m.installed.items[yk[i]] && PlanOne(r.value[i].rec, fx) == Ok(r.value[i])
    ensures r.Ok? ==> Distinct(FolderKeys(r.value)) && Distinct(NameKeys(r.value))
    ensures r.Ok? ==> forall i | 0 <= i < |r.value| :: Passes(m, fx.walk(m.disk), r.value[i])
  {
    match PlanFrom(m.installed.keys, m.installed.items, fx, {}, {})
    case Err(e) => Err(e)
    case Ok(plan) =>
      var yk := YumiaKeys(m.installed.keys, m.installed.items);
      FollowsIndex(plan, yk, m.installed.items, fx);
      FreshDistinct(FolderKeys(plan), {});
      FreshDistinct(NameKeys(plan), {});
      var blocked := FirstBlocked(m, fx.walk(m.disk), plan);
      if blocked.Some? then Err(blocked.value) else Ok(plan)
  }

  /** `_build_migration_plan`: nothing is planned unless yumia mods are
      installed, the loose-file loader is ready and the index backups
      exist. */
  function BuildPlan(m: Manager, fx: Effects): (r: Result<seq<PlanItem>>)
    requires Valid(m.installed)
    ensures !HasBackend(m.installed, Yumia) ==> r == Err(NO_YUMIA)
    ensures r.Ok? <==> Status(fx.dirs, m.disk, m.installed).canMigrate && CheckedPlan(m, fx).Ok?
    ensures r.Ok? ==> r == CheckedPlan(m, fx)
  {
    var status := Status(fx.dirs, m.disk, m.installed);
    if !status.hasActiveYumiaMods then Err(NO_YUMIA)
    else if !status.looseReady then Err(LOOSE_MISSING)
    else if !BackupsExist(m.disk) then Err(NO_BACKUPS)
    else CheckedPlan(m, fx)
  }

  // ---------------------------------------------------------------------
  // Carrying the plan out

  /** Where the migration raises: in the loose-file write after `n` that
      went through (leaving `leftover` at its own path, as `WriteFailure`
      does for an install), after `n` removals of old files, while restoring
      the index, or while saving the state. */
  datatype FailPoint = DuringWrites(n: nat, leftover: Option<Bytes>) | DuringUnlinks(n: nat) | DuringRestore | DuringSave
  datatype Failure = Failure(at: FailPoint, error: string)

  /** Every loose file of the plan, item after item. */
  function AllWrites(plan: seq<PlanItem>): seq<(string, Bytes)> {
    if plan == [] then [] else LooseWrites(plan[0].dir, plan[0].files) + AllWrites(plan[1..])
  }

  /** Every path the old records list, item after item. */
  function OldPaths(plan: seq<PlanItem>): seq<string> {
    if plan == [] then [] else plan[0].rec.installedPaths + OldPaths(plan[1..])
  }

  /** What is read before anything changes: the index files and the old
      records' files, those that exist. */
  function Staged(disk: Disk, prior: seq<string>): (r: map<string, Bytes>)
    ensures forall p :: p in r <==> p in disk && (IsCore(p) || p in prior)
    ensures forall p | p in r :: r[p] == disk[p]
  {
    map p | p in disk && (IsCore(p) || p in prior) :: disk[p]
  }

  /** The rollback: the staged files written back, then the written files
      removed. */
  function Rollback(x: Disk, original: Disk, prior: seq<string>, written: seq<string>): (r: Disk)
    ensures forall p | p in written :: p !in r
  {
    Unlink(x + Staged(original, prior), written)
  }

  /** Each record replaced by its loose-file record, in plan order. */
  function PutAll(installed: Installed, plan: seq<PlanItem>): (r: Installed)
    requires Valid(installed)
    ensures Valid(r)
    ensures (forall i | 0 <= i < |plan| :: plan[i].rec.archiveFilename in installed.items) ==> r.keys == installed.keys
    decreases |plan|
  {
    if plan == [] then installed
    else
      var next := Put(installed, plan[0].rec.archiveFilename, Migrated(plan[0]));
      assert forall i | 1 <= i < |plan| :: plan[i] == plan[1..][i - 1];
      PutAll(next, plan[1..])
  }

  /** A record no item replaces is left as it was. */
  lemma {:induction false} PutAllUntouched(installed: Installed, plan: seq<PlanItem>, k: string)
    requires Valid(installed)
    requires forall i | 0 <= i < |plan| :: plan[i].rec.archiveFilename != k
    ensures var r := PutAll(installed, plan);
      (k in r.items <==> k in installed.items) && (k in r.items ==> r.items[k] == installed.items[k])
    decreases |plan|
  {
    if plan != [] {
      assert forall i | 1 <= i < |plan| :: plan[i] == plan[1..][i - 1];
      PutAllUntouched(Put(installed, plan[0].rec.archiveFilename, Migrated(plan[0])), plan[1..], k);
    }
  }

  /** The last item for a key decides its record. */
  lemma {:induction false} PutAllLast(installed: Installed, plan: seq<PlanItem>, i: nat)
    requires Valid(installed) && i < |plan|
    requires forall j | i < j < |plan| :: plan[j].rec.archiveFilename != plan[i].rec.archiveFilename
    ensures var r := PutAll(installed, plan);
      plan[i].rec.archiveFilename in r.items && r.items[plan[i].rec.archiveFilename] == Migrated(plan[i])
    decreases |plan|
  {
    var next := Put(installed, plan[0].rec.archiveFilename, Migrated(plan[0]));
    assert forall j | 1 <= j < |plan| :: plan[j] == plan[1..][j - 1];
    if i == 0 {
      PutAllUntouched(next, plan[1..], plan[0].rec.archiveFilename);
    } else {
      PutAllLast(next, plan[1..], i - 1);
    }
  }

  /** The paths written before the failure. */
  function Written(plan: seq<PlanItem>, at: FailPoint): (r: seq<string>) {
    var w := AllWrites(plan);
    match at
    case DuringWrites(n, _) => Paths(w[..if n < |w| then n else |w|])
    case _ => Paths(w)
  }

  /** The path the raising write left something at; it is not among the
      written paths, so the rollback does not remove it. */
  function Clobbered(plan: seq<PlanItem>, at: FailPoint): (r: set<string>) {
    var w := AllWrites(plan);
    if at.DuringWrites? && at.leftover.Some? && at.n < |w| then {w[at.n].0} else {}
  }

  /** The disk at the moment of the failure. */
  function AtFailure(disk: Disk, plan: seq<PlanItem>, at: FailPoint): (x: Disk)
    ensures forall p | p !in Written(plan, at) && p !in Clobbered(plan, at) && !IsCore(p) && !(p in OldPaths(plan) && p in disk) ::
      (p in x <==> p in disk) && (p in x ==> x[p] == disk[p])
    ensures forall p | p in Clobbered(plan, at) :: p in x && x[p] == at.leftover.value
  {
    var w := AllWrites(plan);
    var prior := OldPaths(plan);
    var d1 := WriteAll(disk, w);
    match at
    case DuringWrites(n, leftover) =>
      var d := WriteAll(disk, w[..if n < |w| then n else |w|]);
      if n < |w| then Clobber(d, w[n].0, leftover) else d
    case DuringUnlinks(n) => Unlink(d1, prior[..if n < |prior| then n else |prior|])
    case DuringRestore => Unlink(d1, prior)
    case DuringSave => RestoreBackups(Unlink(d1, prior))
  }

  /** The disk after a migration that went through. */
  function MigratedDisk(disk: Disk, plan: seq<PlanItem>): Disk {
    RestoreBackups(Unlink(WriteAll(disk, AllWrites(plan)), OldPaths(plan)))
  }

  /** `migrate_all_yumia_to_loose`: a refused plan changes nothing; a failure
      puts the records back and rolls the disk back. */
  function MigrateAll(m: Manager, fx: Effects, failure: Option<Failure>): (o: Outcome)
    requires Valid(m.installed)
    ensures BuildPlan(m, fx).Err? ==> !o.ok && o.after == m && o.message == BuildPlan(m, fx).error
    ensures o.ok <==> BuildPlan(m, fx).Ok? && failure.None?
    ensures !o.ok ==> o.after.installed == m.installed
    ensures BuildPlan(m, fx).Ok? && failure.Some? ==>
      o.after.disk == Rollback(AtFailure(m.disk, BuildPlan(m, fx).value, failure.value.at), m.disk,
                               OldPaths(BuildPlan(m, fx).value), Written(BuildPlan(m, fx).value, failure.value.at))
    ensures o.ok ==> (o.after.installed == PutAll(m.installed, BuildPlan(m, fx).value)
                      && o.after.disk == MigratedDisk(m.disk, BuildPlan(m, fx).value))
  {
    match BuildPlan(m, fx)
    case Err(e) => Refuse(m, e)
    case Ok(plan) =>
      match failure
      case None =>
        Outcome(Manager(PutAll(m.installed, plan), MigratedDisk(m.disk, plan)), true,
                "Migrated " + DecStr(|plan|) + " mod(s) to LooseFileLoader")
      case Some(f) =>
        var x := AtFailure(m.disk, plan, f.at);
        Outcome(Manager(m.installed, Rollback(x, m.disk, OldPaths(plan), Written(plan, f.at))), false,
                "Migration failed: " + f.error)
  }

  /** A rollback leaves no written file behind and every other file as it
      was, except an index file that did not exist before and the paths in
      `clobbered`, which it does not know about. */
  lemma RollbackRestores(x: Disk, original: Disk, prior: seq<string>, written: seq<string>, clobbered: set<string>)
    requires forall p | p !in written && p !in clobbered && !IsCore(p) && !(p in prior && p in original) ::
      (p in x <==> p in original) && (p in x ==> x[p] == original[p])
    ensures var r := Rollback(x, original, prior, written);
      && (forall p | p in written :: p !in r)
      && SameOutside(r, original, p => p in written || p in clobbered || (IsCore(p) && p !in original))
  {
  }

  /** A failed migration keeps the records and puts back every file but
      the loose files it wrote (and an index file that was missing); a path
      the raising write left something at keeps it, unless it was an old
      record's file that the staging read back. */
  lemma MigrationFailureRollsBack(m: Manager, fx: Effects, failure: Failure)
    requires Valid(m.installed) && BuildPlan(m, fx).Ok?
    ensures var plan := BuildPlan(m, fx).value;
      var o := MigrateAll(m, fx, Some(failure));
      && !o.ok && o.after.installed == m.installed
      && (forall p | p in Written(plan, failure.at) :: p !in o.after.disk)
      && (forall p | p in Clobbered(plan, failure.at) && p !in Written(plan, failure.at) && !IsCore(p)
                     && !(p in OldPaths(plan) && p in m.disk) ::
            p in o.after.disk && o.after.disk[p] == failure.at.leftover.value)
      && SameOutside(o.after.disk, m.disk,
                     p => p in Written(plan, failure.at) || p in Clobbered(plan, failure.at) || (IsCore(p) && p !in m.disk))
  {
    var plan := BuildPlan(m, fx).value;
    RollbackRestores(AtFailure(m.disk, plan, failure.at), m.disk, OldPaths(plan), Written(plan, failure.at),
                     Clobbered(plan, failure.at));
  }

  /** After a migration that went through, the loose files are on disk
      (unless an old record lists the same path), the old records' files
      are gone, the index holds the backups' contents, and nothing else
      changed. */
  lemma MigrationMovesFiles(m: Manager, fx: Effects)
    requires Valid(m.installed) && BuildPlan(m, fx).Ok?
    ensures var plan := BuildPlan(m, fx).value;
      var written := Paths(AllWrites(plan));
      var d := MigrateAll(m, fx, None).after.disk;
      && (forall p | p in written && p !in OldPaths(plan) && !IsCore(p) :: p in d)
      && (forall p | p in OldPaths(plan) && !IsCore(p) :: p !in d)
      && (RDB_BACKUP !in written && RDB_BACKUP !in OldPaths(plan) ==> RDB in d && d[RDB] == m.disk[RDB_BACKUP])
      && (RDX_BACKUP !in written && RDX_BACKUP !in OldPaths(plan) ==> RDX in d && d[RDX] == m.disk[RDX_BACKUP])
      && SameOutside(d, m.disk, p => IsCore(p) || p in OldPaths(plan) || p in written)
  {
    var plan := BuildPlan(m, fx).value;
    assert BackupsExist(m.disk);
    MoveFiles(m.disk, AllWrites(plan), OldPaths(plan));
  }

  lemma MoveFiles(d: Disk, w: seq<(string, Bytes)>, prior: seq<string>)
    requires BackupsExist(d)
    ensures var r := RestoreBackups(Unlink(WriteAll(d, w), prior));
      && (forall p | p in Paths(w) && p !in prior && !IsCore(p) :: p in r)
      && (forall p | p in prior && !IsCore(p) :: p !in r)
      && (RDB_BACKUP !in Paths(w) && RDB_BACKUP !in prior ==> RDB in r && r[RDB] == d[RDB_BACKUP])
      && (RDX_BACKUP !in Paths(w) && RDX_BACKUP !in prior ==> RDX in r && r[RDX] == d[RDX_BACKUP])
      && SameOutside(r, d, p => IsCore(p) || p in prior || p in Paths(w))
  {
    var d1 := WriteAll(d, w);
    WrittenPresent(d, w);
    UnwrittenKept(d, w);
    var d2 := Unlink(d1, prior);
    var r := RestoreBackups(d2);
    forall p | p in Paths(w) && p !in prior && !IsCore(p) ensures p in r {
      assert p in d2;
    }
    if RDB_BACKUP !in Paths(w) && RDB_BACKUP !in prior {
      assert RDB_BACKUP in d2 && d2[RDB_BACKUP] == d[RDB_BACKUP];
    }
    if RDX_BACKUP !in Paths(w) && RDX_BACKUP !in prior {
      assert RDX_BACKUP in d2 && d2[RDX_BACKUP] == d[RDX_BACKUP];
    }
    MovedKeepsRest(d, w, prior);
  }

  /** Moving changes nothing but the core files, the removed paths and
      the written ones. */
  lemma MovedKeepsRest(d: Disk, w: seq<(string, Bytes)>, prior: seq<string>)
    ensures SameOutside(RestoreBackups(Unlink(WriteAll(d, w), prior)), d, p => IsCore(p) || p in prior || p in Paths(w))
  {
    var d1 := WriteAll(d, w);
    UnwrittenKept(d, w);
    var d2 := Unlink(d1, prior);
    var r := RestoreBackups(d2);
    forall p | !(IsCore(p) || p in prior || p in Paths(w))
      ensures (p in r <==> p in d) && (p in r ==> r[p] == d[p])
    {
      assert p in r <==> p in d2;
      assert p in d2 <==> p in d1;
    }
  }

  /** Every written path is on the disk after the writes. */
  lemma WrittenPresent(d: Disk, w: seq<(string, Bytes)>)
    ensures forall p | p in Paths(w) :: p in WriteAll(d, w)
  {
    forall p | p in Paths(w) ensures p in WriteAll(d, w) {
      var i :| 0 <= i < |Paths(w)| && Paths(w)[i] == p;
      assert w[i].0 == p;
    }
  }

  /** A path not written keeps what it had. */
  lemma UnwrittenKept(d: Disk, w: seq<(string, Bytes)>)
    ensures forall p | p !in Paths(w) :: (p in WriteAll(d, w) <==> p in d) && (p in d ==> WriteAll(d, w)[p] == d[p])
  {
    forall p | p !in Paths(w)
      ensures (p in WriteAll(d, w) <==> p in d) && (p in d ==> WriteAll(d, w)[p] == d[p])
    {
      assert forall i | 0 <= i < |w| :: w[i].0 == Paths(w)[i];
    }
  }

  /** Every record is stored under its archive's file name. */
  ghost predicate KeysMatch(installed: Installed) {
    forall k | k in installed.items :: installed.items[k].archiveFilename == k
  }

  /** After a migration that went through, no yumia install is left, the
      records keep their order, and each former yumia record is a
      loose-file record of the same install kind. */
  lemma MigrationLeavesNoYumia(m: Manager, fx: Effects)
    requires Valid(m.installed) && KeysMatch(m.installed) && BuildPlan(m, fx).Ok?
    ensures var o := MigrateAll(m, fx, None);
      && o.ok && o.after.installed.keys == m.installed.keys
      && !HasBackend(o.after.installed, Yumia)
      && forall k | k in m.installed.items && m.installed.items[k].backend == Yumia ::
           o.after.installed.items[k].backend == Loose
           && o.after.installed.items[k].installKind == m.installed.items[k].installKind
  {
    PlanKeys(m, fx);
    ReplaceAll(m.installed, BuildPlan(m, fx).value, YumiaKeys(m.installed.keys, m.installed.items));
  }

  /** Replacing every yumia record, each by an item of its own, leaves
      only loose-file records, each of the kind it was. */
  lemma ReplaceAll(installed: Installed, plan: seq<PlanItem>, yk: seq<string>)
    requires Valid(installed) && |plan| == |yk|
    requires forall k :: k in yk <==> k in installed.items && installed.items[k].backend == Yumia
    requires forall i | 0 <= i < |plan| ::
      yk[i] in installed.items && plan[i].rec == installed.items[yk[i]] && plan[i].rec.archiveFilename == yk[i]
    requires forall i, j | 0 <= i < j < |plan| :: yk[i] != yk[j]
    ensures var after := PutAll(installed, plan);
      && after.keys == installed.keys
      && (forall k | k in after.items :: after.items[k].backend == Loose)
      && forall k | k in installed.items && installed.items[k].backend == Yumia ::
           after.items[k].installKind == installed.items[k].installKind
  {
    var after := PutAll(installed, plan);
    forall k | k in after.items ensures after.items[k].backend == Loose {
      if k in yk {
        PutAllLast(installed, plan, IndexOf(yk, k));
      } else {
        PutAllUntouched(installed, plan, k);
      }
    }
    forall k | k in installed.items && installed.items[k].backend == Yumia
      ensures after.items[k].installKind == installed.items[k].installKind
    {
      PutAllLast(installed, plan, IndexOf(yk, k));
    }
  }

  /** Under matching keys, the plan's items are keyed by the yumia keys, in
      order, once each. */
  lemma PlanKeys(m: Manager, fx: Effects)
    requires Valid(m.installed) && KeysMatch(m.installed) && BuildPlan(m, fx).Ok?
    ensures var plan := BuildPlan(m, fx).value;
      var yk := YumiaKeys(m.installed.keys, m.installed.items);
      && |plan| == |yk|
      && (forall i | 0 <= i < |plan| ::
            yk[i] in m.installed.items && plan[i].rec == m.installed.items[yk[i]] && plan[i].rec.archiveFilename == yk[i])
      && (forall i, j | 0 <= i < j < |plan| :: yk[i] != yk[j])
  {
    var plan := BuildPlan(m, fx).value;
    assert plan == CheckedPlan(m, fx).value;
    var yk := YumiaKeys(m.installed.keys, m.installed.items);
    assert NoDup(yk);
    forall i | 0 <= i < |plan|
      ensures yk[i] in m.installed.items && plan[i].rec == m.installed.items[yk[i]] && plan[i].rec.archiveFilename == yk[i]
    {
      assert yk[i] in yk;
      assert plan[i].rec == m.installed.items[yk[i]];
    }
  }
}

=== FILE: ordered_map.dfy ===
/** Python's `dict` keeps insertion order, and the engine iterates over its
    record store, its prefix tables and its destination maps in that order.
    `OMap` is a string-keyed map together with that order. */
module OrderedMap {

  ghost predicate NoDup<K>(s: seq<K>) {
    forall i, j :: 0 <= i < j < |s| ==> s[i] != s[j]
  }

  datatype OMap<V> = OMap(keys: seq<string>, items: map<string, V>)

  /** The order lists every key exactly once. */
  ghost predicate Valid<V>(m: OMap<V>) {
    && NoDup(m.keys)
    && (forall k :: k in m.items <==> k in m.keys)
  }

  function Empty<V>(): (r: OMap<V>)
    ensures Valid(r) && r.items == map[]
  {
    OMap([], map[])
  }

  /** `d[k] = v`: a new key goes last, an existing key keeps its place. */
  function Put<V>(m: OMap<V>, k: string, v: V): (r: OMap<V>)
    requires Valid(m)
    ensures Valid(r)
    ensures r.items == m.items[k := v]
    ensures k in m.items ==> r.keys == m.keys
    ensures k !in m.items ==> r.keys == m.keys + [k]
  {
    if k in m.items then OMap(m.keys, m.items[k := v])
    else OMap(m.keys + [k], m.items[k := v])
  }

  function RemoveFromSeq(s: seq<string>, k: string): (r: seq<string>)
    ensures k !in r
    ensures forall x :: x in r <==> x in s && x != k
    ensures NoDup(s) ==> NoDup(r)
  {
    if s == [] then []
    else if s[0] == k then RemoveFromSeq(s[1..], k)
    else
      var t := RemoveFromSeq(s[1..], k);
      assert NoDup(s) ==> NoDup([s[0]] + t) by {
        if NoDup(s) {
          assert forall x :: x in t ==> x in s[1..];
          assert s[0] !in s[1..];
        }
      }
      [s[0]] + t
  }

  /** `del d[k]` (or nothing when `k` is absent). */
  function Remove<V>(m: OMap<V>, k: string): (r: OMap<V>)
    requires Valid(m)
    ensures Valid(r)
    ensures r.items == m.items - {k}
  {
    OMap(RemoveFromSeq(m.keys, k), m.items - {k})
  }

  /** The values in iteration order. */
  function Values<V>(m: OMap<V>): (r: seq<V>)
    requires Valid(m)
    ensures |r| == |m.keys|
    ensures forall i :: 0 <= i < |r| ==> r[i] == m.items[m.keys[i]]
  {
    seq(|m.keys|, i requires 0 <= i < |m.keys| => m.items[m.keys[i]])
  }

  /** The entries whose value satisfies `keep`, in iteration order. */
  function Filter<V>(m: OMap<V>, keep: V -> bool): (r: OMap<V>)
    requires Valid(m)
    ensures Valid(r)
    ensures forall k :: k in r.items <==> k in m.items && keep(m.items[k])
    ensures forall k :: k in r.items ==> r.items[k] == m.items[k]
    decreases |m.keys|
  {
    if m.keys == [] then Empty()
    else
      var k := m.keys[|m.keys| - 1];
      var rest := Init(m);
      var r := Filter(rest, keep);
      if keep(m.items[k]) then Put(r, k, m.items[k]) else r
  }

  /** Removing a key that was just added gives back the map before, in the
      same order. */
  lemma RemovePut<V>(m: OMap<V>, k: string, v: V)
    requires Valid(m) && k !in m.items
    ensures Remove(Put(m, k, v), k) == m
  {
    RemoveFromSeqAbsent(m.keys, k);
  }

  lemma {:induction false} RemoveFromSeqAbsent(s: seq<string>, k: string)
    requires k !in s
    ensures RemoveFromSeq(s + [k], k) == s
  {
    if s != [] {
      assert (s + [k])[1..] == s[1..] + [k];
      RemoveFromSeqAbsent(s[1..], k);
    }
  }

  /** The map minus its last key: what is left before that key was added. */
  function Init<V>(m: OMap<V>): (r: OMap<V>)
    requires Valid(m) && m.keys != []
    ensures Valid(r) && r.keys == m.keys[..|m.keys| - 1]
    ensures r.items == m.items - {m.keys[|m.keys| - 1]}
    ensures Put(r, m.keys[|m.keys| - 1], m.items[m.keys[|m.keys| - 1]]) == m
  {
    var k := m.keys[|m.keys| - 1];
    var r := OMap(m.keys[..|m.keys| - 1], m.items - {k});
    assert m.keys == r.keys + [k];
    forall x ensures x in r.items <==> x in r.keys {
      if x in r.keys {
        var i :| 0 <= i < |m.keys| - 1 && m.keys[i] == x;
        assert x != k;
      }
    }
    r
  }

  /** `d.items()`: the entries in iteration order. */
  function Entries<V>(m: OMap<V>): (r: seq<(string, V)>)
    requires Valid(m)
    ensures |r| == |m.keys| && forall i | 0 <= i < |r| :: r[i] == (m.keys[i], m.items[m.keys[i]])
  {
    seq(|m.keys|, i requires 0 <= i < |m.keys| => (m.keys[i], m.items[m.keys[i]]))
  }

  /** `dict(pairs)`: a repeated key takes the later value and keeps the
      earlier place. */
  function FromEntries<V>(pairs: seq<(string, V)>): (r: OMap<V>)
    ensures Valid(r)
    ensures forall k :: k in r.items <==> exists i | 0 <= i < |pairs| :: pairs[i].0 == k
    decreases |pairs|
  {
    if pairs == [] then Empty()
    else
      var init := pairs[..|pairs| - 1];
      var last := pairs[|pairs| - 1];
      assert forall i | 0 <= i < |init| :: init[i] == pairs[i];
      Put(FromEntries(init), last.0, last.1)
  }

  /** Reading back the entries of a map gives the same map, in the same
      order. */
  lemma {:induction false} FromEntriesOfEntries<V>(m: OMap<V>)
    requires Valid(m)
    ensures FromEntries(Entries(m)) == m
    decreases |m.keys|
  {
    if m.keys != [] {
      var init := Init(m);
      var n := |m.keys|;
      EntriesInit(m);
      FromEntriesOfEntries(init);
      assert FromEntries(Entries(m)) == Put(FromEntries(Entries(init)), m.keys[n - 1], m.items[m.keys[n - 1]]);
    }
  }

  /** The entries of a map are the entries of `Init` followed by the last
      key's entry. */
  lemma EntriesInit<V>(m: OMap<V>)
    requires Valid(m) && m.keys != []
    ensures var n := |m.keys|;
      && Entries(m)[..n - 1] == Entries(Init(m))
      && Entries(m)[n - 1] == (m.keys[n - 1], m.items[m.keys[n - 1]])
  {
  }

  /** Keeping every entry changes nothing. */
  lemma {:induction false} FilterAll<V>(m: OMap<V>, keep: V -> bool)
    requires Valid(m) && forall k | k in m.items :: keep(m.items[k])
    ensures Filter(m, keep) == m
    decreases |m.keys|
  {
    if m.keys != [] {
      var init := Init(m);
      FilterAll(init, keep);
    }
  }
}

=== FILE: records.dfy ===
/** What the manager remembers about installed mods: the version-2 install
    records, the legacy manifest the older manager reads, the conversion
    between their paths, and dropping records whose files have gone. */
module Records {
  import opened Wrappers
  import opened Text
  import opened OrderedMap
  import opened Selection

  /** `InstallBackend`: patching the game's archives with the yumia tool,
      or a mods folder read by a loose-file loader. */
  datatype Backend = Yumia | Loose

  /** `InstallKind`: installed as an option of a legacy archive or as
      feature choices of a manifest archive. */
  datatype InstallKind = LegacyInstall | ManifestInstall

  /** `InstalledModRecord`. Yumia paths are relative to the game root
      (`package/...`); loose paths are relative to it too
      (`mods/<dir>/<file>`). */
  datatype InstalledModRecord = InstalledModRecord(
    archiveFilename: string, backend: Backend, installKind: InstallKind,
    summary: string, legacyOptionName: Option<string>,
    featureSelections: Option<Selections>, installedPaths: seq<string>,
    looseModDir: Option<string>)

  /** `LegacyInstalledModRecord`: files relative to the game's `package/`
      directory. */
  datatype LegacyRecord = LegacyRecord(archiveFilename: string, optionName: string, installedFiles: seq<string>)

  /** The install records, keyed by archive file name, in insertion order. */
  type Installed = OMap<InstalledModRecord>

  const PACKAGE_DIR: string := "package/"

  /** One leading `package/` removed, if there is one. */
  function StripPackage(path: string): (r: string)
    ensures PACKAGE_DIR + r == path || (r == path && !HasPrefix(path, PACKAGE_DIR))
  {
    if HasPrefix(path, PACKAGE_DIR) then
      assert path == PACKAGE_DIR + path[|PACKAGE_DIR|..];
      path[|PACKAGE_DIR|..]
    else path
  }

  /** `package/` added, unless the path already starts with it. */
  function AddPackage(path: string): (r: string)
    ensures HasPrefix(r, PACKAGE_DIR)
  {
    if HasPrefix(path, PACKAGE_DIR) then path
    else
      assert (PACKAGE_DIR + path)[..|PACKAGE_DIR|] == PACKAGE_DIR;
      PACKAGE_DIR + path
  }

  /** Adding the prefix and removing it again gives back a path that did not
      start with it; one that did loses it. */
  lemma StripAddPackage(path: string)
    ensures !HasPrefix(path, PACKAGE_DIR) ==> StripPackage(AddPackage(path)) == path
    ensures HasPrefix(path, PACKAGE_DIR) ==> PACKAGE_DIR + StripPackage(AddPackage(path)) == path
  {
    if !HasPrefix(path, PACKAGE_DIR) {
      assert (PACKAGE_DIR + path)[|PACKAGE_DIR|..] == path;
    }
  }

  /** `installed_files`: yumia paths relative to `package/`, loose paths as
      recorded. */
  function InstalledFiles(rec: InstalledModRecord): (r: seq<string>)
    ensures |r| == |rec.installedPaths|
    ensures rec.backend == Loose ==> r == rec.installedPaths
    ensures rec.backend == Yumia ==> forall i | 0 <= i < |r| ::
      PACKAGE_DIR + r[i] == rec.installedPaths[i] || (r[i] == rec.installedPaths[i] && !HasPrefix(r[i], PACKAGE_DIR))
  {
    if rec.backend == Loose then rec.installedPaths
    else seq(|rec.installedPaths|, i requires 0 <= i < |rec.installedPaths| => StripPackage(rec.installedPaths[i]))
  }

  /** A record as the legacy manifest stores it. */
  function ToLegacy(rec: InstalledModRecord): (r: LegacyRecord)
    ensures r.archiveFilename == rec.archiveFilename && r.optionName == rec.summary
  {
    LegacyRecord(rec.archiveFilename, rec.summary, InstalledFiles(rec))
  }

  /** The keys of the yumia records, in order. */
  function YumiaKeys(keys: seq<string>, items: map<string, InstalledModRecord>): (r: seq<string>)
    requires forall k | k in keys :: k in items
    ensures forall k :: k in r <==> k in keys && items[k].backend == Yumia
    ensures NoDup(keys) ==> NoDup(r)
  {
    if keys == [] then []
    else
      var rest := YumiaKeys(keys[1..], items);
      assert forall k | k in rest :: k in keys[1..];
      if items[keys[0]].backend == Yumia then [keys[0]] + rest else rest
  }

  /** `_save_legacy_installed_mods_manifest`: the yumia records in the
      legacy format, in the same order (loose records are not written). */
  function LegacyExport(installed: Installed): (r: OMap<LegacyRecord>)
    requires Valid(installed)
    ensures Valid(r)
    ensures forall k :: k in r.items <==> k in installed.items && installed.items[k].backend == Yumia
    ensures forall k | k in r.items :: r.items[k] == ToLegacy(installed.items[k])
  {
    var keys := YumiaKeys(installed.keys, installed.items);
    OMap(keys, map k | k in keys :: ToLegacy(installed.items[k]))
  }

  /** Every path of the record passes `present`. */
  predicate AllPresent(paths: seq<string>, present: string -> bool) {
    forall i | 0 <= i < |paths| :: present(paths[i])
  }

  /** `check_installed_status`: the records some of whose files are missing
      are dropped, and the state is written
      back only if a record was dropped. */
  function Prune<V>(installed: OMap<V>, paths: V -> seq<string>, present: string -> bool): (r: (OMap<V>, bool))
    requires Valid(installed)
    ensures Valid(r.0)
    ensures forall k :: k in r.0.items <==> k in installed.items && AllPresent(paths(installed.items[k]), present)
    ensures forall k | k in r.0.items :: r.0.items[k] == installed.items[k]
    ensures r.1 <==> exists k | k in installed.items :: !AllPresent(paths(installed.items[k]), present)
    ensures !r.1 ==> r.0 == installed
  {
    var keep := (v: V) => AllPresent(paths(v), present);
    var kept := Filter(installed, keep);
    var dropped := exists k | k in installed.items :: !AllPresent(paths(installed.items[k]), present);
    assert !dropped ==> kept == installed by {
      if !dropped {
        FilterAll(installed, keep);
      }
    }
    (kept, dropped)
  }

  /** Pruning twice drops nothing more, and the second time nothing is
      written. */
  lemma PruneIdempotent<V>(installed: OMap<V>, paths: V -> seq<string>, present: string -> bool)
    requires Valid(installed)
    ensures var once := Prune(installed, paths, present).0;
      Prune(once, paths, present).0.items == once.items && !Prune(once, paths, present).1
  {
  }
}

=== FILE: resolution.dfy ===
/** From a manifest archive's choices to the files they install, and back:
    the destination map an install extracts, the option files a feature
    would install, recovering the choices of an installed record from its
    summary or its files, and finding a legacy record's option again. */
module Resolution {
  import opened Wrappers
  import opened Text
  import opened OrderedMap
  import opened Manifest
  import opened Selection
  import opened Scan
  import opened Records
  import opened Features

  // ---------------------------------------------------------------------
  // Destination map

  /** The file below `prefix` that `dest` names is listed. */
  predicate ListedUnder(names: seq<string>, prefix: string, dest: string) {
    dest != [] && prefix + dest in names && !HasSuffix(prefix + dest, "/")
  }

  /** Every listed file below `prefix` mapped from its path below it; a
      later file replaces an earlier one's entry. */
  function PutUnder(m: OMap<string>, names: seq<string>, all: seq<string>, prefix: string): (r: OMap<string>)
    requires Valid(m)
    requires forall x | x in names :: x in all
    ensures Valid(r)
    ensures forall k | k in m.items :: k in r.items
    ensures forall k | k in r.items ::
      (k in m.items && r.items[k] == m.items[k]) || (r.items[k] == prefix + k && ListedUnder(all, prefix, k))
    ensures forall d | ListedUnder(names, prefix, d) :: d in r.items && r.items[d] == prefix + d
    decreases |names|
  {
    if names == [] then m
    else
      var x := names[0];
      var listed := FileUnder(x, prefix) && |x| > |prefix|;
      var d := if listed then x[|prefix|..] else "";
      var next := if listed then Put(m, d, x) else m;
      assert listed ==> ListedUnder(all, prefix, d) && x == prefix + d by {
        if listed {
          assert x == x[..|prefix|] + d;
        }
      }
      assert forall y | y in names[1..] :: y in names;
      assert forall e | ListedUnder(names, prefix, e) :: ListedUnder(names[1..], prefix, e) || (listed && e == d) by {
        forall e | ListedUnder(names, prefix, e) && !ListedUnder(names[1..], prefix, e)
          ensures listed && e == d
        {
          assert prefix + e == x;
          assert x[..|prefix|] == prefix;
        }
      }
      PutUnder(next, names[1..], all, prefix)
  }

  /** The files below every prefix in turn: a later prefix replaces an
      earlier one's entry for the same destination. */
  function PutAllUnder(m: OMap<string>, names: seq<string>, prefixes: seq<string>): (r: OMap<string>)
    requires Valid(m)
    ensures Valid(r)
    decreases |prefixes|
  {
    if prefixes == [] then m
    else PutUnder(PutAllUnder(m, names, prefixes[..|prefixes| - 1]), names, names, prefixes[|prefixes| - 1])
  }

  /** Every entry was there before, or is a listed file below one of the
      prefixes, found at its destination. */
  lemma {:induction false} PutAllSound(m: OMap<string>, names: seq<string>, prefixes: seq<string>, k: string)
    requires Valid(m) && k in PutAllUnder(m, names, prefixes).items
    ensures var r := PutAllUnder(m, names, prefixes);
      (k in m.items && r.items[k] == m.items[k])
      || exists i | 0 <= i < |prefixes| :: r.items[k] == prefixes[i] + k && ListedUnder(names, prefixes[i], k)
    decreases |prefixes|
  {
    if prefixes != [] {
      var init := prefixes[..|prefixes| - 1];
      var p := prefixes[|prefixes| - 1];
      var before := PutAllUnder(m, names, init);
      var r := PutUnder(before, names, names, p);
      if !(r.items[k] == p + k && ListedUnder(names, p, k)) {
        PutAllSound(m, names, init, k);
        if !(k in m.items && r.items[k] == m.items[k]) {
          var i :| 0 <= i < |init| && before.items[k] == init[i] + k && ListedUnder(names, init[i], k);
          assert prefixes[i] == init[i];
        }
      }
    }
  }

  /** Every listed file below one of the prefixes has its destination. */
  lemma {:induction false} PutAllComplete(m: OMap<string>, names: seq<string>, prefixes: seq<string>, i: nat, d: string)
    requires Valid(m) && i < |prefixes| && ListedUnder(names, prefixes[i], d)
    ensures d in PutAllUnder(m, names, prefixes).items
    decreases |prefixes|
  {
    var init := prefixes[..|prefixes| - 1];
    if i < |init| {
      assert prefixes[i] == init[i];
      PutAllComplete(m, names, init, i, d);
    }
  }

  /** The last prefix wins: its files are where they belong. */
  lemma PutAllLast(m: OMap<string>, names: seq<string>, prefixes: seq<string>, d: string)
    requires Valid(m) && prefixes != [] && ListedUnder(names, prefixes[|prefixes| - 1], d)
    ensures PutAllUnder(m, names, prefixes).items[d] == prefixes[|prefixes| - 1] + d
  {
  }

  /** The last prefix that lists a destination decides its member. */
  lemma {:induction false} PutAllLastListing(m: OMap<string>, names: seq<string>, prefixes: seq<string>, i: nat, d: string)
    requires Valid(m) && i < |prefixes| && ListedUnder(names, prefixes[i], d)
    requires forall j | i < j < |prefixes| :: !ListedUnder(names, prefixes[j], d)
    ensures d in PutAllUnder(m, names, prefixes).items
    ensures PutAllUnder(m, names, prefixes).items[d] == prefixes[i] + d
    decreases |prefixes|
  {
    if i == |prefixes| - 1 {
      PutAllLast(m, names, prefixes, d);
    } else {
      var init := prefixes[..|prefixes| - 1];
      assert prefixes[i] == init[i];
      assert forall j | i < j < |init| :: init[j] == prefixes[j];
      PutAllLastListing(m, names, init, i, d);
      assert !ListedUnder(names, prefixes[|prefixes| - 1], d);
    }
  }

  /** The directories whose files an install takes: the common-files
      directory when it is named, then the chosen option of every feature
      with a choice, in manifest order. */
  function Prefixes(m: ModManifest, sel: Selections): (r: seq<string>)
    ensures forall p :: p in r <==> Takes(m, sel, p)
  {
    var common := if m.commonFilesDir.Some? && m.commonFilesDir.value != [] then [m.commonFilesDir.value + "/"] else [];
    common + ChosenPrefixes(m.features, sel)
  }

  /** A directory an install takes files from. */
  predicate Takes(m: ModManifest, sel: Selections, p: string) {
    || (m.commonFilesDir.Some? && m.commonFilesDir.value != [] && p == m.commonFilesDir.value + "/")
    || exists f | f in m.features :: ChosenPrefix(f, sel) == Some(p)
  }

  /** `directory/chosen/` for a feature with a choice. */
  function ChosenPrefix(f: Feature, sel: Selections): Option<string> {
    match Get(sel, f.name)
    case Some(c) => Some(f.directory + "/" + c + "/")
    case None => None
  }

  function ChosenPrefixes(features: seq<Feature>, sel: Selections): (r: seq<string>)
    ensures forall p :: p in r <==> exists f | f in features :: ChosenPrefix(f, sel) == Some(p)
  {
    if features == [] then []
    else
      var rest := ChosenPrefixes(features[1..], sel);
      assert forall f | f in features :: f == features[0] || f in features[1..];
      assert forall f | f in features[1..] :: f in features;
      (match ChosenPrefix(features[0], sel) case Some(p) => [p] case None => []) + rest
  }

  /** `_manifest_dest_to_member_map`: from a path below the game's
      `package/` directory to the member installed there. */
  function DestToMember(names: seq<string>, m: ModManifest, sel: Selections): (r: OMap<string>)
    ensures Valid(r)
  {
    PutAllUnder(Empty(), names, Prefixes(m, sel))
  }

  /** Every destination comes from a listed file of the common directory
      or of a chosen option, found at that destination below it. */
  lemma DestToMemberSound(names: seq<string>, m: ModManifest, sel: Selections, k: string)
    requires k in DestToMember(names, m, sel).items
    ensures exists p | Takes(m, sel, p) :: DestToMember(names, m, sel).items[k] == p + k && ListedUnder(names, p, k)
  {
    var ps := Prefixes(m, sel);
    PutAllSound(Empty(), names, ps, k);
    var i :| 0 <= i < |ps| && DestToMember(names, m, sel).items[k] == ps[i] + k && ListedUnder(names, ps[i], k);
    assert ps[i] in ps;
  }

  /** Every listed file of the common directory or of a chosen option has
      a destination. */
  lemma DestToMemberComplete(names: seq<string>, m: ModManifest, sel: Selections, p: string, d: string)
    requires Takes(m, sel, p) && ListedUnder(names, p, d)
    ensures d in DestToMember(names, m, sel).items
  {
    var ps := Prefixes(m, sel);
    assert p in ps;
    var i :| 0 <= i < |ps| && ps[i] == p;
    PutAllComplete(Empty(), names, ps, i, d);
  }

  /** A later directory overrides an earlier one: a destination's member
      comes from the last directory, in `Prefixes` order, that lists it. */
  lemma DestToMemberLastWins(names: seq<string>, m: ModManifest, sel: Selections, i: nat, d: string)
    requires i < |Prefixes(m, sel)| && ListedUnder(names, Prefixes(m, sel)[i], d)
    requires forall j | i < j < |Prefixes(m, sel)| :: !ListedUnder(names, Prefixes(m, sel)[j], d)
    ensures d in DestToMember(names, m, sel).items
    ensures DestToMember(names, m, sel).items[d] == Prefixes(m, sel)[i] + d
  {
    PutAllLastListing(Empty(), names, Prefixes(m, sel), i, d);
  }

  /** The destinations are the members the converter takes for the same
      choices. */
  lemma DestToMemberSelected(names: seq<string>, m: ModManifest, sel: Selections, k: string)
    requires k in DestToMember(names, m, sel).items
    ensures SelectedFile(m, sel, DestToMember(names, m, sel).items[k])
  {
    DestToMemberSound(names, m, sel, k);
    var x := DestToMember(names, m, sel).items[k];
    var p :| Takes(m, sel, p) && x == p + k && ListedUnder(names, p, k);
    assert HasPrefix(x, p) by {
      assert x[..|p|] == p;
    }
    if !CommonFile(m, x) {
      var f :| f in m.features && ChosenPrefix(f, sel) == Some(p);
      ChosenByAnyOf(m.features, sel, f, x);
    }
  }

  lemma {:induction false} ChosenByAnyOf(features: seq<Feature>, sel: Selections, f: Feature, x: string)
    requires f in features && ChosenFile(f, sel, x)
    ensures ChosenByAny(features, sel, x)
    decreases |features|
  {
    if features[0] != f {
      assert f in features[1..];
      ChosenByAnyOf(features[1..], sel, f, x);
    }
  }

  // ---------------------------------------------------------------------
  // Option files

  /** The first feature with the name, if any. */
  function FindFeature(features: seq<Feature>, name: string): (r: Option<Feature>)
    ensures r.None? <==> name !in Names(features)
    ensures r.Some? ==> r.value in features && r.value.name == name
  {
    var i := IndexOf(Names(features), name);
    if i < |features| then
      Some(features[i])
    else
      assert forall j | 0 <= j < |features| :: Names(features)[j] != name;
      None
  }

  /** `_feature_option_dest_files`: where the option's files would land
      below `package/`. */
  function OptionDestFiles(names: seq<string>, features: seq<Feature>, featureName: string, option: string): (r: set<string>)
    ensures FindFeature(features, featureName).None? ==> r == {}
    ensures FindFeature(features, featureName).Some? ==>
      var prefix := FindFeature(features, featureName).value.directory + "/" + option + "/";
      forall d :: d in r <==> ListedUnder(names, prefix, d)
  {
    match FindFeature(features, featureName)
    case None => {}
    case Some(f) =>
      var prefix := f.directory + "/" + option + "/";
      var r := set x | x in names && FileUnder(x, prefix) && |x| > |prefix| :: x[|prefix|..];
      assert forall d :: d in r <==> ListedUnder(names, prefix, d) by {
        forall d ensures d in r <==> ListedUnder(names, prefix, d) {
          if ListedUnder(names, prefix, d) {
            var x := prefix + d;
            assert x[..|prefix|] == prefix && x[|prefix|..] == d;
          }
          if d in r {
            var x :| x in names && FileUnder(x, prefix) && |x| > |prefix| && x[|prefix|..] == d;
            assert x == x[..|prefix|] + d;
          }
        }
      }
      r
  }

  // ---------------------------------------------------------------------
  // Inferring choices from installed files

  /** The installed paths relative to `package/`. */
  function PackageRelative(paths: seq<string>): (r: set<string>)
    ensures forall p | p in paths :: StripPackage(p) in r
    ensures forall d | d in r :: exists p | p in paths :: StripPackage(p) == d
  {
    set p | p in paths :: StripPackage(p)
  }

  /** The options of a feature all of whose files (there are some) are
      installed. */
  function Matches(names: seq<string>, features: seq<Feature>, options: map<string, seq<string>>,
                   f: Feature, installed: set<string>): (r: seq<string>)
    ensures forall o :: o in r <==> o in Available(options, f.name) && MatchesAll(names, features, f.name, o, installed)
  {
    Where(Available(options, f.name), o => MatchesAll(names, features, f.name, o, installed))
  }

  predicate MatchesAll(names: seq<string>, features: seq<Feature>, name: string, o: string, installed: set<string>) {
    var files := OptionDestFiles(names, features, name, o);
    files != {} && files <= installed
  }

  /** The choice for one feature: its only match, none for an optional
      feature without one, or failure. */
  function InferOne(ms: seq<string>, f: Feature): (r: Option<Option<string>>)
    ensures r == Some(None) <==> ms == [] && f.optional
    ensures forall o :: r == Some(Some(o)) <==> ms == [o]
  {
    if |ms| == 1 then Some(Some(ms[0]))
    else if ms == [] && f.optional then Some(None)
    else None
  }

  /** The source's loop over the features, stopping at the first that has
      several matches or that is required and has none. */
  function InferLoop(names: seq<string>, all: seq<Feature>, options: map<string, seq<string>>,
                     installed: set<string>, features: seq<Feature>, acc: Selections): (r: Option<Selections>)
    decreases |features|
  {
    if features == [] then Some(acc)
    else
      var f := features[0];
      match InferOne(Matches(names, all, options, f, installed), f)
      case None => None
      case Some(c) => InferLoop(names, all, options, installed, features[1..], acc[f.name := c])
  }

  /** `_infer_feature_selections_from_installed_files` */
  function InferSelections(names: seq<string>, features: seq<Feature>, options: map<string, seq<string>>,
                           installedPaths: seq<string>): (r: Option<Selections>)
    ensures r.Some? ==> ValidateSelections(features, options, r.value).Ok?
  {
    match InferLoop(names, features, options, PackageRelative(installedPaths), features, map[])
    case None => None
    case Some(sel) => if ValidateSelections(features, options, sel).Ok? then Some(sel) else None
  }

  /** The loop fails exactly when some feature has several matches, or
      none while required. */
  lemma {:induction false} InferLoopFails(names: seq<string>, all: seq<Feature>, options: map<string, seq<string>>,
                                          installed: set<string>, features: seq<Feature>, acc: Selections)
    ensures InferLoop(names, all, options, installed, features, acc).None? <==>
      exists i | 0 <= i < |features| :: InferOne(Matches(names, all, options, features[i], installed), features[i]).None?
    decreases |features|
  {
    if features != [] {
      var f := features[0];
      var one := InferOne(Matches(names, all, options, f, installed), f);
      if one.Some? {
        InferLoopFails(names, all, options, installed, features[1..], acc[f.name := one.value]);
        if exists i | 0 <= i < |features| :: InferOne(Matches(names, all, options, features[i], installed), features[i]).None? {
          var i :| 0 <= i < |features| && InferOne(Matches(names, all, options, features[i], installed), features[i]).None?;
          assert features[1..][i - 1] == features[i];
        }
      }
    }
  }

  /** An ambiguous feature, or a required one with nothing installed,
      leaves the record's choices unknown. */
  lemma InferAmbiguous(names: seq<string>, features: seq<Feature>, options: map<string, seq<string>>,
                       installedPaths: seq<string>, i: nat)
    requires i < |features|
    requires var ms := Matches(names, features, options, features[i], PackageRelative(installedPaths));
      |ms| > 1 || (ms == [] && !features[i].optional)
    ensures InferSelections(names, features, options, installedPaths).None?
  {
    InferLoopFails(names, features, options, PackageRelative(installedPaths), features, map[]);
  }

  /** With distinct feature names, each feature gets its only match, or
      nothing when it is optional and nothing matches. */
  lemma {:induction false} InferLoopChoices(names: seq<string>, all: seq<Feature>, options: map<string, seq<string>>,
                                            installed: set<string>, features: seq<Feature>, acc: Selections)
    requires Distinct(Names(features))
    requires InferLoop(names, all, options, installed, features, acc).Some?
    ensures var sel := InferLoop(names, all, options, installed, features, acc).value;
      forall i | 0 <= i < |features| ::
        Some(Get(sel, features[i].name)) == InferOne(Matches(names, all, options, features[i], installed), features[i])
    decreases |features|
  {
    if features != [] {
      var f := features[0];
      var one := InferOne(Matches(names, all, options, f, installed), f);
      var rest := features[1..];
      var next := acc[f.name := one.value];
      assert Names(features) == [f.name] + Names(rest);
      assert Distinct(Names(rest)) by {
        forall i, j | 0 <= i < j < |rest| ensures Names(rest)[i] != Names(rest)[j] {
          assert Names(features)[i + 1] == Names(rest)[i] && Names(features)[j + 1] == Names(rest)[j];
        }
      }
      InferLoopChoices(names, all, options, installed, rest, next);
      var sel := InferLoop(names, all, options, installed, features, acc).value;
      InferLoopKeeps(names, all, options, installed, rest, next, f.name);
      forall i | 0 <= i < |features|
        ensures Some(Get(sel, features[i].name)) == InferOne(Matches(names, all, options, features[i], installed), features[i])
      {
        if i > 0 {
          assert features[i] == rest[i - 1];
        }
      }
    }
  }

  /** The loop leaves alone a name none of the remaining features has. */
  lemma {:induction false} InferLoopKeeps(names: seq<string>, all: seq<Feature>, options: map<string, seq<string>>,
                                          installed: set<string>, features: seq<Feature>, acc: Selections, k: string)
    requires k !in Names(features)
    requires InferLoop(names, all, options, installed, features, acc).Some?
    ensures Get(InferLoop(names, all, options, installed, features, acc).value, k) == Get(acc, k)
    decreases |features|
  {
    if features != [] {
      var f := features[0];
      var one := InferOne(Matches(names, all, options, f, installed), f);
      assert Names(features) == [f.name] + Names(features[1..]);
      InferLoopKeeps(names, all, options, installed, features[1..], acc[f.name := one.value], k);
    }
  }

  /** What inference recovers, feature by feature. */
  lemma InferChoices(names: seq<string>, features: seq<Feature>, options: map<string, seq<string>>,
                     installedPaths: seq<string>, i: nat)
    requires Distinct(Names(features)) && i < |features|
    requires InferSelections(names, features, options, installedPaths).Some?
    ensures var sel := InferSelections(names, features, options, installedPaths).value;
      var ms := Matches(names, features, options, features[i], PackageRelative(installedPaths));
      && (Get(sel, features[i].name).Some? ==> ms == [Get(sel, features[i].name).value])
      && (Get(sel, features[i].name).None? ==> ms == [] && features[i].optional)
  {
    InferLoopChoices(names, features, options, PackageRelative(installedPaths), features, map[]);
  }

  // ---------------------------------------------------------------------
  // Resolving a record's choices

  /** `{feature.name: parsed.get(feature.name) for feature in features}` */
  function Candidate(features: seq<Feature>, parsed: map<string, string>): (r: Selections)
    ensures forall k :: k in r <==> k in Names(features)
    ensures forall k | k in r :: r[k] == (if k in parsed then Some(parsed[k]) else None)
  {
    map k | k in Names(features) :: if k in parsed then Some(parsed[k]) else None
  }

  /** `_resolve_feature_selections_for_summary`: the summary's choices if
      it names any and they are acceptable, else what the installed files
      show. */
  function ResolveForSummary(names: seq<string>, features: seq<Feature>, options: map<string, seq<string>>,
                             summary: string, installedPaths: seq<string>): (r: Option<Selections>)
    ensures r.Some? ==> ValidateSelections(features, options, r.value).Ok?
  {
    var parsed := ParseFeatureSummary(summary);
    if parsed != map[] && ValidateSelections(features, options, Candidate(features, parsed)).Ok? then
      Some(Candidate(features, parsed))
    else InferSelections(names, features, options, installedPaths)
  }

  /** Acceptability depends only on what each feature gets. */
  lemma ValidateSameChoices(features: seq<Feature>, options: map<string, seq<string>>, a: Selections, b: Selections)
    requires forall f | f in features :: Get(a, f.name) == Get(b, f.name)
    ensures ValidateSelections(features, options, a).Ok? <==> ValidateSelections(features, options, b).Ok?
  {
    forall i | 0 <= i < |features| ensures FeatureOk(features[i], options, a) == FeatureOk(features[i], options, b) {
      assert features[i] in features;
    }
  }

  /** A summary built from acceptable choices, one of them at least, with
      summarisable names and options, resolves to exactly those choices
      for the manifest's features. */
  lemma ResolveSummaryRoundTrip(names: seq<string>, features: seq<Feature>, options: map<string, seq<string>>,
                                sel: Selections, installedPaths: seq<string>)
    requires ValidateSelections(features, options, sel).Ok?
    requires exists f | f in features :: Get(sel, f.name).Some?
    requires forall f | f in features && Get(sel, f.name).Some? :: Summarisable((f.name, Get(sel, f.name).value))
    ensures var r := ResolveForSummary(names, features, options, BuildFeatureSummary(features, sel), installedPaths);
      r.Some? && forall k :: Get(r.value, k) == (if k in Names(features) then Get(sel, k) else None)
  {
    var summary := BuildFeatureSummary(features, sel);
    var parsed := ParseFeatureSummary(summary);
    SummaryRoundTrip(features, sel);
    var f :| f in features && Get(sel, f.name).Some?;
    var i :| 0 <= i < |features| && features[i] == f;
    assert Names(features)[i] == f.name;
    assert f.name in parsed;
    CandidateOf(features, options, sel, parsed);
    assert parsed != map[];
    assert ResolveForSummary(names, features, options, summary, installedPaths) == Some(Candidate(features, parsed));
  }

  /** The candidate built from a parse that holds exactly the choices made
      gives every feature its choice, and is acceptable when they are. */
  lemma CandidateOf(features: seq<Feature>, options: map<string, seq<string>>, sel: Selections, parsed: map<string, string>)
    requires forall k :: k in parsed <==> k in Names(features) && Get(sel, k).Some?
    requires forall k | k in parsed :: Get(sel, k) == Some(parsed[k])
    requires ValidateSelections(features, options, sel).Ok?
    ensures forall k :: Get(Candidate(features, parsed), k) == (if k in Names(features) then Get(sel, k) else None)
    ensures ValidateSelections(features, options, Candidate(features, parsed)).Ok?
  {
    var c := Candidate(features, parsed);
    forall g | g in features ensures Get(c, g.name) == Get(sel, g.name) {
      var j :| 0 <= j < |features| && features[j] == g;
      assert Names(features)[j] == g.name;
    }
    ValidateSameChoices(features, options, c, sel);
  }

  /** The record carries some choices and they are acceptable. */
  predicate OwnChoicesUsable(rec: InstalledModRecord, features: seq<Feature>, options: map<string, seq<string>>) {
    rec.featureSelections.Some? && rec.featureSelections.value != map[]
    && ValidateSelections(features, options, rec.featureSelections.value).Ok?
  }

  /** `_resolve_manifest_record_selections`: the record's own choices when
      it has some and they are acceptable, else those of its summary or
      files. */
  function ResolveRecordSelections(rec: InstalledModRecord, names: seq<string>, features: seq<Feature>,
                                   options: map<string, seq<string>>): (r: Option<Selections>)
    ensures r.Some? ==> ValidateSelections(features, options, r.value).Ok?
    ensures OwnChoicesUsable(rec, features, options) ==> r == rec.featureSelections
    ensures !OwnChoicesUsable(rec, features, options) ==>
      r == ResolveForSummary(names, features, options, rec.summary, rec.installedPaths)
  {
    match rec.featureSelections
    case Some(sel) =>
      if sel != map[] && ValidateSelections(features, options, sel).Ok? then Some(sel)
      else ResolveForSummary(names, features, options, rec.summary, rec.installedPaths)
    case None => ResolveForSummary(names, features, options, rec.summary, rec.installedPaths)
  }

  // ---------------------------------------------------------------------
  // Finding a legacy record's option

  /** `record.legacy_option_name or record.display_option_summary` */
  function TargetName(legacyName: Option<string>, summary: string): string {
    if legacyName.Some? && legacyName.value != [] then legacyName.value else summary
  }

  /** `_resolve_legacy_option_for_record`: the first option named like the
      record's option, else the archive's only option, else none. */
  function ResolveLegacyOption(legacyName: Option<string>, summary: string, options: seq<ModOption>): (r: Option<ModOption>)
    ensures r.Some? ==> r.value in options
    ensures (exists o | o in options :: o.name == TargetName(legacyName, summary)) ==>
      r.Some? && r.value.name == TargetName(legacyName, summary)
    ensures (forall o | o in options :: o.name != TargetName(legacyName, summary)) ==>
      r == (if |options| == 1 then Some(options[0]) else None)
    ensures r.Some? && r.value.name == TargetName(legacyName, summary) ==>
      exists i | 0 <= i < |options| :: options[i] == r.value && forall j | 0 <= j < i :: options[j].name != TargetName(legacyName, summary)
  {
    var i := IndexOf(OptionNames(options), TargetName(legacyName, summary));
    if i < |options| then Some(options[i])
    else if |options| == 1 then Some(options[0])
    else None
  }

  /** A record that names one of the archive's options, whose names are
      distinct, finds that option again. */
  lemma ResolveLegacyRoundTrip(o: ModOption, summary: string, options: seq<ModOption>)
    requires o in options && o.name != []
    requires Distinct(OptionNames(options))
    ensures ResolveLegacyOption(Some(o.name), summary, options) == Some(o)
  {
    var r := ResolveLegacyOption(Some(o.name), summary, options).value;
    var i :| 0 <= i < |options| && options[i] == o;
    var j :| 0 <= j < |options| && options[j] == r;
    assert OptionNames(options)[i] == o.name && OptionNames(options)[j] == r.name;
  }
}

=== FILE: sandbox.dfy ===
/** The container and sidecar encoder of the sandbox lab
    (`make_fdata_entry`, `make_fdata`, `make_yumia_json`, `make_yumia_pair`),
    and the round trip through the reader: encode, walk, read. */
module Sandbox {
  import opened Wrappers
  import opened Bytes
  import opened Hex
  import opened Text
  import opened Container
  import opened Sidecar

  /** The arguments of `make_fdata_entry`; `entry_type` defaults to 8 and
      `extradata` to no bytes. */
  datatype EntrySpec = EntrySpec(
    payload: Bytes, nameHash: nat, tkidHash: nat, entryType: nat, extradata: Bytes)

  const DEFAULT_ENTRY_TYPE: nat := 8

  function DefaultSpec(payload: Bytes, nameHash: nat, tkidHash: nat): EntrySpec {
    EntrySpec(payload, nameHash, tkidHash, DEFAULT_ENTRY_TYPE, [])
  }

  function EntrySize(e: EntrySpec): nat {
    HEADER_SIZE + |e.extradata| + |e.payload|
  }

  /** The encoded length: the entry padded to a 16-byte boundary. */
  function EntryLength(e: EntrySpec): nat {
    RoundUp16(EntrySize(e))
  }

  /** Every value fits the `struct.pack` field it goes into. */
  predicate Packable(e: EntrySpec) {
    && EntrySize(e) < U64_LIMIT
    && e.entryType < U32_LIMIT && e.nameHash < U32_LIMIT && e.tkidHash < U32_LIMIT
  }

  /** The 48-byte frame header of an entry: magic, size triple, identity. */
  function EntryHeader(e: EntrySpec): (w: Bytes)
    requires Packable(e)
    ensures |w| == HEADER_SIZE
  {
    LimitsArePowers();
    IDRK + Pack3(EntrySize(e), |e.payload|, |e.payload|) + Pack4(e.entryType, e.nameHash, e.tkidHash, 0)
  }

  /** `struct.pack("<3Q", a, b, c)` */
  function Pack3(a: nat, b: nat, c: nat): (r: Bytes)
    requires a < U64_LIMIT && b < U64_LIMIT && c < U64_LIMIT
    ensures |r| == 24
  {
    LimitsArePowers();
    LE(a, 8) + LE(b, 8) + LE(c, 8)
  }

  /** The three packed u64 fields read back as their values. */
  lemma Pack3Reads(a: nat, b: nat, c: nat)
    requires a < U64_LIMIT && b < U64_LIMIT && c < U64_LIMIT
    ensures var r := Pack3(a, b, c);
      U64At(r, 0) == a && U64At(r, 8) == b && U64At(r, 16) == c
  {
    LimitsArePowers();
    var r := Pack3(a, b, c);
    PackedField(r, [], LE(a, 8), LE(b, 8) + LE(c, 8), a);
    PackedField(r, LE(a, 8), LE(b, 8), LE(c, 8), b);
    PackedField(r, LE(a, 8) + LE(b, 8), LE(c, 8), [], c);
  }

  /** `struct.pack("<4I", a, b, c, d)` */
  function Pack4(a: nat, b: nat, c: nat, d: nat): (r: Bytes)
    requires a < U32_LIMIT && b < U32_LIMIT && c < U32_LIMIT && d < U32_LIMIT
    ensures |r| == 16
  {
    LimitsArePowers();
    LE(a, 4) + LE(b, 4) + LE(c, 4) + LE(d, 4)
  }

  /** The four packed u32 fields read back as their values. */
  lemma Pack4Reads(a: nat, b: nat, c: nat, d: nat)
    requires a < U32_LIMIT && b < U32_LIMIT && c < U32_LIMIT && d < U32_LIMIT
    ensures var r := Pack4(a, b, c, d);
      U32At(r, 0) == a && U32At(r, 4) == b && U32At(r, 8) == c && U32At(r, 12) == d
  {
    LimitsArePowers();
    var r := Pack4(a, b, c, d);
    PackedField(r, [], LE(a, 4), LE(b, 4) + LE(c, 4) + LE(d, 4), a);
    PackedField(r, LE(a, 4), LE(b, 4), LE(c, 4) + LE(d, 4), b);
    PackedField(r, LE(a, 4) + LE(b, 4), LE(c, 4), LE(d, 4), c);
    PackedField(r, LE(a, 4) + LE(b, 4) + LE(c, 4), LE(d, 4), [], d);
  }

  /** A packed field inside a larger buffer reads back as its value. */
  lemma PackedField(r: Bytes, pre: Bytes, f: Bytes, post: Bytes, n: nat)
    requires r == pre + f + post
    requires (|f| == 4 && n < Pow256(4) && f == LE(n, 4)) || (|f| == 8 && n < Pow256(8) && f == LE(n, 8))
    ensures |f| == 4 ==> U32At(r, |pre|) == n
    ensures |f| == 8 ==> U64At(r, |pre|) == n
  {
    assert r[|pre|..|pre| + |f|] == f;
    DecodeEncode(n, |f|);
    if |f| == 4 {
      U32AtDecodes(r, |pre|);
    } else {
      U64AtDecodes(r, |pre|);
    }
  }

  /** `make_fdata_entry` */
  function MakeEntry(e: EntrySpec): (r: Bytes)
    requires Packable(e)
    ensures |r| % 16 == 0
    ensures |r| == EntryLength(e)
  {
    var body := EntryHeader(e) + e.extradata + e.payload;
    body + Zeros(RoundUp16(|body|) - |body|)
  }

  /** An encoded entry starts with the frame magic and is padded with zero
      bytes after the payload. */
  lemma EntryShape(e: EntrySpec)
    requires Packable(e)
    ensures MagicAt(MakeEntry(e), 0)
    ensures forall i | EntrySize(e) <= i < EntryLength(e) :: MakeEntry(e)[i] == 0
  {
    var body := EntryHeader(e) + e.extradata + e.payload;
    assert MakeEntry(e)[..8] == EntryHeader(e)[..8];
  }

  /** The header of an encoded entry reads back as the size triple
      `(0x30 + |extradata| + |payload|, |payload|, |payload|)` and the identity
      block `(entry_type, name_hash, tkid_hash, 0)`. */
  lemma EntryHeaderDecodes(e: EntrySpec)
    requires Packable(e)
    ensures HeaderAt(MakeEntry(e), 0) ==
      Header(EntrySize(e), |e.payload|, |e.payload|, e.entryType, e.nameHash, e.tkidHash, 0)
  {
    var m := MakeEntry(e);
    var tail := m[HEADER_SIZE..];
    assert m == EntryHeader(e) + tail;
    HeaderDecodes(e, tail);
  }

  /** The header reads back whatever follows it. */
  lemma HeaderDecodes(e: EntrySpec, tail: Bytes)
    requires Packable(e)
    ensures HeaderAt(EntryHeader(e) + tail, 0) ==
      Header(EntrySize(e), |e.payload|, |e.payload|, e.entryType, e.nameHash, e.tkidHash, 0)
  {
    LimitsArePowers();
    var sizes := Pack3(EntrySize(e), |e.payload|, |e.payload|);
    var ids := Pack4(e.entryType, e.nameHash, e.tkidHash, 0);
    Pack3Reads(EntrySize(e), |e.payload|, |e.payload|);
    Pack4Reads(e.entryType, e.nameHash, e.tkidHash, 0);
    var m := EntryHeader(e) + tail;
    assert m == IDRK + sizes + (ids + tail);
    assert m == (IDRK + sizes) + ids + tail;
    U64AtShift(IDRK, sizes, ids + tail, 0);
    U64AtShift(IDRK, sizes, ids + tail, 8);
    U64AtShift(IDRK, sizes, ids + tail, 16);
    U32AtShift(IDRK + sizes, ids, tail, 0);
    U32AtShift(IDRK + sizes, ids, tail, 4);
    U32AtShift(IDRK + sizes, ids, tail, 8);
    U32AtShift(IDRK + sizes, ids, tail, 12);
  }

  /** The payload sits right after the header and the extradata. */
  lemma EntryPayloadAt(e: EntrySpec)
    requires Packable(e)
    ensures MakeEntry(e)[HEADER_SIZE + |e.extradata|..EntrySize(e)] == e.payload
  {
    var body := EntryHeader(e) + e.extradata + e.payload;
    assert MakeEntry(e)[..|body|] == body;
  }

  /** `b"".join(parts)` */
  function Concat(parts: seq<Bytes>): Bytes {
    if parts == [] then [] else parts[0] + Concat(parts[1..])
  }

  predicate AllPackable(specs: seq<EntrySpec>) {
    forall i | 0 <= i < |specs| :: Packable(specs[i])
  }

  function Entries(specs: seq<EntrySpec>): (r: seq<Bytes>)
    requires AllPackable(specs)
    ensures |r| == |specs|
    ensures forall i | 0 <= i < |specs| :: r[i] == MakeEntry(specs[i])
  {
    seq(|specs|, i requires 0 <= i < |specs| => MakeEntry(specs[i]))
  }

  lemma {:induction false} BodyLength(specs: seq<EntrySpec>)
    requires AllPackable(specs)
    ensures |Concat(Entries(specs))| >= HEADER_SIZE * |specs|
    decreases |specs|
  {
    if specs != [] {
      BodyLength(specs[1..]);
      assert Entries(specs)[1..] == Entries(specs[1..]);
    }
  }

  /** `make_fdata`: the `PDRK0000` header, u32 0x10, u32 `len(body) + 0x10`,
      then the entries back to back; `struct.pack` raises when the total
      length does not fit its 32-bit field. */
  function MakeFdata(entries: seq<Bytes>): (r: Result<Bytes>)
    ensures r.Ok? <==> |Concat(entries)| + 0x10 < U32_LIMIT
    ensures r.Ok? ==> |r.value| == 0x10 + |Concat(entries)|
    ensures r.Ok? ==> r.value[..8] == PDRK
    ensures r.Ok? ==> r.value[0x10..] == Concat(entries)
    ensures r.Ok? ==> DecodeLE(r.value[8..12]) == 0x10 && DecodeLE(r.value[12..16]) == |r.value|
  {
    if |Concat(entries)| + 0x10 >= U32_LIMIT then Err("struct.error: 'I' format requires 0 <= number <= 4294967295")
    else
      LimitsArePowers();
      var r := PDRK + LE(0x10, 4) + LE(|Concat(entries)| + 0x10, 4) + Concat(entries);
      assert r[8..12] == LE(0x10, 4);
      assert r[12..16] == LE(|Concat(entries)| + 0x10, 4);
      DecodeEncode(0x10, 4);
      DecodeEncode(|Concat(entries)| + 0x10, 4);
      Ok(r)
  }

  /** The frames the walk should report for `specs` laid out from `base`. */
  function FramesOf(specs: seq<EntrySpec>, base: nat): (r: seq<Frame>)
    requires AllPackable(specs)
    ensures |r| == |specs|
    decreases |specs|
  {
    if specs == [] then []
    else [Frame(base, specs[0].nameHash, specs[0].tkidHash)]
         + FramesOf(specs[1..], base + EntryLength(specs[0]))
  }

  /** Splits concatenated parts after the first one. */
  lemma SplitFirst(data: Bytes, base: nat, es: seq<Bytes>)
    requires es != [] && Matches(data, base, Concat(es))
    ensures Matches(data, base, es[0])
    ensures Matches(data, base + |es[0]|, Concat(es[1..]))
  {
    MatchesAppend(data, base, es[0], Concat(es[1..]));
  }

  /** What the reader relies on in one encoded entry on its own: the magic,
      the header fields, the payload right after the extradata, and the
      padded length. */
  predicate EntryFacts(e: Bytes, s: EntrySpec)
    requires Packable(s)
  {
    && |e| == EntryLength(s) && HEADER_SIZE <= |e|
    && MagicAt(e, 0)
    && EntrySizeAt(e, 0) == EntrySize(s)
    && CmpSizeAt(e, 0) == |s.payload| && UncSizeAt(e, 0) == |s.payload|
    && NameHashAt(e, 0) == s.nameHash && TkidHashAt(e, 0) == s.tkidHash
    && Matches(e, HEADER_SIZE + |s.extradata|, s.payload)
  }

  lemma EntryFactsHold(s: EntrySpec)
    requires Packable(s)
    ensures EntryFacts(MakeEntry(s), s)
  {
    EntryShape(s);
    EntryHeaderDecodes(s);
    EntryPayloadAt(s);
    MatchesSlice(MakeEntry(s), HEADER_SIZE + |s.extradata|, s.payload);
  }

  /** The magic and the header fields read the same inside a larger buffer. */
  lemma FieldsInContext(data: Bytes, base: nat, e: Bytes)
    requires HEADER_SIZE <= |e| && Matches(data, base, e)
    ensures MagicAt(data, base) == MagicAt(e, 0)
    ensures EntrySizeAt(data, base) == EntrySizeAt(e, 0)
    ensures CmpSizeAt(data, base) == CmpSizeAt(e, 0) && UncSizeAt(data, base) == UncSizeAt(e, 0)
    ensures NameHashAt(data, base) == NameHashAt(e, 0) && TkidHashAt(data, base) == TkidHashAt(e, 0)
  {
    MatchesSlice(data, base, e);
    var pre, post := data[..base], data[base + |e|..];
    assert data == pre + e + post;
    assert data[base..base + 8] == e[..8];
    U64AtShift(pre, e, post, 8);
    U64AtShift(pre, e, post, 16);
    U64AtShift(pre, e, post, 24);
    U32AtShift(pre, e, post, 36);
    U32AtShift(pre, e, post, 40);
  }

  /** What the walk sees of an entry laid out at `base`: the magic, the
      header the encoder wrote, and the next frame right after the padding. */
  predicate FrameLaidOut(data: Bytes, base: nat, s: EntrySpec)
    requires Packable(s)
  {
    && base + HEADER_SIZE <= |data| && base + EntryLength(s) <= |data|
    && MagicAt(data, base)
    && NameHashAt(data, base) == s.nameHash && TkidHashAt(data, base) == s.tkidHash
    && NextPos(data, base) == base + EntryLength(s)
  }

  /** What the reader sees besides: the payload where the header says. */
  predicate LaidOut(data: Bytes, base: nat, s: EntrySpec)
    requires Packable(s)
  {
    && FrameLaidOut(data, base, s)
    && CmpSizeAt(data, base) == |s.payload| && UncSizeAt(data, base) == |s.payload|
    && Matches(data, PayloadStart(data, base), s.payload)
  }

  /** `FrameLaidOut` for every entry, back to back from `base` to the end of
      the data. */
  predicate AllFramesLaidOut(data: Bytes, base: nat, specs: seq<EntrySpec>)
    requires AllPackable(specs)
    decreases |specs|
  {
    if specs == [] then base == |data|
    else FrameLaidOut(data, base, specs[0]) && AllFramesLaidOut(data, base + EntryLength(specs[0]), specs[1..])
  }

  /** `LaidOut` for every entry, back to back from `base` to the end of the
      data. */
  predicate AllLaidOut(data: Bytes, base: nat, specs: seq<EntrySpec>)
    requires AllPackable(specs)
    decreases |specs|
  {
    if specs == [] then base == |data|
    else LaidOut(data, base, specs[0]) && AllLaidOut(data, base + EntryLength(specs[0]), specs[1..])
  }

  /** `es` are the bytes of `specs`' entries, known only through
      `EntryFacts`, placed back to back from the 16-byte boundary `base` to the
      end of `data`. */
  predicate Placed(data: Bytes, base: nat, specs: seq<EntrySpec>, es: seq<Bytes>) {
    && AllPackable(specs) && |es| == |specs|
    && (forall i | 0 <= i < |es| :: EntryFacts(es[i], specs[i]))
    && base % 16 == 0 && base + |Concat(es)| == |data| && Matches(data, base, Concat(es))
  }

  /** Placed entries are laid out as the reader expects. */
  lemma {:induction false} EntriesLaidOut(data: Bytes, base: nat, specs: seq<EntrySpec>, es: seq<Bytes>)
    requires Placed(data, base, specs, es)
    ensures AllLaidOut(data, base, specs)
    decreases |specs|
  {
    if specs != [] {
      LayoutHead(data, base, specs, es);
      PlacedTail(data, base, specs, es);
      EntriesLaidOut(data, base + EntryLength(specs[0]), specs[1..], es[1..]);
    }
  }

  /** The first placed entry is laid out. */
  lemma LayoutHead(data: Bytes, base: nat, specs: seq<EntrySpec>, es: seq<Bytes>)
    requires Placed(data, base, specs, es) && specs != []
    ensures LaidOut(data, base, specs[0])
  {
    assert EntryFacts(es[0], specs[0]);
    SplitFirst(data, base, es);
    LaidOutInContext(data, base, es[0], specs[0]);
  }

  /** The entries after the first are placed from the next 16-byte boundary
      on. */
  lemma PlacedTail(data: Bytes, base: nat, specs: seq<EntrySpec>, es: seq<Bytes>)
    requires Placed(data, base, specs, es) && specs != []
    ensures Placed(data, base + EntryLength(specs[0]), specs[1..], es[1..])
  {
    assert |es[0]| == EntryLength(specs[0]);
    SplitFirst(data, base, es);
    FactsTail(specs, es);
    AlignedSum(base, EntryLength(specs[0]));
  }

  lemma FactsTail(specs: seq<EntrySpec>, es: seq<Bytes>)
    requires AllPackable(specs) && |es| == |specs| && specs != []
    requires forall i | 0 <= i < |es| :: EntryFacts(es[i], specs[i])
    ensures AllPackable(specs[1..])
    ensures forall i | 0 <= i < |es[1..]| :: EntryFacts(es[1..][i], specs[1..][i])
  {
    forall i | 0 <= i < |es[1..]| ensures EntryFacts(es[1..][i], specs[1..][i]) {
      assert EntryFacts(es[i + 1], specs[i + 1]);
    }
  }

  /** Every encoded entry has the facts the reader relies on. */
  lemma AllEntryFacts(specs: seq<EntrySpec>)
    requires AllPackable(specs)
    ensures forall i | 0 <= i < |specs| :: EntryFacts(Entries(specs)[i], specs[i])
  {
    forall i | 0 <= i < |specs| ensures EntryFacts(Entries(specs)[i], specs[i]) {
      EntryFactsHold(specs[i]);
    }
  }

  /** An entry placed at a 16-byte boundary is laid out there, and the next
      boundary follows it. */
  lemma LaidOutInContext(data: Bytes, base: nat, e: Bytes, s: EntrySpec)
    requires Packable(s) && EntryFacts(e, s) && base % 16 == 0
    requires Matches(data, base, e)
    ensures LaidOut(data, base, s)
    ensures (base + EntryLength(s)) % 16 == 0
  {
    FieldsInContext(data, base, e);
    RoundUpShift(base, EntrySize(s));
    AlignedSum(base, |e|);
    assert NextPos(data, base) == base + EntryLength(s);
    var p := PayloadStart(data, base);
    assert p == base + (HEADER_SIZE + |s.extradata|);
    MatchesInside(data, base, e, HEADER_SIZE + |s.extradata|, s.payload);
  }

  lemma {:induction false} FramesOfLaidOut(data: Bytes, base: nat, specs: seq<EntrySpec>)
    requires AllPackable(specs) && AllLaidOut(data, base, specs)
    ensures AllFramesLaidOut(data, base, specs)
    decreases |specs|
  {
    if specs != [] {
      FramesOfLaidOut(data, base + EntryLength(specs[0]), specs[1..]);
    }
  }

  /** Laid-out entries form a chain of frames at the offsets the encoder
      laid them out at, so the walk reports one frame per entry. */
  lemma {:induction false} EntriesChain(data: Bytes, base: nat, specs: seq<EntrySpec>)
    requires AllPackable(specs) && AllFramesLaidOut(data, base, specs)
    ensures Chain(data, base, FramesOf(specs, base))
    decreases |specs|
  {
    if specs != [] {
      EntriesChain(data, base + EntryLength(specs[0]), specs[1..]);
    }
  }

  /** Reading a laid-out entry gives back its payload. */
  lemma ReadFirst(data: Bytes, base: nat, s: EntrySpec, inflate: Bytes -> Option<Bytes>)
    requires Packable(s) && LaidOut(data, base, s)
    ensures ReadEntry(data, base, inflate) == Ok((s.payload, FallbackName(s.nameHash, s.tkidHash)))
  {
    MatchesSlice(data, PayloadStart(data, base), s.payload);
    ReadRawEntry(data, base, inflate, PayloadStart(data, base), |s.payload|, s.nameHash, s.tkidHash);
  }

  /** Every reported frame offset has its entry laid out there. */
  lemma {:induction false} FramesLaidOut(data: Bytes, base: nat, specs: seq<EntrySpec>)
    requires AllPackable(specs) && AllLaidOut(data, base, specs)
    ensures forall i | 0 <= i < |specs| :: LaidOut(data, FramesOf(specs, base)[i].offset, specs[i])
    decreases |specs|
  {
    if specs != [] {
      var next := base + EntryLength(specs[0]);
      FramesLaidOut(data, next, specs[1..]);
      var fs := FramesOf(specs, base);
      forall i | 0 <= i < |specs| ensures LaidOut(data, fs[i].offset, specs[i]) {
        if i > 0 {
          FramesOfTail(specs, base, i);
        }
      }
    }
  }

  /** The frames after the first are those of the remaining entries, laid
      out from the next boundary. */
  lemma FramesOfTail(specs: seq<EntrySpec>, base: nat, i: nat)
    requires AllPackable(specs) && 0 < i < |specs|
    ensures FramesOf(specs, base)[i] == FramesOf(specs[1..], base + EntryLength(specs[0]))[i - 1]
    ensures specs[i] == specs[1..][i - 1]
  {
  }

  /** The encoded container of `specs`. */
  function Encode(specs: seq<EntrySpec>): Bytes
    requires AllPackable(specs) && |Concat(Entries(specs))| + 0x10 < U32_LIMIT
  {
    MakeFdata(Entries(specs)).value
  }

  /** Encode, walk, read: the walk finds one frame per entry, the first at
      0x10, each carrying the entry's hashes, and reading each frame gives
      back its payload under the fallback name. */
  lemma RoundTrip(specs: seq<EntrySpec>, inflate: Bytes -> Option<Bytes>)
    requires AllPackable(specs) && |Concat(Entries(specs))| + 0x10 < U32_LIMIT
    ensures Walk(Encode(specs)) == Walked(FramesOf(specs, 0x10))
    ensures |specs| > 0 ==> FramesOf(specs, 0x10)[0].offset == 0x10
    ensures forall i | 0 <= i < |specs| ::
      && FramesOf(specs, 0x10)[i].nameHash == specs[i].nameHash
      && FramesOf(specs, 0x10)[i].tkidHash == specs[i].tkidHash
    ensures forall i | 0 <= i < |specs| ::
      ReadEntry(Encode(specs), FramesOf(specs, 0x10)[i].offset, inflate)
        == Ok((specs[i].payload, FallbackName(specs[i].nameHash, specs[i].tkidHash)))
  {
    var data := Encode(specs);
    assert StartPos(data) == 0x10;
    BodyLength(specs);
    AllEntryFacts(specs);
    MatchesSlice(data, 0x10, Concat(Entries(specs)));
    assert Placed(data, 0x10, specs, Entries(specs));
    EntriesLaidOut(data, 0x10, specs, Entries(specs));
    FramesOfLaidOut(data, 0x10, specs);
    EntriesChain(data, 0x10, specs);
    WalkChain(data, 0x10, FramesOf(specs, 0x10), WalkFuel(data));
    FramesLaidOut(data, 0x10, specs);
    FramesKeys(specs, 0x10);
    forall i | 0 <= i < |specs|
      ensures ReadEntry(data, FramesOf(specs, 0x10)[i].offset, inflate)
        == Ok((specs[i].payload, FallbackName(specs[i].nameHash, specs[i].tkidHash)))
    {
      ReadFirst(data, FramesOf(specs, 0x10)[i].offset, specs[i], inflate);
    }
  }

  lemma {:induction false} FramesKeys(specs: seq<EntrySpec>, base: nat)
    requires AllPackable(specs)
    ensures forall i | 0 <= i < |specs| ::
      && FramesOf(specs, base)[i].nameHash == specs[i].nameHash
      && FramesOf(specs, base)[i].tkidHash == specs[i].tkidHash
    ensures |specs| > 0 ==> FramesOf(specs, base)[0].offset == base
    decreases |specs|
  {
    if specs != [] {
      FramesKeys(specs[1..], base + EntryLength(specs[0]));
    }
  }

  // ---------------------------------------------------------------------
  // Sidecars and pairs

  /** `make_yumia_json`, as the document it parses to: one `files` record
      with the given filename and hashes. */
  function MakeYumiaDoc(filename: string, nameHash: nat, tkidHash: nat): (d: SidecarDoc)
    ensures |d.files| == 1
    ensures FilenameTable(d.files) == map[(nameHash as int, tkidHash as int) := filename]
    ensures NameHashes(d.files) == {nameHash as int}
  {
    SidecarDoc([SidecarEntry(Some(filename), Some(nameHash), Some(tkidHash))])
  }

  /** `make_yumia_pair`: a container and its sidecar sharing the stem
      `0x{stem_hash:08X}`. */
  datatype YumiaPair = YumiaPair(fdataName: string, fdata: Bytes, sidecarName: string, sidecar: SidecarDoc)

  const FDATA_SUFFIX: string := ".fdata"
  const SIDECAR_SUFFIX: string := ".yumiamod.json"

  /** The sidecar member the converter looks for beside a container. */
  function SidecarFor(fdataMember: string): string
    requires HasSuffix(fdataMember, FDATA_SUFFIX)
  {
    fdataMember[..|fdataMember| - |FDATA_SUFFIX|] + SIDECAR_SUFFIX
  }

  function MakeYumiaPair(stemHash: nat, looseFilename: string, nameHash: nat, tkidHash: nat, payload: Bytes): (r: YumiaPair)
    requires nameHash < U32_LIMIT && tkidHash < U32_LIMIT
    requires HEADER_SIZE + |payload| + 0x10 + 0x10 < U32_LIMIT
    ensures HasSuffix(r.fdataName, FDATA_SUFFIX) && r.sidecarName == SidecarFor(r.fdataName)
    ensures HasPrefix(r.fdataName, "0x" + Hex08X(stemHash))
  {
    var stem := "0x" + Hex08X(stemHash);
    var spec := DefaultSpec(payload, nameHash, tkidHash);
    PairFits(spec);
    var r := YumiaPair(stem + FDATA_SUFFIX, Encode([spec]), stem + SIDECAR_SUFFIX,
                       MakeYumiaDoc(looseFilename, nameHash, tkidHash));
    assert r.fdataName[..|r.fdataName| - |FDATA_SUFFIX|] == stem;
    assert r.fdataName[..|stem|] == stem;
    assert r.fdataName[|r.fdataName| - |FDATA_SUFFIX|..] == FDATA_SUFFIX;
    r
  }

  lemma PairFits(spec: EntrySpec)
    requires spec.nameHash < U32_LIMIT && spec.tkidHash < U32_LIMIT && spec.entryType == DEFAULT_ENTRY_TYPE
    requires EntrySize(spec) + 0x10 + 0x10 < U32_LIMIT
    ensures Packable(spec) && AllPackable([spec])
    ensures |Concat(Entries([spec]))| + 0x10 < U32_LIMIT
  {
    assert Entries([spec]) == [MakeEntry(spec)];
    assert Concat([MakeEntry(spec)]) == MakeEntry(spec);
  }

  /** The pair converts back: the container holds one frame at 0x10 whose
      payload is the given one, and the sidecar names that frame's key with
      the given loose filename. */
  lemma PairRoundTrip(stemHash: nat, looseFilename: string, nameHash: nat, tkidHash: nat,
                      payload: Bytes, inflate: Bytes -> Option<Bytes>)
    requires nameHash < U32_LIMIT && tkidHash < U32_LIMIT
    requires HEADER_SIZE + |payload| + 0x10 + 0x10 < U32_LIMIT
    ensures var r := MakeYumiaPair(stemHash, looseFilename, nameHash, tkidHash, payload);
      && Walk(r.fdata) == Walked([Frame(0x10, nameHash, tkidHash)])
      && ReadEntry(r.fdata, 0x10, inflate) == Ok((payload, FallbackName(nameHash, tkidHash)))
      && FilenameTable(r.sidecar.files) == map[(nameHash as int, tkidHash as int) := looseFilename]
  {
    var spec := DefaultSpec(payload, nameHash, tkidHash);
    PairFits(spec);
    RoundTrip([spec], inflate);
    assert FramesOf([spec], 0x10) == [Frame(0x10, nameHash, tkidHash)];
  }
}

=== FILE: scan.dfy ===
/** Scanning the mods folder: what each archive offers. An archive with a
    manifest offers its features' options; otherwise every `package/`
    directory is an option; otherwise loose `.fdata`/sidecar files form a
    single option; otherwise loose asset files are grouped by their top
    directory. */
module Scan {
  import opened Wrappers
  import opened Text
  import opened Sorting
  import opened Container
  import opened Sandbox
  import opened Manifest
  import opened Selection
  import opened Conversion

  /** The name of the option an archive offers without naming one. */
  const DEFAULT_OPTION: string := "(default)"

  /** `ModOption`: one installable choice, the directory it comes from and
      its files relative to that directory. */
  datatype ModOption = ModOption(name: string, internalPath: string, packageFiles: seq<string>)

  // ---------------------------------------------------------------------
  // package/ directories

  /** A path component naming a `package` directory, in any letter case. */
  predicate IsPackage(component: string) {
    Lower(component) == "package"
  }

  /** The first component from `i` on that is a package directory and is not
      the last component. */
  function PackageIndex(parts: seq<string>, i: nat): (r: Option<nat>)
    requires i <= |parts|
    ensures r.Some? ==> i <= r.value < |parts| - 1 && IsPackage(parts[r.value])
    ensures forall j | i <= j < |parts| - 1 && (r.None? || j < r.value) :: !IsPackage(parts[j])
    decreases |parts| - i
  {
    if i >= |parts| - 1 then None
    else if IsPackage(parts[i]) then Some(i)
    else PackageIndex(parts, i + 1)
  }

  /** The option directory a member defines, with the option's name: the
      path up to and including its first package directory that has
      something below it, named after the component before it (or
      `(default)` at the top of the archive). */
  function PrefixOf(name: string): Option<(string, string)> {
    var parts := Split(name, '/');
    match PackageIndex(parts, 0)
    case None => None
    case Some(k) => Some((Join(parts[..k + 1], "/") + "/", if k == 0 then DEFAULT_OPTION else parts[k - 1]))
  }

  lemma {:induction false} JoinAt(parts: seq<string>, sep: string, n: nat)
    requires 1 <= n < |parts|
    ensures Join(parts, sep) == Join(parts[..n], sep) + sep + Join(parts[n..], sep)
    decreases n
  {
    if n > 1 {
      JoinAt(parts[1..], sep, n - 1);
      assert parts[1..][..n - 1] == parts[..n][1..];
      assert parts[1..][n - 1..] == parts[n..];
      assert parts[..n][0] == parts[0];
    }
  }

  /** A member lies below the directory it defines, and that directory's
      last component is a package directory; a member defines a directory
      exactly when one of its components other than the last is a package
      directory. */
  lemma PrefixOfSpec(name: string)
    ensures PrefixOf(name).Some? ==> HasPrefix(name, PrefixOf(name).value.0)
    ensures PrefixOf(name).Some? <==>
      exists j | 0 <= j < |Split(name, '/')| - 1 :: IsPackage(Split(name, '/')[j])
  {
    var parts := Split(name, '/');
    var k := PackageIndex(parts, 0);
    if k.Some? {
      JoinSplit(name, '/');
      JoinAt(parts, "/", k.value + 1);
      var p := Join(parts[..k.value + 1], "/") + "/";
      assert name == p + Join(parts[k.value + 1..], "/");
      assert name[..|p|] == p;
    }
  }

  /** What each member defines, in archive order. */
  function Defs(names: seq<string>): (r: seq<Option<(string, string)>>)
    ensures |r| == |names| && forall i | 0 <= i < |names| :: r[i] == PrefixOf(names[i])
  {
    seq(|names|, i requires 0 <= i < |names| => PrefixOf(names[i]))
  }

  /** Definition `i` is the first of its directory. */
  predicate FirstOf(defs: seq<Option<(string, string)>>, i: nat)
    requires i < |defs|
  {
    && defs[i].Some?
    && forall j | 0 <= j < i && defs[j].Some? :: defs[j].value.0 != defs[i].value.0
  }

  /** The `package_prefixes` dictionary as (directory, option name) pairs in
      insertion order: the first definition of a directory names it. */
  function Table(defs: seq<Option<(string, string)>>): (r: seq<(string, string)>)
    ensures Distinct(Firsts(r))
    ensures forall i | 0 <= i < |defs| && defs[i].Some? :: defs[i].value.0 in Firsts(r)
    ensures forall e | e in r :: Some(e) in defs
    decreases |defs|
  {
    if defs == [] then []
    else
      var init := defs[..|defs| - 1];
      var t := Table(init);
      var p := defs[|defs| - 1];
      assert forall i | 0 <= i < |init| :: init[i] == defs[i];
      if p.Some? && p.value.0 !in Firsts(t) then
        assert Firsts(t + [p.value]) == Firsts(t) + [p.value.0];
        t + [p.value]
      else t
  }

  /** The table holds exactly the directories' first definitions. */
  lemma TableFirst(defs: seq<Option<(string, string)>>, e: (string, string))
    ensures e in Table(defs) <==> exists i | 0 <= i < |defs| :: FirstOf(defs, i) && defs[i] == Some(e)
  {
    TableSound(defs, e);
    if i :| 0 <= i < |defs| && FirstOf(defs, i) && defs[i] == Some(e) {
      TableComplete(defs, e, i);
    }
  }

  /** Table entries are first definitions. */
  lemma {:induction false} TableSound(defs: seq<Option<(string, string)>>, e: (string, string))
    ensures e in Table(defs) ==> exists i | 0 <= i < |defs| :: FirstOf(defs, i) && defs[i] == Some(e)
    decreases |defs|
  {
    if defs != [] && e in Table(defs) {
      var init := defs[..|defs| - 1];
      var t := Table(init);
      var p := defs[|defs| - 1];
      var appended := p.Some? && p.value.0 !in Firsts(t);
      assert Table(defs) == if appended then t + [p.value] else t;
      TableSound(init, e);
      if e in t {
        var i :| 0 <= i < |init| && FirstOf(init, i) && init[i] == Some(e);
        FirstOfExtended(defs, i);
      } else {
        assert appended && e == p.value;
        FirstOfLast(defs);
      }
    }
  }

  /** A first definition stays first when later ones are added. */
  lemma FirstOfExtended(defs: seq<Option<(string, string)>>, i: nat)
    requires i < |defs| - 1 && FirstOf(defs[..|defs| - 1], i)
    ensures FirstOf(defs, i)
  {
    assert forall j | 0 <= j <= i :: defs[..|defs| - 1][j] == defs[j];
  }

  /** The last definition is first when the table before it lacks its
      directory. */
  lemma FirstOfLast(defs: seq<Option<(string, string)>>)
    requires defs != [] && defs[|defs| - 1].Some?
    requires defs[|defs| - 1].value.0 !in Firsts(Table(defs[..|defs| - 1]))
    ensures FirstOf(defs, |defs| - 1)
  {
    var init := defs[..|defs| - 1];
    forall j | 0 <= j < |init| && defs[j].Some? ensures defs[j].value.0 in Firsts(Table(init)) {
      assert init[j] == defs[j];
    }
  }

  /** Every first definition is in the table. */
  lemma {:induction false} TableComplete(defs: seq<Option<(string, string)>>, e: (string, string), i: nat)
    requires i < |defs| && FirstOf(defs, i) && defs[i] == Some(e)
    ensures e in Table(defs)
    decreases |defs|
  {
    var init := defs[..|defs| - 1];
    var last := |defs| - 1;
    var t := Table(init);
    var p := defs[last];
    assert forall j | 0 <= j < |init| :: init[j] == defs[j];
    if i < last {
      assert FirstOf(init, i);
      TableComplete(init, e, i);
    } else {
      forall k | 0 <= k < |t| ensures t[k].0 != e.0 {
        assert t[k] in t;
        var j :| 0 <= j < |init| && init[j] == Some(t[k]);
        assert defs[j] == init[j];
      }
      assert e.0 !in Firsts(t);
    }
  }

  /** The files below `prefix`, relative to it, in archive order (directory
      entries and the directory itself left out). */
  function PackageFiles(names: seq<string>, prefix: string): (r: seq<string>)
    ensures forall x | x in r :: x != [] && prefix + x in names && !HasSuffix(prefix + x, "/")
    ensures forall n | n in names && FileUnder(n, prefix) && |n| > |prefix| :: n[|prefix|..] in r
  {
    if names == [] then []
    else
      var n := names[0];
      var here := if FileUnder(n, prefix) && |n| > |prefix| then [n[|prefix|..]] else [];
      assert FileUnder(n, prefix) ==> prefix + n[|prefix|..] == n;
      here + PackageFiles(names[1..], prefix)
  }

  /** The options of the table's directories that hold files, in table order. */
  function PackageOptionsOf(names: seq<string>, table: seq<(string, string)>): (r: seq<ModOption>)
    ensures forall o | o in r ::
      (o.internalPath, o.name) in table && o.packageFiles != [] && o.packageFiles == PackageFiles(names, o.internalPath)
    ensures forall e | e in table && PackageFiles(names, e.0) != [] :: ModOption(e.1, e.0, PackageFiles(names, e.0)) in r
  {
    if table == [] then []
    else
      var files := PackageFiles(names, table[0].0);
      (if files != [] then [ModOption(table[0].1, table[0].0, files)] else [])
        + PackageOptionsOf(names, table[1..])
  }

  /** The options the `package/` scan finds. */
  function PackageOptions(names: seq<string>): (r: seq<ModOption>) {
    PackageOptionsOf(names, Table(Defs(names)))
  }

  /** An option of the `package/` scan is the first definition of its
      directory, and every one of its files is a listed file member below
      that directory; every first definition of a directory that holds
      files is an option. */
  lemma PackageOptionsSpec(names: seq<string>, o: ModOption)
    ensures o in PackageOptions(names) ==>
      && (exists i | 0 <= i < |names| :: FirstOf(Defs(names), i) && PrefixOf(names[i]) == Some((o.internalPath, o.name)))
      && (forall x | x in o.packageFiles :: o.internalPath + x in names && FileUnder(o.internalPath + x, o.internalPath))
    ensures (
      && (exists i | 0 <= i < |names| :: FirstOf(Defs(names), i) && PrefixOf(names[i]) == Some((o.internalPath, o.name)))
      && o.packageFiles == PackageFiles(names, o.internalPath) && o.packageFiles != []) ==> o in PackageOptions(names)
  {
    TableFirst(Defs(names), (o.internalPath, o.name));
    forall x | x in o.packageFiles ensures HasPrefix(o.internalPath + x, o.internalPath) {
      assert (o.internalPath + x)[..|o.internalPath|] == o.internalPath;
    }
  }

  // ---------------------------------------------------------------------
  // Filters

  /** The strings of `s` that satisfy `keep`, in order. */
  function Where(s: seq<string>, keep: string -> bool): (r: seq<string>)
    ensures forall x :: x in r <==> x in s && keep(x)
    ensures |r| <= |s|
  {
    if s == [] then [] else (if keep(s[0]) then [s[0]] else []) + Where(s[1..], keep)
  }

  /** A `.fdata` file or a sidecar, anywhere in the archive. */
  predicate IsYumiaFile(name: string) {
    !HasSuffix(name, "/") && (HasSuffix(name, FDATA_SUFFIX) || HasSuffix(name, SIDECAR_SUFFIX))
  }

  /** A file whose base name is a loose asset name. */
  predicate IsLooseFile(name: string) {
    !HasSuffix(name, "/") && IsLooseAssetMember(name)
  }

  // ---------------------------------------------------------------------
  // Direct loose archives

  /** A member with a single path component. */
  predicate AtRoot(member: string) {
    |Split(member, '/')| == 1
  }

  /** The member's top directory. */
  function GroupOf(member: string): string {
    Split(member, '/')[0]
  }

  lemma AtRootSpec(member: string)
    ensures AtRoot(member) <==> '/' !in member
    ensures !AtRoot(member) ==> GroupOf(member) + "/" == member[..|GroupOf(member)| + 1]
  {
    SplitHead(member, '/');
  }

  /** The members of group `g`. */
  function GroupMembers(members: seq<string>, g: string): (r: seq<string>)
    ensures forall x :: x in r <==> x in members && !AtRoot(x) && GroupOf(x) == g
  {
    Where(members, x => !AtRoot(x) && GroupOf(x) == g)
  }

  /** The top directories of the members below one, in first-seen order. */
  function GroupHeads(members: seq<string>): (r: seq<string>)
    ensures forall i | 0 <= i < |members| && !AtRoot(members[i]) :: GroupOf(members[i]) in r
    ensures forall g | g in r :: GroupMembers(members, g) != []
  {
    if members == [] then []
    else
      var rest := GroupHeads(members[1..]);
      assert forall i | 1 <= i < |members| :: members[i] == members[1..][i - 1];
      if AtRoot(members[0]) then rest
      else
        assert members[0] in GroupMembers(members, GroupOf(members[0]));
        [GroupOf(members[0])] + rest
  }

  /** The loose layout of a direct loose archive: the files common to every
      choice, whether several choices may be combined, and the choices. */
  datatype LooseLayout = LooseLayout(common: seq<string>, multiSelect: bool, options: seq<ModOption>)

  /** The options' names, in order. */
  function OptionNames(options: seq<ModOption>): (r: seq<string>)
    ensures |r| == |options| && forall i | 0 <= i < |options| :: r[i] == options[i].name
  {
    seq(|options|, i requires 0 <= i < |options| => options[i].name)
  }

  /** One option per group, in the order of `groups`, with the group's
      files sorted. */
  function GroupOptions(members: seq<string>, groups: seq<string>): (r: seq<ModOption>)
    ensures |r| == |groups|
    ensures forall i | 0 <= i < |groups| ::
      r[i].name == groups[i] && r[i].internalPath == "" && r[i].packageFiles == SortBy(GroupMembers(members, groups[i]), x => x)
  {
    seq(|groups|, i requires 0 <= i < |groups| => ModOption(groups[i], "", SortBy(GroupMembers(members, groups[i]), x => x)))
  }

  /** How a direct loose archive's members become options. */
  function LayoutOf(loose: seq<string>): LooseLayout {
    var members := SortBy(loose, x => x);
    var root := Where(members, AtRoot);
    var groups := Dedup(GroupHeads(members));
    if groups != [] && (|groups| > 1 || root != []) then
      LooseLayout(root, true, GroupOptions(members, SortBy(groups, Lower)))
    else if |groups| == 1 && root == [] then
      LooseLayout([], false, [ModOption(DEFAULT_OPTION, "", SortBy(GroupMembers(members, groups[0]), x => x))])
    else
      LooseLayout([], false, [ModOption(DEFAULT_OPTION, "", SortBy(root, x => x))])
  }

  lemma SortedMembers(s: seq<string>, key: string -> string, x: string)
    ensures x in SortBy(s, key) <==> x in s
  {
    assert x in SortBy(s, key) <==> x in multiset(SortBy(s, key));
  }

  /** Several groups, or a group beside top-level files: the top-level
      files are common to every choice, and several choices may be
      combined. */
  lemma LayoutCommon(loose: seq<string>)
    ensures LayoutOf(loose).multiSelect ==> forall x :: x in LayoutOf(loose).common <==> x in loose && AtRoot(x)
  {
    forall x ensures x in SortBy(loose, x => x) <==> x in loose {
      SortedMembers(loose, x => x, x);
    }
  }

  /** In that case each group is one option, the options sorted
      case-insensitively without repeats. */
  lemma LayoutOptionNames(loose: seq<string>)
    ensures LayoutOf(loose).multiSelect ==>
      && SortedBy(OptionNames(LayoutOf(loose).options), Lower)
      && Distinct(OptionNames(LayoutOf(loose).options))
  {
    var members := SortBy(loose, x => x);
    var groups := Dedup(GroupHeads(members));
    var l := LayoutOf(loose);
    if l.multiSelect {
      var sorted := SortBy(groups, Lower);
      assert l.options == GroupOptions(members, sorted);
      assert OptionNames(l.options) == sorted;
      MultisetNoDup(groups, sorted);
    }
  }

  /** ... and each option holds exactly the files of its group. */
  lemma LayoutGroupFiles(loose: seq<string>, i: nat, x: string)
    requires i < |LayoutOf(loose).options|
    ensures var o := LayoutOf(loose).options[i];
      LayoutOf(loose).multiSelect ==>
        o.internalPath == "" && (x in o.packageFiles <==> x in loose && !AtRoot(x) && GroupOf(x) == o.name)
  {
    var members := SortBy(loose, x => x);
    var groups := Dedup(GroupHeads(members));
    var l := LayoutOf(loose);
    if l.multiSelect {
      var sorted := SortBy(groups, Lower);
      assert l.options == GroupOptions(members, sorted);
      SortedMembers(loose, x => x, x);
      SortedMembers(GroupMembers(members, sorted[i]), x => x, x);
    }
  }

  /** Otherwise there is a single `(default)` option and no common
      files ... */
  lemma LayoutSingleShape(loose: seq<string>)
    ensures var l := LayoutOf(loose);
      !l.multiSelect ==>
        l.common == [] && |l.options| == 1 && l.options[0].name == DEFAULT_OPTION && l.options[0].internalPath == ""
  {
  }

  /** No option of the loose-file layout has a directory of its own. */
  lemma LayoutOptionsAtRoot(loose: seq<string>, o: ModOption)
    requires o in LayoutOf(loose).options
    ensures o.internalPath == ""
  {
    var l := LayoutOf(loose);
    var i :| 0 <= i < |l.options| && l.options[i] == o;
    if l.multiSelect {
      LayoutGroupFiles(loose, i, "");
    } else {
      LayoutSingleShape(loose);
    }
  }

  /** ... holding every loose file. */
  lemma LayoutSingleFiles(loose: seq<string>, x: string)
    requires !LayoutOf(loose).multiSelect
    ensures x in LayoutOf(loose).options[0].packageFiles <==> x in loose
  {
    var members := SortBy(loose, x => x);
    var root := Where(members, AtRoot);
    var heads := GroupHeads(members);
    var groups := Dedup(heads);
    SortedMembers(loose, x => x, x);
    if |groups| == 1 && root == [] {
      OneGroup(members, groups[0], x);
    } else {
      RootOnly(members, x);
    }
  }

  lemma OneGroup(members: seq<string>, g: string, x: string)
    requires Dedup(GroupHeads(members)) == [g] && Where(members, AtRoot) == []
    ensures x in SortBy(GroupMembers(members, g), x => x) <==> x in members
  {
    SortedMembers(GroupMembers(members, g), x => x, x);
    if x in members {
      var i :| 0 <= i < |members| && members[i] == x;
      assert GroupOf(members[i]) in GroupHeads(members);
    }
  }

  lemma RootOnly(members: seq<string>, x: string)
    requires Dedup(GroupHeads(members)) == []
    ensures x in SortBy(Where(members, AtRoot), x => x) <==> x in members
  {
    SortedMembers(Where(members, AtRoot), x => x, x);
    if x in members {
      var i :| 0 <= i < |members| && members[i] == x;
      assert AtRoot(members[i]) || GroupOf(members[i]) in GroupHeads(members);
    }
  }

  // ---------------------------------------------------------------------
  // Analysing one archive

  /** `archive_kind` */
  datatype ArchiveKind = LegacyYumia | ManifestArchive | DirectLoose

  /** `ModArchive`: what the scan learns about one archive. */
  datatype ModArchive = ModArchive(
    filename: string, name: string, options: seq<ModOption>,
    manifest: Option<ModManifest>, manifestOptions: map<string, seq<string>>,
    kind: ArchiveKind, names: seq<string>, commonFiles: seq<string>, multiSelect: bool)

  /** The single option of an archive whose yumia files lie anywhere. */
  function YumiaOption(names: seq<string>): ModOption {
    ModOption(DEFAULT_OPTION, "", Where(names, IsYumiaFile))
  }

  /** The analysis without a (usable) manifest: `package/` directories,
      else yumia files anywhere, else loose asset files. */
  function Fallback(base: ModArchive, names: seq<string>): (r: ModArchive)
    ensures r.filename == base.filename && r.name == base.name && r.names == base.names
    ensures r.manifest == base.manifest && r.manifestOptions == base.manifestOptions
  {
    var package := PackageOptions(names);
    if package != [] then base.(options := package)
    else if Where(names, IsYumiaFile) != [] then base.(options := [YumiaOption(names)])
    else
      var loose := Where(names, IsLooseFile);
      if loose == [] then base
      else
        var l := LayoutOf(loose);
        base.(kind := DirectLoose, options := l.options, commonFiles := l.common, multiSelect := l.multiSelect)
  }

  /** A direct loose fallback offers the loose-file layout's options. */
  lemma FallbackDirectLoose(base: ModArchive, names: seq<string>)
    requires base.kind != DirectLoose
    ensures Fallback(base, names).kind == DirectLoose ==>
      Fallback(base, names).options == LayoutOf(Where(names, IsLooseFile)).options
  {
  }

  /** The analysis before anything is found: the archive's name is its
      file name's stem. */
  function Base(a: Archive): (r: ModArchive)
    ensures r.options == [] && r.manifest.None? && r.kind == LegacyYumia
  {
    ModArchive(Basename(a.path), Stem(Basename(a.path)), [], None, map[], LegacyYumia, NormalizeNames(a.names), [], false)
  }

  /** `_analyze_archive` of the backend manager. A manifest that cannot be
      read or parsed falls back to the other analyses. */
  function Analyze(a: Archive, codecs: Codecs): (r: ModArchive)
    ensures r.filename == Basename(a.path) && r.names == NormalizeNames(a.names)
  {
    var names := NormalizeNames(a.names);
    var base := Base(a);
    if names == [] then base
    else
      var parsed := if MANIFEST_FILENAME in names then ReadManifest(a, codecs) else Err("");
      match parsed
      case Ok(m) =>
        base.(manifest := Some(m), kind := ManifestArchive, name := ModNameFor(a, Some(m)),
              manifestOptions := DiscoverOptions(names, m.features))
      case Err(_) => Fallback(base, names)
  }

  /** An archive has a manifest exactly when it lists one that reads and
      validates; then it offers the manifest's features (with their options
      under the feature names) and no `package/` options, and takes the
      manifest's mod name when that is non-empty. */
  lemma AnalyzeManifest(a: Archive, codecs: Codecs)
    ensures var r := Analyze(a, codecs);
      && (r.manifest.Some? <==> MANIFEST_FILENAME in NormalizeNames(a.names) && ReadManifest(a, codecs).Ok?)
      && (r.manifest.Some? ==>
            && r.kind == ManifestArchive && r.options == [] && ValidManifest(r.manifest.value)
            && (forall k :: k in r.manifestOptions <==> k in Names(r.manifest.value.features))
            && r.name == ModNameFor(a, r.manifest))
      && (r.manifest.None? ==> r.manifestOptions == map[] && r.name == Stem(Basename(a.path)))
  {
  }

  /** Without a manifest, the first of the three layouts that finds
      anything decides: `package/` options win over yumia files, which win
      over loose asset files; only the last makes a direct loose archive. */
  lemma AnalyzeFallback(a: Archive, codecs: Codecs)
    ensures var r := Analyze(a, codecs);
      var names := NormalizeNames(a.names);
      r.manifest.None? ==>
        && (PackageOptions(names) != [] ==> r.options == PackageOptions(names) && r.kind == LegacyYumia)
        && (PackageOptions(names) == [] && Where(names, IsYumiaFile) != [] ==>
              r.options == [YumiaOption(names)] && r.kind == LegacyYumia)
        && (r.kind == DirectLoose <==>
              PackageOptions(names) == [] && Where(names, IsYumiaFile) == [] && Where(names, IsLooseFile) != [])
        && (r.kind != DirectLoose ==> r.commonFiles == [] && !r.multiSelect)
        && (r.options == [] <==>
              PackageOptions(names) == [] && Where(names, IsYumiaFile) == [] && Where(names, IsLooseFile) == [])
  {
    var names := NormalizeNames(a.names);
    var loose := Where(names, IsLooseFile);
    if loose != [] {
      LayoutSingleShape(loose);
      assert LayoutOf(loose).multiSelect ==> |LayoutOf(loose).options| >= 1;
    }
    if names == [] {
      assert PackageOptions(names) == [] by {
        assert Table(Defs(names)) == [];
      }
    }
  }

  /** Without a manifest, the analysis is the fallback one. */
  lemma AnalyzeWithoutManifest(a: Archive, codecs: Codecs)
    requires Analyze(a, codecs).manifest.None?
    ensures Analyze(a, codecs) == Fallback(Base(a), NormalizeNames(a.names))
  {
    var names := NormalizeNames(a.names);
    if names == [] {
      assert Table(Defs(names)) == [];
    }
  }

  /** Every file an option offers, below the option's directory, is a
      listed file member of the archive: installing an option extracts only
      members that exist. */
  lemma FallbackFilesListed(base: ModArchive, names: seq<string>, o: ModOption, x: string)
    requires base.options == [] && o in Fallback(base, names).options && x in o.packageFiles
    ensures o.internalPath + x in names && !HasSuffix(o.internalPath + x, "/")
  {
    var loose := Where(names, IsLooseFile);
    if o in PackageOptions(names) {
      PackageOptionsSpec(names, o);
    } else if PackageOptions(names) == [] && Where(names, IsYumiaFile) == [] {
      var l := LayoutOf(loose);
      var i :| 0 <= i < |l.options| && l.options[i] == o;
      if l.multiSelect {
        LayoutGroupFiles(loose, i, x);
      } else {
        LayoutSingleShape(loose);
        LayoutSingleFiles(loose, x);
      }
      assert "" + x == x;
    } else {
      assert "" + x == x;
    }
  }

  lemma OptionFilesListed(a: Archive, codecs: Codecs, o: ModOption, x: string)
    requires o in Analyze(a, codecs).options && x in o.packageFiles
    ensures o.internalPath + x in NormalizeNames(a.names) && !HasSuffix(o.internalPath + x, "/")
  {
    AnalyzeWithoutManifest(a, codecs);
    FallbackFilesListed(Base(a), NormalizeNames(a.names), o, x);
  }

  /** The common files of a direct loose archive are listed loose files at
      the top of the archive. */
  lemma FallbackCommonListed(base: ModArchive, names: seq<string>, x: string)
    requires base.commonFiles == [] && x in Fallback(base, names).commonFiles
    ensures x in names && IsLooseFile(x) && '/' !in x
  {
    var loose := Where(names, IsLooseFile);
    assert PackageOptions(names) == [] && Where(names, IsYumiaFile) == [] && loose != [];
    assert Fallback(base, names).commonFiles == LayoutOf(loose).common;
    LayoutCommon(loose);
    LayoutSingleShape(loose);
    AtRootSpec(x);
  }

  lemma CommonFilesListed(a: Archive, codecs: Codecs, x: string)
    requires x in Analyze(a, codecs).commonFiles
    ensures x in NormalizeNames(a.names) && IsLooseFile(x) && '/' !in x
  {
    AnalyzeWithoutManifest(a, codecs);
    FallbackCommonListed(Base(a), NormalizeNames(a.names), x);
  }

  // ---------------------------------------------------------------------
  // Scanning the mods folder

  /** One entry of the mods folder: the archive behind it, whether it is a
      regular file, and whether its member list can be read at all. */
  datatype Entry = Entry(archive: Archive, isFile: bool, listable: bool)

  /** `s` is in ascending order of `k`. */
  predicate SortedOn<T>(s: seq<T>, k: T -> string) {
    forall i | 0 <= i < |s| - 1 :: LexLe(k(s[i]), k(s[i + 1]))
  }

  function InsertOn<T(==)>(x: T, s: seq<T>, k: T -> string): (r: seq<T>)
    requires SortedOn(s, k)
    ensures SortedOn(r, k)
    ensures multiset(r) == multiset(s) + multiset{x}
    ensures r[0] == x || (s != [] && r[0] == s[0])
  {
    if s == [] then [x]
    else if LexLe(k(x), k(s[0])) then [x] + s
    else
      LexLeTotal(k(x), k(s[0]));
      var t := InsertOn(x, s[1..], k);
      assert s == [s[0]] + s[1..];
      ConsSorted(s[0], t, k);
      [s[0]] + t
  }

  /** Putting `y` in front of a sorted `t` keeps it sorted when `y` is not
      above the head of `t`. */
  lemma ConsSorted<T>(y: T, t: seq<T>, k: T -> string)
    requires SortedOn(t, k)
    requires t != [] ==> LexLe(k(y), k(t[0]))
    ensures SortedOn([y] + t, k)
  {
    var r := [y] + t;
    forall i | 0 <= i < |r| - 1
      ensures LexLe(k(r[i]), k(r[i + 1]))
    {
      if i > 0 {
        assert r[i] == t[i - 1] && r[i + 1] == t[i];
      }
    }
  }

  /** Stable insertion sort on `k`. */
  function SortOn<T(==)>(s: seq<T>, k: T -> string): (r: seq<T>)
    ensures SortedOn(r, k)
    ensures multiset(r) == multiset(s)
  {
    if s == [] then []
    else
      assert s == [s[0]] + s[1..];
      InsertOn(s[0], SortOn(s[1..], k), k)
  }

  lemma SortOnMembers<T>(s: seq<T>, k: T -> string)
    ensures forall x :: x in SortOn(s, k) <==> x in s
  {
    forall x ensures x in SortOn(s, k) <==> x in s {
      assert x in SortOn(s, k) <==> x in multiset(SortOn(s, k));
    }
  }

  /** The analysis of every item `keep` admits, when it offers options or
      has a manifest, in order. */
  function Kept<T>(s: seq<T>, keep: T -> bool, analyze: T -> ModArchive): (r: seq<ModArchive>)
    ensures forall m | m in r :: Offers(m) && exists x | x in s :: keep(x) && m == analyze(x)
    ensures forall x | x in s && keep(x) && Offers(analyze(x)) :: analyze(x) in r
  {
    if s == [] then []
    else
      var rest := Kept(s[1..], keep, analyze);
      assert forall x | x in s[1..] :: x in s;
      if keep(s[0]) && Offers(analyze(s[0])) then [analyze(s[0])] + rest else rest
  }

  /** The analysis of a scanned entry is kept when it offers options or has
      a manifest. */
  predicate Offers(m: ModArchive) {
    m.options != [] || m.manifest.Some?
  }

  /** The archives are in ascending order of their file names under `key`. */
  predicate FilenamesSorted(r: seq<ModArchive>, key: string -> string) {
    forall i | 0 <= i < |r| - 1 :: LexLe(key(r[i].filename), key(r[i + 1].filename))
  }

  /** What is kept from a sorted sequence is sorted, when the analysis
      keeps the sort key. */
  lemma {:induction false} KeptSorted<T>(s: seq<T>, keep: T -> bool, analyze: T -> ModArchive,
                                         k: T -> string, key: string -> string)
    requires SortedOn(s, k) && forall x :: key(analyze(x).filename) == k(x)
    ensures FilenamesSorted(Kept(s, keep, analyze), key)
    decreases |s|
  {
    if s != [] {
      KeptSorted(s[1..], keep, analyze, k, key);
      if keep(s[0]) && Offers(analyze(s[0])) && Kept(s[1..], keep, analyze) != [] {
        KeptFirst(s[1..], keep, analyze, k, key, s[0]);
      }
    }
  }

  /** An item ordered before the first one is ordered before the first kept
      archive. */
  lemma {:induction false} KeptFirst<T>(s: seq<T>, keep: T -> bool, analyze: T -> ModArchive,
                                        k: T -> string, key: string -> string, x: T)
    requires SortedOn(s, k) && forall x :: key(analyze(x).filename) == k(x)
    requires Kept(s, keep, analyze) != [] && LexLe(k(x), k(s[0]))
    ensures LexLe(k(x), key(Kept(s, keep, analyze)[0].filename))
    decreases |s|
  {
    if !(keep(s[0]) && Offers(analyze(s[0]))) {
      LexLeTrans(k(x), k(s[0]), k(s[1]));
      KeptFirst(s[1..], keep, analyze, k, key, x);
    }
  }

  /** The entries the scan analyses: regular files with a supported
      extension whose member list can be read. */
  predicate Scanned(e: Entry) {
    e.isFile && Supported(e.archive.path) && e.listable
  }

  /** The order `sorted` gives the folder's paths: their file names under
      `key` (the identity for POSIX paths, lower-casing for Windows paths). */
  function SortKey(key: string -> string): Entry -> string {
    (e: Entry) => key(Basename(e.archive.path))
  }

  function AnalyzeEntry(codecs: Codecs): Entry -> ModArchive {
    (e: Entry) => Analyze(e.archive, codecs)
  }

  /** `scan_archives`: the archives of the folder that offer something. */
  function ScanArchives(entries: seq<Entry>, codecs: Codecs, key: string -> string): (r: seq<ModArchive>)
    ensures forall m | m in r :: Offers(m) && exists e | e in entries :: Scanned(e) && m == Analyze(e.archive, codecs)
    ensures forall e | e in entries && Scanned(e) && Offers(Analyze(e.archive, codecs)) :: Analyze(e.archive, codecs) in r
  {
    SortOnMembers(entries, SortKey(key));
    Kept(SortOn(entries, SortKey(key)), Scanned, AnalyzeEntry(codecs))
  }

  /** The scan lists its archives by file name. */
  lemma ScanSorted(entries: seq<Entry>, codecs: Codecs, key: string -> string)
    ensures FilenamesSorted(ScanArchives(entries, codecs, key), key)
  {
    KeptSorted(SortOn(entries, SortKey(key)), Scanned, AnalyzeEntry(codecs), SortKey(key), key);
  }

  // ---------------------------------------------------------------------
  // The yumia-only manager

  /** `_analyze_archive` of the yumia-only manager: `package/` directories,
      else yumia files anywhere; no manifests, no loose files. */
  function AnalyzeLegacy(a: Archive): (r: ModArchive)
    ensures r.filename == Basename(a.path) && r.name == Stem(Basename(a.path)) && r.manifest.None?
    ensures r.kind == LegacyYumia && r.commonFiles == [] && !r.multiSelect
  {
    var names := NormalizeNames(a.names);
    var base := Base(a);
    if names == [] then base
    else
      var package := PackageOptions(names);
      if package != [] then base.(options := package)
      else if Where(names, IsYumiaFile) != [] then base.(options := [YumiaOption(names)])
      else base
  }

  /** On an archive without a manifest that holds `package/` directories or
      yumia files, both managers find the same options; on one holding
      neither, the yumia-only manager finds none. */
  lemma AnalyzeLegacyAgrees(a: Archive, codecs: Codecs)
    requires Analyze(a, codecs).manifest.None?
    ensures var names := NormalizeNames(a.names);
      && (PackageOptions(names) != [] || Where(names, IsYumiaFile) != [] ==>
            AnalyzeLegacy(a).options == Analyze(a, codecs).options)
      && (PackageOptions(names) == [] && Where(names, IsYumiaFile) == [] ==> AnalyzeLegacy(a).options == [])
  {
    var names := NormalizeNames(a.names);
    if names == [] {
      assert Table(Defs(names)) == [];
    }
  }

  function AnalyzeLegacyEntry(): Entry -> ModArchive {
    (e: Entry) => AnalyzeLegacy(e.archive)
  }

  /** `scan_archives` of the yumia-only manager: the archives with
      options. */
  function ScanLegacy(entries: seq<Entry>, key: string -> string): (r: seq<ModArchive>)
    ensures forall m | m in r :: m.options != [] && exists e | e in entries :: Scanned(e) && m == AnalyzeLegacy(e.archive)
    ensures forall e | e in entries && Scanned(e) && AnalyzeLegacy(e.archive).options != [] :: AnalyzeLegacy(e.archive) in r
  {
    SortOnMembers(entries, SortKey(key));
    Kept(SortOn(entries, SortKey(key)), Scanned, AnalyzeLegacyEntry())
  }

  /** The yumia-only scan lists its archives by file name too. */
  lemma ScanLegacySorted(entries: seq<Entry>, key: string -> string)
    ensures FilenamesSorted(ScanLegacy(entries, key), key)
  {
    KeptSorted(SortOn(entries, SortKey(key)), Scanned, AnalyzeLegacyEntry(), SortKey(key), key);
  }
}

=== FILE: selection.dfy ===
/** Choosing what to convert from a manifest archive: the options each
    feature offers, the default choice per feature, the member list a
    choice selects, plus the mod-folder name and the command-line feature
    arguments. */
module Selection {
  import opened Wrappers
  import opened Text
  import opened Sorting
  import opened Manifest

  /** A choice per feature name; `None` is "no option". */
  type Selections = map<string, Option<string>>

  /** `selections.get(name)` */
  function Get(sel: Selections, name: string): Option<string> {
    if name in sel then sel[name] else None
  }

  /** `name.startswith(prefix) and not name.endswith("/")`: a file (not a
      directory entry) below `prefix`. */
  predicate FileUnder(name: string, prefix: string) {
    HasPrefix(name, prefix) && !HasSuffix(name, "/")
  }

  /** The file members below `prefix`, in archive order. */
  function MembersUnder(names: seq<string>, prefix: string): (r: seq<string>)
    ensures forall x :: x in r <==> x in names && FileUnder(x, prefix)
  {
    if names == [] then []
    else (if FileUnder(names[0], prefix) then [names[0]] else []) + MembersUnder(names[1..], prefix)
  }

  // ---------------------------------------------------------------------
  // Dictionaries built in order

  /** The names of the pairs, in order. */
  function Firsts<V>(pairs: seq<(string, V)>): (r: seq<string>)
    ensures |r| == |pairs| && forall i | 0 <= i < |pairs| :: r[i] == pairs[i].0
  {
    seq(|pairs|, i requires 0 <= i < |pairs| => pairs[i].0)
  }

  /** The first names of a pair in front of more pairs. */
  lemma FirstsCons<V>(c: (string, V), rest: seq<(string, V)>)
    ensures Firsts([c] + rest) == [c.0] + Firsts(rest)
    ensures Firsts([c] + rest)[1..] == Firsts(rest)
  {
    assert Firsts([c] + rest) == [c.0] + Firsts(rest);
  }

  /** `dict(pairs)`: the pairs as a dictionary, a later pair replacing an earlier one with
      the same name. */
  function PairsToMap<V>(pairs: seq<(string, V)>): (r: map<string, V>)
    ensures forall k :: k in r <==> k in Firsts(pairs)
    ensures pairs != [] ==> r[pairs[|pairs| - 1].0] == pairs[|pairs| - 1].1
  {
    if pairs == [] then map[]
    else
      var init := pairs[..|pairs| - 1];
      var last := pairs[|pairs| - 1];
      assert Firsts(pairs) == Firsts(init) + [last.0];
      PairsToMap(init)[last.0 := last.1]
  }

  /** Every pair whose name does not come again later is an entry of the
      dictionary: the last pair for a name wins. */
  lemma {:induction false} PairsToMapLastWins<V>(pairs: seq<(string, V)>)
    ensures forall i | 0 <= i < |pairs| && (forall j | i < j < |pairs| :: pairs[j].0 != pairs[i].0) ::
      PairsToMap(pairs)[pairs[i].0] == pairs[i].1
  {
    if pairs != [] {
      var init := pairs[..|pairs| - 1];
      var last := pairs[|pairs| - 1];
      PairsToMapLastWins(init);
      assert PairsToMap(pairs) == PairsToMap(init)[last.0 := last.1];
      forall i | 0 <= i < |pairs| && (forall j | i < j < |pairs| :: pairs[j].0 != pairs[i].0)
        ensures PairsToMap(pairs)[pairs[i].0] == pairs[i].1
      {
        if i < |pairs| - 1 {
          assert pairs[i] == init[i] && last.0 != pairs[i].0;
          assert forall j | i < j < |init| :: init[j] == pairs[j];
        }
      }
    }
  }

  /** With distinct names, every pair is an entry of the dictionary. */
  lemma {:induction false} PairsToMapDistinct<V>(pairs: seq<(string, V)>)
    requires Distinct(Firsts(pairs))
    ensures forall i | 0 <= i < |pairs| :: PairsToMap(pairs)[pairs[i].0] == pairs[i].1
  {
    if pairs != [] {
      var init := pairs[..|pairs| - 1];
      var last := pairs[|pairs| - 1];
      assert Firsts(pairs) == Firsts(init) + [last.0];
      assert Distinct(Firsts(init)) by {
        forall i, j | 0 <= i < j < |init| ensures Firsts(init)[i] != Firsts(init)[j] {
          assert Firsts(init)[i] == Firsts(pairs)[i] && Firsts(init)[j] == Firsts(pairs)[j];
        }
      }
      PairsToMapDistinct(init);
      forall i | 0 <= i < |pairs| ensures PairsToMap(pairs)[pairs[i].0] == pairs[i].1 {
        if i < |init| {
          assert pairs[i] == init[i];
          assert Firsts(pairs)[i] != Firsts(pairs)[|pairs| - 1];
        }
      }
    }
  }

  // ---------------------------------------------------------------------
  // Options per feature

  /** The option named by the rest of a member's path: its first component,
      provided another component follows. */
  function OptionOf(rest: string): Option<string> {
    var parts := Split(rest, '/');
    if |parts| >= 2 then Some(parts[0]) else None
  }

  /** The option a member belongs to below `directory/`. */
  function OptionIn(name: string, directory: string): Option<string> {
    var prefix := directory + "/";
    if !FileUnder(name, prefix) then None else OptionOf(name[|prefix|..])
  }

  lemma OptionOfSpec(rest: string, x: string)
    ensures OptionOf(rest) == Some(x) <==> HasPrefix(rest, x + "/") && '/' !in x
  {
    SplitHead(rest, '/');
    if HasPrefix(rest, x + "/") && '/' !in x {
      assert rest[|x|] == (x + "/")[|x|];
      forall j | 0 <= j < |x| ensures rest[j] != '/' {
        assert rest[j] == (x + "/")[j];
      }
      assert IndexOf(rest, '/') == |x|;
      assert rest[..|x|] == (x + "/")[..|x|];
    }
    if OptionOf(rest) == Some(x) {
      assert rest[..|x| + 1] == x + "/";
    }
  }

  lemma PrefixThen<T>(s: seq<T>, p: seq<T>, q: seq<T>)
    ensures HasPrefix(s, p + q) <==> HasPrefix(s, p) && HasPrefix(s[|p|..], q)
  {
    if HasPrefix(s, p + q) {
      assert s[..|p|] == (p + q)[..|p|];
      assert s[|p|..][..|q|] == (p + q)[|p|..];
    }
    if HasPrefix(s, p) && HasPrefix(s[|p|..], q) {
      assert s[..|p + q|] == s[..|p|] + s[|p|..][..|q|];
    }
  }

  /** A member names option `x` exactly when it is a file below
      `directory/x/` and `x` is a single path component. */
  lemma OptionInSpec(name: string, directory: string, x: string)
    ensures OptionIn(name, directory) == Some(x) <==>
      HasPrefix(name, directory + "/" + x + "/") && '/' !in x && !HasSuffix(name, "/")
  {
    PrefixThen(name, directory + "/", x + "/");
    assert directory + "/" + x + "/" == (directory + "/") + (x + "/");
    if HasPrefix(name, directory + "/") {
      OptionOfSpec(name[|directory + "/"|..], x);
    }
  }

  /** Some member names option `x` below `directory/`. */
  predicate Offered(names: seq<string>, directory: string, x: string) {
    names != [] && (OptionIn(names[0], directory) == Some(x) || Offered(names[1..], directory, x))
  }

  lemma {:induction false} OfferedSpec(names: seq<string>, directory: string, x: string)
    ensures Offered(names, directory, x) <==> exists i | 0 <= i < |names| :: OptionIn(names[i], directory) == Some(x)
  {
    if names != [] {
      OfferedSpec(names[1..], directory, x);
      if exists i | 0 <= i < |names| :: OptionIn(names[i], directory) == Some(x) {
        var i :| 0 <= i < |names| && OptionIn(names[i], directory) == Some(x);
        if i > 0 {
          assert names[1..][i - 1] == names[i];
        }
      }
      if Offered(names[1..], directory, x) {
        var i :| 0 <= i < |names[1..]| && OptionIn(names[1..][i], directory) == Some(x);
        assert names[i + 1] == names[1..][i];
      }
    }
  }

  /** The options the members name, one entry per member that names one. */
  function OptionsSeen(names: seq<string>, directory: string): (r: seq<string>)
    ensures forall x :: x in r <==> Offered(names, directory, x)
  {
    if names == [] then []
    else
      var here := match OptionIn(names[0], directory) case Some(x) => [x] case None => [];
      here + OptionsSeen(names[1..], directory)
  }

  /** The options of one feature: the distinct option directories, sorted
      by their lower-cased names. */
  function FeatureOptions(names: seq<string>, directory: string): (r: seq<string>)
    ensures forall x :: x in r <==> Offered(names, directory, x)
    ensures Distinct(r)
    ensures SortedBy(r, Lower)
  {
    var found := Dedup(OptionsSeen(names, directory));
    var r := SortBy(found, Lower);
    assert forall x :: x in r <==> x in multiset(r);
    assert forall x :: x in found <==> x in multiset(found);
    MultisetNoDup(found, r);
    r
  }

  /** Each feature's name with its options, in manifest order. */
  function OptionPairs(names: seq<string>, features: seq<Feature>): (r: seq<(string, seq<string>)>)
    ensures Firsts(r) == Names(features)
    ensures |r| == |features| && forall i | 0 <= i < |features| :: r[i].1 == FeatureOptions(names, features[i].directory)
  {
    seq(|features|, i requires 0 <= i < |features| => (features[i].name, FeatureOptions(names, features[i].directory)))
  }

  /** `_discover_manifest_options`: the options of every feature, under the
      feature's name (a later feature of the same name replaces an earlier
      one). */
  function DiscoverOptions(names: seq<string>, features: seq<Feature>): (r: map<string, seq<string>>)
    ensures forall k :: k in r <==> k in Names(features)
  {
    PairsToMap(OptionPairs(names, features))
  }

  /** With distinct feature names, every feature's entry holds its own
      options. */
  lemma DiscoverOptionsDistinct(names: seq<string>, features: seq<Feature>)
    requires Distinct(Names(features))
    ensures forall i | 0 <= i < |features| ::
      DiscoverOptions(names, features)[features[i].name] == FeatureOptions(names, features[i].directory)
  {
    var pairs := OptionPairs(names, features);
    PairsToMapDistinct(pairs);
    forall i | 0 <= i < |features|
      ensures DiscoverOptions(names, features)[features[i].name] == FeatureOptions(names, features[i].directory)
    {
      assert pairs[i].0 == Firsts(pairs)[i] == features[i].name;
    }
  }

  // ---------------------------------------------------------------------
  // Default selections

  /** `options_by_feature.get(name, [])` */
  function Available(options: map<string, seq<string>>, name: string): seq<string> {
    if name in options then options[name] else []
  }

  /** The choice `_default_feature_selections` makes for one feature: the
      requested option if it is available, else the first available one,
      else none; `Err` for an unavailable request or a required feature
      left without an option. */
  function DefaultFor(f: Feature, options: map<string, seq<string>>, requested: map<string, string>): (r: Result<Option<string>>)
    ensures r.Ok? && r.value.Some? ==> r.value.value in Available(options, f.name)
    ensures r.Ok? && r.value.None? ==> f.optional
    ensures f.name in requested ==>
      (r.Ok? <==> requested[f.name] in Available(options, f.name)) && (r.Ok? ==> r.value == Some(requested[f.name]))
    ensures f.name !in requested && Available(options, f.name) != [] ==> r == Ok(Some(Available(options, f.name)[0]))
    ensures f.name !in requested && Available(options, f.name) == [] ==> (r.Ok? <==> f.optional)
  {
    var available := Available(options, f.name);
    if f.name in requested then
      if requested[f.name] in available then Ok(Some(requested[f.name]))
      else Err("Invalid selection for " + f.name + ": " + requested[f.name])
    else if available != [] then Ok(Some(available[0]))
    else if f.optional then Ok(None)
    else Err("Required feature " + f.name + " has no available options")
  }

  /** Every feature's name with its decision, in manifest order; `Err`
      from the first feature that cannot be decided. */
  function Decisions(features: seq<Feature>, options: map<string, seq<string>>,
                     requested: map<string, string>): (r: Result<seq<(string, Option<string>)>>)
    ensures r.Ok? <==> forall i | 0 <= i < |features| :: DefaultFor(features[i], options, requested).Ok?
    ensures r.Ok? ==> Firsts(r.value) == Names(features)
    ensures r.Ok? ==> forall i | 0 <= i < |features| :: r.value[i].1 == DefaultFor(features[i], options, requested).value
  {
    if features == [] then Ok([])
    else
      var f := features[0];
      var c :- DefaultFor(f, options, requested);
      var rest :- Decisions(features[1..], options, requested);
      DecidedCons(features, options, requested, rest);
      Ok([(f.name, c)] + rest)
  }

  /** The first feature's decision in front of the decisions for the rest
      is the decisions for all of them. */
  lemma DecidedCons(features: seq<Feature>, options: map<string, seq<string>>,
                    requested: map<string, string>, rest: seq<(string, Option<string>)>)
    requires features != [] && DefaultFor(features[0], options, requested).Ok?
    requires Firsts(rest) == Names(features[1..])
    requires forall i | 0 <= i < |rest| ::
      DefaultFor(features[1..][i], options, requested).Ok? && rest[i].1 == DefaultFor(features[1..][i], options, requested).value
    ensures var r := [(features[0].name, DefaultFor(features[0], options, requested).value)] + rest;
      && Firsts(r) == Names(features)
      && forall i | 0 <= i < |features| ::
        DefaultFor(features[i], options, requested).Ok? && r[i].1 == DefaultFor(features[i], options, requested).value
  {
    var d := DefaultFor(features[0], options, requested).value;
    var r := [(features[0].name, d)] + rest;
    FirstsCons((features[0].name, d), rest);
    assert Names(features) == [features[0].name] + Names(features[1..]);
    forall i | 1 <= i < |features|
      ensures DefaultFor(features[i], options, requested).Ok? && r[i].1 == DefaultFor(features[i], options, requested).value
    {
      assert features[i] == features[1..][i - 1];
      assert r[i] == rest[i - 1];
    }
  }

  /** `_default_feature_selections`: every feature decided in order, the
      first failure raising. */
  function DefaultSelections(features: seq<Feature>, options: map<string, seq<string>>,
                             requested: map<string, string>): (r: Result<Selections>)
    ensures r.Ok? <==> forall i | 0 <= i < |features| :: DefaultFor(features[i], options, requested).Ok?
    ensures r.Ok? ==> forall k :: k in r.value <==> k in Names(features)
  {
    var decisions :- Decisions(features, options, requested);
    Ok(PairsToMap(decisions))
  }

  /** With distinct feature names, every feature's entry holds its own
      decision. */
  lemma DefaultSelectionsDistinct(features: seq<Feature>, options: map<string, seq<string>>,
                                  requested: map<string, string>)
    requires Distinct(Names(features))
    requires DefaultSelections(features, options, requested).Ok?
    ensures forall i | 0 <= i < |features| ::
      DefaultSelections(features, options, requested).value[features[i].name] == DefaultFor(features[i], options, requested).value
  {
    var pairs := Decisions(features, options, requested).value;
    PairsToMapDistinct(pairs);
    assert forall i | 0 <= i < |features| :: pairs[i].0 == features[i].name;
  }

  // ---------------------------------------------------------------------
  // Selected members

  /** The member lies below the manifest's common-files directory (an empty
      directory name selects nothing). */
  predicate CommonFile(m: ModManifest, name: string) {
    m.commonFilesDir.Some? && m.commonFilesDir.value != [] && FileUnder(name, m.commonFilesDir.value + "/")
  }

  /** The member lies below `directory/chosen/` of a feature with a choice. */
  predicate ChosenFile(f: Feature, sel: Selections, name: string) {
    Get(sel, f.name).Some? && FileUnder(name, f.directory + "/" + Get(sel, f.name).value + "/")
  }

  /** Some feature's chosen option holds the member. */
  predicate ChosenByAny(features: seq<Feature>, sel: Selections, name: string) {
    features != [] && (ChosenFile(features[0], sel, name) || ChosenByAny(features[1..], sel, name))
  }

  /** A member the manifest selection installs. */
  predicate SelectedFile(m: ModManifest, sel: Selections, name: string) {
    CommonFile(m, name) || ChosenByAny(m.features, sel, name)
  }

  /** The members below each feature's chosen option, feature by feature. */
  function ChosenMembers(names: seq<string>, features: seq<Feature>, sel: Selections): (r: seq<string>)
    ensures forall x :: x in r <==> x in names && ChosenByAny(features, sel, x)
  {
    if features == [] then []
    else
      var f := features[0];
      var here := if Get(sel, f.name).Some? then MembersUnder(names, f.directory + "/" + Get(sel, f.name).value + "/") else [];
      here + ChosenMembers(names, features[1..], sel)
  }

  /** The non-directory members, in archive order. */
  function Files(names: seq<string>): (r: seq<string>)
    ensures forall x :: x in r <==> x in names && !HasSuffix(x, "/")
    ensures |r| <= |names|
  {
    if names == [] then []
    else (if HasSuffix(names[0], "/") then [] else [names[0]]) + Files(names[1..])
  }

  /** `_build_selected_members` */
  function BuildSelectedMembers(archiveName: string, names: seq<string>, manifest: Option<ModManifest>,
                                sel: Selections): (r: Result<seq<string>>)
    ensures manifest.None? ==> r == Ok(Files(names))
    ensures manifest.Some? ==>
      (r.Ok? <==> exists x | x in names :: SelectedFile(manifest.value, sel, x))
    ensures manifest.Some? && r.Ok? ==>
      && (forall x :: x in r.value <==> x in names && SelectedFile(manifest.value, sel, x))
      && Distinct(r.value)
      && SortedBy(r.value, x => x)
  {
    match manifest
    case None => Ok(Files(names))
    case Some(m) =>
      var common := if m.commonFilesDir.Some? && m.commonFilesDir.value != []
                    then MembersUnder(names, m.commonFilesDir.value + "/") else [];
      var selected := common + ChosenMembers(names, m.features, sel);
      assert forall x :: x in selected <==> x in names && SelectedFile(m, sel, x);
      if selected == [] then Err("No installable files found in " + archiveName)
      else
        assert selected[0] in names && SelectedFile(m, sel, selected[0]);
        Ok(SortedSet(selected))
  }

  // ---------------------------------------------------------------------
  // Mod folder names

  /** The characters Windows does not allow in a folder name. */
  predicate Forbidden(c: char) {
    c == '<' || c == '>' || c == ':' || c == '"' || c == '/' || c == '\\' || c == '|' || c == '?' || c == '*'
  }

  const DEFAULT_MOD_DIR: string := "ConvertedMod"

  function ReplaceForbidden(s: string): (r: string)
    ensures |r| == |s|
    ensures forall i | 0 <= i < |s| :: r[i] == (if Forbidden(s[i]) then '_' else s[i])
    ensures forall x | x in r :: !Forbidden(x)
  {
    if s == [] then [] else [if Forbidden(s[0]) then '_' else s[0]] + ReplaceForbidden(s[1..])
  }

  /** `sanitize_mod_dir_name`: forbidden characters become `_`, then
      surrounding whitespace and trailing dots go; nothing left gives
      `ConvertedMod`. */
  function SanitizeModDirName(name: string): (r: string)
    ensures r != []
    ensures forall x | x in r :: !Forbidden(x)
    ensures !IsSpace(r[0]) && r[|r| - 1] != '.'
  {
    var replaced := ReplaceForbidden(name);
    var cleaned := RStripChar(Strip(replaced), '.');
    StripRStrip(replaced, '.');
    if cleaned == [] then DEFAULT_MOD_DIR else cleaned
  }

  /** A name that is already clean is kept as it is. */
  lemma SanitizeKeepsCleanName(name: string)
    requires name != [] && !IsSpace(name[0]) && !IsSpace(name[|name| - 1]) && name[|name| - 1] != '.'
    requires forall i | 0 <= i < |name| :: !Forbidden(name[i])
    ensures SanitizeModDirName(name) == name
  {
    assert ReplaceForbidden(name) == name;
    TrimUntouched(name, IsSpace);
    assert RTrimCount(name, Is('.')) == 0;
  }

  /** A name of nothing but whitespace, or nothing but dots, falls back to
      the default. */
  lemma SanitizeBlankName(name: string)
    requires (forall i | 0 <= i < |name| :: IsSpace(name[i])) || (forall i | 0 <= i < |name| :: name[i] == '.')
    ensures SanitizeModDirName(name) == DEFAULT_MOD_DIR
  {
    assert ReplaceForbidden(name) == name;
    if forall i | 0 <= i < |name| :: IsSpace(name[i]) {
      AllSpace(name);
      assert Strip(name) == [];
    } else {
      if name != [] {
        TrimUntouched(name, IsSpace);
      }
      AllTrimmed(name, '.');
    }
  }

  lemma {:induction false} AllSpace(s: string)
    requires forall i | 0 <= i < |s| :: IsSpace(s[i])
    ensures LTrimCount(s, IsSpace) == |s|
  {
    if s != [] {
      AllSpace(s[1..]);
    }
  }

  lemma {:induction false} AllTrimmed(s: string, c: char)
    requires forall i | 0 <= i < |s| :: s[i] == c
    ensures RTrimCount(s, Is(c)) == |s|
  {
    if s != [] {
      AllTrimmed(s[..|s| - 1], c);
    }
  }

  /** Whitespace before a trailing dot survives: the dot is stripped after
      the whitespace is, so a clean name followed by " ." keeps the space. */
  lemma SanitizeKeepsSpaceBeforeDot(w: string)
    requires w != [] && !IsSpace(w[0])
    requires forall x | x in w :: !Forbidden(x)
    requires w[|w| - 1] != '.'
    ensures SanitizeModDirName(w + " .") == w + " "
  {
    var s := w + " .";
    assert forall i | 0 <= i < |s| :: !Forbidden(s[i]) by {
      assert forall i | 0 <= i < |w| :: s[i] == w[i];
    }
    ReplaceClean(s);
    TrimUntouched(s, IsSpace);
    assert s == (w + " ") + ".";
    RStripOneDot(w + " ");
  }

  lemma ReplaceClean(s: string)
    requires forall i | 0 <= i < |s| :: !Forbidden(s[i])
    ensures ReplaceForbidden(s) == s
  {
  }

  /** One trailing dot after a character that is not a dot is stripped. */
  lemma RStripOneDot(u: string)
    requires u != [] && u[|u| - 1] != '.'
    ensures RStripChar(u + ".", '.') == u
  {
    assert (u + ".")[..|u|] == u;
    assert RTrimCount(u, Is('.')) == 0;
  }

  // ---------------------------------------------------------------------
  // `--feature Name=Option` arguments

  /** The name and value of one argument: split at the first `=`, each side
      stripped. */
  function FeatureArg(raw: string): (string, string)
    requires '=' in raw
  {
    var i := IndexOf(raw, '=');
    (Strip(raw[..i]), Strip(raw[i + 1..]))
  }

  /** Every argument split into its name and value; `Err` names the first
      argument without `=`. */
  function SplitArgs(raws: seq<string>): (r: Result<seq<(string, string)>>)
    ensures r.Ok? <==> forall i | 0 <= i < |raws| :: '=' in raws[i]
    ensures r.Ok? ==> |r.value| == |raws| && forall i | 0 <= i < |raws| :: r.value[i] == FeatureArg(raws[i])
  {
    if raws == [] then Ok([])
    else if '=' !in raws[0] then Err("Invalid --feature value: " + raws[0] + ". Expected Name=Option")
    else
      var rest :- SplitArgs(raws[1..]);
      Ok([FeatureArg(raws[0])] + rest)
  }

  /** `_parse_feature_args`: the first argument without `=` raises; a later
      argument for the same name replaces an earlier one. */
  function ParseFeatureArgs(raws: seq<string>): (r: Result<map<string, string>>)
    ensures r.Ok? <==> forall i | 0 <= i < |raws| :: '=' in raws[i]
    ensures r.Ok? ==> forall i | 0 <= i < |raws| :: FeatureArg(raws[i]).0 in r.value
    ensures r.Ok? && raws != [] ==> r.value[FeatureArg(raws[|raws| - 1]).0] == FeatureArg(raws[|raws| - 1]).1
  {
    var pairs :- SplitArgs(raws);
    assert forall i | 0 <= i < |raws| :: Firsts(pairs)[i] == FeatureArg(raws[i]).0;
    Ok(PairsToMap(pairs))
  }

  /** Every argument whose name does not come again later gives that name
      its value: the last argument for a name wins.  (`SplitArgs` gives each
      argument's name and value, in order.) */
  lemma ParseFeatureArgsLastWins(raws: seq<string>)
    requires ParseFeatureArgs(raws).Ok?
    ensures var args := SplitArgs(raws).value;
      forall i | 0 <= i < |args| && (forall j | i < j < |args| :: args[j].0 != args[i].0) ::
        ParseFeatureArgs(raws).value[args[i].0] == args[i].1
  {
    var args := SplitArgs(raws).value;
    assert ParseFeatureArgs(raws).value == PairsToMap(args);
    PairsToMapLastWins(args);
  }

  /** Every key of the parsed dictionary is the name of some argument. */
  lemma ParseFeatureArgsKeys(raws: seq<string>)
    requires ParseFeatureArgs(raws).Ok?
    ensures forall k | k in ParseFeatureArgs(raws).value :: exists i | 0 <= i < |raws| :: FeatureArg(raws[i]).0 == k
  {
    var pairs := SplitArgs(raws).value;
    assert ParseFeatureArgs(raws).value == PairsToMap(pairs);
    forall k | k in PairsToMap(pairs) ensures exists i | 0 <= i < |raws| :: FeatureArg(raws[i]).0 == k {
      var i :| 0 <= i < |pairs| && Firsts(pairs)[i] == k;
      assert FeatureArg(raws[i]).0 == k;
    }
  }

  /** Arguments written as `name=value` for distinct, already-stripped names
      without `=` and stripped values parse back to those pairs. */
  lemma ParseFeatureArgsRoundTrip(names: seq<string>, values: seq<string>, raws: seq<string>)
    requires |names| == |values| == |raws| && Distinct(names)
    requires forall i | 0 <= i < |names| :: '=' !in names[i] && Strip(names[i]) == names[i] && Strip(values[i]) == values[i]
    requires forall i | 0 <= i < |raws| :: raws[i] == names[i] + "=" + values[i]
    ensures ParseFeatureArgs(raws).Ok?
    ensures forall k :: k in ParseFeatureArgs(raws).value <==> k in names
    ensures forall i | 0 <= i < |names| :: ParseFeatureArgs(raws).value[names[i]] == values[i]
  {
    forall i | 0 <= i < |raws| ensures '=' in raws[i] && FeatureArg(raws[i]) == (names[i], values[i]) {
      ArgSplits(names[i], values[i]);
    }
    var pairs := SplitArgs(raws).value;
    assert Firsts(pairs) == names;
    PairsToMapDistinct(pairs);
    assert ParseFeatureArgs(raws) == Ok(PairsToMap(pairs));
  }

  lemma ArgSplits(name: string, value: string)
    requires '=' !in name && Strip(name) == name && Strip(value) == value
    ensures '=' in name + "=" + value
    ensures FeatureArg(name + "=" + value) == (name, value)
  {
    SplitOnceOf(name, value, '=');
  }
}

=== FILE: sidecar.dfy ===
/** The `.yumiamod.json` sidecar that travels with a container, as the
    already-parsed JSON document.  Only the fields the engine reads are kept;
    an absent `files` list is the empty list, as with `.get("files", [])`. */
module Sidecar {
  import opened Wrappers

  datatype SidecarEntry = SidecarEntry(
    filename: Option<string>, nameHash: Option<int>, tkidHash: Option<int>)

  datatype SidecarDoc = SidecarDoc(files: seq<SidecarEntry>)

  /** A frame's identity: `(name_hash, tkid_hash)`. */
  type Key = (int, int)

  /** The entry carries all three fields the filename table needs. */
  predicate Complete(e: SidecarEntry) {
    e.filename.Some? && e.nameHash.Some? && e.tkidHash.Some?
  }

  function KeyOf(e: SidecarEntry): Key
    requires Complete(e)
  {
    (e.nameHash.value, e.tkidHash.value)
  }

  /** `_decode_mod_json`: the filename of every complete entry under its
      key; incomplete entries are skipped, and a later entry with the same
      key replaces an earlier one. */
  function FilenameTable(files: seq<SidecarEntry>): (r: map<Key, string>)
    ensures forall i | 0 <= i < |files| && Complete(files[i]) :: KeyOf(files[i]) in r
    ensures forall k | k in r :: exists i | 0 <= i < |files| ::
      && Complete(files[i]) && KeyOf(files[i]) == k && r[k] == files[i].filename.value
      && forall j | i < j < |files| :: !(Complete(files[j]) && KeyOf(files[j]) == k)
    decreases |files|
  {
    if files == [] then map[]
    else
      var init := files[..|files| - 1];
      var last := files[|files| - 1];
      var m := FilenameTable(init);
      assert forall i | 0 <= i < |init| :: init[i] == files[i];
      if Complete(last) then m[KeyOf(last) := last.filename.value] else m
  }

  /** The `name_hash` values the conflict check collects from one sidecar:
      entries are read in order and the first one without a `name_hash`
      raises, so only the hashes before it count. */
  function NameHashes(files: seq<SidecarEntry>): (r: set<int>)
    ensures forall h | h in r :: exists i | 0 <= i < |files| :: files[i].nameHash == Some(h)
    ensures (forall i | 0 <= i < |files| :: files[i].nameHash.Some?) ==>
      forall i | 0 <= i < |files| :: files[i].nameHash.value in r
    ensures |files| > 0 && files[0].nameHash.None? ==> r == {}
  {
    if files == [] || files[0].nameHash.None? then {}
    else {files[0].nameHash.value} + NameHashes(files[1..])
  }
}

=== FILE: sorting.dfy ===
/** Python's `sorted` on strings: code-point lexicographic order, stable,
    optionally under a key function such as `str.lower`. */
module Sorting {

  /** `a <= b` for Python strings. */
  predicate LexLe(a: string, b: string) {
    a == [] || (b != [] && (a[0] < b[0] || (a[0] == b[0] && LexLe(a[1..], b[1..]))))
  }

  lemma LexLeTotal(a: string, b: string)
    ensures LexLe(a, b) || LexLe(b, a)
  {
  }

  lemma LexLeTrans(a: string, b: string, c: string)
    requires LexLe(a, b) && LexLe(b, c)
    ensures LexLe(a, c)
  {
  }

  lemma LexLeAntisym(a: string, b: string)
    requires LexLe(a, b) && LexLe(b, a)
    ensures a == b
  {
  }

  predicate SortedBy(s: seq<string>, key: string -> string) {
    forall i :: 0 <= i < |s| - 1 ==> LexLe(key(s[i]), key(s[i + 1]))
  }

  function Insert(x: string, s: seq<string>, key: string -> string): (r: seq<string>)
    requires SortedBy(s, key)
    ensures SortedBy(r, key)
    ensures multiset(r) == multiset(s) + multiset{x}
    ensures r[0] == x || (s != [] && r[0] == s[0])
  {
    if s == [] then [x]
    else if LexLe(key(x), key(s[0])) then [x] + s
    else
      LexLeTotal(key(x), key(s[0]));
      var t := Insert(x, s[1..], key);
      assert s == [s[0]] + s[1..];
      [s[0]] + t
  }

  /** Stable insertion sort by `key`. */
  function SortBy(s: seq<string>, key: string -> string): (r: seq<string>)
    ensures SortedBy(r, key)
    ensures multiset(r) == multiset(s)
  {
    if s == [] then []
    else
      assert s == [s[0]] + s[1..];
      Insert(s[0], SortBy(s[1..], key), key)
  }

  /** The elements of `s` without repeats, each at its first occurrence. */
  function Dedup(s: seq<string>): (r: seq<string>)
    ensures forall x :: x in r <==> x in s
    ensures forall i, j :: 0 <= i < j < |r| ==> r[i] != r[j]
  {
    if s == [] then []
    else
      var t := Dedup(s[..|s| - 1]);
      if s[|s| - 1] in t then t else t + [s[|s| - 1]]
  }

  /** The distinct strings of `s` in ascending code-point order. */
  function SortedSet(s: seq<string>): (r: seq<string>)
    ensures forall x :: x in r <==> x in s
    ensures forall i, j :: 0 <= i < j < |r| ==> r[i] != r[j]
    ensures SortedBy(r, x => x)
  {
    var d := Dedup(s);
    var r := SortBy(d, x => x);
    assert forall x :: x in r <==> x in d by {
      forall x ensures x in r <==> x in d {
        assert x in r <==> x in multiset(r);
      }
    }
    MultisetNoDup(d, r);
    r
  }

  lemma MultisetNoDup(d: seq<string>, r: seq<string>)
    requires forall i, j :: 0 <= i < j < |d| ==> d[i] != d[j]
    requires multiset(r) == multiset(d)
    ensures forall i, j :: 0 <= i < j < |r| ==> r[i] != r[j]
  {
    forall x | x in multiset(d) ensures multiset(d)[x] == 1 {
      DistinctCount(d, x);
    }
    forall i, j | 0 <= i < j < |r| ensures r[i] != r[j] {
      if r[i] == r[j] {
        TwoOccurrences(r, i, j);
        assert false;
      }
    }
  }

  lemma DistinctCount(d: seq<string>, x: string)
    requires forall i, j :: 0 <= i < j < |d| ==> d[i] != d[j]
    requires x in d
    ensures multiset(d)[x] == 1
  {
    if d != [] {
      assert d == [d[0]] + d[1..];
      if d[0] == x {
        assert x !in d[1..];
      } else {
        DistinctCount(d[1..], x);
      }
    }
  }

  lemma TwoOccurrences(r: seq<string>, i: nat, j: nat)
    requires i < j < |r| && r[i] == r[j]
    ensures multiset(r)[r[i]] >= 2
  {
    var x := r[i];
    assert r == r[..i] + [x] + r[i + 1..j] + [x] + r[j + 1..];
    assert multiset(r) == multiset(r[..i]) + multiset{x} + multiset(r[i + 1..j]) + multiset{x} + multiset(r[j + 1..]);
  }
}

=== FILE: state.dfy ===
/** The two files the manager keeps its records in: the state file, which
    holds every install record, and the legacy manifest, which holds the
    yumia installs in the format of the older manager. Loading prefers the
    state file and otherwise rebuilds the records from the legacy manifest;
    checking the installs drops the records whose files are gone. */
module InstallState {
  import opened Wrappers
  import opened Text
  import opened OrderedMap
  import opened Selection
  import opened Conversion
  import opened Scan
  import opened Records
  import opened Features
  import opened Resolution
  import opened Game

  /** The contents of the two files, when they exist. */
  datatype Store = Store(state: Option<string>, legacy: Option<string>)

  /** The JSON reading and writing of the two files. Reading the state file
      gives its `version` (the integer it equals, if any) and its records;
      either reader gives nothing when the text is not JSON or a record
      lacks a field. Writing the state file always writes version 2. */
  datatype StateCodecs = StateCodecs(
    decodeState: string -> Option<(Option<int>, seq<(string, InstalledModRecord)>)>,
    encodeState: seq<(string, InstalledModRecord)> -> string,
    decodeLegacy: string -> Option<seq<(string, LegacyRecord)>>,
    encodeLegacy: seq<(string, LegacyRecord)> -> string)

  const STATE_VERSION: int := 2

  /** Each reader gives back what its writer wrote. */
  ghost predicate Faithful(c: StateCodecs) {
    && (forall ps :: c.decodeState(c.encodeState(ps)) == Some((Some(STATE_VERSION), ps)))
    && (forall ps :: c.decodeLegacy(c.encodeLegacy(ps)) == Some(ps))
  }

  // ---------------------------------------------------------------------
  // Writing

  /** `save_install_state` */
  function SaveState(installed: Installed, store: Store, c: StateCodecs): (r: Store)
    requires Valid(installed)
    ensures r.legacy == store.legacy && r.state.Some?
  {
    store.(state := Some(c.encodeState(Entries(installed))))
  }

  /** `_save_legacy_installed_mods_manifest`: the yumia records in the
      older format; with none, the file is removed. */
  function SaveLegacy(installed: Installed, store: Store, c: StateCodecs): (r: Store)
    requires Valid(installed)
    ensures r.state == store.state
    ensures r.legacy.None? <==> !exists k | k in installed.items :: installed.items[k].backend == Yumia
  {
    var exported := LegacyExport(installed);
    if exported.keys != [] then
      assert exported.keys[0] in exported.items;
      store.(legacy := Some(c.encodeLegacy(Entries(exported))))
    else
      assert forall k | k in installed.items :: installed.items[k].backend != Yumia by {
        forall k | k in installed.items ensures installed.items[k].backend != Yumia {
          assert k in exported.items <==> installed.items[k].backend == Yumia;
        }
      }
      store.(legacy := None)
  }

  // ---------------------------------------------------------------------
  // Reading

  /** `_load_legacy_installed_mods_manifest`: nothing when the file is
      missing or unreadable. */
  function LoadLegacy(file: Option<string>, c: StateCodecs): (r: OMap<LegacyRecord>)
    ensures Valid(r)
    ensures file.None? ==> r.items == map[]
  {
    match file
    case None => Empty()
    case Some(text) =>
      match c.decodeLegacy(text)
      case None => Empty()
      case Some(pairs) => FromEntries(pairs)
  }

  /** The record the older format stands for: a yumia install of the
      archive, a manifest install when the archive can be found and has a
      manifest (its choices read back from the option summary and files),
      a legacy install otherwise. */
  function BackfillRecord(legacy: LegacyRecord, lookup: string -> Option<(ModArchive, Archive)>): (r: InstalledModRecord)
    ensures r.archiveFilename == legacy.archiveFilename && r.backend == Yumia && r.summary == legacy.optionName
    ensures r.looseModDir.None?
    ensures |r.installedPaths| == |legacy.installedFiles|
    ensures forall i | 0 <= i < |r.installedPaths| ::
      HasPrefix(r.installedPaths[i], PACKAGE_DIR) && r.installedPaths[i] == AddPackage(legacy.installedFiles[i])
    ensures r.installKind == ManifestInstall <==>
      lookup(legacy.archiveFilename).Some? && lookup(legacy.archiveFilename).value.0.manifest.Some?
    ensures r.installKind == LegacyInstall ==> r.legacyOptionName == Some(legacy.optionName) && r.featureSelections.None?
    ensures r.installKind == ManifestInstall ==> r.legacyOptionName.None? && (r.featureSelections.Some? ==>
      var am := lookup(legacy.archiveFilename).value.0;
      ValidateSelections(am.manifest.value.features, am.manifestOptions, r.featureSelections.value).Ok?)
  {
    var files := legacy.installedFiles;
    var paths := seq(|files|, i requires 0 <= i < |files| => AddPackage(files[i]));
    match lookup(legacy.archiveFilename)
    case Some((am, _)) =>
      if am.manifest.Some? then
        var prefixed := seq(|files|, i requires 0 <= i < |files| => PACKAGE_DIR + files[i]);
        var fsel := ResolveForSummary(am.names, am.manifest.value.features, am.manifestOptions, legacy.optionName, prefixed);
        InstalledModRecord(legacy.archiveFilename, Yumia, ManifestInstall, legacy.optionName, None, fsel, paths, None)
      else InstalledModRecord(legacy.archiveFilename, Yumia, LegacyInstall, legacy.optionName, Some(legacy.optionName), None, paths, None)
    case None => InstalledModRecord(legacy.archiveFilename, Yumia, LegacyInstall, legacy.optionName, Some(legacy.optionName), None, paths, None)
  }

  /** `backfill_legacy_state_if_needed`, before the state is written. */
  function Backfill(legacy: OMap<LegacyRecord>, lookup: string -> Option<(ModArchive, Archive)>): (r: Installed)
    requires Valid(legacy)
    ensures Valid(r) && r.keys == legacy.keys
    ensures forall k | k in r.items :: r.items[k] == BackfillRecord(legacy.items[k], lookup)
  {
    OMap(legacy.keys, map k | k in legacy.items :: BackfillRecord(legacy.items[k], lookup))
  }

  /** `load_install_state`: the state file when it exists (nothing at all
      when it cannot be read or has another version); else the records
      rebuilt from the legacy manifest, which are written to the state
      file at once. */
  function LoadInstallState(store: Store, c: StateCodecs, lookup: string -> Option<(ModArchive, Archive)>): (r: (Installed, Store))
    ensures Valid(r.0) && r.1.state.Some? && r.1.legacy == store.legacy
    ensures store.state.Some? ==> r.1 == store
    ensures store.state.Some? && c.decodeState(store.state.value).None? ==> r.0.items == map[]
    ensures store.state.Some? && c.decodeState(store.state.value).Some? ==>
      (c.decodeState(store.state.value).value.0 != Some(STATE_VERSION) ==> r.0.items == map[])
    ensures store.state.None? ==> forall k | k in r.0.items :: r.0.items[k].backend == Yumia
  {
    match store.state
    case Some(text) =>
      (match c.decodeState(text)
       case None => (Empty(), store)
       case Some((version, pairs)) =>
         if version != Some(STATE_VERSION) then (Empty(), store)
         else (FromEntries(pairs), store))
    case None =>
      var installed := Backfill(LoadLegacy(store.legacy, c), lookup);
      (installed, SaveState(installed, store, c))
  }

  /** The records whose files are all on disk, and whether any was
      dropped. */
  function PruneMissing(loaded: Installed, disk: Disk): (r: (Installed, bool))
    requires Valid(loaded)
    ensures Valid(r.0)
    ensures forall k | k in r.0.items :: forall p | p in r.0.items[k].installedPaths :: p in disk
    ensures forall k | k in r.0.items :: k in loaded.items && r.0.items[k] == loaded.items[k]
    ensures forall k | k in loaded.items && k !in r.0.items :: exists p | p in loaded.items[k].installedPaths :: p !in disk
    ensures r.1 <==> exists k | k in loaded.items :: exists p | p in loaded.items[k].installedPaths :: p !in disk
    ensures !r.1 ==> r.0 == loaded
  {
    var present := p => p in disk;
    var r := Prune(loaded, (rec: InstalledModRecord) => rec.installedPaths, present);
    assert forall k | k in r.0.items :: forall p | p in r.0.items[k].installedPaths :: p in disk by {
      forall k | k in r.0.items
        ensures forall p | p in r.0.items[k].installedPaths :: p in disk
      {
        assert AllPresent(r.0.items[k].installedPaths, present);
      }
    }
    assert forall k | k in loaded.items && k !in r.0.items :: exists p | p in loaded.items[k].installedPaths :: p !in disk by {
      forall k | k in loaded.items && k !in r.0.items
        ensures exists p | p in loaded.items[k].installedPaths :: p !in disk
      {
        var ps := loaded.items[k].installedPaths;
        assert !AllPresent(ps, present);
        var i :| 0 <= i < |ps| && !present(ps[i]);
        assert ps[i] in ps;
      }
    }
    assert r.1 <==> exists k | k in loaded.items :: exists p | p in loaded.items[k].installedPaths :: p !in disk by {
      if !r.1 {
        forall k | k in loaded.items ensures forall p | p in loaded.items[k].installedPaths :: p in disk {
          assert AllPresent(loaded.items[k].installedPaths, present);
        }
      }
    }
    r
  }

  /** `check_installed_status`: the loaded records some of whose files are
      missing are dropped, and both files are rewritten only then. */
  function CheckInstalledStatus(store: Store, c: StateCodecs, lookup: string -> Option<(ModArchive, Archive)>,
                                disk: Disk): (r: (Installed, Store))
    ensures Valid(r.0)
    ensures forall k | k in r.0.items :: forall p | p in r.0.items[k].installedPaths :: p in disk
  {
    var (loaded, loadedStore) := LoadInstallState(store, c, lookup);
    var (kept, dropped) := PruneMissing(loaded, disk);
    if dropped then (kept, SaveLegacy(kept, SaveState(kept, loadedStore, c), c))
    else (kept, loadedStore)
  }

  // ---------------------------------------------------------------------
  // Round trips

  /** The state file gives back the records written to it, in order. */
  lemma StateRoundTrip(installed: Installed, store: Store, c: StateCodecs, lookup: string -> Option<(ModArchive, Archive)>)
    requires Valid(installed) && Faithful(c)
    ensures LoadInstallState(SaveState(installed, store, c), c, lookup).0 == installed
  {
    FromEntriesOfEntries(installed);
  }

  /** The legacy manifest gives back the yumia records in the older
      format; with none, it gives nothing. */
  lemma LegacyRoundTrip(installed: Installed, store: Store, c: StateCodecs)
    requires Valid(installed) && Faithful(c)
    ensures LoadLegacy(SaveLegacy(installed, store, c).legacy, c) == LegacyExport(installed)
  {
    var exported := LegacyExport(installed);
    if exported.keys != [] {
      FromEntriesOfEntries(exported);
    } else {
      assert exported.items == map[];
    }
  }

  /** Rebuilding the records from a legacy manifest and writing them back
      in the older format gives the same manifest: the same keys in the
      same order, the same archives, options and files, as long as no file
      is itself listed below `package/`. */
  lemma BackfillExportRoundTrip(legacy: OMap<LegacyRecord>, lookup: string -> Option<(ModArchive, Archive)>)
    requires Valid(legacy)
    requires forall k | k in legacy.items :: forall f | f in legacy.items[k].installedFiles :: !HasPrefix(f, PACKAGE_DIR)
    ensures LegacyExport(Backfill(legacy, lookup)) == legacy
  {
    var installed := Backfill(legacy, lookup);
    YumiaKeysAll(installed.keys, installed.items);
    forall k | k in legacy.items ensures ToLegacy(installed.items[k]) == legacy.items[k] {
      var rec := installed.items[k];
      var files := legacy.items[k].installedFiles;
      forall i | 0 <= i < |files| ensures InstalledFiles(rec)[i] == files[i] {
        assert files[i] in files;
        StripAddPackage(files[i]);
      }
    }
  }

  /** With only yumia records, their keys are all the keys. */
  lemma {:induction false} YumiaKeysAll(keys: seq<string>, items: map<string, InstalledModRecord>)
    requires forall k | k in keys :: k in items && items[k].backend == Yumia
    ensures YumiaKeys(keys, items) == keys
  {
    if keys != [] {
      assert forall k | k in keys[1..] :: k in keys;
      YumiaKeysAll(keys[1..], items);
    }
  }

  /** Loading what the check left behind gives the records it kept and
      the same files. */
  lemma CheckedLoadsBack(store: Store, c: StateCodecs, lookup: string -> Option<(ModArchive, Archive)>, disk: Disk)
    requires Faithful(c)
    ensures var (once, after) := CheckInstalledStatus(store, c, lookup, disk);
      LoadInstallState(after, c, lookup) == (once, after)
  {
    var (loaded, loadedStore) := LoadInstallState(store, c, lookup);
    var (kept, dropped) := PruneMissing(loaded, disk);
    if dropped {
      var saved := SaveState(kept, loadedStore, c);
      StateRoundTrip(kept, loadedStore, c, lookup);
      StateDecides(saved, SaveLegacy(kept, saved, c), c, lookup);
    } else if store.state.None? {
      StateRoundTrip(loaded, store, c, lookup);
    }
  }

  /** Two stores with the same state file load the same records. */
  lemma StateDecides(s: Store, t: Store, c: StateCodecs, lookup: string -> Option<(ModArchive, Archive)>)
    requires s.state.Some? && s.state == t.state
    ensures LoadInstallState(s, c, lookup).0 == LoadInstallState(t, c, lookup).0
  {
  }

  /** Checking twice, the second check finds nothing missing, rewrites
      nothing and keeps the same records. */
  lemma CheckTwiceStable(store: Store, c: StateCodecs, lookup: string -> Option<(ModArchive, Archive)>, disk: Disk)
    requires Faithful(c)
    ensures var (once, after) := CheckInstalledStatus(store, c, lookup, disk);
      CheckInstalledStatus(after, c, lookup, disk) == (once, after)
  {
    var (once, after) := CheckInstalledStatus(store, c, lookup, disk);
    CheckedLoadsBack(store, c, lookup, disk);
    assert !PruneMissing(once, disk).1;
  }
}

=== FILE: text.dfy ===
/** String helpers with the meaning of the Python `str` and `pathlib` methods
    the engine uses, restricted to ASCII (no Unicode case folding). */
module Text {

  predicate HasPrefix<T(==)>(s: seq<T>, p: seq<T>) {
    |p| <= |s| && s[..|p|] == p
  }

  predicate HasSuffix<T(==)>(s: seq<T>, p: seq<T>) {
    |p| <= |s| && s[|s| - |p|..] == p
  }

  /** A sequence starts with what is put in front and ends with what is
      put behind. */
  lemma Framed<T>(head: seq<T>, body: seq<T>, tail: seq<T>)
    ensures HasPrefix(head + body + tail, head) && HasSuffix(head + body + tail, tail)
  {
    var r := head + body + tail;
    assert r[..|head|] == head;
    assert r[|r| - |tail|..] == tail;
  }

  /** A sequence starts with what is put in front. */
  lemma Begins<T>(head: seq<T>, tail: seq<T>)
    ensures HasPrefix(head + tail, head)
  {
    assert (head + tail)[..|head|] == head;
  }

  /** A sequence ends with what is put behind. */
  lemma Ends<T>(head: seq<T>, tail: seq<T>)
    ensures HasSuffix(head + tail, tail)
  {
    assert (head + tail)[|head|..] == tail;
  }

  /** `str.lower()` on ASCII letters. */
  function LowerChar(c: char): char {
    if 'A' <= c <= 'Z' then (c as int + 32) as char else c
  }

  function Lower(s: string): (r: string)
    ensures |r| == |s|
    ensures forall i :: 0 <= i < |s| ==> r[i] == LowerChar(s[i])
  {
    if s == [] then [] else [LowerChar(s[0])] + Lower(s[1..])
  }

  lemma LowerAppend(a: string, b: string)
    ensures Lower(a + b) == Lower(a) + Lower(b)
  {
  }

  /** The ASCII characters for which Python's `str.isspace()` holds. */
  predicate IsSpace(c: char) {
    c == ' ' || 9 <= c as int <= 13 || 28 <= c as int <= 31
  }

  /** Number of leading characters satisfying `drop`. */
  function LTrimCount(s: string, drop: char -> bool): (k: nat)
    ensures k <= |s|
    ensures k < |s| ==> !drop(s[k])
    ensures forall i :: 0 <= i < k ==> drop(s[i])
  {
    if |s| > 0 && drop(s[0]) then 1 + LTrimCount(s[1..], drop) else 0
  }

  /** Number of trailing characters satisfying `drop`. */
  function RTrimCount(s: string, drop: char -> bool): (k: nat)
    ensures k <= |s|
    ensures k < |s| ==> !drop(s[|s| - 1 - k])
    ensures forall i :: |s| - k <= i < |s| ==> drop(s[i])
  {
    if |s| > 0 && drop(s[|s| - 1]) then 1 + RTrimCount(s[..|s| - 1], drop) else 0
  }

  /** Drops leading characters satisfying `drop`. */
  function LTrim(s: string, drop: char -> bool): (r: string)
    ensures r == [] || !drop(r[0])
  {
    s[LTrimCount(s, drop)..]
  }

  /** Drops trailing characters satisfying `drop`. */
  function RTrim(s: string, drop: char -> bool): (r: string)
    ensures r == [] || !drop(r[|r| - 1])
  {
    s[..|s| - RTrimCount(s, drop)]
  }

  /** `str.strip()` */
  function Strip(s: string): string {
    RTrim(LTrim(s, IsSpace), IsSpace)
  }

  /** The test for one character, as a trimming predicate. */
  function Is(c: char): char -> bool {
    x => x == c
  }

  /** `str.strip(c)` */
  function StripChar(s: string, c: char): string {
    RTrim(LTrim(s, Is(c)), Is(c))
  }

  /** `str.rstrip(c)` */
  function RStripChar(s: string, c: char): string {
    RTrim(s, Is(c))
  }

  /** `RTrim` keeps a prefix of its input. */
  lemma RTrimPrefix(s: string, drop: char -> bool)
    ensures |RTrim(s, drop)| <= |s|
    ensures forall i | 0 <= i < |RTrim(s, drop)| :: RTrim(s, drop)[i] == s[i]
  {
  }

  /** `Strip` keeps a slice of its input that starts and ends with a
      non-space. */
  lemma StripSlice(s: string)
    ensures LTrimCount(s, IsSpace) + |Strip(s)| <= |s|
    ensures forall i | 0 <= i < |Strip(s)| :: Strip(s)[i] == s[LTrimCount(s, IsSpace) + i]
    ensures Strip(s) == [] || (!IsSpace(Strip(s)[0]) && !IsSpace(Strip(s)[|Strip(s)| - 1]))
  {
    var k := LTrimCount(s, IsSpace);
    var l := LTrim(s, IsSpace);
    var r := RTrim(l, IsSpace);
    assert l == s[k..];
    RTrimPrefix(l, IsSpace);
    assert Strip(s) == r;
    forall i | 0 <= i < |r| ensures r[i] == s[k + i] {
      assert r[i] == l[i];
    }
    if r != [] {
      assert r[0] == l[0] && !IsSpace(l[0]);
      assert !IsSpace(r[|r| - 1]);
    }
  }

  /** `s.strip().rstrip(c)` keeps characters of `s` only, and starts with a
      non-space and ends with something other than `c`. */
  lemma StripRStrip(s: string, c: char)
    ensures var t := RStripChar(Strip(s), c);
      && (forall x | x in t :: x in s)
      && (t == [] || (!IsSpace(t[0]) && t[|t| - 1] != c))
  {
    var u := Strip(s);
    StripSlice(s);
    RTrimPrefix(u, Is(c));
    var t := RStripChar(u, c);
    forall x | x in t ensures x in s {
      var i :| 0 <= i < |t| && t[i] == x;
      assert s[LTrimCount(s, IsSpace) + i] == x;
    }
  }

  lemma TrimUntouched(s: string, drop: char -> bool)
    requires s == [] || (!drop(s[0]) && !drop(s[|s| - 1]))
    ensures RTrim(LTrim(s, drop), drop) == s
  {
  }

  /** `str.replace(a, b)` for single characters. */
  function ReplaceChar(s: string, a: char, b: char): (r: string)
    ensures |r| == |s|
    ensures forall i :: 0 <= i < |s| ==> r[i] == (if s[i] == a then b else s[i])
  {
    if s == [] then [] else [if s[0] == a then b else s[0]] + ReplaceChar(s[1..], a, b)
  }

  /** Index of the first `c` in `s`, or `|s|` when there is none. */
  function IndexOf<T(==)>(s: seq<T>, c: T): (r: nat)
    ensures r <= |s|
    ensures r < |s| ==> s[r] == c
    ensures forall j :: 0 <= j < r ==> s[j] != c
  {
    if s == [] then 0 else if s[0] == c then 0 else 1 + IndexOf(s[1..], c)
  }

  /** Index of the last `c` in `s`, or -1 when there is none (`str.rfind`). */
  function LastIndexOf(s: string, c: char): (r: int)
    ensures -1 <= r < |s|
    ensures r >= 0 ==> s[r] == c
    ensures forall j :: r < j < |s| ==> s[j] != c
  {
    if s == [] then -1
    else if s[|s| - 1] == c then |s| - 1
    else LastIndexOf(s[..|s| - 1], c)
  }

  /** `s.split(sep)`: at least one part, and no part contains `sep`. */
  function Split(s: string, sep: char): (parts: seq<string>)
    ensures |parts| >= 1
    ensures forall i :: 0 <= i < |parts| ==> sep !in parts[i]
    decreases |s|
  {
    var i := IndexOf(s, sep);
    if i == |s| then [s] else [s[..i]] + Split(s[i + 1..], sep)
  }

  /** `sep.join(parts)` */
  function Join(parts: seq<string>, sep: string): string {
    if parts == [] then []
    else if |parts| == 1 then parts[0]
    else parts[0] + sep + Join(parts[1..], sep)
  }

  lemma {:induction false} JoinSplit(s: string, sep: char)
    ensures Join(Split(s, sep), [sep]) == s
    decreases |s|
  {
    var i := IndexOf(s, sep);
    if i < |s| {
      var rest := Split(s[i + 1..], sep);
      assert Split(s, sep) == [s[..i]] + rest;
      assert ([s[..i]] + rest)[1..] == rest;
      assert Join(Split(s, sep), [sep]) == s[..i] + [sep] + Join(rest, [sep]);
      JoinSplit(s[i + 1..], sep);
      assert s == s[..i] + [sep] + s[i + 1..];
    } else {
      assert Split(s, sep) == [s];
    }
  }

  lemma {:induction false} SplitJoin(parts: seq<string>, sep: char)
    requires |parts| >= 1
    requires forall i :: 0 <= i < |parts| ==> sep !in parts[i]
    ensures Split(Join(parts, [sep]), sep) == parts
    decreases |parts|
  {
    if |parts| > 1 {
      var rest := Join(parts[1..], [sep]);
      var s := parts[0] + [sep] + rest;
      assert IndexOf(s, sep) == |parts[0]| by {
        assert s[|parts[0]|] == sep;
        forall j | 0 <= j < |parts[0]| ensures s[j] != sep {
          assert s[j] == parts[0][j];
        }
      }
      assert s[..|parts[0]|] == parts[0];
      assert s[|parts[0]| + 1..] == rest;
      assert Split(s, sep) == [parts[0]] + Split(rest, sep);
      SplitJoin(parts[1..], sep);
      assert parts == [parts[0]] + parts[1..];
    } else {
      assert IndexOf(parts[0], sep) == |parts[0]|;
    }
  }

  /** Where `sep` occurs, the split has a second part and its first part is
      the text before the first `sep`; otherwise it is `[s]`. */
  lemma SplitHead(s: string, sep: char)
    ensures sep in s ==> |Split(s, sep)| >= 2 && Split(s, sep)[0] == s[..IndexOf(s, sep)]
    ensures sep !in s ==> Split(s, sep) == [s]
  {
    var i := IndexOf(s, sep);
    if i < |s| {
      assert Split(s, sep) == [s[..i]] + Split(s[i + 1..], sep);
    }
  }

  /** No element occurs twice. */
  predicate Distinct<T(==)>(s: seq<T>) {
    forall i, j | 0 <= i < j < |s| :: s[i] != s[j]
  }

  /** `s.split(sep, 1)` when `sep` occurs in `s`. */
  function SplitOnce(s: string, sep: char): (r: (string, string))
    requires sep in s
    ensures r.0 + [sep] + r.1 == s
    ensures sep !in r.0
  {
    var i := IndexOf(s, sep);
    assert s == s[..i] + [sep] + s[i + 1..];
    (s[..i], s[i + 1..])
  }

  /** The first `sep` of `a + [sep] + b` is the one after `a` when `a` has
      none. */
  lemma SplitOnceOf(a: string, b: string, sep: char)
    requires sep !in a
    ensures sep in a + [sep] + b && SplitOnce(a + [sep] + b, sep) == (a, b)
  {
    var s := a + [sep] + b;
    assert s[|a|] == sep;
    assert IndexOf(s, sep) == |a| by {
      forall j | 0 <= j < |a| ensures s[j] != sep {
        assert s[j] == a[j];
      }
    }
    assert s[..|a|] == a;
    assert s[|a| + 1..] == b;
  }

  /** `PurePosixPath(p).name`: the last non-empty `/`-separated component. */
  function Basename(p: string): (r: string)
    ensures '/' !in r
  {
    var t := RTrim(p, Is('/'));
    var k := LastIndexOf(t, '/');
    t[k + 1..]
  }

  /** `PurePath(p).suffix`: the text from the last dot of the name, unless
      that dot is its first or last character. */
  function Suffix(name: string): string {
    var i := LastIndexOf(name, '.');
    if 0 < i < |name| - 1 then name[i..] else ""
  }

  /** `PurePath(p).stem`: the name without its suffix. */
  function Stem(name: string): (r: string)
    ensures r + Suffix(name) == name
  {
    var i := LastIndexOf(name, '.');
    if 0 < i < |name| - 1 then name[..i] else name
  }
}

=== FILE: wrappers.dfy ===
/** Failure-carrying datatypes shared by every module of the model.

    The source signals expected failures by raising exceptions or by
    returning `None`; the model returns these values instead. */
module Wrappers {

  datatype Option<+T> = None | Some(value: T) {

    predicate IsFailure() {
      None?
    }

    function PropagateFailure<U>(): Option<U>
      requires None?
    {
      None
    }

    function Extract(): T
      requires Some?
    {
      value
    }

    function GetOr(default: T): T {
      match this
      case Some(v) => v
      case None => default
    }
  }

  /** `Err` carries the human-readable reason the source would raise or log. */
  datatype Result<+T> = Ok(value: T) | Err(error: string) {

    predicate IsFailure() {
      Err?
    }

    function PropagateFailure<U>(): Result<U>
      requires Err?
    {
      Err(error)
    }

    function Extract(): T
      requires Ok?
    {
      value
    }
  }
}
